=== FILE: README.md ===
# bigfoot-map, modelled in Dafny

A model of the data layer, business rules and pure utilities of bigfoot-map, a
map of Sasquatch sighting reports drawn from three datasets (BFRO, Woodape and
Kilmury) plus user submissions. The model covers:

- **Server.**
  - The local document store (`Store`, a class over a map from collection
    name to documents).
  - The report repository (`Repository`): seeding, filtered listing and
    timestamp stamping.
  - The report service (`Service`): query parsing, submission, the
    one-standing-vote-per-voter tally, the append-only triage history,
    exports and removal.
  - Normalization of the three raw datasets with the three-tier date
    fallback and the default triage (`Normalization`), and the seed
    documents built from them (`Seed`).
  - The CSV and GeoJSON exporters (`Csv`, `Export`).
  - Client-safe errors (`Errors`), log redaction (`Logger`), configuration
    from the environment (`Config`) and Bearer-token authentication (`Auth`).
- **Browser.**
  - The client's own normalizers, bounds test and bounds query text
    (`ClientData`) and its export twins (`Export`).
  - The report query parameters (`ReportApi`).
  - The map UI state and its reducers (`MapUi`, a class).
  - County clusters (`CountyOverlay`) and the year-range slider rule
    (`DateRange`).
- **Offline scripts.**
  - Tagging reports with their US state (`StateTagging`).
  - Grouping reports by state (`ReportGrouping`).
  - Extracting state polygons (`StatePolygons`).

JavaScript values are a `Json` datatype. Its objects are association lists in
insertion order. Numbers are `Finite(real)`, `NaN` or an infinity, and
comparisons with `NaN` are false. The library modules (`Json`, `Numbers`,
`Text`, `Calendar`, `Dates`, `Seqs`, `Wrappers`) give the language semantics
the core relies on:

- property access and spreads;
- `Number`, `parseInt` and `String`;
- `trim`, `split`, `join` and `toLowerCase`;
- the Date arithmetic of ECMA-262 section 21.4.1, with `Date.UTC`,
  `toISOString` and `Date.parse` written out on integers, so the round trip
  between the last two is proved rather than assumed.

Code that updates state step by step is modelled imperatively:

- the store and the UI state are classes whose methods change their fields;
- the loops of `normalizeBfroReports`, `buildReportQueryParams`,
  `buildCountyClusters` and the three scripts are methods with loop
  invariants;
- `voteOnReport` has no loop: its step-by-step update of the ballot and the
  tallies is a method of straight-line assignments;
- each method is proved equal to a specification function, and the
  properties are proved about that function.

The model keeps these behaviours of the code as written:

- `createSubmission` dates an undated submission with the current time, not
  the 1900 sentinel, and computes its triage from the raw input.
- `listReports` keeps reports whose timestamp is NaN under any time filter.
- The CSV writers quote a field for a line feed but not for a lone carriage
  return.
- The state-tagging script's missing-position branch clears `stusab`, while
  its no-match branch clears `state_abbrev`.

## Model

| member | source | states |
|---|---|---|
| Errors.NewSafeError | server/src/utils/errorUtils.js:13-20 | a safe error carries name `SafeError`, the public message as its message, the given status and code, and `null` technical details when they are omitted |
| Errors.TypeError | server/src/utils/errorUtils.js:68-77 | an error raised by the language is known only by its `TypeError: …` text, which is what `String(error)` gives the log payload |
| Errors.CreateSafeError | server/src/utils/errorUtils.js:32-39 | status defaults to 500, code to `INTERNAL_ERROR`, omitted details to `null` |
| Errors.ToSafeErrorResponse | server/src/utils/errorUtils.js:52-78 | the client payload has exactly the keys `message` and `errorCode`; a safe error passes on its status, public message, code and details (details only to the log); anything else gives 500, the fallback message, `INTERNAL_ERROR`, and its text only in the log payload |
| Errors.ResponseHidesDetails | server/src/utils/errorUtils.js:52-78 | the client payload never depends on the technical details of a safe error, nor on the text of any other error |
| Errors.CreateThenRespond | server/src/utils/errorUtils.js:32-65 | creating a safe error and turning it into a response gives back its status, a payload of exactly its message and code, and its details and message in the log payload |
| Logger.SanitizeItems | server/src/utils/logger.js:12-14 | the array branch maps every element through the sanitizer, keeping length and order |
| Logger.SanitizeLogValue | server/src/utils/logger.js:7-27 | the step-by-step sanitizer (element map, member loop that skips redacted keys) computes the reference definition `Sanitize` |
| Logger.SanitizeShape | server/src/utils/logger.js:8-14 | falsy values and non-objects pass through unchanged; arrays keep length, order and sanitize each element; objects stay objects |
| Logger.SanitizeMembersKeys | server/src/utils/logger.js:16-24 | an object keeps exactly its keys that contain no `token`, `secret`, `password` and are not `stack` (case-insensitive), in order |
| Logger.SanitizeMembersLookup | server/src/utils/logger.js:18-23 | a kept key reads its value sanitized; a redacted key reads as missing |
| Logger.SanitizeRedacts | server/src/utils/logger.js:7-27 | the output holds no redacted key at any depth |
| Logger.SanitizeMembersRedact | server/src/utils/logger.js:18-24 | every member the loop keeps has a non-redacted key and a clean value |
| Logger.CleanUnchanged | server/src/utils/logger.js:7-27 | a value with no redacted key anywhere comes back exactly as it was |
| Logger.CleanMembersUnchanged | server/src/utils/logger.js:18-24 | the member loop leaves a clean object's members exactly as they were |
| Logger.SanitizeIdempotent | server/src/utils/logger.js:7-27 | sanitizing twice is the same as sanitizing once |
| Normalization.Render | server/src/utils/reportNormalizationUtils.js:12 | a valid time value rendered through `toISOString()` keeps its `getTime()` value, and its text parses back to it |
| Normalization.SentinelParses | server/src/utils/reportNormalizationUtils.js:26-27 | the fallback text `1900-01-01T00:00:00.000Z` is a valid instant and parses to itself |
| Normalization.SafeMonthIndex | server/src/utils/reportNormalizationUtils.js:21 | the month index is always within 0..11, and an index already in range is kept |
| Normalization.NormalizeDate | server/src/utils/reportNormalizationUtils.js:8-28 | a result is always a valid instant whose ISO text parses back to its timestamp; it fails only with the RangeError of `Date.UTC` out of range, when the text does not parse and a truthy year is given |
| Normalization.NormalizeDateTiers | server/src/utils/reportNormalizationUtils.js:8-28 | the three tiers: a parseable text wins; else a truthy year gives the `Date.UTC` instant of the parts (failing exactly when that is out of range); else the 1900 sentinel |
| Normalization.MonthIndexOfNumber | server/src/utils/reportNormalizationUtils.js:17-21 | a numeric month m gives index m − 1 clamped into 0..11 |
| Normalization.MissingMonthAndDay | server/src/utils/reportNormalizationUtils.js:17-21 | no month means January and no day means the 1st |
| Normalization.NumericParts | server/src/utils/reportNormalizationUtils.js:16-21 | integral parts read back as the year, the clamped month index and the day, a day of 0 read as the 1st |
| Normalization.PartsTimeOfNumbers | server/src/utils/reportNormalizationUtils.js:16-23 | integral parts give midnight UTC of MakeDay on the full year, clamped month and day |
| Normalization.YearOnlyParts | server/src/utils/reportNormalizationUtils.js:16-23 | a year alone means midnight UTC on the 1st of January of that year |
| Normalization.YearOnlyDate | server/src/utils/reportNormalizationUtils.js:16-24 | a year alone gives the first millisecond of that year (two-digit years meaning 19xx), succeeding exactly when that is a valid instant, whose UTC year is that year |
| Normalization.PartsTier | server/src/utils/reportNormalizationUtils.js:9-24 | without a text, the result is the `Date.UTC` instant of the parts and fails exactly when that instant does not exist |
| Normalization.YearValue | server/src/utils/reportNormalizationUtils.js:74 | `parseInt(…)`, or undefined when that is falsy, is either undefined or a non-zero integer |
| Normalization.RowDocReads | server/src/utils/reportNormalizationUtils.js:43-57 | every field of a normalized row reads back under its own key, in the order the normalizers write them |
| Normalization.RowDocUniqueKeys | server/src/utils/reportNormalizationUtils.js:43-57 | a normalized row never holds the same key twice |
| Normalization.BfroRowsUnique | server/src/utils/reportNormalizationUtils.js:36-63 | no BFRO row repeats a key |
| Normalization.WoodapeRowsUnique | server/src/utils/reportNormalizationUtils.js:71-96 | no Woodape row repeats a key |
| Normalization.KilmuryRowsUnique | server/src/utils/reportNormalizationUtils.js:104-128 | no Kilmury row repeats a key |
| Normalization.BfroDate | server/src/utils/reportNormalizationUtils.js:42 | a BFRO report is dated from its timestamp alone and that never fails |
| Normalization.GroupRowsAt | server/src/utils/reportNormalizationUtils.js:41-59 | a state group's rows succeed exactly when none of its reports is null or undefined, and row k is then the row of report k; otherwise the error is reading `timestamp` of the first such report |
| Normalization.NormalizeGroup | server/src/utils/reportNormalizationUtils.js:41-59 | the inner loop pushes one row per report of the group, in order, and throws at the first null or undefined report |
| Normalization.NormalizeBfroReports | server/src/utils/reportNormalizationUtils.js:36-63 | the nested loops compute the rows of every state group in key order, or the TypeError of the first group that is not iterable or of its first null or undefined report |
| Normalization.BfroRowsStep | server/src/utils/reportNormalizationUtils.js:39-60 | each group either throws or contributes its rows ahead of the later groups' rows |
| Normalization.BfroRowsCount | server/src/utils/reportNormalizationUtils.js:36-63 | the output succeeds exactly when every group is iterable and holds no null or undefined report, and then has one row per report |
| Normalization.BfroRowFields | server/src/utils/reportNormalizationUtils.js:43-57 | a BFRO row is keyed `bfro_<id>`, dataset `bfro`, country `US`, no county, state code from `state_abbrev`, else the group key, else null, and carries its date |
| Normalization.BfroRowDate | server/src/utils/reportNormalizationUtils.js:8-42 | a BFRO row is dated at its parsed timestamp when that parses, else at the 1900 sentinel, and its ISO text parses back to its instant |
| Normalization.WoodapeCountry | server/src/utils/reportNormalizationUtils.js:91 | the country is `CA` exactly for the states AB and ON, and `US` otherwise |
| Normalization.MapList | server/src/utils/reportNormalizationUtils.js:72 | a falsy list maps to no rows, an array maps item by item, and any other truthy value throws |
| Normalization.WoodapeRowPosition | server/src/utils/reportNormalizationUtils.js:73-87 | a Woodape row is keyed `woodape_<id>` and has a `{lat, lng}` position exactly when both coordinates convert to finite numbers |
| Normalization.WoodapeRowCountry | server/src/utils/reportNormalizationUtils.js:75-91 | a Woodape row is Canadian exactly when its state is AB or ON, American otherwise |
| Normalization.WoodapePreservesLength | server/src/utils/reportNormalizationUtils.js:71-96 | normalizing Woodape cases succeeds exactly when the list (or `[]`) is an array of cases that are neither null nor undefined and all date; it then keeps their number, and row i comes from case i |
| Normalization.KilmuryRowFields | server/src/utils/reportNormalizationUtils.js:108-126 | a Kilmury row is keyed `kilmury_<id>`, never has a position or source URL, carries its date, and is Canadian exactly when some region mentions `canada` in any case |
| Normalization.KilmuryWithoutYear | server/src/utils/reportNormalizationUtils.js:106-107 | an entry without a usable year is dated at the 1900 sentinel |
| Normalization.DefaultTriageStatus | server/src/utils/reportNormalizationUtils.js:142-148 | status `new` and tier `unreviewed` exactly when title, summary and date are all truthy, `needs-info`/`insufficient-info` otherwise, and the flag records which |
| Normalization.DefaultTriageHistory | server/src/utils/reportNormalizationUtils.js:149-155 | nobody has followed up, and the history is one entry with the same status, stamped now |
| Store.FindIndex | server/src/db/localFirestoreClient.js:130 | the first position whose document has the id, or −1 exactly when no document has it |
| Store.Find | server/src/db/localFirestoreClient.js:83 | a document of the collection with the id, or null exactly when none has it |
| Store.NotFound | server/src/db/localFirestoreClient.js:132-134 | an absent id is a safe error with status 404 and code `LOCAL_DB_DOCUMENT_NOT_FOUND` |
| Store.LocalFirestoreClient.constructor | server/src/db/localFirestoreClient.js:33 | a new database has no collections |
| Store.LocalFirestoreClient.ReadCollection | server/src/db/localFirestoreClient.js:41-47 | a missing collection is created empty; the collection is returned and nothing else changes |
| Store.LocalFirestoreClient.ListDocuments | server/src/db/localFirestoreClient.js:58-61 | a copy of the collection, or the documents passing the filter in storage order |
| Store.LocalFirestoreClient.GetDocument | server/src/db/localFirestoreClient.js:80-83 | the first document with the id, or null |
| Store.LocalFirestoreClient.AddDocument | server/src/db/localFirestoreClient.js:102-107 | the document is appended, with no duplicate-id check, and returned |
| Store.LocalFirestoreClient.UpdateDocument | server/src/db/localFirestoreClient.js:127-143 | the first document with the id becomes the shallow merge of its fields and the partial update, which is returned; an absent id fails with 404 and changes nothing but creating the collection |
| Store.LocalFirestoreClient.DeleteDocument | server/src/db/localFirestoreClient.js:166-173 | every document with the id is dropped, and the result says whether the collection shrank |
| Store.LocalFirestoreClient.ReplaceCollection | server/src/db/localFirestoreClient.js:192-195 | the collection becomes exactly the given documents |
| Store.DeleteReportsPresence | server/src/db/localFirestoreClient.js:169-170 | a delete reports a removal exactly when some document had the id |
| Store.DeleteKeepsOthers | server/src/db/localFirestoreClient.js:169 | after a delete no document has the id, every other document stays in order, and a collection without the id is unchanged |
| Store.UpdateOnlyFirstMatch | server/src/db/localFirestoreClient.js:130-141 | an update changes only the first match; in it each key reads from the partial update when that has it, else from the old document |
| Store.UpdateKeepsId | server/src/db/localFirestoreClient.js:136-141 | an update that does not set `id` leaves the document findable at the same place |
| Store.AddListGetUpdateDelete | server/tests/localFirestoreClient.test.js:16-36 | on a fresh database the added document is listed and fetched, the update changes its title, the delete reports a removal and the collection is then empty |
| Repository.ReportRepository.constructor | server/src/db/reportRepository.js:56 | the repository works on the database client it is given |
| Repository.ReportRepository.SeedReports | server/src/db/reportRepository.js:65-72 | an empty report collection becomes the seed documents; a non-empty one is left as it was |
| Repository.ReportRepository.ListReports | server/src/db/reportRepository.js:101-141 | the stored reports that pass every filter, in storage order, leaving the store unchanged |
| Repository.ReportRepository.GetReportById | server/src/db/reportRepository.js:163-165 | the first stored report with the id, or null |
| Repository.ReportRepository.AddReport | server/src/db/reportRepository.js:174-185 | the stored document is the payload with its id (own or `report_<token>`), creation and update stamps, appended to the collection |
| Repository.ReportRepository.UpdateReport | server/src/db/reportRepository.js:208-213 | the first report with the id is merged with the partial update plus `updatedAt` now; an absent id fails with 404 and changes no report |
| Repository.ReportRepository.RemoveReport | server/src/db/reportRepository.js:235-237 | every report with the id is removed, and the result is true exactly when one existed |
| Repository.ListWithoutFilters | server/src/db/reportRepository.js:103-110 | the default filters keep every stored report |
| Repository.InsideBoundsBox | server/src/db/reportRepository.js:13-34 | with finite edges, the bounds test is the closed box on the numeric latitude and longitude of a truthy position; an inverted box admits nothing |
| Repository.NaNBoundExcludes | server/src/db/reportRepository.js:28-33 | a NaN edge shuts every report out |
| Repository.TimeWindow | server/src/db/reportRepository.js:123-130 | the time window is inclusive at both ends for a finite timestamp, ignores non-finite bounds, and never drops a report whose timestamp is NaN |
| Repository.ListedPassFilters | server/src/db/reportRepository.js:114-141 | listing is a subset of the store: a report is listed exactly when it is stored and passes the filters |
| Repository.StampedFields | server/src/db/reportRepository.js:176-183 | the stored report has a truthy id (its own when truthy, else `report_<token>`), a truthy creation time, the update time now, and every other member of the payload |
| Repository.UpdatedFields | server/src/db/reportRepository.js:210-213 | after an update `updatedAt` reads now, each other key of the partial update as given, every remaining key as before |
| Repository.UpdatedPartial | server/src/db/reportRepository.js:210-213 | the stamped update has the partial update's keys plus `updatedAt`, once each |
| Csv.NeedsQuotesChars | server/src/utils/exportUtils.js:9 | a value is quoted exactly when it holds a comma, a double quote or a line feed |
| Csv.QuotedRoundTrip | server/src/utils/exportUtils.js:10 | the content with every quote doubled, then the closing quote, reads back as the content |
| Csv.FieldRoundTrip | server/src/utils/exportUtils.js:7-14 | an escaped value followed by a comma, a line feed or nothing reads back as the value |
| Csv.RecordRoundTrip | server/src/utils/exportUtils.js:61 | escaped values joined by commas read back as exactly those values |
| Csv.DocumentRoundTrip | server/src/utils/exportUtils.js:64 | lines of two or more escaped values joined by line feeds read back as every record, field for field |
| Csv.PlainRecord | server/src/utils/exportUtils.js:9-13 | values with nothing to quote are written as they are |
| Csv.TableRoundTrip | server/src/utils/exportUtils.js:64 | a header line of plain names and the encoded rows read back as the header followed by every row |
| Export.CsvValues | server/src/utils/exportUtils.js:41-60 | each line has one value per header, fifteen in all |
| Export.ReportCells | server/src/utils/exportUtils.js:41-61 | each report gives one cell per header |
| Export.PlainHeaders | server/src/utils/exportUtils.js:23-39 | no header of either exporter holds a character that needs quoting |
| Export.CsvRoundTrip | server/src/utils/exportUtils.js:22-65 | reading the exported text back gives the header row and then, for every report in order, exactly its fifteen cells |
| Export.ToCsvValueRoundTrip | server/src/utils/exportUtils.js:7-14 | an escaped value reads back as its text; strings are their own text, null and undefined the empty text |
| Export.ReportCellsText | server/src/utils/exportUtils.js:45-56 | a report's own string fields appear verbatim as its cells, in header order |
| Export.NoPositionCells | server/src/utils/exportUtils.js:54-55 | without a position both coordinate cells are empty |
| Export.VoteCellRoundTrip | server/src/utils/exportUtils.js:42-59 | an integer up-vote count reads back from its cell as that integer, a missing one as zero |
| Export.GeoJsonFeatures | server/src/utils/exportUtils.js:73-103 | exactly the reports with a finite position become features, in their order, in a `FeatureCollection` |
| Export.FeaturePositionOf | server/src/utils/exportUtils.js:78-81 | each point reads back as the report's own latitude and longitude (stored longitude first) |
| Export.FeatureProperty | server/src/utils/exportUtils.js:82-91 | the descriptive properties copy the report's fields |
| Export.FeatureTriage | server/src/utils/exportUtils.js:92-93 | triage status and tier are copied when truthy and null otherwise |
| Export.FeatureVotes | server/src/utils/exportUtils.js:94-95 | vote properties are always numbers, zero when the count is falsy |
| Export.ExportFileName | src/utils/exportDataUtils.js:54-88 | the file name is `sasquatch-reports-` with the date part of the current ISO time and the extension |
| Export.ClientValues | src/utils/exportDataUtils.js:29-40 | the browser's row has one value per header, ten in all |
| Export.ClientCells | src/utils/exportDataUtils.js:29-51 | each report gives one browser cell per header |
| Export.ExportReportsAsCsv | src/utils/exportDataUtils.js:27-55 | the download is text with the CSV media type |
| Export.ClientCsvRoundTrip | src/utils/exportDataUtils.js:27-54 | the browser's CSV reads back as its header row and each report's ten cells |
| Export.ClientFallbackCells | src/utils/exportDataUtils.js:34-39 | a falsy country, state, county or link gives an empty cell |
| Export.ExportReportsAsGeoJson | src/utils/exportDataUtils.js:63-90 | the download is an object with the GeoJSON media type |
| Export.ClientGeoJsonMatchesServer | src/utils/exportDataUtils.js:64-79 | the browser keeps the same reports as the server, in order, each at the same point |
| Export.ClientFeatureLink | src/utils/exportDataUtils.js:77 | the link property is the report's when truthy and null otherwise |
| Service.DatasetKeyShape | server/src/logic/reportService.js:16-18 | a trimmed, lower-cased piece of comma-split text is, when non-empty, a trimmed, comma-free, lower-case key |
| Service.ParseDatasetKeys | server/src/logic/reportService.js:11-20 | every parsed key is non-empty, trimmed, lower-case and free of commas |
| Service.DatasetKeysRoundTrip | server/src/logic/reportService.js:11-20 | keys already in parsed form, joined with commas, parse back to themselves in order |
| Service.KeysFixed | server/src/logic/reportService.js:18 | trimming and lower-casing leaves keys in parsed form as they are |
| Service.ParseBounds | server/src/logic/reportService.js:28-44 | parsed bounds always have four finite edges |
| Service.BoundsOfParts | server/src/logic/reportService.js:28-44 | a bounds text gives bounds exactly when it splits at commas into four parts that all convert to finite numbers, and the bounds are then those four numbers in the order south, west, north, east |
| Service.BoundsNeedFourParts | server/src/logic/reportService.js:33-36 | a text that does not split into exactly four comma-separated parts gives no bounds |
| Service.BoundsOfFour | server/src/logic/reportService.js:33-44 | four comma-free pieces joined by commas give the bounds of their four numbers when all four are finite, and no bounds otherwise |
| Service.BadBounds | tests/reportServiceFilters.test.js:63-71 | the text `bad,bounds` gives no bounds |
| Service.OpenYear | server/src/logic/reportService.js:53-62 | an absent year, or one with no leading digits, leaves that end of the time window open (null) |
| Service.EmptyQueryFilters | server/src/logic/reportService.js:95-106 | a query without parameters asks the repository for exactly the default options |
| Service.YearStartOf | server/src/logic/reportService.js:54-59 | a year text read as `a` starts the window at the first millisecond of year `a` |
| Service.YearEndOf | server/src/logic/reportService.js:55-62 | a year text read as `b` ends the window at the last millisecond of year `b` |
| Service.YearWindowSelects | server/src/logic/reportService.js:53-65 | with years `a` and `b`, the window keeps a report stamped `t` exactly when `t` lies between the first millisecond of `a` and the last of `b` |
| Service.QueryYearEnds | server/src/logic/reportService.js:98-104 | the query's years become the listing's time bounds |
| Service.YearBounds | server/src/logic/reportService.js:53-65 | an instant lies between the first millisecond of year `ya` and the last of `yb` exactly when its UTC year does |
| Service.YearTextOf | server/src/logic/reportService.js:54-55 | every integer written out is a year text that reads back as itself |
| Service.DatasetSelects | server/src/logic/reportService.js:96-101 | a query naming datasets keeps exactly the reports of those datasets |
| Service.CoordinatesSelect | server/src/logic/reportService.js:105 | only the exact text `false` drops the reports without a position |
| Service.SubmissionInvalid | server/src/logic/reportService.js:118-125 | a submission without title or summary is a 400 `REPORT_SUBMISSION_INVALID` error carrying the input in its details |
| Service.ParsedSubmissionDate | server/src/logic/reportService.js:127-128 | `Date.parse` reads the submitted date when that is truthy and the starting time otherwise, and a parsed value is a valid instant |
| Service.SubmissionTime | server/src/logic/reportService.js:127-136 | the `isoDate` of a submission names its own date when that is truthy and parses, the starting time otherwise, and always a valid instant |
| Service.SubmissionTimestamp | server/src/logic/reportService.js:127-137 | the `timestampMs` of a submission is its own date when that is truthy and parses, the starting time when it is missing, and the separate `Date.now()` reading when it is present but does not parse |
| Service.SubmissionMembersShape | server/src/logic/reportService.js:129-144 | the members written over the input have distinct keys in a fixed order |
| Service.SubmissionReads | server/src/logic/reportService.js:129-144 | a submission reads every written key from the written members and every other key from the input; its dataset is always `submissions` |
| Service.SubmissionDefaults | server/src/logic/reportService.js:132-143 | private scope, no team and the submitter (or null) as owner unless given, and no votes |
| Service.SubmissionDateFields | server/src/logic/reportService.js:136-137 | a submission carries its date as both `timestampMs` and `isoDate` |
| Service.SubmissionDates | server/src/logic/reportService.js:127-137 | a submission's `isoDate` always parses, and it parses back to its `timestampMs` exactly when the submitted date parsed or the two clock readings coincide |
| Service.SubmissionTriage | server/src/logic/reportService.js:138 | a new submission starts with the default triage built from its input |
| Service.InvalidDirection | server/src/logic/reportService.js:159-166 | a direction other than up or down is a 400 `REPORT_VOTE_INVALID_DIRECTION` error |
| Service.ReportNotFound | server/src/logic/reportService.js:170 | a missing report is a 404 `REPORT_NOT_FOUND` error |
| Service.BallotsSet | server/src/logic/reportService.js:190 | replacing one voter's ballot moves exactly that ballot between the counts |
| Service.InitialTallied | server/src/logic/reportService.js:139-143 | a new report's vote record agrees with its empty ballots |
| Service.VoteBallots | server/src/logic/reportService.js:178-190 | after a vote the voter's ballot is the new direction and every other voter's ballot is untouched |
| Service.VoteCounts | server/src/logic/reportService.js:173-195 | after a vote each tally is the number of ballots for its direction |
| Service.VoteKeepsTally | server/src/logic/reportService.js:173-195 | voting keeps the tallies in agreement with the ballots |
| Service.VoteTwice | server/src/logic/reportService.js:183-195 | voting the same way twice counts once |
| Service.VoteThenChangeMind | server/tests/reportService.test.js:30-47 | an up vote on a new report gives 1 up, 0 down; a down vote by the same user then gives 0 up, 1 down |
| Service.NextVotes | server/src/logic/reportService.js:173-195 | the step-by-step vote update computes the reference vote record `CastVote` |
| Service.NextStatus | server/src/logic/reportService.js:219 | the next status is the patch's when truthy, else the old triage's, else `new`, and is always truthy |
| Service.TriageUpdate | server/src/logic/reportService.js:219-232 | the update throws a TypeError exactly when the patch is null or undefined or the old history is not iterable |
| Service.TriageUpdateHistory | server/src/logic/reportService.js:223-231 | a successful update sets the next status and appends exactly one entry, stamped now with that status and the acting user, to the old history |
| Service.HistoryEntryReads | server/src/logic/reportService.js:226-230 | the appended entry reads back its status, time and user (`system` without one) |
| Service.TriageUpdateMatches | server/src/logic/reportService.js:219-232 | after any successful update the history ends with an entry for the current status |
| Service.DefaultTriageMatches | server/src/utils/reportNormalizationUtils.js:142-156 | a new report's triage history already ends with its status |
| Service.TriageUpdateKeeps | server/src/logic/reportService.js:220-222 | every other triage key reads the patch's value when the patch has it, and the old value otherwise |
| Service.ExportOf | server/src/logic/reportService.js:252-273 | an export succeeds exactly for `csv` and `geojson`, each with its body kind and media type; any other format is a 400 `REPORT_EXPORT_INVALID_FORMAT` error |
| Service.CsvExportReadsBack | server/src/logic/reportService.js:252-257 | a CSV export reads back as the header row and every listed report's cells, in order |
| Service.GeoJsonExportSelects | server/src/logic/reportService.js:249-265 | a GeoJSON export holds one feature for each stored report that passes the query and has a finite position, and no other |
| Service.CreatedSubmission | server/src/logic/reportService.js:117-146 | a created submission is stored as dataset `submissions`, with tallies agreeing with its empty ballots, a history ending with its status, and the update stamp of the clock reading `addReport` makes |
| Service.ReportService.constructor | server/src/logic/reportService.js:86 | the service works on the repository it is given |
| Service.ReportService.FetchReports | server/src/logic/reportService.js:95-107 | the stored reports that pass the filters the query asks for; the store is unchanged |
| Service.ReportService.CreateSubmission | server/src/logic/reportService.js:117-147 | an incomplete submission is refused and nothing is stored; any other is normalized, stamped and appended |
| Service.ReportService.VoteOnReport | server/src/logic/reportService.js:158-202 | an invalid direction is refused before any read, a missing report is a 404, otherwise the report's votes become `CastVote` of them, which is returned |
| Service.ReportService.UpdateTriage | server/src/logic/reportService.js:213-239 | a missing report is a 404; otherwise the triage becomes `TriageUpdate` of it, which is returned, and a throwing update stores nothing |
| Service.ReportService.ExportReports | server/src/logic/reportService.js:249-274 | the listed reports exported in the requested format, the store unchanged |
| Service.ReportService.RemoveReport | server/src/logic/reportService.js:283-285 | the report with the id is removed, and the result says whether there was one |
| Seed.SeedDocumentReads | server/src/db/seedReportsFromLocalData.js:39-61 | a seeded document reads triage, votes and both times from the stamp, every other field the report has as the report has it, and the defaults only for fields it lacks |
| Seed.DefaultsOutsideStamp | server/src/db/seedReportsFromLocalData.js:42-59 | no default key is one of the stamp's keys |
| Seed.SeedDocumentKeeps | server/src/db/seedReportsFromLocalData.js:42-51 | a field outside the stamp reads the report's value when it has the field, the default otherwise |
| Seed.SeedDefaultField | server/src/db/seedReportsFromLocalData.js:43-51 | each default field (id, dataset, scope, owner, team, sharing) is the report's own when present, else the default |
| Seed.SeedStampApplies | server/src/db/seedReportsFromLocalData.js:40-59 | whatever the report holds, the seeded document has its default triage at the triage's own clock reading (history ending with its status), an empty vote record that agrees with its ballots, and equal creation and update times |
| Seed.SeedSucceeds | server/src/db/seedReportsFromLocalData.js:69-83 | seeding succeeds exactly when all three datasets normalize |
| Seed.SeedDocumentsInOrder | server/src/db/seedReportsFromLocalData.js:76-82 | one seeded document per normalized row: the BFRO rows' first (one per report), then Woodape, then Kilmury, each built from its row |
| Seed.SeedOfRows | server/src/db/seedReportsFromLocalData.js:76-82 | seeding concatenated rows keeps each part's documents in place |
| Seed.SeedDocumentsConsistent | server/src/db/seedReportsFromLocalData.js:39-61 | every seeded document starts consistent: history ending with its status, tallies agreeing with ballots, created when last updated |
| Seed.SeedRowsUnique | server/src/db/seedReportsFromLocalData.js:76-80 | none of the normalized rows seeding starts from repeats a key |
| Seed.LoadedSeedConsistent | server/src/db/seedReportsFromLocalData.js:69-83 | every document seeded from the three data files starts consistent: history ending with its status, tallies agreeing with ballots, created when last updated |
| Config.ParseAllowedOrigins | server/src/config/appConfig.js:7-16 | an unset or empty value gives the local development origin; otherwise at most one origin per comma-separated piece, each non-empty and trimmed |
| Config.TrimmedNonEmptyKeeps | server/src/config/appConfig.js:14-15 | pieces already trimmed and non-empty all survive trimming and filtering unchanged |
| Config.OriginsRoundTrip | server/src/config/appConfig.js:7-16 | a non-empty list of trimmed, non-empty, comma-free origins written comma-separated reads back as exactly that list |
| Config.BlankOriginsAreNone | server/src/config/appConfig.js:8-15 | a value of blanks and commas configures no origin at all, not the default |
| Config.EnvOr | server/src/config/appConfig.js:32-37 | an unset or empty variable gives the fallback, any other value itself |
| Config.GetApplicationConfig | server/src/config/appConfig.js:30-39 | each text setting is its variable when that is set and non-empty and its default otherwise; the port is an integer or NaN and 3001 without `PORT`; every origin is trimmed and non-empty, and the local origin without `CLIENT_ORIGINS` |
| Config.EmptyEnvironmentDefaults | server/src/config/appConfig.js:30-39 | an empty environment gives `development`, port 3001, the local origin, and the default secret, provider and database path |
| Config.PortRoundTrip | server/src/config/appConfig.js:33 | a port written as an integer is read back as that integer |
| Config.DefaultPort | server/src/config/appConfig.js:33 | the default port text `3001` parses to the number 3001 |
| Auth.ReadBearerToken | server/src/middleware/authMiddleware.js:9-20 | no header gives no token; a token is always non-empty and free of spaces |
| Auth.BearerTokenRead | server/src/middleware/authMiddleware.js:9-20 | a header whose space-separated pieces start with `bearer` in any letter case and a non-empty second piece yields that piece, whatever follows |
| Auth.OtherSchemeRejected | server/src/middleware/authMiddleware.js:14-17 | a header whose first piece is not the bearer scheme yields no token |
| Auth.SinglePieceRejected | server/src/middleware/authMiddleware.js:14-17 | a header without a space, such as a bare scheme, yields no token |
| Auth.MissingToken | server/src/middleware/authMiddleware.js:71-75 | a missing token is a 401 `AUTH_MISSING_TOKEN` error with the sign-in message and no details |
| Auth.RequiredUser | server/src/middleware/authMiddleware.js:67-83 | without a token the missing-token error, otherwise exactly what verifying the token gives |
| Auth.OptionalAgreesWithRequired | server/src/middleware/authMiddleware.js:43-83 | the optional middleware attaches the user the strict one lets through, and null exactly when the strict one refuses |
| Auth.Request.constructor | server/src/middleware/authMiddleware.js:45 | a request carries its authorization header and no user yet |
| Auth.AuthMiddleware.constructor | server/src/middleware/authMiddleware.js:33 | the middleware uses the token verification it is given |
| Auth.AuthMiddleware.WithOptionalAuth | server/src/middleware/authMiddleware.js:43-57 | always continues without an error, after attaching the verified user, or null without a token or when verification throws |
| Auth.AuthMiddleware.RequireAuth | server/src/middleware/authMiddleware.js:67-83 | without a token or when verification throws, passes the error on and leaves the user as it was; otherwise attaches the verified user and continues |
| ClientData.ParseClientDate | src/utils/reportDataUtils.js:15-22 | an unparseable text gives timestamp 0 and no ISO text; a parseable one keeps its instant, and its ISO text parses back to it |
| ClientData.BfroReportFields | src/utils/reportDataUtils.js:16-30 | a client BFRO row is keyed `bfro_<id>`, a US sighting without a county, with its state from `state_abbrev`, else the group key, else null, titled by its name or `BFRO report`, and dated by its date |
| ClientData.ClientBfroDate | src/utils/reportDataUtils.js:14-22 | a report gets a row exactly when it is neither null nor undefined; an unparseable timestamp gives 0 and a null ISO date (not the server's 1900 sentinel), a parseable one keeps its instant |
| ClientData.GroupReportRowsAt | src/utils/reportDataUtils.js:14-31 | a group's rows succeed exactly when none of its reports is null or undefined, and row k is then the row of report k; otherwise the error is reading `timestamp` of the first such report |
| ClientData.ClientBfroCount | src/utils/reportDataUtils.js:9-35 | the output succeeds exactly when every group is iterable and holds no null or undefined report, and then has one row per report |
| ClientData.ClientBfroStep | src/utils/reportDataUtils.js:12-32 | each group either throws or contributes its rows ahead of the later groups' rows |
| ClientData.ClientGroupRows | src/utils/reportDataUtils.js:14-31 | the inner loop pushes one row per report of the group, in order, and throws at the first null or undefined report |
| ClientData.ClientNormalizeBfro | src/utils/reportDataUtils.js:9-35 | the nested loops compute the rows of every group in key order, or the error of the first group that is not iterable or of its first null or undefined report |
| ClientData.ClientNormalizeWoodape | src/utils/reportDataUtils.js:43-67 | succeeds exactly when the list (or `[]`) is an array of cases that are neither null nor undefined, with one row per case, row i from case i; otherwise reading `map_latitude` of the first such case throws |
| ClientData.WoodapeReportFields | src/utils/reportDataUtils.js:45-63 | a client Woodape row has a position exactly when both coordinates are finite numbers, and then holds them; it is Canadian exactly for AB and ON, American otherwise |
| ClientData.ClientKilmuryReport | src/utils/reportDataUtils.js:82-96 | a Kilmury row never has a position or a source link, and is a `behavior` report |
| ClientData.ClientNormalizeKilmury | src/utils/reportDataUtils.js:75-98 | a truthy non-array list throws; for an array the result is the mapping of `ClientKilmuryReport` over the entries, so it succeeds exactly when every entry converts, has one row per entry with row i from entry i, and otherwise carries the first failing entry's error |
| ClientData.KilmuryReportIs | src/utils/reportDataUtils.js:76-97 | an entry with an array of regions and an in-range stamp becomes the row of those regions and that stamp, unless it is null or undefined, when reading its `id` throws |
| ClientData.KilmuryReportFields | src/utils/reportDataUtils.js:80-95 | a Kilmury row carries its stamp and the stamp's ISO text, which parses back, no position or link, and is Canadian exactly when some region mentions `canada` in any case |
| ClientData.KilmuryDefaultStamp | src/utils/reportDataUtils.js:77-78 | an entry without a year is stamped with the first millisecond of 1900 |
| ClientData.KilmuryDefaultYear | src/utils/reportDataUtils.js:77-94 | an entry without a year gets a row exactly when it is neither null nor undefined, dated at the start of 1900 with the sentinel ISO text |
| ClientData.KilmuryYearStamp | src/utils/reportDataUtils.js:77-78 | a non-zero integer year stamps the first millisecond of that year (two-digit years meaning 19xx), in range exactly when that instant is valid |
| ClientData.KilmuryYearStart | src/utils/reportDataUtils.js:77-78 | the stamp of an integer year is `Date.UTC(y, 0, 1)` |
| ClientData.BoundsTestsAgree | src/utils/reportDataUtils.js:107-126 | the client's bounds test and the server's agree on every report and every bounds |
| ClientData.ClientBoundsCases | src/utils/reportDataUtils.js:107-126 | no bounds admit everything, a report without a position is outside, and otherwise the bounds are a closed box on the numeric coordinates |
| ClientData.BoundsToQueryValue | src/utils/reportDataUtils.js:146-152 | no bounds give no text, and any bounds give a text |
| ClientData.BoundsQueryRoundTrip | src/utils/reportDataUtils.js:146-152 | integer bounds written by the client are read back unchanged by the server's `parseBounds`, in the same order |
| ClientData.BoundsText | src/utils/reportDataUtils.js:151 | the bounds text is non-empty and splits at commas into the four renderings |
| ReportApi.ParamValue | src/store/services/reportApi.js:12-30 | a name reads as nothing exactly when no parameter carries it |
| ReportApi.Without | src/store/services/reportApi.js:12-30 | removing a name leaves no pair with it and every other name reading as before |
| ReportApi.SetParam | src/store/services/reportApi.js:15-27 | after `set` the name reads as the new value, every other name as before, and a fresh name is appended at the end |
| ReportApi.SetSteps | src/store/services/reportApi.js:14-28 | the five conditional `set` calls from empty parameters give the set pairs in the order datasets, fromYear, toYear, bounds, includeWithoutCoordinates |
| ReportApi.BuildReportQueryParams | src/store/services/reportApi.js:11-31 | the five conditional `set` calls yield exactly the parameters the filter state asks for, or the `TypeError` of `join` on datasets with a length above 0 that are not an array |
| ReportApi.DatasetsWithoutJoin | src/store/services/reportApi.js:14-16 | the query throws exactly for a non-empty dataset text or an object whose `length` converts to a positive number |
| ReportApi.NoFiltersNoParams | src/store/services/reportApi.js:11-31 | no filter state, `null` or an empty object asks for no parameter, and the server reads that query as no filter |
| ReportApi.UnsetFilters | src/store/services/reportApi.js:14-28 | filter state whose every filter is undefined asks for no parameter |
| ReportApi.ParamsReadBack | src/store/services/reportApi.js:14-28 | each parameter read back is the joined non-empty dataset list, the `String` of a finite year, the truthy bounds text, or `false` exactly when the flag is the boolean `false`; absent otherwise |
| ReportApi.FiveParams | src/store/services/reportApi.js:14-28 | each of the five parameters reads back as its own value when set and as nothing when not |
| ReportApi.ReadFive | src/store/services/reportApi.js:14-28 | five optional pairs with distinct names each read back as set, whatever the names |
| ReportApi.FiltersRoundTrip | src/store/services/reportApi.js:11-31 | dataset keys, integer years and the coordinates flag sent by the client are read back by the server's query parser as the same keys, years and flag |
| ReportApi.CoordinatesFlag | src/store/services/reportApi.js:26-28 | the server drops reports without coordinates exactly when the client's flag is the boolean `false` |
| MapUi.ColorModeFor | src/store/slices/mapUiSlice.js:32-34 | the stored mode is dark exactly when the payload is the text `dark`, and light exactly otherwise |
| MapUi.Toggled | src/store/slices/mapUiSlice.js:35-37 | toggling gives light exactly after dark and dark exactly after anything else |
| MapUi.ToggleTwice | src/store/slices/mapUiSlice.js:35-37 | toggling twice restores light or dark |
| MapUi.VisibilityOfOthers | src/store/slices/mapUiSlice.js:19-22 | the dataset key reads back as the stored value and every other dataset key reads as before |
| MapUi.PayloadMissing | src/store/slices/mapUiSlice.js:20 | destructuring a missing payload throws a non-`SafeError` error |
| MapUi.MapUiState.constructor | src/store/slices/mapUiSlice.js:3-13 | initially only BFRO is shown, heatmap, county overlay and split view are off and the mode is light |
| MapUi.MapUiState.SetDatasetVisibility | src/store/slices/mapUiSlice.js:19-22 | a missing payload throws and changes nothing; otherwise only the visibility entry of the dataset key changes, to `visible` |
| MapUi.MapUiState.SetShowHeatmap | src/store/slices/mapUiSlice.js:23-25 | the heatmap flag becomes the payload's truthiness and nothing else changes |
| MapUi.MapUiState.SetShowCountyOverlay | src/store/slices/mapUiSlice.js:26-28 | the county overlay flag becomes the payload's truthiness and nothing else changes |
| MapUi.MapUiState.SetSplitViewEnabled | src/store/slices/mapUiSlice.js:29-31 | the split view flag becomes the payload's truthiness and nothing else changes |
| MapUi.MapUiState.SetColorMode | src/store/slices/mapUiSlice.js:32-34 | the mode becomes dark for `dark` and light otherwise, stays light or dark, and nothing else changes |
| MapUi.MapUiState.ToggleColorMode | src/store/slices/mapUiSlice.js:35-37 | the mode flips to the other of light and dark and nothing else changes |
| CountyOverlay.EntryOf | src/pages/components/CountyOverlay.jsx:14-18 | a report is grouped exactly when its position and county name are truthy |
| CountyOverlay.EntriesAt | src/pages/components/CountyOverlay.jsx:13-31 | the entries follow the reports one for one, in order |
| CountyOverlay.IndexOfId | src/pages/components/CountyOverlay.jsx:19 | the found marker has the key and no earlier marker has it; not found means no marker has it |
| CountyOverlay.BuildCountyClusters | src/pages/components/CountyOverlay.jsx:10-42 | the loop over the reports yields the markers of the grouping fold, in `Map` insertion order |
| CountyOverlay.FirstWithKey | src/pages/components/CountyOverlay.jsx:18-19 | the found entry is grouped under the key |
| CountyOverlay.ClusterCounts | src/pages/components/CountyOverlay.jsx:18-30 | a county key has a marker exactly when some report is grouped under it, and its count is the number of such reports |
| CountyOverlay.ClusterKeysDistinct | src/pages/components/CountyOverlay.jsx:19-30 | no two markers share a key and every marker counts at least one report |
| CountyOverlay.ClusterTotal | src/pages/components/CountyOverlay.jsx:13-31 | the markers' counts add up to the number of grouped reports |
| CountyOverlay.ClusterOrder | src/pages/components/CountyOverlay.jsx:19-33 | markers come in the order their keys first occur, each named after the county of that first report |
| DateRange.HandleChange | src/pages/components/DateRangeFilter.jsx:19-25 | the thumbs stay at least one step apart; the other thumb stays put; the moved thumb takes the new value exactly when that keeps the distance, and stops one step from the other thumb otherwise |
| DateRange.ChangeSettles | src/pages/components/DateRangeFilter.jsx:19-25 | repeating the same move leaves the range as it is |
| StateTagging.GeometryOf | scripts/tag-bfro-reports-with-states.js:26-39 | a Feature gives its wrapped geometry, a bare type with coordinates gives that geometry, a null or undefined row throws at `st_asgeojson`, and the row fails exactly when none of the four forms is present |
| StateTagging.FeatureOf | scripts/tag-bfro-reports-with-states.js:24-55 | a row becomes a feature exactly when its geometry exists and is a Polygon or MultiPolygon, with the row's properties and that geometry |
| StateTagging.FeaturesOf | scripts/tag-bfro-reports-with-states.js:24-55 | all rows convert exactly when each does, in order; otherwise the error is that of the first row that fails |
| StateTagging.StatesToFeatureCollection | scripts/tag-bfro-reports-with-states.js:23-61 | a FeatureCollection holding the features of the rows, or the first row's error |
| StateTagging.FeatureProperties | scripts/tag-bfro-reports-with-states.js:48-52 | a feature's name is the row's name or else its base name, it keeps the abbreviation, and its id is the geoid or else the state number |
| StateTagging.FirstContaining | scripts/tag-bfro-reports-with-states.js:84-90 | the match is `null` or one of the features |
| StateTagging.FirstContainingIndex | scripts/tag-bfro-reports-with-states.js:84-90 | the index found contains the point and no earlier feature does |
| StateTagging.FirstContainingAt | scripts/tag-bfro-reports-with-states.js:84-90 | the first containing feature is the one at the first containing index, `null` if there is none |
| StateTagging.FindContaining | scripts/tag-bfro-reports-with-states.js:84-90 | the loop with `break` returns the first feature that contains the point, or `null` |
| StateTagging.NearestIndex | scripts/tag-bfro-reports-with-states.js:94-99 | the chosen centroid is no farther than any other, and every earlier feature is strictly farther |
| StateTagging.FindNearest | scripts/tag-bfro-reports-with-states.js:92-100 | the loop keeping the strictly nearer centroid returns the nearest feature, the earliest among ties |
| StateTagging.TagOf | scripts/tag-bfro-reports-with-states.js:74-110 | tagging a report throws exactly when the report is null or undefined, at the destructuring of `position` |
| StateTagging.TagReport | scripts/tag-bfro-reports-with-states.js:74-111 | one report's tagging, with both loops, agrees with the per-report specification |
| StateTagging.TagReportsWithStates | scripts/tag-bfro-reports-with-states.js:67-114 | the loop computes the tagged copies of all reports in order, stopping at the first report that throws |
| StateTagging.TagAllOutcome | scripts/tag-bfro-reports-with-states.js:67-114 | tagging succeeds exactly when no report is null or undefined, with one tagged copy per report, in order, each tagged by the per-report specification; otherwise the first such report's destructuring error |
| StateTagging.MissingPositionTag | scripts/tag-bfro-reports-with-states.js:75-78 | a report without numeric coordinates keeps its other own members (an array's or a string's indices included), gets a null state and `missing_position` as the reason; a null or undefined one throws |
| StateTagging.ArrayReportKeepsIndices | scripts/tag-bfro-reports-with-states.js:75-78 | an array report is tagged as missing its position and keeps each element under its index |
| StateTagging.NoMatchTag | scripts/tag-bfro-reports-with-states.js:84-110 | a positioned report that no polygon contains, with the fallback off or no states, keeps its other members and gets a null state and abbreviation and `no_match` as the reason |
| StateTagging.ContainedTag | scripts/tag-bfro-reports-with-states.js:84-107 | a report inside a state's polygon takes the name and abbreviation of the first state containing it |
| StateTagging.NearestTag | scripts/tag-bfro-reports-with-states.js:92-107 | a report inside no polygon, with the fallback on, takes the name and abbreviation of the state with the nearest centroid |
| ReportGrouping.GroupReports | scripts/group-bfro-reports.js:7-13 | the loop builds exactly the grouped object of the reports, or throws reading `state_abbrev` of the first null or undefined report |
| ReportGrouping.ReportsOf | scripts/group-bfro-reports.js:10-12 | a report is in a key's list exactly when it is in the input with that abbreviation |
| ReportGrouping.StepLookup | scripts/group-bfro-reports.js:10-12 | one pass appends the report to its own group and changes no other key |
| ReportGrouping.GroupContents | scripts/group-bfro-reports.js:9-13 | each group holds exactly the reports with its abbreviation in input order, and a key exists exactly when some report has it |
| ReportGrouping.GroupedUnique | scripts/group-bfro-reports.js:9-13 | the grouped object never holds a key twice |
| ReportGrouping.SetTotal | scripts/group-bfro-reports.js:11-12 | assigning a group replaces its report count by that of the new list |
| ReportGrouping.GroupedTotal | scripts/group-bfro-reports.js:9-13 | the groups together hold exactly as many reports as have a state abbreviation |
| StatePolygons.GroupStatePolygons | scripts/group-us-states-polygons.js:8-27 | a non-array input gives the error message; an array gives the object and skip count of the loop's specification |
| StatePolygons.LastStored | scripts/group-us-states-polygons.js:16-27 | the last record stored under a key, and none exactly when no usable record has that key |
| StatePolygons.LastRecordWins | scripts/group-us-states-polygons.js:26 | a key holds the coordinates of the last usable record with that abbreviation, and is absent when there is none |
| StatePolygons.PolygonCounts | scripts/group-us-states-polygons.js:14-27 | the skip count is the number of unusable records, no key repeats, and keys plus skips never exceed the records |

## Left out

- Disk persistence: the lowdb file, the directory creation and the write of the database after each change. Only the in-memory state is modelled, and no atomicity is claimed.
- The clock and the generated id token are parameters. This covers `now`, `new Date()`, `Date.now()` and the `nanoid` suffix of new report ids. Each reading the code makes is its own parameter wherever two readings meet in one result: `createSubmission` takes the `nowIso` reading, the `Date.now()` fallback, the triage's reading and the `addReport` reading separately.
- Reading the dataset and boundary files (`readJsonFile` and `fs` in the scripts) is left out. The parsed contents are parameters.
- Writing the output files, the console summaries and `process.exit` of the scripts are left out. A non-array input to the polygon script is an error value.
- Console output of the logger is left out. Only the redaction is modelled.
- Errors raised by the language itself are `TypeError` values whose message text approximates the engine's.
- The store wraps unexpected failures, such as a failed disk write, in a 500 `SafeError`. That wrapping is not modelled, because no modelled step can fail that way.
- Query values that are not strings are outside the model. Express hands the parser an array for a repeated parameter and an object for `?bounds[x]=1`. With such values `parseDatasetKeys` and `parseBounds` throw `split is not a function` (reportService.js:16-17 and :33), which becomes a 500 response; `parseInt` of an array such as `['2010', '2012']` reads its first element, 2010; and `['false'] !== 'false'` (:105) keeps the reports without coordinates.
- The exact whitespace `JSON.stringify` gives a GeoJSON body is not modelled. The body is the JSON value itself. `JSON.stringify` (reportService.js:265) also drops members whose value is `undefined` and writes NaN as `null`; the modelled body still holds `Undefined` and `NaN` there.
- Floating point is left out. Numbers are exact reals, and `String(n)` is exact only for integers and short decimals.
- `Number(s)` reads decimal literals only; exponents, hexadecimal and binary literals are not modelled.
- `toLowerCase` folds ASCII letters only.
- `Date.parse` reads only the Date Time String Format. A date without a time is UTC, a `Z` or `+HH:mm`/`-HH:mm` offset is applied, and a date and time without an offset is read as UTC, as if the host time zone were UTC. Other formats, which engines may accept, parse as NaN.
- Objects keep insertion order for every key. JavaScript lists integer-like keys first, and that order is not modelled.
- Property access does not see keys inherited from `Object.prototype`, and reading a property of a primitive gives `undefined`.
- Service.CastVote, Service.NextVotes, Service.VoteBallots, Service.VoteKeepsTally, Service.VoteTwice: a key `__proto__` is an ordinary key in the model. In the code, reading `byUser['__proto__']` gives `Object.prototype` and assigning it a direction is ignored, so a voter with the id `__proto__` never has a ballot recorded and each of that voter's votes raises a tally again, without bound.
- MapUi.MapUiState.SetDatasetVisibility, ReportGrouping.GroupReports, StatePolygons.GroupStatePolygons: a dataset key, state abbreviation or state code `__proto__` is stored like any other key. In the code the assignment to `__proto__` of a plain object replaces its prototype (or is ignored) instead of adding a member.
- The reports the exporters, the county overlay and the report service read come from the store, which holds only objects. Null or undefined elements are modelled only where the code reads a dataset file or a caller's list: the normalizers, the seed, and the tagging and grouping scripts.
- Point-in-polygon and centroid distance from turf are parameters of the state-tagging model, and distances are taken to be finite.
- County marker positions, the floating-point averages of report coordinates, are left out. Only keys, names, counts and order are modelled.
- `getMarkerAgeRole` is left out: it depends on the local clock, the time zone and luxon.
- `downloadText` and the DOM and Blob calls of the browser exporters are left out. The current time in the file names is a parameter.
- Seed.LoadSeedDocuments: every document is built with the same two clock readings. `buildSeedDocument` reads the clock afresh for each document, so their times may differ in the source.
- Token verification is a parameter that yields the user or throws. The JWT secret and the auth provider behind it are not part of this model.
- React and MUI rendering is left out, including the slider's `setVal` handlers.
- HTTP routing and the Express error adapter are left out.
- ClientData.BoundsQueryRoundTrip: the round trip is proved for integer bounds only, since `String(n)` is modelled exactly only for those.
- ReportApi.FiltersRoundTrip: the years are proved to round-trip for integers only, for the same reason.
- DateRange.HandleChange: slider values are whole numbers, as the slider's integer step gives them.

=== FILE: auth.dfy ===
/**
 * Bearer-token authentication of requests (RFC 6750 section 2.1, with the
 * scheme name compared case-insensitively as RFC 7235 section 2.1 asks).
 * Verifying a token belongs to the active auth provider, which is not part
 * of this model: it is a parameter that either yields the user or throws.
 */
module Auth {
  import opened Wrappers
  import opened Json
  import opened Errors
  import opened Text

  /**
   * `readBearerToken`: the header split at single spaces must start with the
   * scheme `bearer` in any letter case and go on with a non-empty second
   * piece, which is the token; anything else gives no token.
   */
  function ReadBearerToken(header: Option<string>): (token: Option<string>)
    ensures header.None? || header == Some("") ==> token.None?
    ensures token.Some? ==> token.value != "" && ' ' !in token.value
  {
    if header.None? || header.value == "" then None
    else
      var pieces := Split(header.value, ' ');
      if ToLower(pieces[0]) != "bearer" || |pieces| < 2 || pieces[1] == "" then None
      else Some(pieces[1])
  }

  /**
   * A header made of space-free pieces joined by single spaces, the first a
   * bearer scheme in any letter case and the second non-empty, yields the
   * second piece as its token, whatever pieces follow.
   */
  lemma BearerTokenRead(pieces: seq<string>)
    requires |pieces| >= 2 && forall i :: 0 <= i < |pieces| ==> ' ' !in pieces[i]
    requires ToLower(pieces[0]) == "bearer" && pieces[1] != ""
    ensures ReadBearerToken(Some(Join(pieces, " "))) == Some(pieces[1])
  {
    SpacedPieces(pieces);
    BearerOfPieces(Join(pieces, " "), pieces);
  }

  /** Pieces without spaces, joined with spaces, split back into themselves. */
  lemma SpacedPieces(pieces: seq<string>)
    requires |pieces| >= 2
    requires forall i :: 0 <= i < |pieces| ==> ' ' !in pieces[i]
    ensures Join(pieces, " ") != "" && Split(Join(pieces, " "), ' ') == pieces
  {
    SplitJoin(pieces, ' ');
    assert Join(pieces, " ") == pieces[0] + " " + Join(pieces[1..], " ");
  }

  /** A header whose pieces are a bearer scheme and a token, then anything, yields that token. */
  lemma BearerOfPieces(header: string, pieces: seq<string>)
    requires header != "" && Split(header, ' ') == pieces && |pieces| >= 2
    requires ToLower(pieces[0]) == "bearer" && pieces[1] != ""
    ensures ReadBearerToken(Some(header)) == Some(pieces[1])
  {
  }

  /** A header whose first piece is not the bearer scheme yields no token, whatever follows. */
  lemma OtherSchemeRejected(scheme: string, rest: string)
    requires ToLower(scheme) != "bearer" && ' ' !in scheme
    ensures ReadBearerToken(Some(scheme + " " + rest)) == None
  {
    var h := scheme + " " + rest;
    assert IndexOf(h, ' ') == |scheme| by {
      assert h[|scheme|] == ' ';
      assert h[..|scheme|] == scheme;
    }
    assert h[..|scheme|] == scheme;
  }

  /** A header without any space, such as a bare scheme, yields no token. */
  lemma SinglePieceRejected(header: string)
    requires ' ' !in header
    ensures ReadBearerToken(Some(header)) == None
  {
    SplitJoin([header], ' ');
    assert Join([header], " ") == header;
  }

  /** The user `withOptionalAuth` attaches: none without a token or when verification throws. */
  function OptionalUser(header: Option<string>, verify: string -> Result<Json, Thrown>): (user: Json)
  {
    var token := ReadBearerToken(header);
    if token.None? then Null
    else
      match verify(token.value)
      case Err(_) => Null
      case Ok(u) => u
  }

  /** The error `requireAuth` raises when a request carries no bearer token. */
  function MissingToken(): (e: Thrown)
    ensures e.Safe? && e.err.statusCode == 401 && e.err.errorCode == "AUTH_MISSING_TOKEN"
    ensures e.err.publicMessage == "Please sign in to continue." && e.err.technicalDetails == Null
  {
    Fail("Please sign in to continue.", 401, "AUTH_MISSING_TOKEN", Undefined)
  }

  /**
   * What `requireAuth` decides: the missing-token error without a token, the
   * verification's own error when it throws, and the verified user otherwise.
   */
  function RequiredUser(header: Option<string>, verify: string -> Result<Json, Thrown>): (r: Result<Json, Thrown>)
    ensures ReadBearerToken(header).None? ==> r == Err(MissingToken())
    ensures ReadBearerToken(header).Some? ==> r == verify(ReadBearerToken(header).value)
  {
    var token := ReadBearerToken(header);
    if token.None? then Err(MissingToken())
    else verify(token.value)
  }

  /**
   * The two middlewares agree: the user the optional one attaches is the one
   * the strict one lets through, and it attaches no user exactly when the
   * strict one would fail.
   */
  lemma OptionalAgreesWithRequired(header: Option<string>, verify: string -> Result<Json, Thrown>)
    ensures RequiredUser(header, verify).Ok? ==> OptionalUser(header, verify) == RequiredUser(header, verify).value
    ensures RequiredUser(header, verify).Err? ==> OptionalUser(header, verify) == Null
  {
  }

  /** An incoming request: its `Authorization` header and the user a middleware attaches. */
  class Request {
    const authorization: Option<string>
    var user: Json

    constructor(authorization: Option<string>)
      ensures this.authorization == authorization && user == Undefined
    {
      this.authorization := authorization;
      user := Undefined;
    }
  }

  /** `createAuthMiddleware`: the two middlewares over one provider's token verification. */
  class AuthMiddleware {
    const verify: string -> Result<Json, Thrown>

    constructor(verify: string -> Result<Json, Thrown>)
      ensures this.verify == verify
    {
      this.verify := verify;
    }

    /**
     * `withOptionalAuth`: always calls `next()` without an error, after
     * attaching the verified user, or no user when there is no token or the
     * verification throws.
     */
    method WithOptionalAuth(request: Request) returns (nextError: Option<Thrown>)
      modifies request
      ensures nextError.None?
      ensures request.user == OptionalUser(request.authorization, verify)
    {
      var token := ReadBearerToken(request.authorization);
      if token.None? {
        request.user := Null;
        return None;
      }
      var verified := verify(token.value);
      if verified.Err? {
        request.user := Null;
        return None;
      }
      request.user := verified.value;
      return None;
    }

    /**
     * `requireAuth`: without a token or when verification throws, calls
     * `next(error)` and leaves the request's user as it was; otherwise
     * attaches the verified user and calls `next()`.
     */
    method RequireAuth(request: Request) returns (nextError: Option<Thrown>)
      modifies request
      ensures var r := RequiredUser(request.authorization, verify);
        && (r.Err? ==> nextError == Some(r.error) && request.user == old(request.user))
        && (r.Ok? ==> nextError.None? && request.user == r.value)
    {
      var token := ReadBearerToken(request.authorization);
      if token.None? {
        return Some(MissingToken());
      }
      var verified := verify(token.value);
      if verified.Err? {
        return Some(verified.error);
      }
      request.user := verified.value;
      return None;
    }
  }
}

=== FILE: calendar.dfy ===
/**
 * The proleptic Gregorian calendar of ECMA-262 section 21.4.1: days from
 * the epoch to the start of a year, the year and month that contain a day,
 * and `MakeDay`, all on unbounded integers.
 */
module Calendar {
  import opened Numbers

  const MsPerDay: int := 86400000
  const MsPerHour: int := 3600000
  const MsPerMinute: int := 60000
  const MsPerSecond: int := 1000

  /** ECMA-262 section 21.4.1.3, DaysInYear: 366 in leap years, else 365. */
  function DaysInYear(y: int): int
  {
    if y % 4 != 0 then 365
    else if y % 100 != 0 then 366
    else if y % 400 != 0 then 365
    else 366
  }

  predicate InLeapYear(y: int)
  {
    DaysInYear(y) == 366
  }

  /** ECMA-262 section 21.4.1.3, DayFromYear: the day number of the first day of year `y`. */
  function DayFromYear(y: int): int
  {
    365 * (y - 1970) + (y - 1969) / 4 - (y - 1901) / 100 + (y - 1601) / 400
  }

  /** Successive years start `DaysInYear` apart. */
  lemma DayFromYearStep(y: int)
    ensures DayFromYear(y + 1) == DayFromYear(y) + DaysInYear(y)
  {
    FloorYearStep(y, 4, 1969);
    FloorYearStep(y, 100, 1901);
    FloorYearStep(y, 400, 1601);
    LeapDivisors(y);
    var q4, q100, q400 := (y - 1969) / 4, (y - 1901) / 100, (y - 1601) / 400;
    assert DayFromYear(y) == 365 * (y - 1970) + q4 - q100 + q400;
    assert DayFromYear(y + 1) == 365 * (y - 1970) + 365
      + q4 + (if y % 4 == 0 then 1 else 0)
      - q100 - (if y % 100 == 0 then 1 else 0)
      + q400 + (if y % 400 == 0 then 1 else 0);
  }

  /** A multiple of 100 is a multiple of 4, and a multiple of 400 a multiple of 100. */
  lemma LeapDivisors(y: int)
    ensures y % 100 == 0 ==> y % 4 == 0
    ensures y % 400 == 0 ==> y % 100 == 0
  {
    if y % 100 == 0 {
      var k := y / 100;
      assert y == 4 * (25 * k);
      ModShift(0, 4, 25 * k);
    }
    if y % 400 == 0 {
      var k := y / 400;
      assert y == 100 * (4 * k);
      ModShift(0, 100, 4 * k);
    }
  }

  /** A term `(y - c) / d` of DayFromYear grows by one exactly when `y` is a multiple of `d`. */
  lemma FloorYearStep(y: int, d: int, c: int)
    requires d > 0 && (c - 1) % d == 0
    ensures (y + 1 - c) / d == (y - c) / d + (if y % d == 0 then 1 else 0)
  {
    FloorStep(y - c, d);
    var k := (c - 1) / d;
    assert c - 1 == d * k;
    ModShift(y, d, -k);
    assert y - c + 1 == y + d * -k;
  }

  /** Floor division steps up by one exactly at multiples of the divisor. */
  lemma FloorStep(a: int, d: int)
    requires d > 0
    ensures (a + 1) / d == if (a + 1) % d == 0 then a / d + 1 else a / d
  {
    var q, r := a / d, a % d;
    assert a == d * q + r && 0 <= r < d;
    if r == d - 1 {
      assert a + 1 == d * (q + 1) + 0;
      DivModUnique(a + 1, d, q + 1, 0);
    } else {
      assert a + 1 == d * q + (r + 1);
      DivModUnique(a + 1, d, q, r + 1);
    }
  }

  /** Adding whole multiples of the divisor leaves the remainder alone. */
  lemma ModShift(a: int, d: int, k: int)
    requires d > 0
    ensures (a + d * k) % d == a % d
  {
    assert a + d * k == d * (a / d + k) + a % d;
    DivModUnique(a + d * k, d, a / d + k, a % d);
  }

  /** Years start in strictly increasing order. */
  lemma {:induction false} DayFromYearMonotone(a: int, b: int)
    requires a < b
    ensures DayFromYear(a) + 365 <= DayFromYear(b)
    decreases b - a
  {
    DayFromYearStep(a);
    if a + 1 < b {
      DayFromYearMonotone(a + 1, b);
    }
  }

  /** The year containing day `d`, searching upward from a year that starts no later than `d`. */
  function YearUp(d: int, y: int): (r: int)
    requires DayFromYear(y) <= d
    ensures DayFromYear(r) <= d < DayFromYear(r + 1)
    decreases d - DayFromYear(y)
  {
    DayFromYearStep(y);
    if d < DayFromYear(y + 1) then y else YearUp(d, y + 1)
  }

  /** The year containing day `d`, searching downward from a year that starts after `d`. */
  function YearDown(d: int, y: int): (r: int)
    requires d < DayFromYear(y + 1)
    ensures DayFromYear(r) <= d < DayFromYear(r + 1)
    decreases DayFromYear(y + 1) - d
  {
    DayFromYearStep(y);
    if DayFromYear(y) <= d then y else YearDown(d, y - 1)
  }

  /**
   * ECMA-262 section 21.4.1.3, YearFromTime on day numbers: the year whose
   * first day is the latest one not after `d`.
   */
  function YearFromDay(d: int): (y: int)
    ensures DayFromYear(y) <= d < DayFromYear(y + 1)
  {
    if d >= 0 then YearUp(d, 1970) else YearDown(d, 1969)
  }

  /** Only one year contains a given day. */
  lemma YearUnique(d: int, y: int)
    requires DayFromYear(y) <= d < DayFromYear(y + 1)
    ensures YearFromDay(d) == y
  {
    var y' := YearFromDay(d);
    if y' < y {
      DayFromYearMonotone(y', y);
      if y' + 1 < y { DayFromYearMonotone(y' + 1, y); }
    } else if y < y' {
      if y + 1 < y' { DayFromYearMonotone(y + 1, y'); }
    }
  }

  /** A year contains a day exactly when YearFromTime gives that year for it. */
  lemma YearFromDayIff(y: int, d: int)
    ensures DayFromYear(y) <= d < DayFromYear(y + 1) <==> YearFromDay(d) == y
  {
    if DayFromYear(y) <= d < DayFromYear(y + 1) {
      YearUnique(d, y);
    }
  }

  /** Days in months before month `m` (0-based, 0..12) of a year. */
  function CumDays(m: int, leap: bool): (r: int)
    requires 0 <= m <= 12
    ensures 0 <= r <= (if leap then 366 else 365)
  {
    var l := if leap then 1 else 0;
    if m == 0 then 0
    else if m == 1 then 31
    else if m == 2 then 59 + l
    else if m == 3 then 90 + l
    else if m == 4 then 120 + l
    else if m == 5 then 151 + l
    else if m == 6 then 181 + l
    else if m == 7 then 212 + l
    else if m == 8 then 243 + l
    else if m == 9 then 273 + l
    else if m == 10 then 304 + l
    else if m == 11 then 334 + l
    else 365 + l
  }

  /** The number of days of month `m` (0-based). */
  function DaysInMonth(y: int, m: int): (n: int)
    requires 0 <= m < 12
    ensures 28 <= n <= 31
  {
    CumDays(m + 1, InLeapYear(y)) - CumDays(m, InLeapYear(y))
  }

  /** ECMA-262 section 21.4.1.6, MonthFromTime, on a day within its year. */
  function MonthOfDay(dwy: int, leap: bool): (m: int)
    requires 0 <= dwy < CumDays(12, leap)
    ensures 0 <= m < 12 && CumDays(m, leap) <= dwy < CumDays(m + 1, leap)
  {
    MonthSearch(dwy, leap, 0)
  }

  function MonthSearch(dwy: int, leap: bool, m: int): (r: int)
    requires 0 <= m < 12 && CumDays(m, leap) <= dwy < CumDays(12, leap)
    ensures m <= r < 12 && CumDays(r, leap) <= dwy < CumDays(r + 1, leap)
    decreases 12 - m
  {
    if dwy < CumDays(m + 1, leap) then m else MonthSearch(dwy, leap, m + 1)
  }

  lemma MonthUnique(dwy: int, leap: bool, m: int)
    requires 0 <= m < 12 && CumDays(m, leap) <= dwy < CumDays(m + 1, leap)
    ensures MonthOfDay(dwy, leap) == m
  {
    var m' := MonthOfDay(dwy, leap);
    if m' < m {
      CumDaysMonotone(m', m, leap);
    } else if m < m' {
      CumDaysMonotone(m, m', leap);
    }
  }

  lemma CumDaysMonotone(a: int, b: int, leap: bool)
    requires 0 <= a < b <= 12
    ensures CumDays(a + 1, leap) <= CumDays(b, leap)
  {
  }

  /** A calendar date: year, 0-based month and 1-based day of the month. */
  datatype Civil = Civil(year: int, month: int, day: int)

  predicate ValidCivil(c: Civil)
  {
    0 <= c.month < 12 && 1 <= c.day <= DaysInMonth(c.year, c.month)
  }

  /** The calendar date of day `dwy` (0-based) of year `y` (MonthFromTime, DateFromTime). */
  function CivilInYear(y: int, dwy: int): (c: Civil)
    requires 0 <= dwy < CumDays(12, InLeapYear(y))
    ensures ValidCivil(c) && c.year == y
    ensures CumDays(c.month, InLeapYear(y)) + c.day - 1 == dwy
  {
    var leap := InLeapYear(y);
    var m := MonthOfDay(dwy, leap);
    assert DaysInMonth(y, m) == CumDays(m + 1, leap) - CumDays(m, leap);
    Civil(y, m, dwy - CumDays(m, leap) + 1)
  }

  /** A valid date is the only one at its position in its year. */
  lemma CivilInYearUnique(c: Civil)
    requires ValidCivil(c)
    ensures 0 <= CumDays(c.month, InLeapYear(c.year)) + c.day - 1 < CumDays(12, InLeapYear(c.year))
    ensures CivilInYear(c.year, CumDays(c.month, InLeapYear(c.year)) + c.day - 1) == c
  {
    var leap := InLeapYear(c.year);
    var dwy := CumDays(c.month, leap) + c.day - 1;
    assert c.day <= CumDays(c.month + 1, leap) - CumDays(c.month, leap);
    CumDaysMonotone(c.month, 12, leap);
    MonthUnique(dwy, leap, c.month);
  }

  /** The calendar date of day number `d` (YearFromTime, MonthFromTime, DateFromTime). */
  function CivilOfDay(d: int): (c: Civil)
    ensures ValidCivil(c) && c.year == YearFromDay(d)
  {
    var y := YearFromDay(d);
    DayFromYearStep(y);
    YearLength(y);
    CivilInYear(y, d - DayFromYear(y))
  }

  /**
   * ECMA-262 section 21.4.1.28, MakeDay, on integer arguments: months
   * beyond 0..11 carry into the year, and days beyond the month run on.
   */
  function MakeDay(year: int, month: int, date: int): int
  {
    var ym := year + month / 12;
    var mn := month % 12;
    DayFromYear(ym) + CumDays(mn, InLeapYear(ym)) + date - 1
  }

  /** The calendar date of a day number rebuilds that day number. */
  lemma MakeDayOfCivil(d: int)
    ensures var c := CivilOfDay(d); MakeDay(c.year, c.month, c.day) == d
  {
    var y := YearFromDay(d);
    DayFromYearStep(y);
    YearLength(y);
    var c := CivilInYear(y, d - DayFromYear(y));
    assert CivilOfDay(d) == c;
    MakeDayInYear(c.year, c.month, c.day);
  }

  /** Within the year, `MakeDay` counts the months before and the days into the month. */
  lemma MakeDayInYear(y: int, m: int, date: int)
    requires 0 <= m < 12
    ensures MakeDay(y, m, date) == DayFromYear(y) + CumDays(m, InLeapYear(y)) + date - 1
  {
    DivModUnique(m, 12, 0, m);
    assert y + m / 12 == y && m % 12 == m;
  }

  /** A valid calendar date is recovered from its day number. */
  lemma CivilOfMakeDay(c: Civil)
    requires ValidCivil(c)
    ensures CivilOfDay(MakeDay(c.year, c.month, c.day)) == c
  {
    var leap := InLeapYear(c.year);
    var d := MakeDay(c.year, c.month, c.day);
    var dwy := CumDays(c.month, leap) + c.day - 1;
    MakeDayInYear(c.year, c.month, c.day);
    CivilInYearUnique(c);
    YearLength(c.year);
    DayFromYearStep(c.year);
    YearUnique(d, c.year);
  }

  lemma YearLength(y: int)
    ensures CumDays(12, InLeapYear(y)) == DaysInYear(y)
  {
  }
}

=== FILE: client_data.dfy ===
/**
 * The browser's own normalizers for the three datasets, its bounds test and
 * its bounds query text. The client keeps a row shape of its own: a record
 * with a fixed set of fields, dated with 0 and no ISO text when a timestamp
 * does not parse, where the server falls back to a 1900 sentinel.
 */
module ClientData {
  import opened Wrappers
  import opened Numbers
  import opened Text
  import opened Json
  import opened Errors
  import opened Calendar
  import opened Dates
  import opened Store
  import opened Repository
  import opened Normalization
  import opened Service
  import Seqs

  /** A report as the client normalizers build it. */
  datatype ClientReport = ClientReport(
    id: string, datasetKey: string, title: Json, summary: Json,
    timestampMs: int, isoDate: Json, position: Json,
    sourceName: string, sourceUrl: Json, stateCode: Json, countyName: Json,
    countryCode: string, reportType: string)

  /** A client date: the instant and its ISO text, or 0 and null. */
  datatype ClientDate = ClientDate(timestampMs: int, isoDate: Json)

  /**
   * `Date.parse(text || '')`, with NaN read as timestamp 0 and no ISO text;
   * a timestamp that parses keeps its instant, and its ISO text parses back
   * to that instant.
   */
  function ParseClientDate(text: Json): (d: ClientDate)
    ensures var parsed := ParseDateMs(ToJsString(Or(text, Str(""))));
      && (parsed.None? ==> d == ClientDate(0, Null))
      && (parsed.Some? ==> d.timestampMs == parsed.value && d.isoDate.Str? && ParseDateMs(d.isoDate.s) == parsed)
  {
    var parsed := ParseDateMs(ToJsString(Or(text, Str(""))));
    if parsed.None? then ClientDate(0, Null)
    else
      ParseIsoString(parsed.value);
      ClientDate(parsed.value, Str(ToIsoString(parsed.value)))
  }

  /* ---------------------------------------------------------------- BFRO */

  /** The client row of one BFRO report, given its date. */
  function BfroReportOf(report: Json, stateCode: string, date: ClientDate): ClientReport
  {
    ClientReport(
      "bfro_" + ToJsString(Get(report, "bfroReportId")), "bfro",
      Or(Get(report, "name"), Str("BFRO report")), Or(Get(report, "name"), Str("")),
      date.timestampMs, date.isoDate, Or(Get(report, "position"), Null),
      "BFRO", Or(Get(report, "url"), Null),
      Or(Or(Get(report, "state_abbrev"), Str(stateCode)), Null), Null, "US", "sighting")
  }

  /** The client row of one BFRO report of the group under `stateCode`; reading `timestamp` of null or undefined throws. */
  function ClientBfroReport(report: Json, stateCode: string): Result<ClientReport, Thrown>
  {
    if Nullish(report) then Err(ReadError(report, "timestamp"))
    else Ok(BfroReportOf(report, stateCode, ParseClientDate(Get(report, "timestamp"))))
  }

  /** `ClientBfroReport` for the reports of the group under `stateCode`. */
  function ClientBfroIn(stateCode: string): Json -> Result<ClientReport, Thrown>
  {
    (report: Json) => ClientBfroReport(report, stateCode)
  }

  /**
   * Every client BFRO row is keyed `bfro_<id>`, is a US sighting without a
   * county, takes its state from `state_abbrev`, else its group's key, else
   * null, and is titled by its name or `BFRO report`.
   */
  lemma BfroReportFields(report: Json, stateCode: string, date: ClientDate)
    ensures var r := BfroReportOf(report, stateCode, date);
      && r.id == "bfro_" + ToJsString(Get(report, "bfroReportId"))
      && r.datasetKey == "bfro" && r.countryCode == "US" && r.countyName == Null && r.reportType == "sighting"
      && r.stateCode == (if Truthy(Get(report, "state_abbrev")) then Get(report, "state_abbrev")
                         else if stateCode != "" then Str(stateCode) else Null)
      && r.title == (if Truthy(Get(report, "name")) then Get(report, "name") else Str("BFRO report"))
      && r.timestampMs == date.timestampMs && r.isoDate == date.isoDate
  {
  }

  /**
   * A BFRO report that is neither null nor undefined gets a row: an
   * unparseable timestamp gives timestamp 0 and a null ISO date, not the
   * server's 1900 sentinel, and a parseable one keeps its instant.
   */
  lemma ClientBfroDate(report: Json, stateCode: string)
    ensures var r := ClientBfroReport(report, stateCode);
      var parsed := ParseDateMs(ToJsString(Or(Get(report, "timestamp"), Str(""))));
      && (r.Ok? <==> !Nullish(report))
      && (r.Ok? && parsed.None? ==> r.value.timestampMs == 0 && r.value.isoDate == Null)
      && (r.Ok? && parsed.Some? ==> r.value.timestampMs == parsed.value && r.value.isoDate == Str(ToIsoString(parsed.value)))
  {
    if !Nullish(report) {
      BfroReportFields(report, stateCode, ParseClientDate(Get(report, "timestamp")));
    }
  }

  /** The client rows of one group's reports, in order, or the error of the first report that throws. */
  function GroupReportRows(reports: seq<Json>, stateCode: string): Result<seq<ClientReport>, Thrown>
  {
    MapOk(reports, ClientBfroIn(stateCode))
  }

  /**
   * A group's client rows succeed exactly when none of its reports is null
   * or undefined; row k is then the row of report k, and otherwise the
   * error is the read of `timestamp` on the first such report.
   */
  lemma GroupReportRowsAt(reports: seq<Json>, stateCode: string)
    ensures var r := GroupReportRows(reports, stateCode);
      && (r.Ok? <==> forall k :: 0 <= k < |reports| ==> !Nullish(reports[k]))
      && (r.Ok? ==> |r.value| == |reports|)
      && (r.Ok? ==> forall k :: 0 <= k < |reports| ==>
            r.value[k] == BfroReportOf(reports[k], stateCode, ParseClientDate(Get(reports[k], "timestamp"))))
      && (r.Err? ==> exists k :: FirstNullish(reports, k) && r.error == ReadError(reports[k], "timestamp"))
  {
    assert forall k :: 0 <= k < |reports| ==> ClientBfroIn(stateCode)(reports[k]) == ClientBfroReport(reports[k], stateCode);
  }

  /** The rows of the groups in order, or the error of the first group that is not iterable or holds a null or undefined report. */
  function ClientBfroRows(groups: seq<(string, Json)>): (r: Result<seq<ClientReport>, Thrown>)
  {
    if groups == [] then Ok([])
    else
      var reports := GroupReports(groups[0].1);
      if reports.None? then Err(TypeError("stateReports is not iterable"))
      else
        var rows := GroupReportRows(reports.value, groups[0].0);
        if rows.Err? then Err(rows.error) else PrependOk(rows.value, ClientBfroRows(groups[1..]))
  }

  /**
   * The client output succeeds exactly when every group is iterable and
   * holds no null or undefined report, and then has one row per report.
   */
  lemma {:induction false} ClientBfroCount(groups: seq<(string, Json)>)
    ensures ClientBfroRows(groups).Ok? <==> forall i :: 0 <= i < |groups| ==> ReadableGroup(groups[i].1)
    ensures ClientBfroRows(groups).Ok? ==> |ClientBfroRows(groups).value| == TotalReports(groups)
  {
    if groups != [] {
      ClientBfroCount(groups[1..]);
      assert forall i :: 1 <= i < |groups| ==> groups[1..][i - 1] == groups[i];
      var reports := GroupReports(groups[0].1);
      if reports.Some? {
        GroupReportRowsAt(reports.value, groups[0].0);
      }
    }
  }

  /** One step of the outer loop: group `i` either throws or contributes its rows ahead of the rest. */
  lemma ClientBfroStep(groups: seq<(string, Json)>, i: nat)
    requires i < |groups|
    ensures var reports := GroupReports(groups[i].1);
      ClientBfroRows(groups[i..]) ==
        if reports.None? then Err(TypeError("stateReports is not iterable"))
        else
          var rows := GroupReportRows(reports.value, groups[i].0);
          if rows.Err? then Err(rows.error) else PrependOk(rows.value, ClientBfroRows(groups[i + 1..]))
  {
    assert groups[i..][0] == groups[i];
    assert groups[i..][1..] == groups[i + 1..];
  }

  /** The inner loop: one row pushed per report of the group, in order, until a report throws. */
  method ClientGroupRows(reports: seq<Json>, stateCode: string) returns (r: Result<seq<ClientReport>, Thrown>)
    ensures r == GroupReportRows(reports, stateCode)
  {
    var rows: seq<ClientReport> := [];
    var j := 0;
    assert reports[0..] == reports;
    if GroupReportRows(reports, stateCode).Ok? {
      assert [] + GroupReportRows(reports, stateCode).value == GroupReportRows(reports, stateCode).value;
    }
    while j < |reports|
      invariant 0 <= j <= |reports|
      invariant GroupReportRows(reports, stateCode) == PrependOk(rows, MapOk(reports[j..], ClientBfroIn(stateCode)))
    {
      MapOkStep(reports, ClientBfroIn(stateCode), j);
      var row := ClientBfroReport(reports[j], stateCode);
      if row.Err? {
        return Err(row.error);
      }
      PrependOkTwice(rows, [row.value], MapOk(reports[j + 1..], ClientBfroIn(stateCode)));
      rows := rows + [row.value];
      j := j + 1;
    }
    assert reports[j..] == [];
    assert rows + [] == rows;
    r := Ok(rows);
  }

  /**
   * Client `normalizeBfroReports`: the groups of `reportsByState || {}` in
   * key order, each group's rows pushed in turn; the first group that is not
   * iterable, or the first null or undefined report, throws.
   */
  method ClientNormalizeBfro(reportsByState: Json) returns (r: Result<seq<ClientReport>, Thrown>)
    ensures r == ClientBfroRows(StateGroups(reportsByState))
  {
    var groups := StateGroups(reportsByState);
    var normalizedReports: seq<ClientReport> := [];
    var i := 0;
    assert groups[0..] == groups;
    if ClientBfroRows(groups).Ok? {
      assert [] + ClientBfroRows(groups).value == ClientBfroRows(groups).value;
    }
    while i < |groups|
      invariant 0 <= i <= |groups|
      invariant ClientBfroRows(groups) == PrependOk(normalizedReports, ClientBfroRows(groups[i..]))
    {
      ClientBfroStep(groups, i);
      var stateReports := GroupReports(groups[i].1);
      if stateReports.None? {
        return Err(TypeError("stateReports is not iterable"));
      }
      var rows := ClientGroupRows(stateReports.value, groups[i].0);
      if rows.Err? {
        return Err(rows.error);
      }
      PrependOkTwice(normalizedReports, rows.value, ClientBfroRows(groups[i + 1..]));
      normalizedReports := normalizedReports + rows.value;
      i := i + 1;
    }
    assert groups[i..] == [];
    assert normalizedReports + [] == normalizedReports;
    r := Ok(normalizedReports);
  }

  /* ------------------------------------------------------------- Woodape */

  /** The client row of one Woodape case, given its date. */
  function WoodapeReportOf(report: Json, date: ClientDate): ClientReport
  {
    var latitude := ToNumber(Get(report, "map_latitude"));
    var longitude := ToNumber(Get(report, "map_longitude"));
    var stateCode := Or(Get(report, "occur_state"), Null);
    ClientReport(
      "woodape_" + ToJsString(Get(report, "id")), "woodape",
      Or(Get(report, "summary"), Str("Woodape case " + ToJsString(Or(Get(report, "case_num"), Get(report, "id"))))),
      Or(Get(report, "summary"), Str("")),
      date.timestampMs, date.isoDate,
      if latitude.Finite? && longitude.Finite? then Obj([("lat", Number(latitude)), ("lng", Number(longitude))]) else Null,
      "Woodape", Or(Get(report, "video_link"), Null), stateCode,
      Or(Get(report, "occur_county"), Null), WoodapeCountry(stateCode), "sighting")
  }

  /** The client row of one Woodape case; reading `map_latitude` of null or undefined throws. */
  function ClientWoodapeReport(report: Json): Result<ClientReport, Thrown>
  {
    if Nullish(report) then Err(ReadError(report, "map_latitude"))
    else Ok(WoodapeReportOf(report, ParseClientDate(Get(report, "case_submitted_on"))))
  }

  /**
   * Client `normalizeWoodapeReports`: one row per case. A list that is not
   * an array throws, and so does the first case that is null or undefined.
   */
  function ClientNormalizeWoodape(reports: Json): (r: Result<seq<ClientReport>, Thrown>)
    ensures var items := Or(reports, Arr([]));
      && (r.Ok? <==> items.Arr? && forall i :: 0 <= i < |items.items| ==> !Nullish(items.items[i]))
      && (r.Ok? ==> |r.value| == |items.items|)
      && (r.Ok? ==> forall i :: 0 <= i < |r.value| ==>
            r.value[i] == WoodapeReportOf(items.items[i], ParseClientDate(Get(items.items[i], "case_submitted_on"))))
      && (r.Err? && items.Arr? ==> exists k :: FirstNullish(items.items, k) && r.error == ReadError(items.items[k], "map_latitude"))
  {
    var items := Or(reports, Arr([]));
    if items.Arr? then MapOk(items.items, ClientWoodapeReport)
    else Err(TypeError("(reports || []).map is not a function"))
  }

  /**
   * A client Woodape row has a position exactly when both coordinates
   * convert to finite numbers, and then holds those numbers; it is Canadian
   * exactly when its state is AB or ON.
   */
  lemma WoodapeReportFields(report: Json, date: ClientDate)
    ensures var r := WoodapeReportOf(report, date);
      var latitude := ToNumber(Get(report, "map_latitude"));
      var longitude := ToNumber(Get(report, "map_longitude"));
      var state := Get(report, "occur_state");
      && r.id == "woodape_" + ToJsString(Get(report, "id"))
      && (r.position != Null <==> latitude.Finite? && longitude.Finite?)
      && (r.position != Null ==> r.position == Obj([("lat", Number(latitude)), ("lng", Number(longitude))]))
      && (r.countryCode == "CA" <==> state == Str("AB") || state == Str("ON"))
      && (r.countryCode != "CA" ==> r.countryCode == "US")
  {
  }

  /* ------------------------------------------------------------- Kilmury */

  /** `Number(report?.date?.year || 1900)` */
  function KilmuryYear(report: Json): Num
  {
    ToNumber(Or(Get(Get(report, "date"), "year"), Int(1900)))
  }

  /** The client row of one Kilmury entry, given its regions and the instant it is stamped with. */
  function KilmuryReportOf(report: Json, regions: seq<Json>, t: int): ClientReport
    requires ValidTime(t)
  {
    var location := Get(report, "location");
    ClientReport(
      "kilmury_" + ToJsString(Get(report, "id")), "kilmury",
      Or(Get(report, "summary"), Str("Kilmury report " + ToJsString(Get(report, "id")))),
      Or(Get(report, "summary"), Str("")),
      t, Str(ToIsoString(t)), Null, "Kilmury", Null,
      Or(Get(Get(location, "city_state"), "state"), Null), Or(Get(location, "county"), Null),
      if MentionsCanada(regions) then "CA" else "US", "behavior")
  }

  /**
   * One Kilmury entry: stamped `Date.UTC(year, 0, 1)`; the region list must
   * be an array, reading `id` of null or undefined throws, and an instant
   * out of range makes `toISOString` throw.
   */
  function ClientKilmuryReport(report: Json): (r: Result<ClientReport, Thrown>)
    ensures r.Ok? ==> r.value.position == Null && r.value.sourceUrl == Null && r.value.reportType == "behavior"
  {
    var t := KilmuryStamp(report);
    var regionList := Or(Get(Get(report, "location"), "regions"), Arr([]));
    if !regionList.Arr? then Err(TypeError("regionList.some is not a function"))
    else if Nullish(report) then Err(ReadError(report, "id"))
    else if t.None? then Err(InvalidTimeValue)
    else Ok(KilmuryReportOf(report, regionList.items, t.value))
  }

  /** Client `normalizeKilmuryReports`: one row per entry, or the first entry's error. */
  function ClientNormalizeKilmury(reports: Json): (r: Result<seq<ClientReport>, Thrown>)
    ensures var items := Or(reports, Arr([]));
      && (!items.Arr? ==> r.Err?)
      && (items.Arr? ==> r == MapOk(items.items, ClientKilmuryReport))
      && (r.Ok? ==> (items.Arr? && |r.value| == |items.items|
            && forall i :: 0 <= i < |r.value| ==> ClientKilmuryReport(items.items[i]) == Ok(r.value[i])))
  {
    var items := Or(reports, Arr([]));
    if items.Arr? then MapOk(items.items, ClientKilmuryReport)
    else Err(TypeError("(reports || []).map is not a function"))
  }

  /** The instant `Date.UTC(year, 0, 1)` of an entry, if it is in range. */
  function KilmuryStamp(report: Json): Option<int>
  {
    DateUtc(KilmuryYear(report), N(0), N(1), N(0), N(0), N(0), N(0))
  }

  /**
   * An entry with an array of regions and an in-range stamp becomes the row
   * of those regions and that stamp, unless it is null or undefined, when
   * reading its `id` throws.
   */
  lemma KilmuryReportIs(report: Json, regions: seq<Json>, t: int)
    requires Or(Get(Get(report, "location"), "regions"), Arr([])) == Arr(regions)
    requires KilmuryStamp(report) == Some(t)
    ensures ValidTime(t)
    ensures ClientKilmuryReport(report) == if Nullish(report) then Err(ReadError(report, "id")) else Ok(KilmuryReportOf(report, regions, t))
  {
  }

  /**
   * A client Kilmury row carries its stamp and the stamp's ISO text, never
   * has a position or a source link, and is Canadian exactly when some
   * region mentions Canada in any letter case.
   */
  lemma KilmuryReportFields(report: Json, regions: seq<Json>, t: int)
    requires ValidTime(t)
    ensures var r := KilmuryReportOf(report, regions, t);
      && r.id == "kilmury_" + ToJsString(Get(report, "id"))
      && r.timestampMs == t && r.isoDate == Str(ToIsoString(t)) && ParseDateMs(r.isoDate.s) == Some(t)
      && r.position == Null && r.sourceUrl == Null
      && (r.countryCode == "CA" <==> MentionsCanada(regions))
      && (r.countryCode != "CA" ==> r.countryCode == "US")
  {
    ParseIsoString(t);
  }

  /** Without a year an entry is stamped with the first millisecond of 1900. */
  lemma KilmuryDefaultStamp(report: Json)
    requires !Truthy(Get(Get(report, "date"), "year"))
    ensures KilmuryStamp(report) == Some(Sentinel1900)
  {
    assert KilmuryYear(report) == N(1900);
    calc {
      KilmuryStamp(report);
      DateUtc(N(1900), N(0), N(1), N(0), N(0), N(0), N(0));
      { YearStartUtc(1900); }
      TimeClip(DayFromYear(FullYear(1900)) * MsPerDay);
      { SentinelStart(); }
      TimeClip(Sentinel1900);
      { SentinelRoundTrip(); }
      Some(Sentinel1900);
    }
  }

  /**
   * A Kilmury entry without a year, other than null or undefined, is dated
   * at the start of 1900, so its ISO date is the sentinel text, and it is
   * Canadian exactly when some region mentions Canada.
   */
  lemma KilmuryDefaultYear(report: Json, regions: seq<Json>)
    requires !Truthy(Get(Get(report, "date"), "year"))
    requires Or(Get(Get(report, "location"), "regions"), Arr([])) == Arr(regions)
    ensures var r := ClientKilmuryReport(report);
      && (r.Ok? <==> !Nullish(report))
      && (r.Ok? ==> r.value.timestampMs == Sentinel1900 && r.value.isoDate == Str(SentinelIso))
      && (r.Ok? ==> (r.value.countryCode == "CA" <==> MentionsCanada(regions)))
  {
    KilmuryDefaultStamp(report);
    KilmuryReportIs(report, regions, Sentinel1900);
    KilmuryReportFields(report, regions, Sentinel1900);
    SentinelRoundTrip();
  }

  /** The first millisecond of 1900 is the sentinel instant. */
  lemma SentinelStart()
    ensures DayFromYear(FullYear(1900)) * MsPerDay == Sentinel1900
  {
    assert DayFromYear(1900) == -25567;
  }

  /** An entry with a non-zero integer year is stamped with the first millisecond of that year, two-digit years meaning 19xx. */
  lemma KilmuryYearStamp(report: Json, y: int)
    requires Get(Get(report, "date"), "year") == Int(y) && y != 0
    ensures var start := DayFromYear(FullYear(y)) * MsPerDay;
      && (KilmuryStamp(report).Some? <==> ValidTime(start))
      && (KilmuryStamp(report).Some? ==> KilmuryStamp(report).value == start && CivilOfDay(Day(start)).year == FullYear(y))
  {
    KilmuryYearStart(report, y);
    YearStartInYear(FullYear(y));
  }

  /** The stamp of an entry with integer year `y` is `Date.UTC(y, 0, 1)`. */
  lemma KilmuryYearStart(report: Json, y: int)
    requires Get(Get(report, "date"), "year") == Int(y) && y != 0
    ensures KilmuryStamp(report) == TimeClip(DayFromYear(FullYear(y)) * MsPerDay)
  {
    assert KilmuryYear(report) == N(y);
    YearStartUtc(y);
  }

  /* -------------------------------------------------------------- Bounds */

  /**
   * `isReportInsideBounds`: no bounds admit every report; otherwise the
   * report needs a truthy position whose `lat` and `lng` convert to finite
   * numbers inside the box, edges included.
   */
  predicate IsReportInsideBounds(report: Json, bounds: Option<Bounds>)
  {
    if bounds.None? then true
    else
      var position := Get(report, "position");
      if !Truthy(position) then false
      else
        var latitude := ToNumber(Get(position, "lat"));
        var longitude := ToNumber(Get(position, "lng"));
        if !latitude.Finite? || !longitude.Finite? then false
        else
          && LessEq(bounds.value.south, latitude)
          && LessEq(latitude, bounds.value.north)
          && LessEq(bounds.value.west, longitude)
          && LessEq(longitude, bounds.value.east)
  }

  /** The client's bounds test and the server's agree on every report object and every bounds. */
  lemma BoundsTestsAgree(report: Doc, bounds: Option<Bounds>)
    ensures IsReportInsideBounds(Obj(report), bounds) == IsInsideBounds(report, bounds)
  {
  }

  /**
   * The client's bounds test in four cases: no bounds admit everything, a
   * report without a position or with a non-finite coordinate is outside,
   * and otherwise the box test with both edges included.
   */
  lemma ClientBoundsCases(report: Json, bounds: Option<Bounds>)
    ensures bounds.None? ==> IsReportInsideBounds(report, bounds)
    ensures bounds.Some? && !Truthy(Get(report, "position")) ==> !IsReportInsideBounds(report, bounds)
    ensures var position := Get(report, "position");
      var latitude := ToNumber(Get(position, "lat"));
      var longitude := ToNumber(Get(position, "lng"));
      bounds.Some? && Truthy(position) && latitude.Finite? && longitude.Finite? ==>
        (IsReportInsideBounds(report, bounds) <==>
          && LessEq(bounds.value.south, latitude) && LessEq(latitude, bounds.value.north)
          && LessEq(bounds.value.west, longitude) && LessEq(longitude, bounds.value.east))
  {
  }

  /** `boundsToQueryValue`: `south,west,north,east` as text, or null without bounds. */
  function BoundsToQueryValue(bounds: Option<Bounds>): (r: Option<string>)
    ensures r.None? <==> bounds.None?
  {
    if bounds.None? then None
    else
      var b := bounds.value;
      Some(NumberToString(b.south) + "," + NumberToString(b.west) + "," + NumberToString(b.north) + "," + NumberToString(b.east))
  }

  /** The rendering of an integer holds no comma. */
  lemma IntegerTextNoComma(k: int)
    ensures ',' !in NumberToString(N(k))
  {
    IntegerRendering(k);
    DigitsNoComma(NatToDigits(if k < 0 then -k else k));
  }

  /** Digits, with or without a minus sign in front, hold no comma. */
  lemma DigitsNoComma(d: string)
    requires AllDigits(d)
    ensures ',' !in d && ',' !in "-" + d
  {
    assert forall i :: 0 <= i < |"-" + d| ==> ("-" + d)[i] == '-' || ("-" + d)[i] == d[i - 1];
  }

  /** Four texts joined by commas, none holding a comma, split back into those four texts. */
  lemma FourParts(a: string, b: string, c: string, d: string)
    requires ',' !in a && ',' !in b && ',' !in c && ',' !in d
    ensures Split(a + "," + b + "," + c + "," + d, ',') == [a, b, c, d]
  {
    SplitJoin([a, b, c, d], ',');
    JoinFour(a, b, c, d);
  }

  /** Four texts joined by commas. */
  lemma JoinFour(a: string, b: string, c: string, d: string)
    ensures Join([a, b, c, d], ",") == a + "," + b + "," + c + "," + d
  {
    assert [a, b, c, d][1..] == [b, c, d] && [b, c, d][1..] == [c, d] && [c, d][1..] == [d];
    assert Join([c, d], ",") == c + "," + d;
    assert Join([b, c, d], ",") == b + "," + (c + "," + d);
    assert Join([a, b, c, d], ",") == a + "," + (b + "," + (c + "," + d));
  }

  /** Integer bounds written by the client are read back unchanged by the server, in the same order. */
  lemma BoundsQueryRoundTrip(south: int, west: int, north: int, east: int)
    ensures ParseBounds(BoundsToQueryValue(Some(Bounds(N(south), N(west), N(north), N(east)))))
         == Some(Bounds(N(south), N(west), N(north), N(east)))
  {
    BoundsText(south, west, north, east);
    StringToNumberRoundTrip(south);
    StringToNumberRoundTrip(west);
    StringToNumberRoundTrip(north);
    StringToNumberRoundTrip(east);
    Seqs.MapFour(NumberToString(N(south)), NumberToString(N(west)), NumberToString(N(north)), NumberToString(N(east)), StringToNumber);
  }

  /** The bounds text of integer bounds is not empty and splits into the four renderings. */
  lemma BoundsText(south: int, west: int, north: int, east: int)
    ensures var text := BoundsToQueryValue(Some(Bounds(N(south), N(west), N(north), N(east)))).value;
      && text != ""
      && Split(text, ',') == [NumberToString(N(south)), NumberToString(N(west)), NumberToString(N(north)), NumberToString(N(east))]
  {
    IntegerTextNoComma(south);
    IntegerTextNoComma(west);
    IntegerTextNoComma(north);
    IntegerTextNoComma(east);
    FourParts(NumberToString(N(south)), NumberToString(N(west)), NumberToString(N(north)), NumberToString(N(east)));
  }
}

=== FILE: config.dfy ===
/**
 * Server configuration read from the environment. The environment is a map
 * from variable name to value; a variable absent from the map is unset.
 */
module Config {
  import opened Wrappers
  import opened Numbers
  import opened Text

  const DefaultOrigin := "http://localhost:5173"

  /** An environment value, or nothing when the variable is unset. */
  function EnvValue(env: map<string, string>, name: string): Option<string>
  {
    if name in env then Some(env[name]) else None
  }

  /**
   * `parseAllowedOrigins`: an unset or empty value gives the local
   * development origin; any other value is split at commas, each piece
   * trimmed and the empty pieces dropped, so a value of blanks and commas
   * gives no origin at all.
   */
  function ParseAllowedOrigins(raw: Option<string>): (origins: seq<string>)
    ensures raw.None? || raw == Some("") ==> origins == [DefaultOrigin]
    ensures raw.Some? && raw.value != "" ==> |origins| <= |Split(raw.value, ',')|
    ensures forall i :: 0 <= i < |origins| ==> origins[i] != "" && IsTrimmed(origins[i])
  {
    if raw.None? || raw.value == "" then [DefaultOrigin]
    else TrimmedNonEmpty(Split(raw.value, ','))
  }

  /** Pieces that are already trimmed and non-empty all survive `map(trim).filter(nonEmpty)` unchanged. */
  lemma {:induction false} TrimmedNonEmptyKeeps(parts: seq<string>)
    requires forall i :: 0 <= i < |parts| ==> parts[i] != "" && IsTrimmed(parts[i])
    ensures TrimmedNonEmpty(parts) == parts
  {
    if parts != [] {
      TrimmedFixed(parts[0]);
      TrimmedNonEmptyKeeps(parts[1..]);
    }
  }

  /** An origin that can stand in a comma-separated list: non-empty, trimmed and without commas. */
  predicate IsListedOrigin(origin: string)
  {
    origin != "" && IsTrimmed(origin) && ',' !in origin
  }

  /**
   * Writing a non-empty list of trimmed, non-empty origins without commas
   * as one comma-separated value reads back exactly that list.
   */
  lemma OriginsRoundTrip(origins: seq<string>)
    requires |origins| >= 1
    requires forall i :: 0 <= i < |origins| ==> IsListedOrigin(origins[i])
    ensures ParseAllowedOrigins(Some(Join(origins, ","))) == origins
  {
    OriginsSplit(origins);
    ParsedListed(Join(origins, ","), origins);
  }

  /** The joined list is not empty, and its comma-separated pieces are the origins. */
  lemma OriginsSplit(origins: seq<string>)
    requires |origins| >= 1
    requires forall i :: 0 <= i < |origins| ==> IsListedOrigin(origins[i])
    ensures Join(origins, ",") != "" && Split(Join(origins, ","), ',') == origins
  {
    JoinKeepsFirst(origins, ",");
    SplitJoin(origins, ',');
  }

  /** A non-empty value whose comma-separated pieces are all listable origins parses to exactly those pieces. */
  lemma ParsedListed(raw: string, pieces: seq<string>)
    requires raw != "" && Split(raw, ',') == pieces
    requires forall i :: 0 <= i < |pieces| ==> IsListedOrigin(pieces[i])
    ensures ParseAllowedOrigins(Some(raw)) == pieces
  {
    TrimmedNonEmptyKeeps(pieces);
  }

  /** A joined list is at least as long as its first piece. */
  lemma JoinKeepsFirst(parts: seq<string>, sep: string)
    requires |parts| >= 1
    ensures |Join(parts, sep)| >= |parts[0]|
  {
  }

  /** A value made only of blanks and commas configures no origin at all, not the default. */
  lemma BlankOriginsAreNone()
    ensures ParseAllowedOrigins(Some(" , ")) == []
  {
    BlankPieces();
    var blanks := [" ", " "];
    assert Trim(" ") == "";
    assert TrimmedNonEmpty(blanks[1..][1..]) == [];
    assert TrimmedNonEmpty(blanks[1..]) == [];
  }

  /** The text ` , ` splits into two blank pieces. */
  lemma BlankPieces()
    ensures Split(" , ", ',') == [" ", " "]
  {
    SplitJoin([" ", " "], ',');
    assert Join([" ", " "], [',']) == " , ";
  }

  datatype AppConfig = AppConfig(
    nodeEnv: string,
    port: Num,
    clientOrigins: seq<string>,
    jwtSecret: string,
    authProvider: string,
    databaseFilePath: string)

  /** `process.env[name] || fallback`: an unset or empty variable gives the fallback. */
  function EnvOr(env: map<string, string>, name: string, fallback: string): (v: string)
    ensures name in env && env[name] != "" ==> v == env[name]
    ensures name !in env || env[name] == "" ==> v == fallback
  {
    if name in env && env[name] != "" then env[name] else fallback
  }

  /** A setting read with `||`: the variable when it is set and non-empty, the default otherwise. */
  predicate FromEnvironment(env: map<string, string>, name: string, fallback: string, v: string)
  {
    if name in env && env[name] != "" then v == env[name] else v == fallback
  }

  /**
   * `getApplicationConfig`: each text setting from its variable or its
   * default, the port as an integer or NaN (3001 without `PORT`), and the
   * origins trimmed and non-empty.
   */
  function GetApplicationConfig(env: map<string, string>): (c: AppConfig)
    ensures FromEnvironment(env, "NODE_ENV", "development", c.nodeEnv)
    ensures FromEnvironment(env, "JWT_SECRET", "local-dev-secret-change-me", c.jwtSecret)
    ensures FromEnvironment(env, "AUTH_PROVIDER", "local-jwt", c.authProvider)
    ensures FromEnvironment(env, "LOCAL_DB_FILE", "server/storage/local-firestore.json", c.databaseFilePath)
    ensures c.port.NaN? || (c.port.Finite? && IsInteger(c.port.v))
    ensures "PORT" !in env || env["PORT"] == "" ==> c.port == Finite(3001.0)
    ensures forall i :: 0 <= i < |c.clientOrigins| ==> c.clientOrigins[i] != "" && IsTrimmed(c.clientOrigins[i])
    ensures "CLIENT_ORIGINS" !in env || env["CLIENT_ORIGINS"] == "" ==> c.clientOrigins == [DefaultOrigin]
  {
    DefaultPort();
    AppConfig(
      EnvOr(env, "NODE_ENV", "development"),
      ParseInt(EnvOr(env, "PORT", "3001")),
      ParseAllowedOrigins(EnvValue(env, "CLIENT_ORIGINS")),
      EnvOr(env, "JWT_SECRET", "local-dev-secret-change-me"),
      EnvOr(env, "AUTH_PROVIDER", "local-jwt"),
      EnvOr(env, "LOCAL_DB_FILE", "server/storage/local-firestore.json"))
  }

  /** An empty environment gives the development defaults, port 3001 and the local origin. */
  lemma EmptyEnvironmentDefaults(env: map<string, string>)
    requires forall name :: name in env ==> env[name] == ""
    ensures var c := GetApplicationConfig(env);
      && c.nodeEnv == "development"
      && c.port == Finite(3001.0)
      && c.clientOrigins == [DefaultOrigin]
      && c.jwtSecret == "local-dev-secret-change-me"
      && c.authProvider == "local-jwt"
      && c.databaseFilePath == "server/storage/local-firestore.json"
  {
    DefaultPort();
  }

  /** The default port text reads as the number 3001. */
  lemma DefaultPort()
    ensures ParseInt("3001") == Finite(3001.0)
  {
    var s := "3001";
    assert AllDigits(s);
    DigitsHaveNoSpecials(s);
    assert s[..4] == s && s[..3] == "300" && "300"[..2] == "30" && "30"[..1] == "3" && "3"[..0] == "";
    assert DigitsValue(s) == 3001;
  }

  /** A port written as an integer is read back as that integer. */
  lemma PortRoundTrip(env: map<string, string>, k: int)
    requires "PORT" in env && env["PORT"] == NumberToString(Finite(k as real))
    ensures GetApplicationConfig(env).port == Finite(k as real)
  {
    ParseIntRoundTrip(k);
    IntegerRendering(k);
  }
}

=== FILE: county.dfy ===
/**
 * The county overlay: reports with a position and a county are grouped
 * by country, state and county, and each group becomes one marker that
 * counts its reports. The markers' average positions are floating-point
 * sums and are not part of this model.
 */
module CountyOverlay {
  import opened Json

  /** A county marker: its key, the county name of its first report and how many reports it groups. */
  datatype County = County(id: string, countyName: Json, count: nat)

  /** Only reports with a truthy position and a truthy county name are grouped. */
  predicate Qualifies(report: Json)
  {
    Truthy(Get(report, "position")) && Truthy(Get(report, "countyName"))
  }

  /** `${countryCode || 'US'}_${stateCode || 'NA'}_${countyName}` */
  function CountyKey(report: Json): string
  {
    ToJsString(Or(Get(report, "countryCode"), Str("US"))) + "_"
      + ToJsString(Or(Get(report, "stateCode"), Str("NA"))) + "_"
      + ToJsString(Get(report, "countyName"))
  }

  /** What a report contributes: nothing, or its key and its county name. */
  datatype Entry = Skipped | Grouped(key: string, countyName: Json)

  function EntryOf(report: Json): (e: Entry)
    ensures e.Grouped? <==> Qualifies(report)
  {
    if Qualifies(report) then Grouped(CountyKey(report), Get(report, "countyName")) else Skipped
  }

  /** The entries of the reports, in list order. */
  function Entries(reports: seq<Json>): (es: seq<Entry>)
    ensures |es| == |reports|
  {
    if reports == [] then [] else Entries(reports[..|reports| - 1]) + [EntryOf(reports[|reports| - 1])]
  }

  /** Each report's entry stands at the report's own position. */
  lemma {:induction false} EntriesAt(reports: seq<Json>)
    ensures forall i :: 0 <= i < |reports| ==> Entries(reports)[i] == EntryOf(reports[i])
  {
    if reports != [] {
      EntriesAt(reports[..|reports| - 1]);
    }
  }

  /** The position of the marker with the key, or the number of markers when there is none. */
  function IndexOfId(clusters: seq<County>, key: string): (i: nat)
    ensures i <= |clusters|
    ensures i < |clusters| ==> clusters[i].id == key
    ensures forall j :: 0 <= j < i ==> clusters[j].id != key
  {
    if clusters == [] then 0
    else if clusters[0].id == key then 0
    else 1 + IndexOfId(clusters[1..], key)
  }

  /** One entry folded into the markers: its marker counts one more, or a new marker is appended. */
  function AddEntry(clusters: seq<County>, e: Entry): seq<County>
  {
    if e.Skipped? then clusters
    else
      var at := IndexOfId(clusters, e.key);
      if at < |clusters| then clusters[at := clusters[at].(count := clusters[at].count + 1)]
      else clusters + [County(e.key, e.countyName, 1)]
  }

  /** The markers of the entries, folded in list order. */
  function Group(entries: seq<Entry>): seq<County>
  {
    if entries == [] then [] else AddEntry(Group(entries[..|entries| - 1]), entries[|entries| - 1])
  }

  /** The markers of the reports. */
  function Clusters(reports: seq<Json>): seq<County>
  {
    Group(Entries(reports))
  }

  /** `buildCountyClusters`, without the average positions. */
  method BuildCountyClusters(reports: seq<Json>) returns (clusters: seq<County>)
    ensures clusters == Clusters(reports)
  {
    clusters := [];
    for i := 0 to |reports|
      invariant clusters == Group(Entries(reports[..i]))
    {
      ghost var before := clusters;
      assert reports[..i + 1][..i] == reports[..i];
      assert Group(Entries(reports[..i + 1])) == AddEntry(before, EntryOf(reports[i]));
      var report := reports[i];
      if !Qualifies(report) {
        continue;
      }
      var key := CountyKey(report);
      var at := IndexOfId(clusters, key);
      if at < |clusters| {
        clusters := clusters[at := clusters[at].(count := clusters[at].count + 1)];
      } else {
        clusters := clusters + [County(key, Get(report, "countyName"), 1)];
      }
    }
    assert reports[..|reports|] == reports;
  }

  /** How many entries are grouped under the key. */
  function CountKey(entries: seq<Entry>, key: string): nat
  {
    if entries == [] then 0
    else CountKey(entries[..|entries| - 1], key) + if entries[|entries| - 1].Grouped? && entries[|entries| - 1].key == key then 1 else 0
  }

  /** How many entries are grouped at all. */
  function GroupedCount(entries: seq<Entry>): nat
  {
    if entries == [] then 0 else GroupedCount(entries[..|entries| - 1]) + if entries[|entries| - 1].Grouped? then 1 else 0
  }

  /** The sum of the markers' counts. */
  function TotalCount(clusters: seq<County>): nat
  {
    if clusters == [] then 0 else TotalCount(clusters[..|clusters| - 1]) + clusters[|clusters| - 1].count
  }

  /** The position of the first entry grouped under the key, or the number of entries when there is none. */
  function FirstWithKey(entries: seq<Entry>, key: string): (i: nat)
    ensures i <= |entries|
    ensures i < |entries| ==> entries[i].Grouped? && entries[i].key == key
  {
    if entries == [] then 0
    else if entries[0].Grouped? && entries[0].key == key then 0
    else 1 + FirstWithKey(entries[1..], key)
  }

  /**
   * A key has a marker exactly when some entry is grouped under it, and
   * that marker counts exactly the entries grouped under the key.
   */
  lemma {:induction false} ClusterCounts(entries: seq<Entry>, key: string)
    ensures var cs := Group(entries);
      var at := IndexOfId(cs, key);
      && (at < |cs| <==> CountKey(entries, key) > 0)
      && (at < |cs| ==> cs[at].count == CountKey(entries, key))
  {
    if entries != [] {
      var init, last := entries[..|entries| - 1], entries[|entries| - 1];
      ClusterCounts(init, key);
      var cs0 := Group(init);
      if last.Grouped? {
        var at := IndexOfId(cs0, last.key);
        if at < |cs0| {
          UpdateKeepsIndex(cs0, at, key);
        } else if last.key != key {
          AppendKeepsIndex(cs0, County(last.key, last.countyName, 1), key);
        } else {
          AppendFinds(cs0, County(last.key, last.countyName, 1));
        }
      }
    }
  }

  /** Changing a marker's count moves no key. */
  lemma UpdateKeepsIndex(cs: seq<County>, at: nat, key: string)
    requires at < |cs|
    ensures IndexOfId(cs[at := cs[at].(count := cs[at].count + 1)], key) == IndexOfId(cs, key)
  {
    var cs' := cs[at := cs[at].(count := cs[at].count + 1)];
    assert forall j :: 0 <= j < |cs| ==> cs'[j].id == cs[j].id;
    SameIds(cs, cs', key);
  }

  /** Markers with the same keys in the same places find every key at the same place. */
  lemma {:induction false} SameIds(cs: seq<County>, cs': seq<County>, key: string)
    requires |cs| == |cs'| && forall j :: 0 <= j < |cs| ==> cs'[j].id == cs[j].id
    ensures IndexOfId(cs', key) == IndexOfId(cs, key)
  {
    if cs != [] && cs[0].id != key {
      SameIds(cs[1..], cs'[1..], key);
    }
  }

  /** Appending a marker with another key moves no key that was already there. */
  lemma {:induction false} AppendKeepsIndex(cs: seq<County>, c: County, key: string)
    requires c.id != key
    ensures IndexOfId(cs + [c], key) == if IndexOfId(cs, key) < |cs| then IndexOfId(cs, key) else |cs| + 1
  {
    if cs != [] {
      assert (cs + [c])[1..] == cs[1..] + [c];
      if cs[0].id != key {
        AppendKeepsIndex(cs[1..], c, key);
      }
    } else {
      assert [c][1..] == [];
    }
  }

  /** Every marker counts at least one entry and is the first, so the only, with its key. */
  predicate KeyedOnce(cs: seq<County>)
  {
    forall j :: 0 <= j < |cs| ==> cs[j].count >= 1 && IndexOfId(cs, cs[j].id) == j
  }

  /** Every marker counts at least one report, and no two markers share a key. */
  lemma {:induction false} ClusterKeysDistinct(entries: seq<Entry>)
    ensures KeyedOnce(Group(entries))
  {
    if entries != [] {
      var init, last := entries[..|entries| - 1], entries[|entries| - 1];
      ClusterKeysDistinct(init);
      var cs0 := Group(init);
      var cs := Group(entries);
      assert cs == AddEntry(cs0, last);
      if last.Grouped? {
        var at := IndexOfId(cs0, last.key);
        if at < |cs0| {
          forall j | 0 <= j < |cs|
            ensures cs[j].count >= 1 && IndexOfId(cs, cs[j].id) == j
          {
            assert cs[j].id == cs0[j].id && cs[j].count >= cs0[j].count;
            UpdateKeepsIndex(cs0, at, cs[j].id);
          }
        } else {
          var c := County(last.key, last.countyName, 1);
          forall j | 0 <= j < |cs|
            ensures cs[j].count >= 1 && IndexOfId(cs, cs[j].id) == j
          {
            if j < |cs0| {
              assert cs[j] == cs0[j];
              AppendKeepsIndex(cs0, c, cs[j].id);
            } else {
              AppendFinds(cs0, c);
            }
          }
        }
      }
    }
  }

  /** The markers' counts add up to the number of grouped reports. */
  lemma {:induction false} ClusterTotal(entries: seq<Entry>)
    ensures TotalCount(Group(entries)) == GroupedCount(entries)
  {
    if entries != [] {
      var init, last := entries[..|entries| - 1], entries[|entries| - 1];
      ClusterTotal(init);
      var cs0 := Group(init);
      if last.Grouped? {
        var at := IndexOfId(cs0, last.key);
        if at < |cs0| {
          TotalAfterUpdate(cs0, at);
        } else {
          var cs := Group(entries);
          assert cs[..|cs| - 1] == cs0;
        }
      }
    }
  }

  /** An appended marker whose key is new is found at the end. */
  lemma {:induction false} AppendFinds(cs: seq<County>, c: County)
    requires IndexOfId(cs, c.id) == |cs|
    ensures IndexOfId(cs + [c], c.id) == |cs|
  {
    if cs != [] {
      assert (cs + [c])[1..] == cs[1..] + [c];
      AppendFinds(cs[1..], c);
    }
  }

  /** Counting one more report in one marker adds one to the total. */
  lemma {:induction false} TotalAfterUpdate(cs: seq<County>, at: nat)
    requires at < |cs|
    ensures TotalCount(cs[at := cs[at].(count := cs[at].count + 1)]) == TotalCount(cs) + 1
  {
    var cs' := cs[at := cs[at].(count := cs[at].count + 1)];
    if at < |cs| - 1 {
      assert cs'[..|cs'| - 1] == cs[..|cs| - 1][at := cs[at].(count := cs[at].count + 1)];
      TotalAfterUpdate(cs[..|cs| - 1], at);
    } else {
      assert cs'[..|cs'| - 1] == cs[..|cs| - 1];
    }
  }

  /** Appending an entry moves no first occurrence of a key that already occurred. */
  lemma {:induction false} FirstWithKeyAppend(entries: seq<Entry>, e: Entry, key: string)
    ensures FirstWithKey(entries + [e], key) ==
      if FirstWithKey(entries, key) < |entries| then FirstWithKey(entries, key)
      else if e.Grouped? && e.key == key then |entries|
      else |entries| + 1
  {
    if entries != [] {
      assert (entries + [e])[1..] == entries[1..] + [e];
      FirstWithKeyAppend(entries[1..], e, key);
    } else {
      assert [e][1..] == [];
    }
  }

  /** A key occurs among the entries exactly when its first occurrence lies within the list. */
  lemma {:induction false} FirstWithKeyCount(entries: seq<Entry>, key: string)
    ensures FirstWithKey(entries, key) < |entries| <==> CountKey(entries, key) > 0
  {
    if entries != [] {
      var init, last := entries[..|entries| - 1], entries[|entries| - 1];
      FirstWithKeyCount(init, key);
      assert init + [last] == entries;
      FirstWithKeyAppend(init, last, key);
    }
  }

  /** Each marker's key is grouped in some entry, and its county name is that of the first such entry. */
  predicate NamedByFirst(entries: seq<Entry>, cs: seq<County>)
  {
    forall j :: 0 <= j < |cs| ==> (FirstWithKey(entries, cs[j].id) < |entries|
      && cs[j].countyName == entries[FirstWithKey(entries, cs[j].id)].countyName)
  }

  /** The markers' keys come in the order of their first occurrences. */
  predicate InFirstOrder(entries: seq<Entry>, cs: seq<County>)
  {
    forall j, k :: 0 <= j < k < |cs| ==> FirstWithKey(entries, cs[j].id) < FirstWithKey(entries, cs[k].id)
  }

  /**
   * The markers come in the order their keys first occur among the grouped
   * reports, and each takes its county name from that first report.
   */
  lemma {:induction false} ClusterOrder(entries: seq<Entry>)
    ensures NamedByFirst(entries, Group(entries)) && InFirstOrder(entries, Group(entries))
  {
    if entries != [] {
      var init, last := entries[..|entries| - 1], entries[|entries| - 1];
      assert init + [last] == entries;
      ClusterOrder(init);
      var cs0 := Group(init);
      var cs := Group(entries);
      assert cs == AddEntry(cs0, last);
      forall j | 0 <= j < |cs0|
        ensures cs[j].id == cs0[j].id && cs[j].countyName == cs0[j].countyName
        ensures FirstWithKey(entries, cs[j].id) == FirstWithKey(init, cs0[j].id)
      {
        assert FirstWithKey(init, cs0[j].id) < |init|;
        FirstWithKeyAppend(init, last, cs0[j].id);
        if last.Grouped? {
          var at := IndexOfId(cs0, last.key);
          if at < |cs0| {
            assert cs[j] == cs0[j].(count := cs[j].count);
          } else {
            assert cs[j] == cs0[j];
          }
        }
      }
      if |cs| > |cs0| {
        ClusterCounts(init, last.key);
        FirstWithKeyCount(init, last.key);
        FirstWithKeyAppend(init, last, last.key);
      }
    }
  }
}

=== FILE: csv.dfy ===
/**
 * Comma-separated values as the exporters write them: a field is enclosed
 * in double quotes, with every double quote doubled, exactly when it holds
 * a comma, a double quote or a line feed (section 2, rules 6 and 7, of
 * RFC 4180); records are separated by a line feed alone. The reader below
 * is the inverse the writer is proved against.
 */
module Csv {
  import opened Wrappers
  import opened Text
  import Seqs

  /** `s.includes(',') || s.includes('"') || s.includes('\n')` */
  predicate NeedsQuotes(s: string)
  {
    Contains(s, ",") || Contains(s, "\"") || Contains(s, "\n")
  }

  /** The text of one field as written: quoted with doubled quotes when it needs it, verbatim otherwise. */
  function EscapeField(s: string): string
  {
    if NeedsQuotes(s) then "\"" + DoubleQuotes(s) + "\"" else s
  }

  /** The fields of a record escaped and joined with commas. */
  function EncodeRecord(fields: seq<string>): string
  {
    Join(Seqs.Map(fields, EscapeField), ",")
  }

  /** The records joined with line feeds. */
  function EncodeDocument(records: seq<seq<string>>): string
  {
    Join(Seqs.Map(records, EncodeRecord), "\n")
  }

  /* ------------------------------------------------------------- Reader */

  /** The rest of a quoted field after its opening quote: its content and what follows the closing quote. */
  function ParseQuoted(s: string): (r: Option<(string, string)>)
    ensures r.Some? ==> |r.value.1| < |s|
    decreases |s|
  {
    if s == [] then None
    else if s[0] == '"' then
      if |s| > 1 && s[1] == '"' then
        match ParseQuoted(s[2..])
        case None => None
        case Some((content, rest)) => Some(("\"" + content, rest))
      else Some(("", s[1..]))
    else
      match ParseQuoted(s[1..])
      case None => None
      case Some((content, rest)) => Some(([s[0]] + content, rest))
  }

  /** Length of the unquoted field at the start of `s`: up to the first comma or line feed. */
  function FieldEnd(s: string): (i: nat)
    ensures i <= |s|
    ensures forall j :: 0 <= j < i ==> s[j] != ',' && s[j] != '\n'
    ensures i < |s| ==> s[i] == ',' || s[i] == '\n'
  {
    if s == [] || s[0] == ',' || s[0] == '\n' then 0 else FieldEnd(s[1..]) + 1
  }

  /** One field and the text after it. */
  function ParseField(s: string): (r: Option<(string, string)>)
    ensures r.Some? ==> |r.value.1| <= |s|
  {
    if s != [] && s[0] == '"' then ParseQuoted(s[1..])
    else
      var i := FieldEnd(s);
      Some((s[..i], s[i..]))
  }

  /** The fields of one record, and the text after its line feed (empty at the end of the text). */
  function ParseFields(s: string): (r: Option<(seq<string>, string)>)
    ensures r.Some? ==> |r.value.1| <= |s|
    ensures r.Some? && s != [] ==> |r.value.1| < |s|
    decreases |s|
  {
    match ParseField(s)
    case None => None
    case Some((field, rest)) =>
      if rest == [] then Some(([field], []))
      else if rest[0] == '\n' then Some(([field], rest[1..]))
      else if rest[0] == ',' then
        match ParseFields(rest[1..])
        case None => None
        case Some((fields, after)) => Some(([field] + fields, after))
      else None
  }

  /** The records of a whole text; the empty text holds none. */
  function ParseCsv(s: string): Option<seq<seq<string>>>
    decreases |s|
  {
    if s == [] then Some([])
    else
      match ParseFields(s)
      case None => None
      case Some((fields, rest)) =>
        match ParseCsv(rest)
        case None => None
        case Some(records) => Some([fields] + records)
  }

  /* ------------------------------------------------------------ Round trip */

  /** A field needs quoting exactly when it holds a comma, a double quote or a line feed. */
  lemma NeedsQuotesChars(s: string)
    ensures NeedsQuotes(s) <==> ',' in s || '"' in s || '\n' in s
  {
    ContainsChar(s, ',');
    ContainsChar(s, '"');
    ContainsChar(s, '\n');
  }

  /** A doubled quote inside a quoted field reads as one quote. */
  lemma QuotedPair(tail: string, content: string, rest: string)
    requires ParseQuoted(tail) == Some((content, rest))
    ensures ParseQuoted("\"\"" + tail) == Some(("\"" + content, rest))
  {
    assert ("\"\"" + tail)[2..] == tail;
  }

  /** Any other character inside a quoted field reads as itself. */
  lemma QuotedChar(c: char, tail: string, content: string, rest: string)
    requires c != '"' && ParseQuoted(tail) == Some((content, rest))
    ensures ParseQuoted([c] + tail) == Some(([c] + content, rest))
  {
    assert ([c] + tail)[1..] == tail;
  }

  /** The doubled-quote content, the closing quote and a tail that does not start with a quote read back. */
  lemma {:induction false} QuotedRoundTrip(x: string, rest: string)
    requires rest == [] || rest[0] != '"'
    ensures ParseQuoted(DoubleQuotes(x) + "\"" + rest) == Some((x, rest))
  {
    if x == [] {
      assert DoubleQuotes(x) + "\"" + rest == "\"" + rest;
      assert ("\"" + rest)[1..] == rest;
    } else {
      QuotedRoundTrip(x[1..], rest);
      assert x == [x[0]] + x[1..];
      if x[0] == '"' {
        QuotedStepQuote(x[1..], rest);
      } else {
        QuotedStepChar(x[0], x[1..], rest);
      }
    }
  }

  /** A quote in front of the content is doubled and reads back as one quote. */
  lemma QuotedStepQuote(x: string, rest: string)
    requires ParseQuoted(DoubleQuotes(x) + "\"" + rest) == Some((x, rest))
    ensures ParseQuoted(DoubleQuotes("\"" + x) + "\"" + rest) == Some(("\"" + x, rest))
  {
    var tail := DoubleQuotes(x) + "\"" + rest;
    assert ("\"" + x)[1..] == x;
    assert DoubleQuotes("\"" + x) + "\"" + rest == "\"\"" + tail;
    QuotedPair(tail, x, rest);
  }

  /** Any other character in front of the content is written and read back as itself. */
  lemma QuotedStepChar(c: char, x: string, rest: string)
    requires c != '"' && ParseQuoted(DoubleQuotes(x) + "\"" + rest) == Some((x, rest))
    ensures ParseQuoted(DoubleQuotes([c] + x) + "\"" + rest) == Some(([c] + x, rest))
  {
    var tail := DoubleQuotes(x) + "\"" + rest;
    assert ([c] + x)[1..] == x;
    assert DoubleQuotes([c] + x) + "\"" + rest == [c] + tail;
    QuotedChar(c, tail, x, rest);
  }

  /** An escaped field followed by a comma, a line feed or nothing reads back as the field. */
  lemma FieldRoundTrip(x: string, rest: string)
    requires rest == [] || rest[0] == ',' || rest[0] == '\n'
    ensures ParseField(EscapeField(x) + rest) == Some((x, rest))
  {
    NeedsQuotesChars(x);
    if NeedsQuotes(x) {
      QuotedRoundTrip(x, rest);
      assert ("\"" + DoubleQuotes(x) + "\"" + rest)[1..] == DoubleQuotes(x) + "\"" + rest;
    } else {
      var s := x + rest;
      assert forall j :: 0 <= j < |x| ==> s[j] == x[j];
      UnquotedEnd(s, |x|);
      assert s[..|x|] == x && s[|x|..] == rest;
    }
  }

  /** The unquoted field runs exactly to the first comma or line feed. */
  lemma {:induction false} UnquotedEnd(s: string, i: nat)
    requires i <= |s|
    requires forall j :: 0 <= j < i ==> s[j] != ',' && s[j] != '\n'
    requires i == |s| || s[i] == ',' || s[i] == '\n'
    ensures FieldEnd(s) == i
  {
    if i > 0 {
      assert s[0] != ',' && s[0] != '\n';
      assert forall j :: 0 <= j < i - 1 ==> s[1..][j] == s[j + 1];
      UnquotedEnd(s[1..], i - 1);
    }
  }

  /** An encoded record followed by a line feed or nothing reads back as its fields. */
  lemma {:induction false} RecordRoundTrip(fields: seq<string>, rest: string)
    requires |fields| >= 1
    requires rest == [] || rest[0] == '\n'
    ensures ParseFields(EncodeRecord(fields) + rest) == Some((fields, if rest == [] then [] else rest[1..]))
    decreases |fields|
  {
    var escaped := Seqs.Map(fields, EscapeField);
    if |fields| == 1 {
      assert EncodeRecord(fields) == EscapeField(fields[0]);
      FieldRoundTrip(fields[0], rest);
      assert [fields[0]] == fields;
    } else {
      assert escaped[1..] == Seqs.Map(fields[1..], EscapeField);
      var after := EncodeRecord(fields[1..]) + rest;
      assert EncodeRecord(fields) + rest == EscapeField(fields[0]) + ("," + after);
      FieldRoundTrip(fields[0], "," + after);
      RecordRoundTrip(fields[1..], rest);
      assert ("," + after)[1..] == after;
      assert [fields[0]] + fields[1..] == fields;
    }
  }

  /** A record of two or more fields is written as non-empty text: it holds a comma. */
  lemma RecordNonEmpty(fields: seq<string>)
    requires |fields| >= 2
    ensures EncodeRecord(fields) != []
  {
    var escaped := Seqs.Map(fields, EscapeField);
    assert escaped[1..] == Seqs.Map(fields[1..], EscapeField);
  }

  /**
   * Reading the written text gives back every record, field for field, as
   * long as each record has at least two fields (a one-field record holding
   * the empty string would be written as an empty line).
   */
  lemma {:induction false} DocumentRoundTrip(records: seq<seq<string>>)
    requires forall i :: 0 <= i < |records| ==> |records[i]| >= 2
    ensures ParseCsv(EncodeDocument(records)) == Some(records)
    decreases |records|
  {
    if records != [] {
      var lines := Seqs.Map(records, EncodeRecord);
      RecordNonEmpty(records[0]);
      if |records| == 1 {
        assert EncodeDocument(records) == EncodeRecord(records[0]) + [];
        RecordRoundTrip(records[0], []);
        assert [records[0]] + [] == records;
      } else {
        assert lines[1..] == Seqs.Map(records[1..], EncodeRecord);
        var rest := EncodeDocument(records[1..]);
        assert EncodeDocument(records) == EncodeRecord(records[0]) + ("\n" + rest);
        RecordRoundTrip(records[0], "\n" + rest);
        assert ("\n" + rest)[1..] == rest;
        DocumentRoundTrip(records[1..]);
        assert [records[0]] + records[1..] == records;
      }
    }
  }

  /** Fields with no comma, double quote or line feed are written as they are. */
  lemma {:induction false} PlainRecord(fields: seq<string>)
    requires forall i :: 0 <= i < |fields| ==> ',' !in fields[i] && '"' !in fields[i] && '\n' !in fields[i]
    ensures EncodeRecord(fields) == Join(fields, ",")
  {
    var escaped := Seqs.Map(fields, EscapeField);
    forall i | 0 <= i < |fields|
      ensures escaped[i] == fields[i]
    {
      NeedsQuotesChars(fields[i]);
    }
    assert escaped == fields;
  }

  /**
   * A table written as the exporters write it (a header line of plain
   * names joined by commas, then one encoded line per row) reads back as the
   * header followed by every row.
   */
  lemma TableRoundTrip(headers: seq<string>, rows: seq<seq<string>>)
    requires |headers| >= 2
    requires forall i :: 0 <= i < |headers| ==> ',' !in headers[i] && '"' !in headers[i] && '\n' !in headers[i]
    requires forall i :: 0 <= i < |rows| ==> |rows[i]| >= 2
    ensures ParseCsv(Join([Join(headers, ",")] + Seqs.Map(rows, EncodeRecord), "\n")) == Some([headers] + rows)
  {
    PlainRecord(headers);
    var records := [headers] + rows;
    assert Seqs.Map(records, EncodeRecord) == [Join(headers, ",")] + Seqs.Map(rows, EncodeRecord);
    DocumentRoundTrip(records);
  }
}

=== FILE: date_range.dfy ===
/**
 * The year-range slider: moving one thumb keeps it at least one step away
 * from the other, which stays where it was. Slider values are whole years.
 */
module DateRange {
  const MinDistance: int := 1

  /** A slider range: the lower and the upper thumb. */
  datatype Range = Range(lo: int, hi: int)

  function Min(a: int, b: int): int { if a <= b then a else b }
  function Max(a: int, b: int): int { if a >= b then a else b }

  /**
   * `handleChange`: moving the first thumb takes the new lower value unless
   * it comes within one step of the upper thumb, in which case it stops one
   * step below; any other thumb takes the new upper value unless it comes
   * within one step of the lower thumb, in which case it stops one step above.
   */
  function HandleChange(range: Range, newValue: Range, activeThumb: int): (r: Range)
    ensures r.hi - r.lo >= MinDistance
    ensures activeThumb == 0 ==> (
      && r.hi == range.hi && r.lo <= newValue.lo
      && (r.lo == newValue.lo <==> newValue.lo <= range.hi - MinDistance)
      && (r.lo != newValue.lo ==> r.lo == range.hi - MinDistance))
    ensures activeThumb != 0 ==> (
      && r.lo == range.lo && r.hi >= newValue.hi
      && (r.hi == newValue.hi <==> newValue.hi >= range.lo + MinDistance)
      && (r.hi != newValue.hi ==> r.hi == range.lo + MinDistance))
  {
    if activeThumb == 0 then Range(Min(newValue.lo, range.hi - MinDistance), range.hi)
    else Range(range.lo, Max(newValue.hi, range.lo + MinDistance))
  }

  /** Repeating a move changes nothing more: the range it yields is settled for that same move. */
  lemma ChangeSettles(range: Range, newValue: Range, activeThumb: int)
    ensures var r := HandleChange(range, newValue, activeThumb);
      HandleChange(r, newValue, activeThumb) == r
  {
  }
}

=== FILE: dates.dfy ===
/**
 * ECMA-262 Date arithmetic on time values (integers of milliseconds since
 * the epoch): `Date.UTC`, the Date Time String Format of section 21.4.1.32
 * as written by `toISOString` and read by `Date.parse`, and `TimeClip`.
 */
module Dates {
  import opened Wrappers
  import opened Text
  import opened Numbers
  import opened Calendar

  /** ECMA-262 section 21.4.1.31: time values lie within 8.64e15 ms of the epoch. */
  const MaxTime: int := 8640000000000000

  predicate ValidTime(t: int)
  {
    -MaxTime <= t <= MaxTime
  }

  /** The time of day of a time value. */
  datatype Clock = Clock(hour: int, minute: int, second: int, ms: int)

  predicate ValidClock(c: Clock)
  {
    0 <= c.hour < 24 && 0 <= c.minute < 60 && 0 <= c.second < 60 && 0 <= c.ms < 1000
  }

  /** ECMA-262 section 21.4.1.4, Day. */
  function Day(t: int): int
  {
    t / MsPerDay
  }

  /** HourFromTime, MinFromTime, SecFromTime and msFromTime of a time value. */
  function ClockOf(t: int): (c: Clock)
    ensures ValidClock(c)
  {
    var tw := t % MsPerDay;
    var r1 := tw % MsPerHour;
    var r2 := r1 % MsPerMinute;
    Clock(tw / MsPerHour, r1 / MsPerMinute, r2 / MsPerSecond, r2 % MsPerSecond)
  }

  /** ECMA-262 section 21.4.1.27, MakeTime, on integer arguments. */
  function MakeTime(c: Clock): int
  {
    c.hour * MsPerHour + c.minute * MsPerMinute + c.second * MsPerSecond + c.ms
  }

  /** ECMA-262 section 21.4.1.29, MakeDate, on integer arguments. */
  function MakeDate(day: int, time: int): int
  {
    day * MsPerDay + time
  }

  /** A time value splits into a day and a time of day that rebuild it. */
  lemma MakeDateOfTime(t: int)
    ensures MakeDate(Day(t), MakeTime(ClockOf(t))) == t
  {
    var tw := t % MsPerDay;
    var r1 := tw % MsPerHour;
    var r2 := r1 % MsPerMinute;
    assert r2 == MsPerSecond * (r2 / MsPerSecond) + r2 % MsPerSecond;
    assert r1 == MsPerMinute * (r1 / MsPerMinute) + r2;
    assert tw == MsPerHour * (tw / MsPerHour) + r1;
    assert MakeTime(ClockOf(t)) == tw;
    assert t == MsPerDay * (t / MsPerDay) + tw;
  }

  /** Years of valid time values fit in six digits. */
  lemma YearOfValidTime(t: int)
    requires ValidTime(t)
    ensures -1000000 < CivilOfDay(Day(t)).year < 1000000
  {
    var d := Day(t);
    assert -100000001 <= d <= 100000000;
    YearBounds(YearFromDay(d), d);
  }

  /** A year holding a day of a valid time value lies within six digits of the epoch. */
  lemma YearBounds(y: int, d: int)
    requires DayFromYear(y) <= d < DayFromYear(y + 1)
    requires -100000001 <= d <= 100000000
    ensures -1000000 < y < 1000000
  {
  }

  /** Two digits, zero-padded. */
  function Two(n: int): (s: string)
    requires 0 <= n < 100
    ensures |s| == 2 && AllDigits(s) && DigitsValue(s) == n
  {
    assert Pow10(2) == 100 by { assert Pow10(1) == 10; }
    DivModUnique(n, 100, 0, n);
    PadDigits(n, 2)
  }

  function Three(n: int): (s: string)
    requires 0 <= n < 1000
    ensures |s| == 3 && AllDigits(s) && DigitsValue(s) == n
  {
    assert Pow10(3) == 1000 by { assert Pow10(1) == 10; assert Pow10(2) == 100; }
    DivModUnique(n, 1000, 0, n);
    PadDigits(n, 3)
  }

  /** The year as `toISOString` writes it: four digits, or a sign and six digits outside 0..9999. */
  function YearString(y: int): (s: string)
    requires -1000000 < y < 1000000
  {
    if 0 <= y <= 9999 then PadDigits(y, 4)
    else if y < 0 then "-" + PadDigits(-y, 6)
    else "+" + PadDigits(y, 6)
  }

  /** `Date.prototype.toISOString` of a valid time value: `YYYY-MM-DDTHH:mm:ss.sssZ`. */
  function ToIsoString(t: int): string
    requires ValidTime(t)
  {
    YearOfValidTime(t);
    var c := CivilOfDay(Day(t));
    IsoOfParts(c.year, c.month + 1, c.day, ClockOf(t))
  }

  /** `YYYY-MM-DDTHH:mm:ss.sssZ` from its parts. */
  function IsoOfParts(y: int, month: int, day: int, k: Clock): string
    requires -1000000 < y < 1000000 && 1 <= month <= 12 && 1 <= day <= 31 && ValidClock(k)
  {
    YearString(y) + DatePart(month, day) + TimePart(k)
  }

  function DatePart(month: int, day: int): string
    requires 1 <= month <= 12 && 1 <= day <= 31
  {
    "-" + Two(month) + ("-" + Two(day))
  }

  function TimePart(k: Clock): string
    requires ValidClock(k)
  {
    "T" + Two(k.hour) + (":" + Two(k.minute) + (":" + Two(k.second) + ("." + Three(k.ms) + "Z")))
  }

  /** The fields of a string in the Date Time String Format. */
  datatype Fields = Fields(year: int, month: int, day: int, clock: Clock, offsetMinutes: int)

  /** A year: four digits, or a sign and six digits (`-000000` is not allowed). */
  function ParseYear(s: string): Option<(int, string)>
  {
    if |s| >= 7 && (s[0] == '+' || s[0] == '-') && AllDigits(s[1..7]) then
      var v: int := DigitsValue(s[1..7]);
      if s[0] == '-' && v == 0 then None
      else Some((if s[0] == '-' then -v else v, s[7..]))
    else if |s| >= 4 && AllDigits(s[..4]) then Some((DigitsValue(s[..4]), s[4..]))
    else None
  }

  /** Optional `-MM` and, after it, optional `-DD`; both default to 1. */
  function ParseMonthDay(r: string): (int, int, string)
  {
    if |r| >= 3 && r[0] == '-' && AllDigits(r[1..3]) then
      var m := DigitsValue(r[1..3]);
      var r2 := r[3..];
      if |r2| >= 3 && r2[0] == '-' && AllDigits(r2[1..3]) then (m, DigitsValue(r2[1..3]), r2[3..])
      else (m, 1, r2)
    else (1, 1, r)
  }

  /** Optional `THH:mm`, then optional `:ss`, then optional `.sss`; the flag says whether a time was present. */
  function ParseTime(r: string): Option<(Clock, bool, string)>
  {
    if r != [] && r[0] == 'T' then
      if |r| >= 6 && AllDigits(r[1..3]) && r[3] == ':' && AllDigits(r[4..6]) then
        var h := DigitsValue(r[1..3]);
        var mi := DigitsValue(r[4..6]);
        var r2 := r[6..];
        if |r2| >= 3 && r2[0] == ':' && AllDigits(r2[1..3]) then
          var sec := DigitsValue(r2[1..3]);
          var r3 := r2[3..];
          if |r3| >= 4 && r3[0] == '.' && AllDigits(r3[1..4]) then
            Some((Clock(h, mi, sec, DigitsValue(r3[1..4])), true, r3[4..]))
          else Some((Clock(h, mi, sec, 0), true, r3))
        else Some((Clock(h, mi, 0, 0), true, r2))
      else None
    else Some((Clock(0, 0, 0, 0), false, r))
  }

  /**
   * The UTC offset in minutes: `Z` or `+HH:mm`/`-HH:mm` after a time; nothing
   * at all means UTC.
   */
  function ParseOffset(r: string, hasTime: bool): Option<int>
  {
    if r == [] then Some(0)
    else if !hasTime then None
    else if r == "Z" then Some(0)
    else if |r| == 6 && (r[0] == '+' || r[0] == '-') && AllDigits(r[1..3]) && r[3] == ':' && AllDigits(r[4..6]) then
      var hh := DigitsValue(r[1..3]);
      var mm := DigitsValue(r[4..6]);
      if hh > 23 || mm > 59 then None
      else Some(if r[0] == '-' then -(hh * 60 + mm) else hh * 60 + mm)
    else None
  }

  /** The fields of `s`, when it is in the format. */
  function ParseFields(s: string): Option<Fields>
  {
    match ParseYear(s)
    case None => None
    case Some((y, r1)) =>
      var (mo, d, r2) := ParseMonthDay(r1);
      match ParseTime(r2)
      case None => None
      case Some((clock, hasTime, r3)) =>
        match ParseOffset(r3, hasTime)
        case None => None
        case Some(off) => Some(Fields(y, mo, d, clock, off))
  }

  /** Out-of-range fields make the string invalid; `24:00:00.000` is the end of the day. */
  predicate FieldsInRange(f: Fields)
  {
    && 1 <= f.month <= 12
    && 1 <= f.day <= DaysInMonth(f.year, f.month - 1)
    && 0 <= f.clock.hour <= 24 && 0 <= f.clock.minute <= 59 && 0 <= f.clock.second <= 59
    && 0 <= f.clock.ms
    && (f.clock.hour == 24 ==> f.clock.minute == 0 && f.clock.second == 0 && f.clock.ms == 0)
  }

  /** ECMA-262 section 21.4.1.31, TimeClip, on an integer: no time value outside the range. */
  function TimeClip(t: int): (r: Option<int>)
    ensures r.Some? <==> ValidTime(t)
    ensures r.Some? ==> r.value == t
  {
    if ValidTime(t) then Some(t) else None
  }

  /** The time value the fields denote, before clipping. */
  function FieldsTime(f: Fields): int
  {
    MakeDate(MakeDay(f.year, f.month - 1, f.day), MakeTime(f.clock)) - f.offsetMinutes * MsPerMinute
  }

  /** The time value of a string in the Date Time String Format; `None` for anything else. */
  function ParseDateMs(s: string): (r: Option<int>)
    ensures r.Some? ==> ValidTime(r.value)
  {
    var f := ParseFields(s);
    if f.None? || !FieldsInRange(f.value) then None else TimeClip(FieldsTime(f.value))
  }

  /** `Date.parse(s)`: NaN unless the string is a valid instance of the format. */
  function DateParse(s: string): Num
  {
    var r := ParseDateMs(s);
    if r.Some? then Finite(r.value as real) else NaN
  }

  lemma ReadTwo(n: int, rest: string)
    requires 0 <= n < 100
    ensures var s := Two(n) + rest; AllDigits(s[..2]) && DigitsValue(s[..2]) == n && s[2..] == rest
  {
    var s := Two(n) + rest;
    assert s[..2] == Two(n);
    assert s[2..] == rest;
  }

  lemma ParseYearOf(y: int, rest: string)
    requires -1000000 < y < 1000000
    ensures ParseYear(YearString(y) + rest) == Some((y, rest))
  {
    if 0 <= y <= 9999 {
      ParseShortYear(y, rest);
    } else {
      ParseLongYear(y, rest);
    }
  }

  lemma ParseShortYear(y: int, rest: string)
    requires 0 <= y <= 9999
    ensures ParseYear(PadDigits(y, 4) + rest) == Some((y, rest))
  {
    var p := PadDigits(y, 4);
    var s := p + rest;
    assert s[..4] == p;
    assert s[4..] == rest;
    FourDigits(y);
    assert s[0] == p[0] && IsDigit(p[0]);
  }

  lemma FourDigits(v: int)
    requires 0 <= v < 10000
    ensures DigitsValue(PadDigits(v, 4)) == v
  {
    assert Pow10(4) == 10000;
    DivModUnique(v, 10000, 0, v);
  }

  lemma ParseLongYear(y: int, rest: string)
    requires -1000000 < y < 1000000 && !(0 <= y <= 9999)
    ensures ParseYear(YearString(y) + rest) == Some((y, rest))
  {
    var sign := if y < 0 then '-' else '+';
    var v := if y < 0 then -y else y;
    LongYearString(y);
    ParseSignedYear(sign, v, rest);
  }

  /** A year outside 0..9999 is written as a sign and six digits. */
  lemma LongYearString(y: int)
    requires -1000000 < y < 1000000 && !(0 <= y <= 9999)
    ensures YearString(y) == [if y < 0 then '-' else '+'] + PadDigits(if y < 0 then -y else y, 6)
  {
  }

  lemma ParseSignedYear(sign: char, v: int, rest: string)
    requires sign == '+' || sign == '-'
    requires 0 < v < 1000000
    ensures ParseYear([sign] + PadDigits(v, 6) + rest) == Some((if sign == '-' then -v else v, rest))
  {
    var p := PadDigits(v, 6);
    var s := [sign] + p + rest;
    assert s[1..7] == p;
    assert s[7..] == rest;
    SixDigits(v);
  }

  lemma SixDigits(v: int)
    requires 0 <= v < 1000000
    ensures DigitsValue(PadDigits(v, 6)) == v
  {
    assert Pow10(3) == 1000;
    assert Pow10(6) == 1000000;
    DivModUnique(v, 1000000, 0, v);
  }

  lemma ParseMonthDayOf(month: int, day: int, rest: string)
    requires 1 <= month <= 12 && 1 <= day <= 31
    ensures ParseMonthDay(DatePart(month, day) + rest) == (month, day, rest)
  {
    var r := DatePart(month, day) + rest;
    assert r[1..3] == Two(month);
    var r2 := r[3..];
    assert r2 == "-" + Two(day) + rest;
    assert r2[1..3] == Two(day);
    assert r2[3..] == rest;
  }

  lemma ParseTimeOf(k: Clock)
    requires ValidClock(k)
    ensures ParseTime(TimePart(k)) == Some((k, true, "Z"))
  {
    var r := TimePart(k);
    assert r[1..3] == Two(k.hour);
    assert r[3] == ':';
    assert r[4..6] == Two(k.minute);
    var r2 := r[6..];
    assert r2 == ":" + Two(k.second) + ("." + Three(k.ms) + "Z");
    assert r2[1..3] == Two(k.second);
    var r3 := r2[3..];
    assert r3 == "." + Three(k.ms) + "Z";
    assert r3[1..4] == Three(k.ms);
    assert r3[4..] == "Z";
  }

  /** The ISO rendering of a valid time value parses back to that time value. */
  lemma ParseIsoString(t: int)
    requires ValidTime(t)
    ensures ParseDateMs(ToIsoString(t)) == Some(t)
  {
    IsoFields(t);
    IsoFieldsTime(t);
    ParseDateMsOf(ToIsoString(t), FieldsOfTime(t));
  }

  /** The fields `toISOString` writes for a time value. */
  function FieldsOfTime(t: int): Fields
  {
    var c := CivilOfDay(Day(t));
    Fields(c.year, c.month + 1, c.day, ClockOf(t), 0)
  }

  lemma ParseDateMsOf(s: string, f: Fields)
    requires ParseFields(s) == Some(f) && FieldsInRange(f) && ValidTime(FieldsTime(f))
    ensures ParseDateMs(s) == Some(FieldsTime(f))
  {
  }

  /** The fields of a time value are in range and denote that time value. */
  lemma IsoFieldsTime(t: int)
    ensures FieldsInRange(FieldsOfTime(t)) && FieldsTime(FieldsOfTime(t)) == t
  {
    var c := CivilOfDay(Day(t));
    var k := ClockOf(t);
    var f := Fields(c.year, c.month + 1, c.day, k, 0);
    assert ValidCivil(c) && ValidClock(k);
    MakeDayOfCivil(Day(t));
    MakeDateOfTime(t);
  }

  lemma IsoFields(t: int)
    requires ValidTime(t)
    ensures ParseFields(ToIsoString(t)) == Some(FieldsOfTime(t))
  {
    var f := FieldsOfTime(t);
    IsoParts(t);
    FieldsOfParts(f.year, f.month, f.day, f.clock);
  }

  /** The rendering is made of the fields, which lie in the ranges the format needs. */
  lemma IsoParts(t: int)
    requires ValidTime(t)
    ensures var f := FieldsOfTime(t);
      && -1000000 < f.year < 1000000 && 1 <= f.month <= 12 && 1 <= f.day <= 31
      && ValidClock(f.clock) && f.offsetMinutes == 0
      && ToIsoString(t) == IsoOfParts(f.year, f.month, f.day, f.clock)
  {
    YearOfValidTime(t);
  }

  lemma FieldsOfParts(y: int, month: int, day: int, k: Clock)
    requires -1000000 < y < 1000000 && 1 <= month <= 12 && 1 <= day <= 31 && ValidClock(k)
    ensures ParseFields(IsoOfParts(y, month, day, k)) == Some(Fields(y, month, day, k, 0))
  {
    var tail := DatePart(month, day) + TimePart(k);
    var s := YearString(y) + DatePart(month, day) + TimePart(k);
    assert s == YearString(y) + tail;
    ParseYearOf(y, tail);
    ParseMonthDayOf(month, day, TimePart(k));
    ParseTimeOf(k);
    assert ParseOffset("Z", true) == Some(0);
  }

  /** The year `Date.UTC` uses: a year whose integer part is 0..99 means 1900..1999. */
  function FullYear(y: int): (r: int)
    ensures 0 <= y <= 99 ==> r == 1900 + y
    ensures !(0 <= y <= 99) ==> r == y
  {
    if 0 <= y <= 99 then 1900 + y else y
  }

  /**
   * ECMA-262 section 21.4.3.4, `Date.UTC(year, month, date, hours, minutes,
   * seconds, ms)`: NaN (`None`) as soon as one argument is not finite;
   * otherwise every argument is truncated toward zero, the year goes through
   * `FullYear`, and the parts go through MakeDay, MakeTime, MakeDate and
   * TimeClip.
   */
  function DateUtc(year: Num, month: Num, date: Num, hours: Num, minutes: Num, seconds: Num, ms: Num): (r: Option<int>)
    ensures r.Some? ==> ValidTime(r.value)
    ensures r.Some? ==> && year.Finite? && month.Finite? && date.Finite?
                        && hours.Finite? && minutes.Finite? && seconds.Finite? && ms.Finite?
  {
    if !(year.Finite? && month.Finite? && date.Finite? && hours.Finite? && minutes.Finite? && seconds.Finite? && ms.Finite?)
    then None
    else UtcOf(Truncated(year, month, date, hours, minutes, seconds, ms))
  }

  /** The seven arguments of `Date.UTC` as integers. */
  datatype UtcArgs = UtcArgs(year: int, month: int, date: int, hours: int, minutes: int, seconds: int, ms: int)

  /** Every finite argument truncated toward zero. */
  function Truncated(year: Num, month: Num, date: Num, hours: Num, minutes: Num, seconds: Num, ms: Num): UtcArgs
    requires year.Finite? && month.Finite? && date.Finite? && hours.Finite? && minutes.Finite? && seconds.Finite? && ms.Finite?
  {
    UtcArgs(Trunc(year.v), Trunc(month.v), Trunc(date.v), Trunc(hours.v), Trunc(minutes.v), Trunc(seconds.v), Trunc(ms.v))
  }

  /** `Date.UTC` on integer arguments: MakeDay on the full year, MakeTime, MakeDate, TimeClip. */
  function UtcOf(a: UtcArgs): Option<int>
  {
    TimeClip(MakeDate(MakeDay(FullYear(a.year), a.month, a.date), MakeTime(Clock(a.hours, a.minutes, a.seconds, a.ms))))
  }

  /** An integral number truncates to itself. */
  lemma TruncInt(k: int)
    ensures Trunc(k as real) == k
  {
  }

  function N(k: int): Num
  {
    Finite(k as real)
  }

  /** On integral arguments `Date.UTC` is plain MakeDay/MakeTime/MakeDate arithmetic. */
  lemma DateUtcInts(y: int, mo: int, d: int, h: int, mi: int, sec: int, ms: int)
    ensures DateUtc(N(y), N(mo), N(d), N(h), N(mi), N(sec), N(ms))
         == TimeClip(MakeDate(MakeDay(FullYear(y), mo, d), MakeTime(Clock(h, mi, sec, ms))))
  {
    IntegralArgs(y, mo, d, h, mi, sec, ms);
  }

  /** Integral arguments are unchanged by truncation. */
  lemma IntegralArgs(y: int, mo: int, d: int, h: int, mi: int, sec: int, ms: int)
    ensures Truncated(N(y), N(mo), N(d), N(h), N(mi), N(sec), N(ms)) == UtcArgs(y, mo, d, h, mi, sec, ms)
  {
    TruncInt(y);
    TruncInt(mo);
    TruncInt(d);
    TruncInt(h);
    TruncInt(mi);
    TruncInt(sec);
    TruncInt(ms);
  }

  /** `Date.UTC(y, 0, 1, 0, 0, 0, 0)` is the first millisecond of the year. */
  lemma YearStartUtc(y: int)
    ensures DateUtc(N(y), N(0), N(1), N(0), N(0), N(0), N(0)) == TimeClip(DayFromYear(FullYear(y)) * MsPerDay)
  {
    DateUtcInts(y, 0, 1, 0, 0, 0, 0);
    DivModUnique(0, 12, 0, 0);
  }

  /** `Date.UTC(y, 11, 31, 23, 59, 59, 999)` is the last millisecond of the year. */
  lemma YearEndUtc(y: int)
    ensures DateUtc(N(y), N(11), N(31), N(23), N(59), N(59), N(999)) == TimeClip(DayFromYear(FullYear(y) + 1) * MsPerDay - 1)
  {
    DateUtcInts(y, 11, 31, 23, 59, 59, 999);
    LastDayOfYear(FullYear(y));
    LastMillisecond(DayFromYear(FullYear(y) + 1));
  }

  /** December 31 is the day before the next year starts. */
  lemma LastDayOfYear(y: int)
    ensures MakeDay(y, 11, 31) == DayFromYear(y + 1) - 1
  {
    DivModUnique(11, 12, 0, 11);
    DayFromYearStep(y);
    YearLength(y);
  }

  lemma LastMillisecond(d: int)
    ensures MakeDate(d - 1, MakeTime(Clock(23, 59, 59, 999))) == d * MsPerDay - 1
  {
  }

  /**
   * The inclusive range from the first to the last millisecond of a year
   * holds exactly the time values whose year is that year.
   */
  lemma YearRangeExact(y: int, t: int)
    ensures DayFromYear(y) * MsPerDay <= t <= DayFromYear(y + 1) * MsPerDay - 1 <==> CivilOfDay(Day(t)).year == y
  {
    DayBounds(DayFromYear(y), t);
    DayBounds(DayFromYear(y + 1), t);
    YearOfDayIff(y, Day(t));
  }

  /** A day lies at or after the first day of year `a` exactly when its year is at least `a`. */
  lemma DayAtLeast(a: int, d: int)
    ensures DayFromYear(a) <= d <==> a <= YearFromDay(d)
  {
    var y := YearFromDay(d);
    if a < y {
      DayFromYearMonotone(a, y);
    } else if y + 1 < a {
      DayFromYearMonotone(y + 1, a);
    }
  }

  /** A time value lies at or after the start of day `a` exactly when its day is at least `a`. */
  lemma DayBounds(a: int, t: int)
    ensures a * MsPerDay <= t <==> a <= Day(t)
  {
    var d := Day(t);
    assert t == MsPerDay * d + t % MsPerDay;
    if a <= d {
      MulMonotone(a, d);
    } else {
      MulMonotone(d + 1, a);
    }
  }

  lemma MulMonotone(a: int, b: int)
    requires a <= b
    ensures a * MsPerDay <= b * MsPerDay
  {
  }

  lemma YearOfDayIff(y: int, d: int)
    ensures DayFromYear(y) <= d < DayFromYear(y + 1) <==> CivilOfDay(d).year == y
  {
    YearFromDayIff(y, d);
  }

  /** ECMA-262 section 21.4.1.32: the time value of `1900-01-01T00:00:00.000Z`. */
  const Sentinel1900: int := -2208988800000

  /** The sentinel string and the sentinel time value denote each other. */
  lemma SentinelRoundTrip()
    ensures ValidTime(Sentinel1900)
    ensures ToIsoString(Sentinel1900) == "1900-01-01T00:00:00.000Z"
    ensures DateParse("1900-01-01T00:00:00.000Z") == Finite(Sentinel1900 as real)
  {
    SentinelFields();
    IsoParts(Sentinel1900);
    SentinelText();
    ParseIsoString(Sentinel1900);
  }

  lemma SentinelFields()
    ensures FieldsOfTime(Sentinel1900) == Fields(1900, 1, 1, Clock(0, 0, 0, 0), 0)
  {
    SentinelDay();
    SentinelCivil(Day(Sentinel1900));
  }

  lemma SentinelCivil(d: int)
    requires d == -25567
    ensures CivilOfDay(d) == Civil(1900, 0, 1)
  {
    SentinelMakeDay();
    CivilAt(d, Civil(1900, 0, 1));
  }

  lemma SentinelMakeDay()
    ensures MakeDay(1900, 0, 1) == -25567
  {
    assert DayFromYear(1900) == -25567;
    DivModUnique(0, 12, 0, 0);
  }

  /** The calendar date of a day number given by MakeDay. */
  lemma CivilAt(d: int, c: Civil)
    requires ValidCivil(c) && d == MakeDay(c.year, c.month, c.day)
    ensures CivilOfDay(d) == c
  {
    CivilOfMakeDay(c);
  }

  lemma SentinelDay()
    ensures Day(Sentinel1900) == -25567 && Sentinel1900 % MsPerDay == 0
    ensures ClockOf(Sentinel1900) == Clock(0, 0, 0, 0)
  {
    assert 86400000 * -25567 == -2208988800000;
    DivModUnique(-2208988800000, 86400000, -25567, 0);
    DivModUnique(0, MsPerHour, 0, 0);
    DivModUnique(0, MsPerMinute, 0, 0);
    DivModUnique(0, MsPerSecond, 0, 0);
  }

  lemma SentinelText()
    ensures IsoOfParts(1900, 1, 1, Clock(0, 0, 0, 0)) == "1900-01-01T00:00:00.000Z"
  {
    SentinelTextAt(1900, 1, Clock(0, 0, 0, 0));
  }

  lemma SentinelTextAt(y: int, one: int, k: Clock)
    requires y == 1900 && one == 1 && k == Clock(0, 0, 0, 0)
    ensures IsoOfParts(y, one, one, k) == "1900-01-01T00:00:00.000Z"
  {
    PaddedYear();
    SentinelDate();
    SentinelTime();
    JoinSentinel(YearString(y), DatePart(one, one), TimePart(k));
  }

  lemma JoinSentinel(a: string, b: string, c: string)
    requires a == "1900" && b == "-01-01" && c == "T00:00:00.000Z"
    ensures a + b + c == "1900-01-01T00:00:00.000Z"
  {
  }

  lemma SentinelDate()
    ensures DatePart(1, 1) == "-01-01"
  {
    PaddedZeros();
    assert DigitChar(1) == '1';
    assert PadDigits(1, 2) == PadDigits(0, 1) + [DigitChar(1)];
  }

  lemma SentinelTime()
    ensures TimePart(Clock(0, 0, 0, 0)) == "T00:00:00.000Z"
  {
    PaddedZeros();
  }

  lemma PaddedYear()
    ensures YearString(1900) == "1900"
  {
    PadNext(1, 1, "", '1');
    PadNext(19, 2, "1", '9');
    PadNext(190, 3, "19", '0');
    PadNext(1900, 4, "190", '0');
  }

  /** Padding to `w` digits writes the last digit after the padding of the rest to `w - 1`. */
  lemma PadNext(n: nat, w: nat, s: string, c: char)
    requires w >= 1 && PadDigits(n / 10, w - 1) == s && DigitChar(n % 10) == c
    ensures PadDigits(n, w) == s + [c]
  {
  }

  lemma PaddedZeros()
    ensures PadDigits(0, 1) == "0" && PadDigits(0, 2) == "00" && PadDigits(0, 3) == "000"
  {
    PadNext(0, 1, "", '0');
    PadNext(0, 2, "0", '0');
    PadNext(0, 3, "00", '0');
  }
}

=== FILE: errors.dfy ===
/**
 * Client-safe errors: a `SafeError` carries a public message, an HTTP status,
 * a stable error code and technical details that only go to the logs.
 */
module Errors {
  import opened Wrappers
  import opened Json

  datatype SafeError = SafeError(
    name: string,
    message: string,
    publicMessage: string,
    statusCode: int,
    errorCode: string,
    technicalDetails: Json)

  /** Anything a handler can catch: a `SafeError`, or another error known only by its `String(error)` text. */
  datatype Thrown = Safe(err: SafeError) | Other(text: string)

  /** The `SafeError` constructor; omitted technical details become `null`. */
  function NewSafeError(publicMessage: string, statusCode: int, errorCode: string, technicalDetails: Json): (e: SafeError)
    ensures e.name == "SafeError" && e.message == publicMessage && e.publicMessage == publicMessage
    ensures e.statusCode == statusCode && e.errorCode == errorCode
    ensures e.technicalDetails == if technicalDetails.Undefined? then Null else technicalDetails
  {
    SafeError("SafeError", publicMessage, publicMessage, statusCode, errorCode,
      if technicalDetails.Undefined? then Null else technicalDetails)
  }

  /** A `TypeError` raised by the language itself, known only by its text. */
  function TypeError(message: string): (e: Thrown)
    ensures e.Other? && e.text == "TypeError: " + message
  {
    Other("TypeError: " + message)
  }

  /** The `TypeError` of reading property `key` of `null` or `undefined`. */
  function ReadError(value: Json, key: string): (e: Thrown)
    requires Nullish(value)
    ensures e.Other?
  {
    TypeError("Cannot read properties of " + (if value.Null? then "null" else "undefined") + " (reading '" + key + "')")
  }

  /** `createSafeError`: status 500, code `INTERNAL_ERROR` and null details unless given. */
  function CreateSafeError(publicMessage: string, statusCode: Option<int>, errorCode: Option<string>, technicalDetails: Json): (e: SafeError)
    ensures e.name == "SafeError" && e.publicMessage == publicMessage
    ensures e.statusCode == (if statusCode.Some? then statusCode.value else 500)
    ensures e.errorCode == (if errorCode.Some? then errorCode.value else "INTERNAL_ERROR")
    ensures technicalDetails.Undefined? ==> e.technicalDetails == Null
  {
    NewSafeError(publicMessage,
      if statusCode.Some? then statusCode.value else 500,
      if errorCode.Some? then errorCode.value else "INTERNAL_ERROR",
      technicalDetails)
  }

  /** A safe error with the given status and code, as the data layer raises them. */
  function Fail(publicMessage: string, statusCode: int, errorCode: string, technicalDetails: Json): Thrown
  {
    Safe(CreateSafeError(publicMessage, Some(statusCode), Some(errorCode), technicalDetails))
  }

  datatype ErrorResponse = ErrorResponse(statusCode: int, payload: Json, logPayload: Json)

  /** `toSafeErrorResponse`: the client sees only a message and a code; the rest goes to the log payload. */
  function ToSafeErrorResponse(error: Thrown, fallbackMessage: string): (r: ErrorResponse)
    ensures r.payload.Obj? && Keys(r.payload.members) == ["message", "errorCode"]
    ensures error.Safe? ==>
      r.statusCode == error.err.statusCode
      && Get(r.payload, "message") == Str(error.err.publicMessage)
      && Get(r.payload, "errorCode") == Str(error.err.errorCode)
      && Get(r.logPayload, "technicalDetails") == error.err.technicalDetails
    ensures error.Other? ==>
      r.statusCode == 500
      && Get(r.payload, "message") == Str(fallbackMessage)
      && Get(r.payload, "errorCode") == Str("INTERNAL_ERROR")
      && Get(r.logPayload, "unknownError") == Str(error.text)
  {
    match error
    case Safe(e) =>
      var payload := [("message", Str(e.publicMessage)), ("errorCode", Str(e.errorCode))];
      var log := [("errorCode", Str(e.errorCode)), ("technicalDetails", e.technicalDetails), ("originalMessage", Str(e.message))];
      LookupFirst(payload, "errorCode", 1);
      LookupFirst(log, "technicalDetails", 1);
      ErrorResponse(e.statusCode, Obj(payload), Obj(log))
    case Other(text) =>
      var payload := [("message", Str(fallbackMessage)), ("errorCode", Str("INTERNAL_ERROR"))];
      LookupFirst(payload, "errorCode", 1);
      ErrorResponse(500, Obj(payload), Obj([("unknownError", Str(text))]))
  }

  /**
   * What the client sees never depends on the technical details or on the
   * text of an unexpected error: only on the public message and code, or on
   * the fallback message.
   */
  lemma ResponseHidesDetails(e: SafeError, details: Json, text1: string, text2: string, fallback: string)
    ensures ToSafeErrorResponse(Safe(e), fallback).payload
         == ToSafeErrorResponse(Safe(e.(technicalDetails := details)), fallback).payload
    ensures ToSafeErrorResponse(Other(text1), fallback).payload == ToSafeErrorResponse(Other(text2), fallback).payload
  {
  }

  /** Creating a safe error and shaping it for a response hands back what was given. */
  lemma CreateThenRespond(publicMessage: string, statusCode: int, errorCode: string, details: Json, fallback: string)
    requires !details.Undefined?
    ensures var r := ToSafeErrorResponse(Safe(CreateSafeError(publicMessage, Some(statusCode), Some(errorCode), details)), fallback);
      r.statusCode == statusCode
      && r.payload == Obj([("message", Str(publicMessage)), ("errorCode", Str(errorCode))])
      && Get(r.logPayload, "technicalDetails") == details
      && Get(r.logPayload, "originalMessage") == Str(publicMessage)
  {
    var e := CreateSafeError(publicMessage, Some(statusCode), Some(errorCode), details);
    assert e == SafeError("SafeError", publicMessage, publicMessage, statusCode, errorCode, details);
    var log := ToSafeErrorResponse(Safe(e), fallback).logPayload;
    LookupFirst(log.members, "originalMessage", 2);
  }
}

=== FILE: export.dfy ===
/**
 * Report exports: the CSV table and the GeoJSON feature collection the
 * server builds for a download, and the smaller twins the browser builds
 * itself. Both CSV writers follow the quoting of the `Csv` module; the
 * GeoJSON writers emit one Point feature per report with a finite position,
 * longitude first (section 3.1.1 of RFC 7946).
 */
module Export {
  import opened Wrappers
  import opened Numbers
  import opened Text
  import opened Json
  import opened Csv
  import opened Store
  import Seqs

  /* ---------------------------------------------------------------- CSV */

  /** `String(value ?? '')`: null and undefined become the empty field. */
  function CsvText(v: Json): string
  {
    ToJsString(Coalesce(v, Str("")))
  }

  /** `toCsvValue`. */
  function ToCsvValue(v: Json): string
  {
    EscapeField(CsvText(v))
  }

  /** `Number(report?.votes?.[direction] || 0)`. */
  function VoteCount(report: Doc, direction: string): Num
  {
    ToNumber(Or(Get(Lookup(report, "votes"), direction), Int(0)))
  }

  /** `report.position?.[axis]`. */
  function Coordinate(report: Doc, axis: string): Json
  {
    Get(Lookup(report, "position"), axis)
  }

  const CsvHeaders: seq<string> := [
    "id", "datasetKey", "title", "summary", "isoDate", "countryCode", "stateCode", "countyName",
    "latitude", "longitude", "sourceUrl", "triageStatus", "triageTier", "upVotes", "downVotes"
  ]

  /** The fifteen values of a report's line, in header order, before `toCsvValue`. */
  function CsvValues(report: Doc): (vs: seq<Json>)
    ensures |vs| == |CsvHeaders|
  {
    [
      Lookup(report, "id"),
      Lookup(report, "datasetKey"),
      Lookup(report, "title"),
      Lookup(report, "summary"),
      Lookup(report, "isoDate"),
      Lookup(report, "countryCode"),
      Lookup(report, "stateCode"),
      Lookup(report, "countyName"),
      Coalesce(Coordinate(report, "lat"), Str("")),
      Coalesce(Coordinate(report, "lng"), Str("")),
      Lookup(report, "sourceUrl"),
      Get(Lookup(report, "triage"), "status"),
      Get(Lookup(report, "triage"), "tier"),
      Number(VoteCount(report, "up")),
      Number(VoteCount(report, "down"))
    ]
  }

  /** The text of each cell, before quoting. */
  function ReportCells(report: Doc): (cells: seq<string>)
    ensures |cells| == |CsvHeaders|
  {
    Seqs.Map(CsvValues(report), CsvText)
  }

  function ReportLine(report: Doc): string
  {
    EncodeRecord(ReportCells(report))
  }

  /** `reportsToCsv`: the header line, then one line per report, joined by line feeds. */
  function ReportsToCsv(reports: seq<Doc>): string
  {
    Join([Join(CsvHeaders, ",")] + Seqs.Map(reports, ReportLine), "\n")
  }

  /** No header holds a character that would need quoting. */
  lemma PlainHeaders(headers: seq<string>)
    requires headers == CsvHeaders || headers == ClientCsvHeaders
    ensures forall i :: 0 <= i < |headers| ==> ',' !in headers[i] && '"' !in headers[i] && '\n' !in headers[i]
  {
    forall i | 0 <= i < |headers|
      ensures ',' !in headers[i] && '"' !in headers[i] && '\n' !in headers[i]
    {
      var h := headers[i];
      assert forall j :: 0 <= j < |h| ==> 'a' <= h[j] <= 'z' || 'A' <= h[j] <= 'Z';
    }
  }

  /** Mapping cells then encoding is encoding each report's line. */
  lemma LinesOfCells<T>(reports: seq<T>, cells: T -> seq<string>, line: T -> string)
    requires forall r :: line(r) == EncodeRecord(cells(r))
    ensures Seqs.Map(Seqs.Map(reports, cells), EncodeRecord) == Seqs.Map(reports, line)
  {
  }

  /**
   * Reading the exported text back gives the header row and then, for every
   * report in order, exactly its fifteen cells: quoting never merges, splits
   * or alters a value.
   */
  lemma CsvRoundTrip(reports: seq<Doc>)
    ensures ParseCsv(ReportsToCsv(reports)) == Some([CsvHeaders] + Seqs.Map(reports, ReportCells))
  {
    PlainHeaders(CsvHeaders);
    LinesOfCells(reports, ReportCells, ReportLine);
    TableRoundTrip(CsvHeaders, Seqs.Map(reports, ReportCells));
  }

  /** One escaped value reads back, alone or before a separator, as its text. */
  lemma ToCsvValueRoundTrip(v: Json, rest: string)
    requires rest == [] || rest[0] == ',' || rest[0] == '\n'
    ensures ParseField(ToCsvValue(v) + rest) == Some((CsvText(v), rest))
    ensures v.Str? ==> CsvText(v) == v.s
    ensures v.Null? || v.Undefined? ==> CsvText(v) == ""
  {
    FieldRoundTrip(CsvText(v), rest);
  }

  /** A report's own string fields appear verbatim as its cells, in header order. */
  lemma ReportCellsText(report: Doc, i: nat)
    requires i < 8 || i == 10
    requires Lookup(report, CsvHeaders[i]).Str?
    ensures ReportCells(report)[i] == Lookup(report, CsvHeaders[i]).s
  {
    PlainValues(report, CsvValues(report));
  }

  /** The plain values of a line are the members named by their headers. */
  lemma PlainValues(report: Doc, vs: seq<Json>)
    requires vs == CsvValues(report)
    ensures forall i :: 0 <= i < 8 || i == 10 ==> vs[i] == Lookup(report, CsvHeaders[i])
  {
    assert vs[..8] + [vs[10]] == [
      Lookup(report, "id"), Lookup(report, "datasetKey"), Lookup(report, "title"), Lookup(report, "summary"),
      Lookup(report, "isoDate"), Lookup(report, "countryCode"), Lookup(report, "stateCode"), Lookup(report, "countyName"),
      Lookup(report, "sourceUrl")];
  }

  /** Without a position, both coordinate cells are empty. */
  lemma NoPositionCells(report: Doc)
    requires !Lookup(report, "position").Obj?
    ensures ReportCells(report)[8] == "" && ReportCells(report)[9] == ""
  {
    assert CsvValues(report)[8] == Str("") && CsvValues(report)[9] == Str("");
  }

  /** A vote count stored as an integer comes back from its cell as that integer; a missing one as zero. */
  lemma VoteCellRoundTrip(report: Doc, k: int)
    ensures Get(Lookup(report, "votes"), "up") == Int(k) ==> StringToNumber(ReportCells(report)[13]) == Finite(k as real)
    ensures Get(Lookup(report, "votes"), "up") == Undefined ==> StringToNumber(ReportCells(report)[13]) == Finite(0.0)
  {
    var up := Get(Lookup(report, "votes"), "up");
    assert ReportCells(report)[13] == CsvText(Number(VoteCount(report, "up")));
    if up == Int(k) {
      assert VoteCount(report, "up") == Finite(k as real);
      StringToNumberRoundTrip(k);
    } else if up == Undefined {
      assert VoteCount(report, "up") == Finite(0 as real);
      StringToNumberRoundTrip(0);
    }
  }

  /* ------------------------------------------------------------ GeoJSON */

  /** `report.position && Number.isFinite(report.position.lat) && Number.isFinite(report.position.lng)` */
  predicate HasFinitePosition(report: Doc)
  {
    Truthy(Lookup(report, "position")) && IsFiniteNumber(Coordinate(report, "lat")) && IsFiniteNumber(Coordinate(report, "lng"))
  }

  /** The GeoJSON point for a position: longitude first. */
  function Point(report: Doc): Json
  {
    Obj([("type", Str("Point")), ("coordinates", Arr([Coordinate(report, "lng"), Coordinate(report, "lat")]))])
  }

  /** The report fields a feature copies as they are. */
  const FeatureKeys: seq<string> := ["id", "datasetKey", "title", "summary", "isoDate", "countryCode", "stateCode", "countyName", "sourceUrl"]

  function FeatureProperties(report: Doc): Doc
  {
    Pick(report, FeatureKeys) + [
      ("triageStatus", Or(Get(Lookup(report, "triage"), "status"), Null)),
      ("triageTier", Or(Get(Lookup(report, "triage"), "tier"), Null)),
      ("votesUp", Number(VoteCount(report, "up"))),
      ("votesDown", Number(VoteCount(report, "down")))
    ]
  }

  function Feature(report: Doc): Json
  {
    Obj([("type", Str("Feature")), ("geometry", Point(report)), ("properties", Obj(FeatureProperties(report)))])
  }

  /** `reportsToGeoJson`. */
  function ReportsToGeoJson(reports: seq<Doc>): Json
  {
    Obj([("type", Str("FeatureCollection")), ("features", Arr(Seqs.Map(Seqs.Filter(reports, HasFinitePosition), Feature)))])
  }

  /** The features of a collection; empty for anything else. */
  function Features(collection: Json): seq<Json>
  {
    var f := Get(collection, "features");
    if f.Arr? then f.items else []
  }

  /** The position a feature's geometry carries, as (latitude, longitude). */
  function FeaturePosition(feature: Json): Option<(real, real)>
  {
    var c := Get(Get(feature, "geometry"), "coordinates");
    if c.Arr? && |c.items| == 2 && IsFiniteNumber(c.items[0]) && IsFiniteNumber(c.items[1])
    then Some((c.items[1].n.v, c.items[0].n.v))
    else None
  }

  /** A collection literal's features are its second member. */
  lemma CollectionFeatures(fs: seq<Json>)
    ensures Features(Obj([("type", Str("FeatureCollection")), ("features", Arr(fs))])) == fs
    ensures Get(Obj([("type", Str("FeatureCollection")), ("features", Arr(fs))]), "type") == Str("FeatureCollection")
  {
    LookupFirst([("type", Str("FeatureCollection")), ("features", Arr(fs))], "features", 1);
  }

  /**
   * Exactly the reports with a finite position become features, in their
   * order.
   */
  lemma GeoJsonFeatures(reports: seq<Doc>)
    ensures Get(ReportsToGeoJson(reports), "type") == Str("FeatureCollection")
    ensures Features(ReportsToGeoJson(reports)) == Seqs.Map(Seqs.Filter(reports, HasFinitePosition), Feature)
    ensures forall r :: r in reports && HasFinitePosition(r) ==> Feature(r) in Features(ReportsToGeoJson(reports))
    ensures forall f :: f in Features(ReportsToGeoJson(reports)) ==>
      exists r :: r in reports && HasFinitePosition(r) && f == Feature(r)
  {
    var kept := Seqs.Filter(reports, HasFinitePosition);
    var fs := Seqs.Map(kept, Feature);
    CollectionFeatures(fs);
    forall r | r in reports && HasFinitePosition(r)
      ensures Feature(r) in fs
    {
      var i :| 0 <= i < |kept| && kept[i] == r;
      assert fs[i] == Feature(r);
    }
    forall f | f in fs
      ensures exists r :: r in reports && HasFinitePosition(r) && f == Feature(r)
    {
      var i :| 0 <= i < |fs| && fs[i] == f;
      assert kept[i] in kept;
    }
  }

  /** Each feature's point reads back as the report's own latitude and longitude. */
  lemma FeaturePositionOf(report: Doc)
    requires HasFinitePosition(report)
    ensures FeaturePosition(Feature(report)) == Some((Coordinate(report, "lat").n.v, Coordinate(report, "lng").n.v))
  {
    LookupFirst(Feature(report).members, "geometry", 1);
    LookupFirst(Point(report).members, "coordinates", 1);
  }

  /**
   * Feature properties copy the report's descriptive fields; the triage
   * status and tier are null rather than absent when falsy, and the vote
   * counts are numbers, zero when missing.
   */
  lemma FeatureProperty(report: Doc, k: string)
    requires k in FeatureKeys
    ensures Get(Get(Feature(report), "properties"), k) == Lookup(report, k)
  {
    LookupFirst(Feature(report).members, "properties", 2);
    PickLookup(report, FeatureKeys, FeatureProperties(report)[|FeatureKeys|..], k);
    assert FeatureProperties(report) == Pick(report, FeatureKeys) + FeatureProperties(report)[|FeatureKeys|..];
  }

  lemma FeatureTriage(report: Doc)
    ensures var p := Get(Feature(report), "properties");
      && (Truthy(Get(Lookup(report, "triage"), "status")) ==> Get(p, "triageStatus") == Get(Lookup(report, "triage"), "status"))
      && (!Truthy(Get(Lookup(report, "triage"), "status")) ==> Get(p, "triageStatus") == Null)
      && (Truthy(Get(Lookup(report, "triage"), "tier")) ==> Get(p, "triageTier") == Get(Lookup(report, "triage"), "tier"))
      && (!Truthy(Get(Lookup(report, "triage"), "tier")) ==> Get(p, "triageTier") == Null)
  {
    var ps := FeatureProperties(report);
    LookupFirst(Feature(report).members, "properties", 2);
    LookupFirst(ps, "triageStatus", 9);
    LookupFirst(ps, "triageTier", 10);
  }

  lemma FeatureVotes(report: Doc)
    ensures var p := Get(Feature(report), "properties");
      && Get(p, "votesUp").Number? && Get(p, "votesDown").Number?
      && (!Truthy(Get(Lookup(report, "votes"), "up")) ==> Get(p, "votesUp") == Int(0))
      && (!Truthy(Get(Lookup(report, "votes"), "down")) ==> Get(p, "votesDown") == Int(0))
  {
    var ps := FeatureProperties(report);
    LookupFirst(Feature(report).members, "properties", 2);
    LookupFirst(ps, "votesUp", 11);
    LookupFirst(ps, "votesDown", 12);
  }

  /* ---------------------------------------------------- Browser exports */

  /** What the browser hands to its download helper. */
  datatype Download = Download(content: Json, fileName: string, mimeType: string)

  /** `sasquatch-reports-<YYYY-MM-DD>.<extension>` from the ISO text of the current time. */
  function ExportFileName(nowIso: string, extension: string): (name: string)
    ensures |nowIso| >= 10 ==> name == "sasquatch-reports-" + nowIso[..10] + "." + extension
  {
    "sasquatch-reports-" + (if |nowIso| >= 10 then nowIso[..10] else nowIso) + "." + extension
  }

  const ClientCsvHeaders: seq<string> := ["id", "datasetKey", "title", "isoDate", "countryCode", "stateCode", "countyName", "lat", "lng", "sourceUrl"]

  /** The ten values of the browser's CSV row; the region and link values fall back to empty when falsy. */
  function ClientValues(report: Doc): (vs: seq<Json>)
    ensures |vs| == |ClientCsvHeaders|
  {
    [
      Lookup(report, "id"),
      Lookup(report, "datasetKey"),
      Lookup(report, "title"),
      Lookup(report, "isoDate"),
      Or(Lookup(report, "countryCode"), Str("")),
      Or(Lookup(report, "stateCode"), Str("")),
      Or(Lookup(report, "countyName"), Str("")),
      Coalesce(Coordinate(report, "lat"), Str("")),
      Coalesce(Coordinate(report, "lng"), Str("")),
      Or(Lookup(report, "sourceUrl"), Str(""))
    ]
  }

  function ClientCells(report: Doc): (cells: seq<string>)
    ensures |cells| == |ClientCsvHeaders|
  {
    Seqs.Map(ClientValues(report), CsvText)
  }

  function ClientLine(report: Doc): string
  {
    EncodeRecord(ClientCells(report))
  }

  function ClientCsv(reports: seq<Doc>): string
  {
    Join([Join(ClientCsvHeaders, ",")] + Seqs.Map(reports, ClientLine), "\n")
  }

  /** `exportReportsAsCsv`: the CSV text, the dated file name and the CSV media type. */
  function ExportReportsAsCsv(reports: seq<Doc>, nowIso: string): (d: Download)
    ensures d.content.Str? && d.mimeType == "text/csv;charset=utf-8"
  {
    Download(Str(ClientCsv(reports)), ExportFileName(nowIso, "csv"), "text/csv;charset=utf-8")
  }

  /** The browser's CSV reads back as its header row and each report's ten cells. */
  lemma ClientCsvRoundTrip(reports: seq<Doc>)
    ensures ParseCsv(ClientCsv(reports)) == Some([ClientCsvHeaders] + Seqs.Map(reports, ClientCells))
  {
    PlainHeaders(ClientCsvHeaders);
    LinesOfCells(reports, ClientCells, ClientLine);
    TableRoundTrip(ClientCsvHeaders, Seqs.Map(reports, ClientCells));
  }

  /** A falsy region or link field (missing, null, empty, zero or false) gives an empty cell in the browser's CSV. */
  lemma ClientFallbackCells(report: Doc)
    ensures !Truthy(Lookup(report, "countryCode")) ==> ClientCells(report)[4] == ""
    ensures !Truthy(Lookup(report, "stateCode")) ==> ClientCells(report)[5] == ""
    ensures !Truthy(Lookup(report, "countyName")) ==> ClientCells(report)[6] == ""
    ensures !Truthy(Lookup(report, "sourceUrl")) ==> ClientCells(report)[9] == ""
  {
    var vs := ClientValues(report);
    assert ClientCells(report)[4] == CsvText(vs[4]) && ClientCells(report)[5] == CsvText(vs[5]);
    assert ClientCells(report)[6] == CsvText(vs[6]) && ClientCells(report)[9] == CsvText(vs[9]);
  }

  function ClientFeature(report: Doc): Json
  {
    Obj([
      ("type", Str("Feature")),
      ("geometry", Point(report)),
      ("properties", Obj([
        ("id", Lookup(report, "id")),
        ("datasetKey", Lookup(report, "datasetKey")),
        ("title", Lookup(report, "title")),
        ("isoDate", Lookup(report, "isoDate")),
        ("sourceUrl", Or(Lookup(report, "sourceUrl"), Null))
      ]))
    ])
  }

  function ClientGeoJson(reports: seq<Doc>): Json
  {
    Obj([("type", Str("FeatureCollection")), ("features", Arr(Seqs.Map(Seqs.Filter(reports, HasFinitePosition), ClientFeature)))])
  }

  /** `exportReportsAsGeoJson`: the collection, the dated file name and the GeoJSON media type. */
  function ExportReportsAsGeoJson(reports: seq<Doc>, nowIso: string): (d: Download)
    ensures d.content.Obj? && d.mimeType == "application/geo+json;charset=utf-8"
  {
    Download(ClientGeoJson(reports), ExportFileName(nowIso, "geojson"), "application/geo+json;charset=utf-8")
  }

  /**
   * The browser keeps the same reports as the server (those with a finite
   * position, in order) and places each at the same point; it carries fewer
   * properties, with a falsy link as null.
   */
  lemma ClientGeoJsonMatchesServer(reports: seq<Doc>)
    ensures |Features(ClientGeoJson(reports))| == |Features(ReportsToGeoJson(reports))|
    ensures forall i :: 0 <= i < |Features(ClientGeoJson(reports))| ==>
      Get(Features(ClientGeoJson(reports))[i], "geometry") == Get(Features(ReportsToGeoJson(reports))[i], "geometry")
  {
    var kept := Seqs.Filter(reports, HasFinitePosition);
    CollectionFeatures(Seqs.Map(kept, ClientFeature));
    CollectionFeatures(Seqs.Map(kept, Feature));
    forall i | 0 <= i < |kept|
      ensures Get(ClientFeature(kept[i]), "geometry") == Get(Feature(kept[i]), "geometry")
    {
      LookupFirst(Feature(kept[i]).members, "geometry", 1);
      LookupFirst(ClientFeature(kept[i]).members, "geometry", 1);
    }
  }

  lemma ClientFeatureLink(report: Doc)
    ensures var p := Get(ClientFeature(report), "properties");
      && (Truthy(Lookup(report, "sourceUrl")) ==> Get(p, "sourceUrl") == Lookup(report, "sourceUrl"))
      && (!Truthy(Lookup(report, "sourceUrl")) ==> Get(p, "sourceUrl") == Null)
  {
    var p := Get(ClientFeature(report), "properties");
    LookupFirst(ClientFeature(report).members, "properties", 2);
    LookupFirst(p.members, "sourceUrl", 4);
  }
}

=== FILE: json.dfy ===
/**
 * JSON-shaped JavaScript values as the backend handles them: documents,
 * request bodies and query objects. Objects are association lists in
 * insertion order, which is the order `Object.entries` and spreads follow for
 * non-numeric keys.
 */
module Json {
  import opened Wrappers
  import opened Numbers
  import opened Text

  datatype Json =
    | Undefined
    | Null
    | Bool(b: bool)
    | Number(n: Num)
    | Str(s: string)
    | Arr(items: seq<Json>)
    | Obj(members: seq<(string, Json)>)

  /** JavaScript truthiness: false, 0, NaN, "", null and undefined are falsy. */
  predicate Truthy(v: Json)
  {
    match v
    case Undefined => false
    case Null => false
    case Bool(b) => b
    case Number(n) => !n.NaN? && n != Finite(0.0)
    case Str(s) => s != ""
    case Arr(_) => true
    case Obj(_) => true
  }

  /** `null` and `undefined`, the values whose properties cannot be read. */
  predicate Nullish(v: Json)
  {
    v.Null? || v.Undefined?
  }

  /** Item `k` is the first null or undefined one. */
  predicate FirstNullish(items: seq<Json>, k: int)
  {
    0 <= k < |items| && Nullish(items[k]) && forall j :: 0 <= j < k ==> !Nullish(items[j])
  }

  /** `a || b` */
  function Or(a: Json, b: Json): Json
  {
    if Truthy(a) then a else b
  }

  /** `a ?? b` */
  function Coalesce(a: Json, b: Json): Json
  {
    if Nullish(a) then b else a
  }

  /** `Number.isFinite(v)`: true only for a number value, with no coercion of strings. */
  predicate IsFiniteNumber(v: Json)
  {
    v.Number? && v.n.Finite?
  }

  function Int(x: int): Json
  {
    Number(Finite(x as real))
  }

  /** `String(v)`; an array renders its elements joined by commas, null and undefined as empty. */
  function ToJsString(v: Json): string
  {
    match v
    case Undefined => "undefined"
    case Null => "null"
    case Bool(b) => if b then "true" else "false"
    case Number(n) => NumberToString(n)
    case Str(s) => s
    case Arr(items) => JoinItems(items)
    case Obj(_) => "[object Object]"
  }

  function JoinItems(items: seq<Json>): string
    decreases items
  {
    if items == [] then ""
    else
      var first := if items[0].Null? || items[0].Undefined? then "" else ToJsString(items[0]);
      if |items| == 1 then first else first + "," + JoinItems(items[1..])
  }

  /** `Number(v)` (ECMA-262 ToNumber) on a JSON value. */
  function ToNumber(v: Json): Num
  {
    match v
    case Undefined => NaN
    case Null => Finite(0.0)
    case Bool(b) => if b then Finite(1.0) else Finite(0.0)
    case Number(n) => n
    case Str(s) => StringToNumber(s)
    case Arr(_) => StringToNumber(ToJsString(v))
    case Obj(_) => NaN
  }

  /**
   * What `for...of` and an array spread visit: an array's elements, or a
   * string's characters (as UTF-16 code units); `None` for a value that is
   * not iterable.
   */
  function Iterate(v: Json): (r: Option<seq<Json>>)
    ensures v.Arr? ==> r == Some(v.items)
    ensures r.Some? <==> v.Arr? || v.Str?
    ensures v.Str? ==> r.Some? && |r.value| == |v.s|
  {
    match v
    case Arr(items) => Some(items)
    case Str(s) => Some(seq(|s|, i requires 0 <= i < |s| => Str([s[i]])))
    case _ => None
  }

  /**
   * `Object.entries(v)`: an object's members, an array's or a string's
   * indices with their elements, nothing for any other value.
   */
  function Entries(v: Json): (r: seq<(string, Json)>)
    ensures v.Obj? ==> r == v.members
    ensures v.Arr? ==> |r| == |v.items| && forall i :: 0 <= i < |r| ==> r[i] == (NatToDigits(i), v.items[i])
    ensures !(v.Obj? || v.Arr? || v.Str?) ==> r == []
  {
    match v
    case Obj(ms) => ms
    case Arr(items) => seq(|items|, i requires 0 <= i < |items| => (NatToDigits(i), items[i]))
    case Str(s) => seq(|s|, i requires 0 <= i < |s| => (NatToDigits(i), Str([s[i]])))
    case _ => []
  }

  /** Keys in order. */
  function Keys(ms: seq<(string, Json)>): (ks: seq<string>)
    ensures |ks| == |ms|
    ensures forall i :: 0 <= i < |ms| ==> ks[i] == ms[i].0
  {
    if ms == [] then [] else [ms[0].0] + Keys(ms[1..])
  }

  /** The value of the first member with key `k`, `undefined` when there is none. */
  function Lookup(ms: seq<(string, Json)>, k: string): Json
  {
    if ms == [] then Undefined
    else if ms[0].0 == k then ms[0].1
    else Lookup(ms[1..], k)
  }

  /** A key no member has reads as `undefined`. */
  lemma {:induction false} LookupAbsent(ms: seq<(string, Json)>, k: string)
    requires k !in Keys(ms)
    ensures Lookup(ms, k) == Undefined
  {
    if ms != [] {
      assert Keys(ms) == [ms[0].0] + Keys(ms[1..]);
      LookupAbsent(ms[1..], k);
    }
  }

  /** A key that is present reads the value of one of its members. */
  lemma {:induction false} LookupMember(ms: seq<(string, Json)>, k: string)
    ensures k in Keys(ms) ==> (k, Lookup(ms, k)) in ms
  {
    if ms != [] && ms[0].0 != k {
      LookupMember(ms[1..], k);
      assert Keys(ms) == [ms[0].0] + Keys(ms[1..]);
    }
  }

  /** The value at the first position holding the key is what a lookup finds. */
  lemma {:induction false} LookupFirst(ms: seq<(string, Json)>, k: string, i: nat)
    requires i < |ms| && ms[i].0 == k
    requires forall j :: 0 <= j < i ==> ms[j].0 != k
    ensures Lookup(ms, k) == ms[i].1
  {
    if i > 0 {
      LookupFirst(ms[1..], k, i - 1);
    }
  }

  /** Property access `v[k]`: `undefined` on anything that is not an object. */
  function Get(v: Json, k: string): Json
  {
    if v.Obj? then Lookup(v.members, k) else Undefined
  }

  /** JavaScript objects never hold the same key twice. */
  predicate UniqueKeys(ms: seq<(string, Json)>)
  {
    ms == [] || (ms[0].0 !in Keys(ms[1..]) && UniqueKeys(ms[1..]))
  }

  /** Members whose keys differ pairwise have unique keys. */
  lemma {:induction false} DistinctKeysUnique(ms: seq<(string, Json)>)
    requires forall i, j :: 0 <= i < j < |ms| ==> ms[i].0 != ms[j].0
    ensures UniqueKeys(ms)
  {
    if ms != [] {
      DistinctKeysUnique(ms[1..]);
    }
  }

  /**
   * Assignment `o[k] = x`: an existing member keeps its position and takes
   * the new value, a new key is appended.
   */
  function Set(ms: seq<(string, Json)>, k: string, x: Json): (r: seq<(string, Json)>)
    ensures k in Keys(ms) ==> Keys(r) == Keys(ms)
    ensures k !in Keys(ms) ==> r == ms + [(k, x)]
  {
    if ms == [] then [(k, x)]
    else if ms[0].0 == k then [(k, x)] + ms[1..]
    else
      assert ms == [ms[0]] + ms[1..];
      [ms[0]] + Set(ms[1..], k, x)
  }

  /** After an assignment the key reads back the new value and every other key is unaffected. */
  lemma {:induction false} SetLookup(ms: seq<(string, Json)>, k: string, x: Json, k2: string)
    ensures Lookup(Set(ms, k, x), k2) == if k2 == k then x else Lookup(ms, k2)
  {
    if ms != [] && ms[0].0 != k {
      SetLookup(ms[1..], k, x, k2);
      assert Set(ms, k, x)[1..] == Set(ms[1..], k, x);
    }
  }

  /** An assignment adds at most its own key. */
  lemma {:induction false} SetKeys(ms: seq<(string, Json)>, k: string, x: Json, k2: string)
    ensures k2 in Keys(Set(ms, k, x)) <==> k2 == k || k2 in Keys(ms)
  {
    if ms != [] && ms[0].0 != k {
      SetKeys(ms[1..], k, x, k2);
      assert Set(ms, k, x)[1..] == Set(ms[1..], k, x);
      assert Keys(Set(ms, k, x)) == [ms[0].0] + Keys(Set(ms[1..], k, x));
      assert Keys(ms) == [ms[0].0] + Keys(ms[1..]);
    } else if ms != [] {
      assert Keys(Set(ms, k, x)) == [k] + Keys(ms[1..]);
      assert Keys(ms) == [k] + Keys(ms[1..]);
    }
  }

  lemma {:induction false} SetUnique(ms: seq<(string, Json)>, k: string, x: Json)
    requires UniqueKeys(ms)
    ensures UniqueKeys(Set(ms, k, x))
  {
    if ms != [] && ms[0].0 != k {
      SetUnique(ms[1..], k, x);
      var r := Set(ms, k, x);
      assert r[1..] == Set(ms[1..], k, x);
      assert Keys(r[1..]) == Keys(Set(ms[1..], k, x));
    } else if ms != [] {
      assert Keys(Set(ms, k, x)[1..]) == Keys(ms[1..]);
    }
  }

  /** The spread `{...a, ...b}` on member lists: the members of `b` assigned in order onto `a`. */
  function Merge(a: seq<(string, Json)>, b: seq<(string, Json)>): seq<(string, Json)>
    decreases |b|
  {
    if b == [] then a
    else Merge(Set(a, b[0].0, b[0].1), b[1..])
  }

  /** A spread of a single member is an assignment. */
  lemma MergeOne(a: seq<(string, Json)>, k: string, x: Json)
    ensures Merge(a, [(k, x)]) == Set(a, k, x)
  {
    assert [(k, x)][1..] == [];
  }

  /**
   * Spread of two values into an object literal, `{...a, ...b}`: the own
   * members of each, in order, so an array or a string contributes its
   * indices and `null`, `undefined`, numbers and booleans add nothing.
   */
  function Spread(a: Json, b: Json): (r: Json)
    ensures r.Obj?
  {
    Obj(Merge(Entries(a), Entries(b)))
  }

  /** After a spread, a key takes its value from the right-hand object when that has it, else from the left. */
  lemma {:induction false} MergeLookup(a: seq<(string, Json)>, b: seq<(string, Json)>, k: string)
    requires UniqueKeys(b)
    ensures Lookup(Merge(a, b), k) == if k in Keys(b) then Lookup(b, k) else Lookup(a, k)
    decreases |b|
  {
    if b != [] {
      MergeLookup(Set(a, b[0].0, b[0].1), b[1..], k);
      SetLookup(a, b[0].0, b[0].1, k);
    }
  }

  lemma {:induction false} MergeUnique(a: seq<(string, Json)>, b: seq<(string, Json)>)
    requires UniqueKeys(a)
    ensures UniqueKeys(Merge(a, b))
    decreases |b|
  {
    if b != [] {
      SetUnique(a, b[0].0, b[0].1);
      MergeUnique(Set(a, b[0].0, b[0].1), b[1..]);
    }
  }

  /** The members of the left object keep their places: a spread only appends new keys. */
  lemma {:induction false} MergeKeepsOrder(a: seq<(string, Json)>, b: seq<(string, Json)>)
    ensures |Merge(a, b)| >= |a|
    ensures Keys(Merge(a, b))[..|a|] == Keys(a)
    decreases |b|
  {
    if b != [] {
      var a' := Set(a, b[0].0, b[0].1);
      MergeKeepsOrder(a', b[1..]);
      assert Keys(a')[..|a|] == Keys(a);
    }
  }

  /** A spread reads each key from an object literal's members when it has that key, else from the left-hand value's own members. */
  lemma SpreadObjGet(a: Json, ms: seq<(string, Json)>, k: string)
    requires UniqueKeys(ms)
    ensures Get(Spread(a, Obj(ms)), k) == if k in Keys(ms) then Lookup(ms, k) else Lookup(Entries(a), k)
  {
    SpreadGet(a, Obj(ms), k);
  }

  /** A spread reads each key from the right-hand value's own members when it has that key, else from the left-hand value's. */
  lemma SpreadGet(a: Json, b: Json, k: string)
    requires UniqueKeys(Entries(b))
    ensures Get(Spread(a, b), k) == if k in Keys(Entries(b)) then Lookup(Entries(b), k) else Lookup(Entries(a), k)
  {
    MergeLookup(Entries(a), Entries(b), k);
  }

  /** An object literal whose members all have different keys has unique keys. */
  lemma {:induction false} DistinctUnique(ms: seq<(string, Json)>)
    requires forall i, j :: 0 <= i < j < |ms| ==> ms[i].0 != ms[j].0
    ensures UniqueKeys(ms)
  {
    if ms != [] {
      assert forall i :: 0 <= i < |ms| - 1 ==> ms[1..][i] == ms[i + 1];
      DistinctUnique(ms[1..]);
    }
  }

  /** `{ k1: src.k1, k2: src.k2, ... }`: the listed keys copied from a source object, in the listed order. */
  function Pick(src: seq<(string, Json)>, keys: seq<string>): (r: seq<(string, Json)>)
    ensures |r| == |keys|
    ensures forall i :: 0 <= i < |keys| ==> r[i] == (keys[i], Lookup(src, keys[i]))
  {
    if keys == [] then [] else [(keys[0], Lookup(src, keys[0]))] + Pick(src, keys[1..])
  }

  /** A copied key reads the source's value, whatever members follow the copied ones. */
  lemma {:induction false} PickLookup(src: seq<(string, Json)>, keys: seq<string>, rest: seq<(string, Json)>, k: string)
    requires k in keys
    ensures Lookup(Pick(src, keys) + rest, k) == Lookup(src, k)
  {
    if keys[0] != k {
      var ms := Pick(src, keys) + rest;
      assert ms[1..] == Pick(src, keys[1..]) + rest;
      PickLookup(src, keys[1..], rest, k);
    }
  }

  /** In an object with unique keys, every member's key reads that member's value. */
  lemma {:induction false} LookupAt(ms: seq<(string, Json)>, i: nat)
    requires UniqueKeys(ms) && i < |ms|
    ensures Lookup(ms, ms[i].0) == ms[i].1
  {
    if i > 0 {
      assert Keys(ms[1..])[i - 1] == ms[i].0;
      LookupAt(ms[1..], i - 1);
    }
  }

  /** A second assignment to the same key overrides the first: `o[k] = x; o[k] = y` is `o[k] = y`. */
  lemma {:induction false} SetTwice(ms: seq<(string, Json)>, k: string, x: Json, y: Json)
    ensures Set(Set(ms, k, x), k, y) == Set(ms, k, y)
  {
    if ms != [] && ms[0].0 != k {
      SetTwice(ms[1..], k, x, y);
    }
  }
}

=== FILE: logger.dfy ===
/**
 * Redaction of log payloads: arrays are sanitized element by element, and
 * objects lose every key that mentions a token, a secret or a password, and
 * the key `stack`, at every depth.
 */
module Logger {
  import opened Text
  import opened Json
  import Seqs

  /** A key that never reaches the logs (compared in lower case). */
  predicate Redacted(key: string)
  {
    var k := ToLower(key);
    Contains(k, "token") || Contains(k, "secret") || Contains(k, "password") || k == "stack"
  }

  /** The sanitized value: the reference definition of `sanitizeLogValue`. */
  function Sanitize(v: Json): Json
    decreases v, 1
  {
    if !Truthy(v) || !(v.Arr? || v.Obj?) then v
    else if v.Arr? then Arr(SanitizeItems(v, 0))
    else Obj(SanitizeMembers(v, 0))
  }

  /** The sanitized elements of array `v` from index `i` on. */
  function SanitizeItems(v: Json, i: nat): (r: seq<Json>)
    requires v.Arr? && i <= |v.items|
    ensures |r| == |v.items| - i
    ensures forall j :: 0 <= j < |r| ==> r[j] == Sanitize(v.items[i + j])
    decreases v, 0, |v.items| - i
  {
    if i == |v.items| then []
    else [Sanitize(v.items[i])] + SanitizeItems(v, i + 1)
  }

  /** The kept, sanitized members of object `v` from index `i` on. */
  function SanitizeMembers(v: Json, i: nat): seq<(string, Json)>
    requires v.Obj? && i <= |v.members|
    decreases v, 0, |v.members| - i
  {
    if i == |v.members| then []
    else if Redacted(v.members[i].0) then SanitizeMembers(v, i + 1)
    else [(v.members[i].0, Sanitize(v.members[i].1))] + SanitizeMembers(v, i + 1)
  }

  /** No redacted key anywhere in the value. */
  predicate NoRedactedKeys(v: Json)
    decreases v
  {
    match v
    case Arr(items) => forall i :: 0 <= i < |items| ==> NoRedactedKeys(items[i])
    case Obj(ms) => forall i :: 0 <= i < |ms| ==> !Redacted(ms[i].0) && NoRedactedKeys(ms[i].1)
    case _ => true
  }

  /**
   * `sanitizeLogValue`: primitives and falsy values come back unchanged,
   * arrays are mapped element by element, and objects are rebuilt in a loop
   * that skips the redacted keys.
   */
  method SanitizeLogValue(v: Json) returns (r: Json)
    ensures r == Sanitize(v)
    decreases v
  {
    if !Truthy(v) || !(v.Arr? || v.Obj?) {
      return v;
    }
    if v.Arr? {
      var out: seq<Json> := [];
      var i := 0;
      while i < |v.items|
        invariant 0 <= i <= |v.items|
        invariant SanitizeItems(v, 0) == out + SanitizeItems(v, i)
      {
        var x := SanitizeLogValue(v.items[i]);
        out := out + [x];
        i := i + 1;
      }
      return Arr(out);
    }
    var sanitized: seq<(string, Json)> := [];
    var i := 0;
    while i < |v.members|
      invariant 0 <= i <= |v.members|
      invariant SanitizeMembers(v, 0) == sanitized + SanitizeMembers(v, i)
    {
      var (key, entry) := v.members[i];
      if !Redacted(key) {
        var x := SanitizeLogValue(entry);
        sanitized := sanitized + [(key, x)];
      }
      i := i + 1;
    }
    return Obj(sanitized);
  }

  /** Falsy values and non-objects pass through; arrays keep their length and order. */
  lemma SanitizeShape(v: Json)
    ensures !Truthy(v) || !(v.Arr? || v.Obj?) ==> Sanitize(v) == v
    ensures v.Arr? ==>
      && Sanitize(v).Arr? && |Sanitize(v).items| == |v.items|
      && forall i :: 0 <= i < |v.items| ==> Sanitize(v).items[i] == Sanitize(v.items[i])
    ensures v.Obj? ==> Sanitize(v).Obj?
  {
    if v.Arr? {
      var r := SanitizeItems(v, 0);
      assert forall i :: 0 <= i < |v.items| ==> r[i] == Sanitize(v.items[0 + i]);
    }
  }

  /** An object keeps exactly its non-redacted keys, in order. */
  lemma {:induction false} SanitizeMembersKeys(v: Json, i: nat)
    requires v.Obj? && i <= |v.members|
    ensures Keys(SanitizeMembers(v, i)) == Seqs.Filter(Keys(v.members[i..]), (key: string) => !Redacted(key))
    decreases |v.members| - i
  {
    if i < |v.members| {
      SanitizeMembersKeys(v, i + 1);
      assert Keys(v.members[i..]) == [v.members[i].0] + Keys(v.members[i + 1..]);
    }
  }

  /** Each non-redacted key reads its value sanitized; a redacted key reads as missing. */
  lemma {:induction false} SanitizeMembersLookup(v: Json, i: nat, k: string)
    requires v.Obj? && i <= |v.members|
    ensures !Redacted(k) ==> Lookup(SanitizeMembers(v, i), k) == Sanitize(Lookup(v.members[i..], k))
    ensures Redacted(k) ==> Lookup(SanitizeMembers(v, i), k) == Undefined
    decreases |v.members| - i
  {
    if i < |v.members| {
      SanitizeMembersLookup(v, i + 1, k);
      assert v.members[i..][1..] == v.members[i + 1..];
    }
  }

  /** The output never holds a redacted key, at any depth. */
  lemma {:induction false} SanitizeRedacts(v: Json)
    ensures NoRedactedKeys(Sanitize(v))
    decreases v, 1
  {
    if !Truthy(v) || !(v.Arr? || v.Obj?) {
      SanitizeFixesClean(v);
    } else if v.Arr? {
      var r := SanitizeItems(v, 0);
      forall j | 0 <= j < |r|
        ensures NoRedactedKeys(r[j])
      {
        SanitizeRedacts(v.items[0 + j]);
      }
    } else {
      SanitizeMembersRedact(v, 0);
      assert Sanitize(v) == Obj(SanitizeMembers(v, 0));
    }
  }

  /** Every member's key is kept and its value is clean. */
  predicate CleanMembers(ms: seq<(string, Json)>)
  {
    forall j :: 0 <= j < |ms| ==> !Redacted(ms[j].0) && NoRedactedKeys(ms[j].1)
  }

  lemma {:induction false} SanitizeMembersRedact(v: Json, i: nat)
    requires v.Obj? && i <= |v.members|
    ensures CleanMembers(SanitizeMembers(v, i))
    decreases v, 0, |v.members| - i
  {
    if i < |v.members| {
      SanitizeMembersRedact(v, i + 1);
      var rest := SanitizeMembers(v, i + 1);
      if !Redacted(v.members[i].0) {
        SanitizeRedacts(v.members[i].1);
        var r := SanitizeMembers(v, i);
        assert r == [(v.members[i].0, Sanitize(v.members[i].1))] + rest;
        forall j | 0 <= j < |r|
          ensures !Redacted(r[j].0) && NoRedactedKeys(r[j].1)
        {
          if j > 0 {
            assert r[j] == rest[j - 1];
          }
        }
      }
    }
  }

  /** A primitive, or anything falsy, has no keys at all. */
  lemma SanitizeFixesClean(v: Json)
    requires !Truthy(v) || !(v.Arr? || v.Obj?)
    ensures NoRedactedKeys(v)
  {
  }

  /** A value with no redacted key is left exactly as it is. */
  lemma {:induction false} CleanUnchanged(v: Json)
    requires NoRedactedKeys(v)
    ensures Sanitize(v) == v
    decreases v, 1
  {
    if !Truthy(v) || !(v.Arr? || v.Obj?) {
    } else if v.Arr? {
      var r := SanitizeItems(v, 0);
      forall j | 0 <= j < |r|
        ensures r[j] == v.items[j]
      {
        CleanUnchanged(v.items[0 + j]);
      }
      assert r == v.items;
    } else {
      CleanMembersUnchanged(v, 0);
      assert v.members[0..] == v.members;
    }
  }

  lemma {:induction false} CleanMembersUnchanged(v: Json, i: nat)
    requires v.Obj? && i <= |v.members| && NoRedactedKeys(v)
    ensures SanitizeMembers(v, i) == v.members[i..]
    decreases v, 0, |v.members| - i
  {
    if i < |v.members| {
      CleanMembersUnchanged(v, i + 1);
      CleanUnchanged(v.members[i].1);
      assert v.members[i..] == [v.members[i]] + v.members[i + 1..];
    }
  }

  /** Sanitizing twice is the same as sanitizing once. */
  lemma SanitizeIdempotent(v: Json)
    ensures Sanitize(Sanitize(v)) == Sanitize(v)
  {
    SanitizeRedacts(v);
    CleanUnchanged(Sanitize(v));
  }
}

=== FILE: map_ui.dfy ===
/**
 * The map's UI state: which datasets are shown, the three overlay toggles
 * and the colour mode, with the reducers that update it in place.
 */
module MapUi {
  import opened Wrappers
  import opened Json
  import opened Errors

  const InitialVisibility: seq<(string, Json)> := [("bfro", Bool(true)), ("woodape", Bool(false)), ("kilmury", Bool(false))]

  /** The colour mode `setColorMode` stores: dark only for the exact text `dark`, light for anything else. */
  function ColorModeFor(payload: Json): (mode: string)
    ensures mode == "dark" <==> payload == Str("dark")
    ensures mode == "light" <==> payload != Str("dark")
  {
    if payload == Str("dark") then "dark" else "light"
  }

  /** The colour mode `toggleColorMode` stores: light after dark, dark after anything else. */
  function Toggled(mode: string): (next: string)
    ensures next == "light" <==> mode == "dark"
    ensures next == "dark" <==> mode != "dark"
  {
    if mode == "dark" then "light" else "dark"
  }

  predicate IsColorMode(mode: string)
  {
    mode == "light" || mode == "dark"
  }

  /** Toggling twice gives back any colour mode the state can hold. */
  lemma ToggleTwice(mode: string)
    requires IsColorMode(mode)
    ensures Toggled(Toggled(mode)) == mode
  {
  }

  /**
   * Showing or hiding one dataset sets that dataset's entry to the given
   * value and leaves every other dataset's entry as it was.
   */
  lemma VisibilityOfOthers(visibility: seq<(string, Json)>, key: string, visible: Json, other: string)
    ensures Lookup(Set(visibility, key, visible), key) == visible
    ensures other != key ==> Lookup(Set(visibility, key, visible), other) == Lookup(visibility, other)
  {
    SetLookup(visibility, key, visible, key);
    SetLookup(visibility, key, visible, other);
  }

  /** The error of destructuring a missing payload. */
  function PayloadMissing(): (e: Thrown)
    ensures e.Other?
  {
    TypeError("Cannot destructure property 'datasetKey' of 'action.payload' as it is undefined or null.")
  }

  /** The UI state slice. */
  class MapUiState {
    var datasetVisibility: seq<(string, Json)>
    var showHeatmap: bool
    var showCountyOverlay: bool
    var splitViewEnabled: bool
    var colorMode: string

    /** The colour mode is always light or dark. */
    predicate Valid()
      reads this
    {
      IsColorMode(colorMode)
    }

    /** `initialState`: only the BFRO dataset shown, every toggle off, light mode. */
    constructor()
      ensures Valid()
      ensures datasetVisibility == InitialVisibility
      ensures !showHeatmap && !showCountyOverlay && !splitViewEnabled
      ensures colorMode == "light"
    {
      datasetVisibility := InitialVisibility;
      showHeatmap := false;
      showCountyOverlay := false;
      splitViewEnabled := false;
      colorMode := "light";
    }

    /**
     * `setDatasetVisibility`: stores `visible` under the dataset key, as a
     * property name; a missing payload throws and changes nothing.
     */
    method SetDatasetVisibility(payload: Json) returns (error: Option<Thrown>)
      modifies this
      ensures payload.Undefined? || payload.Null? ==> error == Some(PayloadMissing()) && unchanged(this)
      ensures !(payload.Undefined? || payload.Null?) ==> (
        && error.None?
        && datasetVisibility == Set(old(datasetVisibility), ToJsString(Get(payload, "datasetKey")), Get(payload, "visible"))
        && showHeatmap == old(showHeatmap) && showCountyOverlay == old(showCountyOverlay)
        && splitViewEnabled == old(splitViewEnabled) && colorMode == old(colorMode))
    {
      if payload.Undefined? || payload.Null? {
        return Some(PayloadMissing());
      }
      var datasetKey, visible := Get(payload, "datasetKey"), Get(payload, "visible");
      datasetVisibility := Set(datasetVisibility, ToJsString(datasetKey), visible);
      return None;
    }

    /** `setShowHeatmap`: the payload's truthiness. */
    method SetShowHeatmap(payload: Json)
      modifies this
      ensures showHeatmap == Truthy(payload)
      ensures datasetVisibility == old(datasetVisibility) && showCountyOverlay == old(showCountyOverlay)
        && splitViewEnabled == old(splitViewEnabled) && colorMode == old(colorMode)
    {
      showHeatmap := Truthy(payload);
    }

    /** `setShowCountyOverlay`: the payload's truthiness. */
    method SetShowCountyOverlay(payload: Json)
      modifies this
      ensures showCountyOverlay == Truthy(payload)
      ensures datasetVisibility == old(datasetVisibility) && showHeatmap == old(showHeatmap)
        && splitViewEnabled == old(splitViewEnabled) && colorMode == old(colorMode)
    {
      showCountyOverlay := Truthy(payload);
    }

    /** `setSplitViewEnabled`: the payload's truthiness. */
    method SetSplitViewEnabled(payload: Json)
      modifies this
      ensures splitViewEnabled == Truthy(payload)
      ensures datasetVisibility == old(datasetVisibility) && showHeatmap == old(showHeatmap)
        && showCountyOverlay == old(showCountyOverlay) && colorMode == old(colorMode)
    {
      splitViewEnabled := Truthy(payload);
    }

    /** `setColorMode`: dark for `dark`, light for anything else. */
    method SetColorMode(payload: Json)
      modifies this
      ensures Valid()
      ensures colorMode == ColorModeFor(payload)
      ensures datasetVisibility == old(datasetVisibility) && showHeatmap == old(showHeatmap)
        && showCountyOverlay == old(showCountyOverlay) && splitViewEnabled == old(splitViewEnabled)
    {
      colorMode := if payload == Str("dark") then "dark" else "light";
    }

    /** `toggleColorMode`: flips between light and dark. */
    method ToggleColorMode()
      modifies this
      ensures Valid()
      ensures colorMode == Toggled(old(colorMode)) && colorMode != old(colorMode)
      ensures datasetVisibility == old(datasetVisibility) && showHeatmap == old(showHeatmap)
        && showCountyOverlay == old(showCountyOverlay) && splitViewEnabled == old(splitViewEnabled)
    {
      colorMode := if colorMode == "dark" then "light" else "dark";
    }
  }
}

=== FILE: normalization.dfy ===
/**
 * Normalization of the three raw sighting datasets (BFRO, Woodape,
 * Kilmury) into report documents of one shape, the three-tier date
 * fallback they share, and the default triage record.
 */
module Normalization {
  import opened Wrappers
  import opened Text
  import opened Numbers
  import opened Json
  import opened Errors
  import opened Calendar
  import opened Dates
  import opened Store
  import Seqs

  /** The `{ isoDate, timestampMs }` pair of a normalized date. */
  datatype NormalizedDate = NormalizedDate(isoDate: string, timestampMs: int)

  /** The members `...date` spreads into a report. */
  function DateMembers(d: NormalizedDate): Doc
  {
    [("isoDate", Str(d.isoDate)), ("timestampMs", Int(d.timestampMs))]
  }

  /** `new Date(t)` read back through `toISOString()` and `getTime()`. */
  function Render(t: int): (d: NormalizedDate)
    requires ValidTime(t)
    ensures d.timestampMs == t && ParseDateMs(d.isoDate) == Some(t)
  {
    ParseIsoString(t);
    NormalizedDate(ToIsoString(t), t)
  }

  /** What `toISOString` throws on an invalid date. */
  const InvalidTimeValue: Thrown := Other("RangeError: Invalid time value")

  /** The sentinel of the last tier. */
  const SentinelIso: string := "1900-01-01T00:00:00.000Z"

  /** The sentinel text parses to the sentinel instant. */
  lemma SentinelParses()
    ensures ValidTime(Sentinel1900) && ParseDateMs(SentinelIso) == Some(Sentinel1900)
  {
    SentinelRoundTrip();
  }

  /** `m - 1` on a number. */
  function Decrement(n: Num): Num
  {
    if n.Finite? then Finite(n.v - 1.0) else n
  }

  /** The month index: a number less one, or the parsed text (default `'1'`) less one. */
  function MonthIndex(month: Json): Num
  {
    if month.Number? then Decrement(month.n)
    else Decrement(ParseInt(ToJsString(Or(month, Str("1")))))
  }

  /** `Number.isNaN(m) ? 0 : Math.max(0, Math.min(11, m))` */
  function SafeMonthIndex(monthIndex: Num): (r: real)
    ensures 0.0 <= r <= 11.0
    ensures monthIndex.Finite? && 0.0 <= monthIndex.v <= 11.0 ==> r == monthIndex.v
  {
    match monthIndex
    case NaN => 0.0
    case PosInf => 11.0
    case NegInf => 0.0
    case Finite(v) => if v > 11.0 then 11.0 else if v < 0.0 then 0.0 else v
  }

  /** `Number.parseInt(String(day || 1), 10)` */
  function DayOfMonth(day: Json): Num
  {
    ParseInt(ToJsString(Or(day, Int(1))))
  }

  /** The second tier: `Date.UTC(year, safeMonthIndex, day)`. */
  function PartsTime(dateParts: Json): Option<int>
  {
    DateUtc(ToNumber(Get(dateParts, "year")),
      Finite(SafeMonthIndex(MonthIndex(Get(dateParts, "month")))),
      DayOfMonth(Get(dateParts, "day")),
      N(0), N(0), N(0), N(0))
  }

  /** The instant of the text, when it is a truthy value `Date.parse` accepts. */
  function ParsedTime(isoDateString: Json): Option<int>
  {
    if Truthy(isoDateString) then ParseDateMs(ToJsString(isoDateString)) else None
  }

  /**
   * `normalizeDate`: the parsed text when it parses; else, when the parts
   * have a truthy year, `Date.UTC` of the parts, which throws a RangeError
   * when out of range; else the 1900 sentinel. Whatever comes back, its
   * `timestampMs` is the instant its `isoDate` denotes, and only the middle
   * tier can fail.
   */
  function NormalizeDate(isoDateString: Json, dateParts: Json): (r: Result<NormalizedDate, Thrown>)
    ensures r.Ok? ==> ValidTime(r.value.timestampMs) && ParseDateMs(r.value.isoDate) == Some(r.value.timestampMs)
    ensures r.Err? ==> r.error == InvalidTimeValue && ParsedTime(isoDateString).None?
                       && Truthy(Get(dateParts, "year")) && PartsTime(dateParts).None?
  {
    var parsed := ParsedTime(isoDateString);
    if parsed.Some? then Ok(Render(parsed.value))
    else if Truthy(Get(dateParts, "year")) then
      var t := PartsTime(dateParts);
      if t.Some? then Ok(Render(t.value)) else Err(InvalidTimeValue)
    else
      SentinelParses();
      Ok(NormalizedDate(SentinelIso, Sentinel1900))
  }

  /**
   * The three tiers: a parseable text wins; otherwise a truthy year gives
   * the `Date.UTC` instant of the parts; otherwise the result is the
   * 1900-01-01T00:00:00.000Z sentinel, never the current time.
   */
  lemma NormalizeDateTiers(isoDateString: Json, dateParts: Json)
    ensures var r := NormalizeDate(isoDateString, dateParts);
      && (ParsedTime(isoDateString).Some? ==>
            r == Ok(NormalizedDate(ToIsoString(ParsedTime(isoDateString).value), ParsedTime(isoDateString).value)))
      && (ParsedTime(isoDateString).None? && Truthy(Get(dateParts, "year")) ==>
            (r.Ok? <==> PartsTime(dateParts).Some?) && (r.Ok? ==> r.value.timestampMs == PartsTime(dateParts).value))
      && (ParsedTime(isoDateString).None? && !Truthy(Get(dateParts, "year")) ==>
            r == Ok(NormalizedDate(SentinelIso, Sentinel1900)))
  {
    SentinelRoundTrip();
  }

  /** A numeric month m gives index m - 1, clamped into 0..11. */
  lemma MonthIndexOfNumber(m: int)
    ensures SafeMonthIndex(MonthIndex(Int(m))) == (if m < 1 then 0 else if m > 12 then 11 else m - 1) as real
  {
  }

  /** Without a month or a day, the month index is 0 (January) and the day is the 1st. */
  lemma MissingMonthAndDay()
    ensures SafeMonthIndex(MonthIndex(Undefined)) == 0.0
    ensures DayOfMonth(Undefined) == N(1)
  {
    assert ToJsString(Int(1)) == "1" by {
      IntegerRendering(1);
      assert NatToDigits(1) == "1";
    }
    ParseIntRoundTrip(1);
  }

  /** The three parts read back from an object of integral numbers, with the month clamped and a day of 0 read as the 1st. */
  lemma NumericParts(y: int, m: int, d: int)
    ensures var parts := Obj([("year", Int(y)), ("month", Int(m)), ("day", Int(d))]);
      && ToNumber(Get(parts, "year")) == N(y)
      && Finite(SafeMonthIndex(MonthIndex(Get(parts, "month")))) == N(if m < 1 then 0 else if m > 12 then 11 else m - 1)
      && DayOfMonth(Get(parts, "day")) == N(if d == 0 then 1 else d)
  {
    var ms := [("year", Int(y)), ("month", Int(m)), ("day", Int(d))];
    LookupFirst(ms, "year", 0);
    LookupFirst(ms, "month", 1);
    LookupFirst(ms, "day", 2);
    MonthIndexOfNumber(m);
    var dd := if d == 0 then 1 else d;
    assert Or(Int(d), Int(1)) == Int(dd);
    ParseIntRoundTrip(dd);
  }

  /**
   * Year, month and day given as integral numbers: the instant is the UTC
   * midnight of MakeDay on the clamped month, and a day of 0 counts as the 1st.
   */
  lemma PartsTimeOfNumbers(y: int, m: int, d: int)
    ensures var parts := Obj([("year", Int(y)), ("month", Int(m)), ("day", Int(d))]);
      var mi := if m < 1 then 0 else if m > 12 then 11 else m - 1;
      PartsTime(parts) == TimeClip(MakeDay(FullYear(y), mi, if d == 0 then 1 else d) * MsPerDay)
  {
    var parts := Obj([("year", Int(y)), ("month", Int(m)), ("day", Int(d))]);
    var mi := if m < 1 then 0 else if m > 12 then 11 else m - 1;
    var dd := if d == 0 then 1 else d;
    NumericParts(y, m, d);
    assert PartsTime(parts) == DateUtc(N(y), N(mi), N(dd), N(0), N(0), N(0), N(0));
    MidnightUtc(y, mi, dd);
  }

  /** `Date.UTC(y, m, d)` on integers is midnight of MakeDay. */
  lemma MidnightUtc(y: int, m: int, d: int)
    ensures DateUtc(N(y), N(m), N(d), N(0), N(0), N(0), N(0)) == TimeClip(MakeDay(FullYear(y), m, d) * MsPerDay)
  {
    DateUtcInts(y, m, d, 0, 0, 0, 0);
  }

  /** A year alone means midnight UTC on the 1st of January of that year. */
  lemma YearOnlyParts(y: int)
    ensures PartsTime(Obj([("year", Int(y))])) == TimeClip(DayFromYear(FullYear(y)) * MsPerDay)
  {
    var ms := [("year", Int(y))];
    LookupFirst(ms, "year", 0);
    assert Keys(ms) == ["year"];
    LookupAbsent(ms, "month");
    LookupAbsent(ms, "day");
    MissingMonthAndDay();
    YearStartUtc(y);
  }

  /**
   * A year alone (as the Woodape and Kilmury mappers pass it) gives the first
   * millisecond of that year, two-digit years meaning 19xx, and the UTC
   * calendar year of the result is that year; it fails only when that
   * instant is out of range.
   */
  lemma YearOnlyDate(y: int)
    requires y != 0
    ensures var r := NormalizeDate(Null, Obj([("year", Int(y))]));
      var start := DayFromYear(FullYear(y)) * MsPerDay;
      && (r.Ok? <==> ValidTime(start))
      && (r.Ok? ==> r.value.timestampMs == start && CivilOfDay(Day(start)).year == FullYear(y))
  {
    var parts := Obj([("year", Int(y))]);
    LookupFirst(parts.members, "year", 0);
    YearOnlyParts(y);
    PartsTier(parts);
    YearStartInYear(FullYear(y));
  }

  /** Without a text to parse, a truthy year selects the `Date.UTC` tier. */
  lemma PartsTier(parts: Json)
    requires Truthy(Get(parts, "year"))
    ensures var r := NormalizeDate(Null, parts);
      && (r.Ok? <==> PartsTime(parts).Some?)
      && (r.Ok? ==> r.value.timestampMs == PartsTime(parts).value)
  {
  }

  /** The first millisecond of a year lies in that year. */
  lemma YearStartInYear(y: int)
    ensures CivilOfDay(Day(DayFromYear(y) * MsPerDay)).year == y
  {
    YearRangeExact(y, DayFromYear(y) * MsPerDay);
    DayFromYearStep(y);
    MulMonotone(DayFromYear(y), DayFromYear(y + 1));
  }

  /** `Number.parseInt(s, 10) || undefined`: a non-zero integer, or undefined. */
  function YearValue(text: Json): (r: Json)
    ensures r.Undefined? || (r.Number? && r.n.Finite? && IsInteger(r.n.v) && r.n.v != 0.0)
  {
    Or(Number(ParseInt(ToJsString(text))), Undefined)
  }

  /* ---------------------------------------------------------- Report rows */

  /** The shape all three normalizers produce, field by field. */
  datatype ReportRow = ReportRow(
    id: string, externalId: string, datasetKey: string, title: Json, summary: Json,
    sourceUrl: Json, sourceName: string, position: Json, stateCode: Json, stateName: Json,
    countyName: Json, countryCode: string, sightingClass: Json, date: NormalizedDate)

  /** The row as a document, members in the order the normalizers write them. */
  function RowDoc(r: ReportRow): (d: Doc)
    ensures |d| == 15 && d[13..] == DateMembers(r.date)
  {
    [("id", Str(r.id)), ("externalId", Str(r.externalId)), ("datasetKey", Str(r.datasetKey)),
     ("title", r.title), ("summary", r.summary), ("sourceUrl", r.sourceUrl),
     ("sourceName", Str(r.sourceName)), ("position", r.position), ("stateCode", r.stateCode),
     ("stateName", r.stateName), ("countyName", r.countyName), ("countryCode", Str(r.countryCode)),
     ("sightingClass", r.sightingClass)]
    + DateMembers(r.date)
  }

  /** Every field of a row reads back from its document under its own key. */
  lemma RowDocReads(r: ReportRow)
    ensures Lookup(RowDoc(r), "id") == Str(r.id)
    ensures Lookup(RowDoc(r), "externalId") == Str(r.externalId)
    ensures Lookup(RowDoc(r), "datasetKey") == Str(r.datasetKey)
    ensures Lookup(RowDoc(r), "title") == r.title
    ensures Lookup(RowDoc(r), "summary") == r.summary
    ensures Lookup(RowDoc(r), "sourceUrl") == r.sourceUrl
    ensures Lookup(RowDoc(r), "sourceName") == Str(r.sourceName)
    ensures Lookup(RowDoc(r), "position") == r.position
    ensures Lookup(RowDoc(r), "stateCode") == r.stateCode
    ensures Lookup(RowDoc(r), "stateName") == r.stateName
    ensures Lookup(RowDoc(r), "countyName") == r.countyName
    ensures Lookup(RowDoc(r), "countryCode") == Str(r.countryCode)
    ensures Lookup(RowDoc(r), "sightingClass") == r.sightingClass
    ensures Lookup(RowDoc(r), "isoDate") == Str(r.date.isoDate)
    ensures Lookup(RowDoc(r), "timestampMs") == Int(r.date.timestampMs)
  {
    ReadsId(r);
    ReadsExternalId(r);
    ReadsDatasetKey(r);
    ReadsTitle(r);
    ReadsSummary(r);
    ReadsSourceUrl(r);
    ReadsSourceName(r);
    ReadsPosition(r);
    ReadsStateCode(r);
    ReadsStateName(r);
    ReadsCountyName(r);
    ReadsCountryCode(r);
    ReadsSightingClass(r);
    ReadsIsoDate(r);
    ReadsTimestampMs(r);
  }

  /** A normalized row never holds the same key twice. */
  lemma RowDocUniqueKeys(r: ReportRow)
    ensures UniqueKeys(RowDoc(r))
  {
    var d := RowDoc(r);
    var ks := ["id", "externalId", "datasetKey", "title", "summary", "sourceUrl", "sourceName", "position",
      "stateCode", "stateName", "countyName", "countryCode", "sightingClass", "isoDate", "timestampMs"];
    assert forall i :: 0 <= i < 15 ==> d[i].0 == ks[i];
    assert forall i, j :: 0 <= i < j < 15 ==> ks[i] != ks[j];
    DistinctKeysUnique(d);
  }

  /** Rows none of which holds the same key twice. */
  predicate UniqueRows(rows: seq<Doc>)
  {
    forall i :: 0 <= i < |rows| ==> UniqueKeys(rows[i])
  }

  lemma ReadsId(r: ReportRow)
    ensures Lookup(RowDoc(r), "id") == RowDoc(r)[0].1
  {
    LookupFirst(RowDoc(r), "id", 0);
  }

  lemma ReadsExternalId(r: ReportRow)
    ensures Lookup(RowDoc(r), "externalId") == RowDoc(r)[1].1
  {
    LookupFirst(RowDoc(r), "externalId", 1);
  }

  lemma ReadsDatasetKey(r: ReportRow)
    ensures Lookup(RowDoc(r), "datasetKey") == RowDoc(r)[2].1
  {
    LookupFirst(RowDoc(r), "datasetKey", 2);
  }

  lemma ReadsTitle(r: ReportRow)
    ensures Lookup(RowDoc(r), "title") == RowDoc(r)[3].1
  {
    LookupFirst(RowDoc(r), "title", 3);
  }

  lemma ReadsSummary(r: ReportRow)
    ensures Lookup(RowDoc(r), "summary") == RowDoc(r)[4].1
  {
    LookupFirst(RowDoc(r), "summary", 4);
  }

  lemma ReadsSourceUrl(r: ReportRow)
    ensures Lookup(RowDoc(r), "sourceUrl") == RowDoc(r)[5].1
  {
    LookupFirst(RowDoc(r), "sourceUrl", 5);
  }

  lemma ReadsSourceName(r: ReportRow)
    ensures Lookup(RowDoc(r), "sourceName") == RowDoc(r)[6].1
  {
    LookupFirst(RowDoc(r), "sourceName", 6);
  }

  lemma ReadsPosition(r: ReportRow)
    ensures Lookup(RowDoc(r), "position") == RowDoc(r)[7].1
  {
    LookupFirst(RowDoc(r), "position", 7);
  }

  lemma ReadsStateCode(r: ReportRow)
    ensures Lookup(RowDoc(r), "stateCode") == RowDoc(r)[8].1
  {
    LookupFirst(RowDoc(r), "stateCode", 8);
  }

  lemma ReadsStateName(r: ReportRow)
    ensures Lookup(RowDoc(r), "stateName") == RowDoc(r)[9].1
  {
    LookupFirst(RowDoc(r), "stateName", 9);
  }

  lemma ReadsCountyName(r: ReportRow)
    ensures Lookup(RowDoc(r), "countyName") == RowDoc(r)[10].1
  {
    LookupFirst(RowDoc(r), "countyName", 10);
  }

  lemma ReadsCountryCode(r: ReportRow)
    ensures Lookup(RowDoc(r), "countryCode") == RowDoc(r)[11].1
  {
    LookupFirst(RowDoc(r), "countryCode", 11);
  }

  lemma ReadsSightingClass(r: ReportRow)
    ensures Lookup(RowDoc(r), "sightingClass") == RowDoc(r)[12].1
  {
    LookupFirst(RowDoc(r), "sightingClass", 12);
  }

  lemma ReadsIsoDate(r: ReportRow)
    ensures Lookup(RowDoc(r), "isoDate") == RowDoc(r)[13].1
  {
    LookupFirst(RowDoc(r), "isoDate", 13);
  }

  lemma ReadsTimestampMs(r: ReportRow)
    ensures Lookup(RowDoc(r), "timestampMs") == RowDoc(r)[14].1
  {
    LookupFirst(RowDoc(r), "timestampMs", 14);
  }

  /* ---------------------------------------------------------------- BFRO */

  /** A BFRO report is dated from its timestamp alone, so the fallback never reaches the failing tier. */
  function BfroDate(report: Json): (d: NormalizedDate)
    ensures NormalizeDate(Get(report, "timestamp"), Null) == Ok(d)
  {
    NormalizeDate(Get(report, "timestamp"), Null).value
  }

  /** The fields of one BFRO row, given its date: the report's fields under the shared names. */
  function BfroFields(report: Json, stateCode: string, date: NormalizedDate): ReportRow
  {
    ReportRow(
      "bfro_" + ToJsString(Get(report, "bfroReportId")), ToJsString(Get(report, "bfroReportId")), "bfro",
      Or(Get(report, "name"), Str("BFRO report")), Or(Get(report, "name"), Str("")),
      Or(Get(report, "url"), Null), "BFRO", Or(Get(report, "position"), Null),
      Or(Or(Get(report, "state_abbrev"), Str(stateCode)), Null), Or(Get(report, "state"), Null),
      Null, "US", Or(Get(report, "sightingClass"), Null), date)
  }

  /** The row one BFRO report becomes; reading `timestamp` of null or undefined throws. */
  function BfroRow(report: Json, stateCode: string): Result<Doc, Thrown>
  {
    if Nullish(report) then Err(ReadError(report, "timestamp"))
    else Ok(RowDoc(BfroFields(report, stateCode, BfroDate(report))))
  }

  /** `BfroRow` for the reports of the group under `stateCode`. */
  function BfroRowIn(stateCode: string): Json -> Result<Doc, Thrown>
  {
    (report: Json) => BfroRow(report, stateCode)
  }

  /** The rows of one state's reports, in order, or the error of the first report that throws. */
  function GroupRows(reports: seq<Json>, stateCode: string): Result<seq<Doc>, Thrown>
  {
    MapOk(reports, BfroRowIn(stateCode))
  }

  /**
   * A group's rows succeed exactly when none of its reports is null or
   * undefined; row k is then the row of report k, and otherwise the error
   * is the read of `timestamp` on the first such report.
   */
  lemma GroupRowsAt(reports: seq<Json>, stateCode: string)
    ensures var r := GroupRows(reports, stateCode);
      && (r.Ok? <==> forall k :: 0 <= k < |reports| ==> !Nullish(reports[k]))
      && (r.Ok? ==> |r.value| == |reports|)
      && (r.Ok? ==> forall k :: 0 <= k < |reports| ==> r.value[k] == RowDoc(BfroFields(reports[k], stateCode, BfroDate(reports[k]))))
      && (r.Err? ==> exists k :: FirstNullish(reports, k) && r.error == ReadError(reports[k], "timestamp"))
  {
    assert forall k :: 0 <= k < |reports| ==> BfroRowIn(stateCode)(reports[k]) == BfroRow(reports[k], stateCode);
  }

  /** The reports of one group: `bfroReportsByState[stateCode] || []`, which must be iterable. */
  function GroupReports(group: Json): Option<seq<Json>>
  {
    Iterate(Or(group, Arr([])))
  }

  /** A group the loops get through: iterable, and without a null or undefined report. */
  predicate ReadableGroup(group: Json)
  {
    GroupReports(group).Some? && forall k :: 0 <= k < |GroupReports(group).value| ==> !Nullish(GroupReports(group).value[k])
  }

  /**
   * The rows of all groups in order, or the error of the first group that
   * throws: the TypeError of a group that is not iterable, or of its first
   * null or undefined report.
   */
  function BfroRows(groups: seq<(string, Json)>): Result<seq<Doc>, Thrown>
  {
    if groups == [] then Ok([])
    else
      var reports := GroupReports(groups[0].1);
      if reports.None? then Err(TypeError("stateReports is not iterable"))
      else
        var rows := GroupRows(reports.value, groups[0].0);
        if rows.Err? then Err(rows.error) else PrependOk(rows.value, BfroRows(groups[1..]))
  }

  /** The rows of the BFRO groups never repeat a key. */
  lemma {:induction false} BfroRowsUnique(groups: seq<(string, Json)>)
    ensures BfroRows(groups).Ok? ==> UniqueRows(BfroRows(groups).value)
  {
    if groups != [] {
      var reports := GroupReports(groups[0].1);
      if reports.Some? {
        var stateCode := groups[0].0;
        GroupRowsAt(reports.value, stateCode);
        var rows := GroupRows(reports.value, stateCode);
        if rows.Ok? {
          forall k | 0 <= k < |rows.value|
            ensures UniqueKeys(rows.value[k])
          {
            RowDocUniqueKeys(BfroFields(reports.value[k], stateCode, BfroDate(reports.value[k])));
          }
          BfroRowsUnique(groups[1..]);
        }
      }
    }
  }

  /** The groups `Object.keys(bfroReportsByState || {})` walks. */
  function StateGroups(bfroReportsByState: Json): seq<(string, Json)>
  {
    Entries(Or(bfroReportsByState, Obj([])))
  }

  /** The inner loop of `normalizeBfroReports`: one row pushed per report of a state, in order, until a report throws. */
  method NormalizeGroup(reports: seq<Json>, stateCode: string) returns (r: Result<seq<Doc>, Thrown>)
    ensures r == GroupRows(reports, stateCode)
  {
    var rows: seq<Doc> := [];
    var j := 0;
    assert reports[0..] == reports;
    if GroupRows(reports, stateCode).Ok? {
      assert [] + GroupRows(reports, stateCode).value == GroupRows(reports, stateCode).value;
    }
    while j < |reports|
      invariant 0 <= j <= |reports|
      invariant GroupRows(reports, stateCode) == PrependOk(rows, MapOk(reports[j..], BfroRowIn(stateCode)))
    {
      MapOkStep(reports, BfroRowIn(stateCode), j);
      var row := BfroRow(reports[j], stateCode);
      if row.Err? {
        return Err(row.error);
      }
      PrependOkTwice(rows, [row.value], MapOk(reports[j + 1..], BfroRowIn(stateCode)));
      rows := rows + [row.value];
      j := j + 1;
    }
    assert reports[j..] == [];
    assert rows + [] == rows;
    r := Ok(rows);
  }

  /**
   * `normalizeBfroReports`: a loop over the state groups, each group's
   * rows appended in turn; the first group that is not iterable, or the
   * first null or undefined report, throws.
   */
  method NormalizeBfroReports(bfroReportsByState: Json) returns (r: Result<seq<Doc>, Thrown>)
    ensures r == BfroRows(StateGroups(bfroReportsByState))
  {
    var groups := StateGroups(bfroReportsByState);
    var normalizedReports: seq<Doc> := [];
    var i := 0;
    assert groups[0..] == groups;
    if BfroRows(groups).Ok? {
      assert [] + BfroRows(groups).value == BfroRows(groups).value;
    }
    while i < |groups|
      invariant 0 <= i <= |groups|
      invariant BfroRows(groups) == PrependOk(normalizedReports, BfroRows(groups[i..]))
    {
      BfroRowsStep(groups, i);
      var stateReports := GroupReports(groups[i].1);
      if stateReports.None? {
        return Err(TypeError("stateReports is not iterable"));
      }
      var rows := NormalizeGroup(stateReports.value, groups[i].0);
      if rows.Err? {
        return Err(rows.error);
      }
      PrependOkTwice(normalizedReports, rows.value, BfroRows(groups[i + 1..]));
      normalizedReports := normalizedReports + rows.value;
      i := i + 1;
    }
    assert groups[i..] == [];
    assert normalizedReports + [] == normalizedReports;
    r := Ok(normalizedReports);
  }

  /** One step of the outer loop: the group at `i` either throws or contributes its rows ahead of the rest. */
  lemma BfroRowsStep(groups: seq<(string, Json)>, i: nat)
    requires i < |groups|
    ensures var reports := GroupReports(groups[i].1);
      BfroRows(groups[i..]) ==
        if reports.None? then Err(TypeError("stateReports is not iterable"))
        else
          var rows := GroupRows(reports.value, groups[i].0);
          if rows.Err? then Err(rows.error) else PrependOk(rows.value, BfroRows(groups[i + 1..]))
  {
    assert groups[i..][0] == groups[i];
    assert groups[i..][1..] == groups[i + 1..];
  }

  /** The number of reports over all groups. */
  function TotalReports(groups: seq<(string, Json)>): nat
  {
    if groups == [] then 0
    else
      var reports := GroupReports(groups[0].1);
      (if reports.Some? then |reports.value| else 0) + TotalReports(groups[1..])
  }

  /**
   * One row per report: the BFRO output succeeds exactly when every group
   * is iterable and holds no null or undefined report, and then has one
   * row per report.
   */
  lemma {:induction false} BfroRowsCount(groups: seq<(string, Json)>)
    ensures BfroRows(groups).Ok? <==> forall i :: 0 <= i < |groups| ==> ReadableGroup(groups[i].1)
    ensures BfroRows(groups).Ok? ==> |BfroRows(groups).value| == TotalReports(groups)
  {
    if groups != [] {
      BfroRowsCount(groups[1..]);
      assert forall i :: 1 <= i < |groups| ==> groups[1..][i - 1] == groups[i];
      var reports := GroupReports(groups[0].1);
      if reports.Some? {
        GroupRowsAt(reports.value, groups[0].0);
      }
    }
  }

  /**
   * Every BFRO row is keyed `bfro_<id>`, is US-based with no county, takes
   * its state code from `state_abbrev`, else from its group's key, else null,
   * and carries its date's ISO text and instant.
   */
  lemma BfroRowFields(report: Json, stateCode: string, date: NormalizedDate)
    ensures var d := RowDoc(BfroFields(report, stateCode, date));
      && Lookup(d, "id") == Str("bfro_" + ToJsString(Get(report, "bfroReportId")))
      && Lookup(d, "datasetKey") == Str("bfro")
      && Lookup(d, "countryCode") == Str("US")
      && Lookup(d, "countyName") == Null
      && Lookup(d, "stateCode") == (if Truthy(Get(report, "state_abbrev")) then Get(report, "state_abbrev")
                                     else if stateCode != "" then Str(stateCode) else Null)
      && Lookup(d, "isoDate") == Str(date.isoDate)
      && Lookup(d, "timestampMs") == Int(date.timestampMs)
  {
    RowDocReads(BfroFields(report, stateCode, date));
  }

  /**
   * A BFRO row's date is its parsed timestamp when that parses and the 1900
   * sentinel otherwise; either way its ISO text parses back to its instant.
   */
  lemma BfroRowDate(report: Json)
    ensures var date := BfroDate(report); var parsed := ParsedTime(Get(report, "timestamp"));
      && (parsed.Some? ==> date.timestampMs == parsed.value)
      && (parsed.None? ==> date == NormalizedDate(SentinelIso, Sentinel1900))
      && ParseDateMs(date.isoDate) == Some(date.timestampMs)
  {
    NormalizeDateTiers(Get(report, "timestamp"), Null);
  }

  /* ------------------------------------------------------------- Woodape */

  /** `occurState === 'AB' || occurState === 'ON' ? 'CA' : 'US'` */
  function WoodapeCountry(stateCode: Json): (c: string)
    ensures c == "CA" <==> stateCode == Str("AB") || stateCode == Str("ON")
    ensures c == "CA" || c == "US"
  {
    if stateCode == Str("AB") || stateCode == Str("ON") then "CA" else "US"
  }

  /** A Woodape case is dated from its submission text, else from its year of occurrence. */
  function WoodapeDate(report: Json): Result<NormalizedDate, Thrown>
  {
    NormalizeDate(Or(Get(report, "case_submitted_on"), Null),
      Obj([("year", YearValue(Or(Get(report, "occur_year"), Str(""))))]))
  }

  /** The fields of a Woodape row, given its date. */
  function WoodapeFields(report: Json, date: NormalizedDate): ReportRow
  {
    var latitude := ToNumber(Get(report, "map_latitude"));
    var longitude := ToNumber(Get(report, "map_longitude"));
    var hasCoordinates := latitude.Finite? && longitude.Finite?;
    var stateCode := Or(Get(report, "occur_state"), Null);
    ReportRow(
      "woodape_" + ToJsString(Get(report, "id")), ToJsString(Get(report, "id")), "woodape",
      Or(Get(report, "summary"), Str("Woodape case " + ToJsString(Or(Get(report, "case_num"), Get(report, "id"))))),
      Or(Get(report, "summary"), Str("")), Or(Get(report, "video_link"), Null), "Woodape",
      if hasCoordinates then Obj([("lat", Number(latitude)), ("lng", Number(longitude))]) else Null,
      stateCode, Null, Or(Get(report, "occur_county"), Null), WoodapeCountry(stateCode),
      Or(Get(report, "report_class"), Null), date)
  }

  /** One Woodape row: reading `map_latitude` of null or undefined throws first, and then only the date can fail. */
  function WoodapeRow(report: Json): Result<Doc, Thrown>
  {
    if Nullish(report) then Err(ReadError(report, "map_latitude"))
    else
      var date := WoodapeDate(report);
      if date.Err? then Err(date.error) else Ok(RowDoc(WoodapeFields(report, date.value)))
  }

  /** `(list || []).map(...)`: anything truthy that is not an array has no `map`. */
  function MapList(list: Json, f: Json -> Result<Doc, Thrown>): (r: Result<seq<Doc>, Thrown>)
    ensures Or(list, Arr([])).Arr? ==> r == MapOk(Or(list, Arr([])).items, f)
    ensures !Or(list, Arr([])).Arr? ==> r.Err?
  {
    var items := Or(list, Arr([]));
    if items.Arr? then MapOk(items.items, f) else Err(TypeError("map is not a function"))
  }

  /** `normalizeWoodapeReports` */
  function NormalizeWoodapeReports(woodapeReports: Json): Result<seq<Doc>, Thrown>
  {
    MapList(woodapeReports, WoodapeRow)
  }

  /**
   * A Woodape row is keyed `woodape_<id>` and has a position exactly when
   * both coordinates convert to finite numbers.
   */
  lemma WoodapeRowPosition(report: Json, date: NormalizedDate)
    ensures var d := RowDoc(WoodapeFields(report, date));
      var latitude := ToNumber(Get(report, "map_latitude"));
      var longitude := ToNumber(Get(report, "map_longitude"));
      && Lookup(d, "id") == Str("woodape_" + ToJsString(Get(report, "id")))
      && (Lookup(d, "position") != Null <==> latitude.Finite? && longitude.Finite?)
      && (latitude.Finite? && longitude.Finite? ==> Lookup(d, "position") == Obj([("lat", Number(latitude)), ("lng", Number(longitude))]))
  {
    var row := WoodapeFields(report, date);
    ReadsId(row);
    ReadsPosition(row);
  }

  /** A Woodape row is Canadian exactly when its state is AB or ON, and American otherwise. */
  lemma WoodapeRowCountry(report: Json, date: NormalizedDate)
    ensures var d := RowDoc(WoodapeFields(report, date)); var state := Get(report, "occur_state");
      && (Lookup(d, "countryCode") == Str("CA") <==> state == Str("AB") || state == Str("ON"))
      && (Lookup(d, "countryCode") == Str("US") <==> state != Str("AB") && state != Str("ON"))
  {
    var row := WoodapeFields(report, date);
    ReadsCountryCode(row);
    assert row.stateCode == Or(Get(report, "occur_state"), Null);
  }

  /**
   * Normalizing Woodape cases succeeds exactly when the list (or `[]`) is an
   * array whose cases are neither null nor undefined and all date; mapping
   * then keeps the number of cases, and row i comes from case i.
   */
  lemma WoodapePreservesLength(woodapeReports: Json)
    ensures var items := Or(woodapeReports, Arr([])); var r := NormalizeWoodapeReports(woodapeReports);
      && (r.Ok? <==> items.Arr? && forall i :: 0 <= i < |items.items| ==> !Nullish(items.items[i]) && WoodapeDate(items.items[i]).Ok?)
      && (r.Ok? ==> |r.value| == |items.items|)
      && (r.Ok? ==> forall i :: 0 <= i < |items.items| ==>
            r.value[i] == RowDoc(WoodapeFields(items.items[i], WoodapeDate(items.items[i]).value)))
  {
  }

  /** Normalized Woodape rows never repeat a key. */
  lemma WoodapeRowsUnique(woodapeReports: Json)
    ensures var r := NormalizeWoodapeReports(woodapeReports);
      r.Ok? ==> UniqueRows(r.value)
  {
    var items := Or(woodapeReports, Arr([]));
    var r := NormalizeWoodapeReports(woodapeReports);
    WoodapePreservesLength(woodapeReports);
    if r.Ok? {
      forall i | 0 <= i < |r.value|
        ensures UniqueKeys(r.value[i])
      {
        RowDocUniqueKeys(WoodapeFields(items.items[i], WoodapeDate(items.items[i]).value));
      }
    }
  }

  /* ------------------------------------------------------------- Kilmury */

  /** Some region, as lower-case text, mentions `canada`. */
  predicate MentionsCanada(regions: seq<Json>)
  {
    exists i :: 0 <= i < |regions| && Contains(ToLower(ToJsString(regions[i])), "canada")
  }

  /** A Kilmury entry is dated from its `date.year` alone. */
  function KilmuryDate(report: Json): Result<NormalizedDate, Thrown>
  {
    NormalizeDate(Null, Obj([("year", YearValue(Or(Get(Get(report, "date"), "year"), Str(""))))]))
  }

  /** The region list of an entry: `location.regions || []`. */
  function RegionList(report: Json): Json
  {
    Or(Get(Get(report, "location"), "regions"), Arr([]))
  }

  /** The fields of a Kilmury row, given its regions and its date: never a position. */
  function KilmuryFields(report: Json, regions: seq<Json>, date: NormalizedDate): ReportRow
  {
    var location := Get(report, "location");
    var state := Or(Get(Get(location, "city_state"), "state"), Null);
    ReportRow(
      "kilmury_" + ToJsString(Get(report, "id")), ToJsString(Get(report, "id")), "kilmury",
      Or(Get(report, "summary"), Str("Kilmury entry " + ToJsString(Get(report, "id")))),
      Or(Get(report, "summary"), Str("")), Null, "Kilmury", Null, state, state,
      Or(Get(location, "county"), Null), if MentionsCanada(regions) then "CA" else "US",
      Null, date)
  }

  /**
   * One Kilmury row: the date is normalized first, the region list must be
   * an array, and then reading `id` of null or undefined throws.
   */
  function KilmuryRow(report: Json): Result<Doc, Thrown>
  {
    var date := KilmuryDate(report);
    var regionList := RegionList(report);
    if date.Err? then Err(date.error)
    else if !regionList.Arr? then Err(TypeError("regionList.some is not a function"))
    else if Nullish(report) then Err(ReadError(report, "id"))
    else Ok(RowDoc(KilmuryFields(report, regionList.items, date.value)))
  }

  /** `normalizeKilmuryReports` */
  function NormalizeKilmuryReports(kilmuryReports: Json): Result<seq<Doc>, Thrown>
  {
    MapList(kilmuryReports, KilmuryRow)
  }

  /** Normalized Kilmury rows never repeat a key. */
  lemma KilmuryRowsUnique(kilmuryReports: Json)
    ensures var r := NormalizeKilmuryReports(kilmuryReports);
      r.Ok? ==> UniqueRows(r.value)
  {
    var items := Or(kilmuryReports, Arr([]));
    var r := NormalizeKilmuryReports(kilmuryReports);
    if r.Ok? {
      forall i | 0 <= i < |r.value|
        ensures UniqueKeys(r.value[i])
      {
        var report := items.items[i];
        assert KilmuryRow(report) == Ok(r.value[i]);
        RowDocUniqueKeys(KilmuryFields(report, RegionList(report).items, KilmuryDate(report).value));
      }
    }
  }

  /**
   * A Kilmury row never has a position, carries its date, and is Canadian
   * exactly when some region mentions Canada in any letter case.
   */
  lemma KilmuryRowFields(report: Json, regions: seq<Json>, date: NormalizedDate)
    ensures var d := RowDoc(KilmuryFields(report, regions, date));
      && Lookup(d, "id") == Str("kilmury_" + ToJsString(Get(report, "id")))
      && Lookup(d, "position") == Null
      && Lookup(d, "sourceUrl") == Null
      && d[13..] == DateMembers(date)
      && (Lookup(d, "countryCode") == Str("CA") <==> MentionsCanada(regions))
  {
    var row := KilmuryFields(report, regions, date);
    ReadsId(row);
    ReadsPosition(row);
    ReadsSourceUrl(row);
    ReadsCountryCode(row);
  }

  /** A Kilmury entry without a usable year is dated at the 1900 sentinel. */
  lemma KilmuryWithoutYear(report: Json)
    requires !Truthy(YearValue(Or(Get(Get(report, "date"), "year"), Str(""))))
    ensures KilmuryDate(report) == Ok(NormalizedDate(SentinelIso, Sentinel1900))
  {
    var year := YearValue(Or(Get(Get(report, "date"), "year"), Str("")));
    assert Get(Obj([("year", year)]), "year") == year;
    NormalizeDateTiers(Null, Obj([("year", year)]));
  }

  /* -------------------------------------------------------------- Triage */

  /** `Boolean(report.title && report.summary && report.isoDate)` */
  predicate MinimumInfoComplete(report: Json)
  {
    Truthy(Get(report, "title")) && Truthy(Get(report, "summary")) && Truthy(Get(report, "isoDate"))
  }

  /** The default triage of a report whose minimum information is or is not complete. */
  function DefaultTriageFor(complete: bool, nowIso: string): Json
  {
    var status := if complete then "new" else "needs-info";
    Obj([("status", Str(status)),
         ("tier", Str(if complete then "unreviewed" else "insufficient-info")),
         ("minimumInfoComplete", Bool(complete)),
         ("followedUpBy", Null),
         ("statusHistory", Arr([StatusEntry(status, nowIso)]))])
  }

  /** One entry of a status history. */
  function StatusEntry(status: string, changedAt: string): Json
  {
    Obj([("status", Str(status)), ("changedAt", Str(changedAt))])
  }

  /** `buildDefaultTriage` */
  function BuildDefaultTriage(report: Json, nowIso: string): Json
  {
    DefaultTriageFor(MinimumInfoComplete(report), nowIso)
  }

  /**
   * The default triage is `new`/`unreviewed` exactly when title, summary and
   * date are all present, `needs-info`/`insufficient-info` otherwise, and
   * records which of the two it is.
   */
  lemma DefaultTriageStatus(report: Json, nowIso: string)
    ensures var t := BuildDefaultTriage(report, nowIso); var complete := MinimumInfoComplete(report);
      && (Get(t, "status") == Str("new") <==> complete)
      && (Get(t, "status") == Str("needs-info") <==> !complete)
      && (Get(t, "tier") == Str("unreviewed") <==> complete)
      && (Get(t, "tier") == Str("insufficient-info") <==> !complete)
      && Get(t, "minimumInfoComplete") == Bool(complete)
  {
    TriageForStatus(MinimumInfoComplete(report), nowIso);
  }

  lemma TriageForStatus(complete: bool, nowIso: string)
    ensures var t := DefaultTriageFor(complete, nowIso);
      && Get(t, "status") == Str(if complete then "new" else "needs-info")
      && Get(t, "tier") == Str(if complete then "unreviewed" else "insufficient-info")
      && Get(t, "minimumInfoComplete") == Bool(complete)
  {
    var t := DefaultTriageFor(complete, nowIso);
    LookupFirst(t.members, "status", 0);
    LookupFirst(t.members, "tier", 1);
    LookupFirst(t.members, "minimumInfoComplete", 2);
  }

  /** Nobody has followed up yet, and the history holds one entry, stamped now, with the same status. */
  lemma DefaultTriageHistory(report: Json, nowIso: string)
    ensures var t := BuildDefaultTriage(report, nowIso);
      && Get(t, "followedUpBy") == Null
      && Get(t, "statusHistory").Arr? && |Get(t, "statusHistory").items| == 1
      && Get(Get(t, "statusHistory").items[0], "status") == Get(t, "status")
      && Get(Get(t, "statusHistory").items[0], "changedAt") == Str(nowIso)
  {
    var complete := MinimumInfoComplete(report);
    var status := if complete then "new" else "needs-info";
    TriageForHistory(complete, nowIso);
    TriageForStatus(complete, nowIso);
    StatusEntryReads(status, nowIso);
  }

  lemma TriageForHistory(complete: bool, nowIso: string)
    ensures var t := DefaultTriageFor(complete, nowIso);
      && Get(t, "followedUpBy") == Null
      && Get(t, "statusHistory") == Arr([StatusEntry(if complete then "new" else "needs-info", nowIso)])
  {
    var t := DefaultTriageFor(complete, nowIso);
    LookupFirst(t.members, "followedUpBy", 3);
    LookupFirst(t.members, "statusHistory", 4);
  }

  lemma StatusEntryReads(status: string, changedAt: string)
    ensures Get(StatusEntry(status, changedAt), "status") == Str(status)
    ensures Get(StatusEntry(status, changedAt), "changedAt") == Str(changedAt)
  {
    var ms := StatusEntry(status, changedAt).members;
    LookupFirst(ms, "status", 0);
    LookupFirst(ms, "changedAt", 1);
  }
}

=== FILE: numbers.dfy ===
/**
 * JavaScript numbers as the model sees them: a finite value (an exact real),
 * NaN, or one of the two infinities; the string conversions `Number(s)`,
 * `Number.parseInt(s, 10)` and `String(n)`; and the comparison operators,
 * which are false whenever NaN is involved.
 */
module Numbers {
  import opened Text

  datatype Num = Finite(v: real) | NaN | PosInf | NegInf

  /** `Number.isFinite` on a value already known to be a number. */
  predicate IsFinite(n: Num)
  {
    n.Finite?
  }

  /** JavaScript `a < b` on numbers: false whenever either side is NaN. */
  predicate Less(a: Num, b: Num)
  {
    if a.NaN? || b.NaN? then false
    else if a.NegInf? then !b.NegInf?
    else if b.PosInf? then !a.PosInf?
    else a.Finite? && b.Finite? && a.v < b.v
  }

  /** JavaScript `a <= b` on numbers: false whenever either side is NaN. */
  predicate LessEq(a: Num, b: Num)
  {
    !a.NaN? && !b.NaN? && !Less(b, a)
  }

  lemma NaNNeverCompares(a: Num)
    ensures !Less(NaN, a) && !Less(a, NaN) && !LessEq(NaN, a) && !LessEq(a, NaN)
  {
  }

  /** The integer part of `r`, rounding toward zero (`ToIntegerOrInfinity` on a finite value). */
  function Trunc(r: real): (k: int)
    ensures r >= 0.0 ==> k as real <= r < k as real + 1.0
    ensures r < 0.0 ==> k as real - 1.0 < r <= k as real
  {
    if r >= 0.0 then r.Floor else -((-r).Floor)
  }

  function Negate(n: Num): Num
  {
    match n
    case Finite(v) => Finite(-v)
    case NaN => NaN
    case PosInf => NegInf
    case NegInf => PosInf
  }

  predicate IsDigit(c: char)
  {
    '0' <= c <= '9'
  }

  function DigitValue(c: char): (d: nat)
    requires IsDigit(c)
    ensures d < 10
  {
    c as int - '0' as int
  }

  function DigitChar(d: nat): (c: char)
    requires d < 10
    ensures IsDigit(c) && DigitValue(c) == d
  {
    ('0' as int + d) as char
  }

  predicate AllDigits(s: string)
  {
    forall i :: 0 <= i < |s| ==> IsDigit(s[i])
  }

  function Pow10(k: nat): (p: nat)
    ensures p >= 1
  {
    if k == 0 then 1 else 10 * Pow10(k - 1)
  }

  /** The value of a string of decimal digits, most significant first. */
  function DigitsValue(s: string): nat
    requires AllDigits(s)
  {
    if s == [] then 0 else 10 * DigitsValue(s[..|s| - 1]) + DigitValue(s[|s| - 1])
  }

  /** Exactly `width` decimal digits of `n`, zero-padded on the left (the low digits if `n` is wider). */
  function PadDigits(n: nat, width: nat): (s: string)
    ensures |s| == width && AllDigits(s)
    ensures DigitsValue(s) == n % Pow10(width)
  {
    if width == 0 then ""
    else
      var s := PadDigits(n / 10, width - 1) + [DigitChar(n % 10)];
      assert s[..|s| - 1] == PadDigits(n / 10, width - 1);
      PadMod(n, width);
      s
  }

  lemma PadMod(n: nat, width: nat)
    requires width >= 1
    ensures n % Pow10(width) == 10 * ((n / 10) % Pow10(width - 1)) + n % 10
  {
    var p := Pow10(width - 1);
    var q := n / 10;
    assert n == 10 * q + n % 10;
    assert q == p * (q / p) + q % p;
    assert n == (10 * p) * (q / p) + (10 * (q % p) + n % 10);
    assert 0 <= 10 * (q % p) + n % 10 < 10 * p;
    DivModUnique(n, 10 * p, q / p, 10 * (q % p) + n % 10);
  }

  lemma DivModUnique(n: int, d: int, q: int, r: int)
    requires d > 0 && 0 <= r < d && n == d * q + r
    ensures n % d == r && n / d == q
  {
    var q0, r0 := n / d, n % d;
    var k := q0 - q;
    assert d * k == r - r0 by {
      assert d * q0 + r0 == d * q + r;
      assert d * q0 - d * q == d * (q0 - q);
    }
    if k > 0 {
      MulAtLeast(d, k);
      assert false;
    } else if k < 0 {
      MulAtLeast(d, -k);
      assert false;
    }
  }

  lemma MulAtLeast(d: int, k: int)
    requires d > 0 && k >= 1
    ensures d * k >= d
  {
    assert d * k == d + d * (k - 1);
  }

  /** The shortest decimal rendering of a natural number (no leading zero except for 0 itself). */
  function NatToDigits(n: nat): (s: string)
    ensures |s| >= 1 && AllDigits(s) && DigitsValue(s) == n
    ensures |s| > 1 ==> s[0] != '0'
  {
    if n < 10 then [DigitChar(n)]
    else
      var s := NatToDigits(n / 10) + [DigitChar(n % 10)];
      assert s[..|s| - 1] == NatToDigits(n / 10);
      s
  }

  /**
   * `Number(s)` (ECMA-262 StringToNumber) for decimal literals: surrounding
   * whitespace is ignored, the empty string is 0, an optional sign, digits
   * with an optional fraction, or `Infinity`; anything else is NaN.
   */
  function StringToNumber(s: string): Num
  {
    var t := Trim(s);
    if t == "" then Finite(0.0)
    else if t == "Infinity" || t == "+Infinity" then PosInf
    else if t == "-Infinity" then NegInf
    else if t[0] == '-' then Negate(UnsignedDecimal(t[1..]))
    else if t[0] == '+' then UnsignedDecimal(t[1..])
    else UnsignedDecimal(t)
  }

  /** Digits, optionally followed by `.` and fraction digits, with at least one digit in all. */
  function UnsignedDecimal(s: string): Num
  {
    var i := IndexOf(s, '.');
    var whole := s[..i];
    var frac := if i < |s| then s[i + 1..] else "";
    if AllDigits(whole) && AllDigits(frac) && (whole != "" || frac != "") then
      Finite(DigitsValue(whole) as real + FractionValue(frac))
    else NaN
  }

  /** The value of fraction digits `d1 d2 ...` read after a decimal point: `(d1 + 0.d2...) / 10`. */
  function FractionValue(frac: string): real
    requires AllDigits(frac)
  {
    if frac == [] then 0.0 else (DigitValue(frac[0]) as real + FractionValue(frac[1..])) / 10.0
  }

  /** Length of the longest prefix of `s` made of decimal digits. */
  function DigitPrefix(s: string): (k: nat)
    ensures k <= |s| && AllDigits(s[..k])
    ensures k < |s| ==> !IsDigit(s[k])
  {
    if s == [] || !IsDigit(s[0]) then 0
    else
      var k := DigitPrefix(s[1..]);
      assert s[..k + 1] == [s[0]] + s[1..][..k];
      k + 1
  }

  /**
   * `Number.parseInt(s, 10)`: leading whitespace skipped, an optional sign,
   * then the longest run of digits; NaN when there is no digit.
   */
  function ParseInt(s: string): (n: Num)
    ensures n.NaN? || (n.Finite? && IsInteger(n.v))
  {
    var t := TrimStart(s);
    var negative := t != [] && t[0] == '-';
    var body := if t != [] && (t[0] == '-' || t[0] == '+') then t[1..] else t;
    var k := DigitPrefix(body);
    if k == 0 then NaN
    else
      var m: int := DigitsValue(body[..k]);
      if negative then Finite((-m) as real) else Finite(m as real)
  }

  /** Fraction digits of `f` (0 <= f < 1), stopping when nothing is left or after `limit` digits. */
  function FractionDigits(f: real, limit: nat): string
    requires 0.0 <= f < 1.0
    decreases limit
  {
    if f == 0.0 || limit == 0 then ""
    else
      var d := (f * 10.0).Floor;
      [DigitChar(d)] + FractionDigits(f * 10.0 - d as real, limit - 1)
  }

  /**
   * `String(n)` for a number: NaN, the infinities, integers exactly, and other
   * finite values as the integer part, a point and up to 20 fraction digits.
   */
  function NumberToString(n: Num): string
  {
    match n
    case NaN => "NaN"
    case PosInf => "Infinity"
    case NegInf => "-Infinity"
    case Finite(v) => if v < 0.0 then "-" + UnsignedToString(-v) else UnsignedToString(v)
  }

  function UnsignedToString(v: real): string
    requires v >= 0.0
  {
    var whole := v.Floor;
    if v == whole as real then NatToDigits(whole)
    else NatToDigits(whole) + "." + FractionDigits(v - whole as real, 20)
  }

  predicate IsInteger(v: real)
  {
    v == v.Floor as real
  }

  lemma DigitsHaveNoSpecials(s: string)
    requires |s| >= 1 && AllDigits(s)
    ensures TrimStart(s) == s && Trim(s) == s
    ensures IndexOf(s, '.') == |s|
    ensures DigitPrefix(s) == |s|
    ensures s[0] != '-' && s[0] != '+'
    ensures s != "Infinity" && s != "+Infinity" && s != "-Infinity"
  {
    DigitsTrimmed(s);
    DigitsEnds(s);
    DigitsNotInfinity(s);
  }

  lemma DigitsTrimmed(s: string)
    requires |s| >= 1 && AllDigits(s)
    ensures TrimStart(s) == s && Trim(s) == s
  {
    assert IsDigit(s[0]) && IsDigit(s[|s| - 1]);
    TrimmedFixed(s);
  }

  lemma DigitsEnds(s: string)
    requires AllDigits(s)
    ensures IndexOf(s, '.') == |s| && DigitPrefix(s) == |s|
  {
    assert forall j :: 0 <= j < |s| ==> s[j] != '.';
  }

  lemma DigitsNotInfinity(s: string)
    requires |s| >= 1 && AllDigits(s)
    ensures s != "Infinity" && s != "+Infinity" && s != "-Infinity"
  {
    assert s[0] != 'I';
  }

  /** The rendering of a natural number read back as a decimal literal. */
  lemma UnsignedRoundTrip(n: nat)
    ensures var d := NatToDigits(n);
      UnsignedDecimal(d) == Finite(n as real) && ParseInt(d) == Finite(n as real)
  {
    var d := NatToDigits(n);
    DigitsHaveNoSpecials(d);
    assert d[..|d|] == d;
  }

  lemma NegativeNumber(k: int)
    requires k < 0
    ensures StringToNumber("-" + NatToDigits(-k)) == Finite(k as real)
  {
    var n: nat := -k;
    UnsignedRoundTrip(n);
    SignedDecimal(NatToDigits(n));
    RealNegation(k, n);
  }

  lemma NegativeParseInt(n: nat)
    ensures ParseInt("-" + NatToDigits(n)) == Finite(-(n as real))
  {
    SignedParseInt(NatToDigits(n), n);
  }

  lemma SignedDecimal(d: string)
    requires |d| >= 1 && AllDigits(d)
    ensures StringToNumber("-" + d) == Negate(UnsignedDecimal(d))
  {
    var s := "-" + d;
    SignedTrim(d);
    assert s[1..] == d;
    assert s[0] == '-';
    assert s != "-Infinity" by { DigitsNotInfinity(d); assert s[1] != 'I'; }
  }

  lemma SignedParseInt(d: string, n: nat)
    requires |d| >= 1 && AllDigits(d) && DigitsValue(d) == n
    ensures ParseInt("-" + d) == Finite(-(n as real))
  {
    var s := "-" + d;
    SignedTrim(d);
    assert s[1..] == d;
    DigitsHaveNoSpecials(d);
    assert d[..|d|] == d;
  }

  lemma SignedTrim(d: string)
    requires |d| >= 1 && AllDigits(d)
    ensures TrimStart("-" + d) == "-" + d && Trim("-" + d) == "-" + d
  {
    var s := "-" + d;
    assert s[|s| - 1] == d[|d| - 1];
    assert IsTrimmed(s);
    TrimmedFixed(s);
  }

  /** How `String` renders an integer: its digits, after a minus sign when negative. */
  lemma IntegerRendering(k: int)
    ensures k >= 0 ==> NumberToString(Finite(k as real)) == NatToDigits(k)
    ensures k < 0 ==> NumberToString(Finite(k as real)) == "-" + NatToDigits(-k)
  {
    var v := k as real;
    if k < 0 {
      assert -v == (-k) as real;
      assert (-v).Floor == -k;
    } else {
      assert v.Floor == k;
    }
  }

  /** `Number(String(k))` gives back every integer. */
  lemma StringToNumberRoundTrip(k: int)
    ensures StringToNumber(NumberToString(Finite(k as real))) == Finite(k as real)
  {
    IntegerRendering(k);
    if k < 0 {
      NegativeNumber(k);
    } else {
      UnsignedNumberReads(k);
    }
  }

  lemma RealNegation(k: int, n: nat)
    requires n == -k
    ensures Finite(-(n as real)) == Finite(k as real) && Negate(Finite(n as real)) == Finite(k as real)
  {
  }

  lemma UnsignedNumberReads(n: nat)
    ensures StringToNumber(NatToDigits(n)) == Finite(n as real)
  {
    UnsignedRoundTrip(n);
    DigitsHaveNoSpecials(NatToDigits(n));
  }

  /** `Number.parseInt(String(k), 10)` gives back every integer. */
  lemma ParseIntRoundTrip(k: int)
    ensures ParseInt(NumberToString(Finite(k as real))) == Finite(k as real)
  {
    IntegerRendering(k);
    if k < 0 {
      NegativeParseIntReads(k);
    } else {
      UnsignedRoundTrip(k);
    }
  }

  lemma NegativeParseIntReads(k: int)
    requires k < 0
    ensures ParseInt("-" + NatToDigits(-k)) == Finite(k as real)
  {
    var n: nat := -k;
    NegativeParseInt(n);
    RealNegation(k, n);
  }
}

=== FILE: report_api.dfy ===
/**
 * The client's report query: the filter state written as URL search
 * parameters, and how the server reads those parameters back.
 */
module ReportApi {
  import opened Wrappers
  import opened Numbers
  import opened Text
  import opened Json
  import opened Errors
  import opened Repository
  import opened Service
  import Seqs

  /** URL search parameters in order: name and value pairs. */
  type Params = seq<(string, string)>

  /** Whether some pair carries the name. */
  predicate HasName(params: Params, name: string)
  {
    params != [] && (params[0].0 == name || HasName(params[1..], name))
  }

  /** `params.get(name)`: the value of the first pair with that name, if any. */
  function ParamValue(params: Params, name: string): (v: Option<string>)
    ensures v.None? <==> !HasName(params, name)
  {
    if params == [] then None
    else if params[0].0 == name then Some(params[0].1)
    else ParamValue(params[1..], name)
  }

  /** Every pair except those with the given name, in order. */
  function Without(params: Params, name: string): (r: Params)
    ensures !HasName(r, name)
    ensures forall n :: n != name ==> ParamValue(r, n) == ParamValue(params, n)
  {
    if params == [] then []
    else if params[0].0 == name then Without(params[1..], name)
    else [params[0]] + Without(params[1..], name)
  }

  /**
   * `params.set(name, value)`: the first pair with that name takes the value
   * and the other pairs with that name are removed; without such a pair one
   * is appended.
   */
  function SetParam(params: Params, name: string, value: string): (r: Params)
    ensures ParamValue(r, name) == Some(value)
    ensures forall n :: n != name ==> ParamValue(r, n) == ParamValue(params, n)
    ensures !HasName(params, name) ==> r == params + [(name, value)]
  {
    if params == [] then [(name, value)]
    else if params[0].0 == name then [(name, value)] + Without(params[1..], name)
    else [params[0]] + SetParam(params[1..], name, value)
  }

  /** Setting a name the parameters do not yet carry, when at all, appends that one pair. */
  lemma AppendFresh(params: Params, c: bool, name: string, value: string)
    requires !HasName(params, name)
    ensures (if c then SetParam(params, name, value) else params) == params + ParamIf(c, name, value)
  {
    if !c {
      assert params + [] == params;
    }
  }

  /** Concatenated parameters carry a name exactly when one of the two parts does. */
  lemma {:induction false} HasNameConcat(a: Params, b: Params, m: string)
    ensures HasName(a + b, m) <==> HasName(a, m) || HasName(b, m)
  {
    if a != [] {
      assert (a + b)[1..] == a[1..] + b;
      HasNameConcat(a[1..], b, m);
    } else {
      assert a + b == b;
    }
  }

  /** An optional pair carries a name only when present and named so. */
  lemma HasNameIf(c: bool, name: string, value: string, m: string)
    ensures HasName(ParamIf(c, name, value), m) <==> c && name == m
  {
  }

  /** The parameters set before each step never carry the name that step sets. */
  lemma LaterNamesFresh(c1: bool, v1: string, c2: bool, v2: string, c3: bool, v3: string, c4: bool, v4: string)
    ensures var q1, q2 := ParamIf(c1, "datasets", v1), ParamIf(c2, "fromYear", v2);
      var q3, q4 := ParamIf(c3, "toYear", v3), ParamIf(c4, "bounds", v4);
      && !HasName(q1, "fromYear")
      && !HasName(q1 + q2, "toYear")
      && !HasName(q1 + q2 + q3, "bounds")
      && !HasName(q1 + q2 + q3 + q4, "includeWithoutCoordinates")
  {
    var q1, q2 := ParamIf(c1, "datasets", v1), ParamIf(c2, "fromYear", v2);
    var q3, q4 := ParamIf(c3, "toYear", v3), ParamIf(c4, "bounds", v4);
    HasNameConcat(q1, q2, "toYear");
    HasNameConcat(q1 + q2, q3, "bounds");
    HasNameConcat(q1, q2, "bounds");
    HasNameConcat(q1 + q2 + q3, q4, "includeWithoutCoordinates");
    HasNameConcat(q1 + q2, q3, "includeWithoutCoordinates");
    HasNameConcat(q1, q2, "includeWithoutCoordinates");
  }

  /** Five parts appended one after the other are the first part before the rest. */
  lemma Regroup(q1: Params, q2: Params, q3: Params, q4: Params, q5: Params)
    ensures q1 + q2 + q3 + q4 + q5 == q1 + (q2 + (q3 + (q4 + q5)))
  {
  }

  /** The one-pair list, or no pair. */
  function ParamIf(present: bool, name: string, value: string): Params
  {
    if present then [(name, value)] else []
  }

  /** The five optional parameters in the order they are set. */
  function Assemble(c1: bool, v1: string, c2: bool, v2: string, c3: bool, v3: string, c4: bool, v4: string, c5: bool): Params
  {
    ParamIf(c1, "datasets", v1) + (ParamIf(c2, "fromYear", v2) + (ParamIf(c3, "toYear", v3)
      + (ParamIf(c4, "bounds", v4) + ParamIf(c5, "includeWithoutCoordinates", "false"))))
  }

  /**
   * `datasets?.length > 0`: a text or an array that is not empty, or an
   * object whose `length` member converts to a number above 0. Other
   * primitives have no `length`.
   */
  predicate HasLength(datasets: Json)
  {
    match datasets
    case Str(s) => |s| > 0
    case Arr(items) => |items| > 0
    case Obj(_) => Less(Finite(0.0), ToNumber(Get(datasets, "length")))
    case _ => false
  }

  /**
   * The parameters the filter state asks for, one per set filter, in the
   * order datasets, first year, last year, bounds, coordinates: a non-empty
   * dataset list joined by commas, each year that is a finite number, the
   * bounds when truthy, and `false` for coordinates only when the filter is
   * exactly `false`. Datasets that have a length above 0 but are not an
   * array have no `join`, and throw.
   */
  function ReportQueryParams(filters: Json): (r: Result<Params, Thrown>)
  {
    var datasets, fromYear, toYear := Get(filters, "datasets"), Get(filters, "fromYear"), Get(filters, "toYear");
    var bounds, withoutCoordinates := Get(filters, "bounds"), Get(filters, "includeWithoutCoordinates");
    if HasLength(datasets) && !datasets.Arr? then Err(TypeError("filters.datasets.join is not a function"))
    else
      Ok(Assemble(datasets.Arr? && |datasets.items| > 0, ToJsString(datasets), IsFiniteNumber(fromYear), ToJsString(fromYear),
        IsFiniteNumber(toYear), ToJsString(toYear), Truthy(bounds), ToJsString(bounds), withoutCoordinates == Bool(false)))
  }

  /** Setting the five optional parameters one after the other, from none, gives them in that order. */
  lemma SetSteps(c1: bool, v1: string, c2: bool, v2: string, c3: bool, v3: string, c4: bool, v4: string, c5: bool)
    ensures var p1 := if c1 then SetParam([], "datasets", v1) else [];
      var p2 := if c2 then SetParam(p1, "fromYear", v2) else p1;
      var p3 := if c3 then SetParam(p2, "toYear", v3) else p2;
      var p4 := if c4 then SetParam(p3, "bounds", v4) else p3;
      var p5 := if c5 then SetParam(p4, "includeWithoutCoordinates", "false") else p4;
      p5 == Assemble(c1, v1, c2, v2, c3, v3, c4, v4, c5)
  {
    var q1, q2, q3 := ParamIf(c1, "datasets", v1), ParamIf(c2, "fromYear", v2), ParamIf(c3, "toYear", v3);
    var q4, q5 := ParamIf(c4, "bounds", v4), ParamIf(c5, "includeWithoutCoordinates", "false");
    LaterNamesFresh(c1, v1, c2, v2, c3, v3, c4, v4);
    AppendFresh([], c1, "datasets", v1);
    assert [] + q1 == q1;
    AppendFresh(q1, c2, "fromYear", v2);
    AppendFresh(q1 + q2, c3, "toYear", v3);
    AppendFresh(q1 + q2 + q3, c4, "bounds", v4);
    AppendFresh(q1 + q2 + q3 + q4, c5, "includeWithoutCoordinates", "false");
    Regroup(q1, q2, q3, q4, q5);
  }

  /** `buildReportQueryParams`: sets each parameter whose filter is set, one after the other. */
  method BuildReportQueryParams(filters: Json) returns (r: Result<Params, Thrown>)
    ensures r == ReportQueryParams(filters)
  {
    var params: Params := [];
    var datasets, fromYear, toYear := Get(filters, "datasets"), Get(filters, "fromYear"), Get(filters, "toYear");
    var bounds, withoutCoordinates := Get(filters, "bounds"), Get(filters, "includeWithoutCoordinates");
    if HasLength(datasets) && !datasets.Arr? {
      return Err(TypeError("filters.datasets.join is not a function"));
    }
    SetSteps(datasets.Arr? && |datasets.items| > 0, ToJsString(datasets), IsFiniteNumber(fromYear), ToJsString(fromYear),
      IsFiniteNumber(toYear), ToJsString(toYear), Truthy(bounds), ToJsString(bounds), withoutCoordinates == Bool(false));
    if datasets.Arr? && |datasets.items| > 0 {
      params := SetParam(params, "datasets", JoinItems(datasets.items));
    }
    if IsFiniteNumber(fromYear) {
      params := SetParam(params, "fromYear", ToJsString(fromYear));
    }
    if IsFiniteNumber(toYear) {
      params := SetParam(params, "toYear", ToJsString(toYear));
    }
    if Truthy(bounds) {
      params := SetParam(params, "bounds", ToJsString(bounds));
    }
    if withoutCoordinates == Bool(false) {
      params := SetParam(params, "includeWithoutCoordinates", "false");
    }
    return Ok(params);
  }

  /**
   * The query throws exactly for datasets with a length above 0 and no
   * `join`: a non-empty text, or an object such as `{ length: 2 }` or
   * `{ length: "1" }` whose length converts to a positive number.
   */
  lemma DatasetsWithoutJoin(filters: Json)
    ensures var d := Get(filters, "datasets");
      ReportQueryParams(filters).Err? <==> (d.Str? && d.s != "") || (d.Obj? && Less(Finite(0.0), ToNumber(Get(d, "length"))))
    ensures ReportQueryParams(filters).Err? ==> ReportQueryParams(filters).error == TypeError("filters.datasets.join is not a function")
  {
  }

  /** The query the server reads from the parameters, each by its first value. */
  function QueryOf(params: Params): Query
  {
    Query(ParamValue(params, "datasets"), ParamValue(params, "bounds"), ParamValue(params, "fromYear"),
      ParamValue(params, "toYear"), ParamValue(params, "includeWithoutCoordinates"))
  }

  /** No filter state, or an empty one, asks for no parameter, which the server reads as no filter at all. */
  lemma NoFiltersNoParams(filters: Json)
    requires filters == Undefined || filters == Null || filters == Obj([])
    ensures ReportQueryParams(filters) == Ok([])
    ensures QueryFilters(QueryOf([])) == NoFilters
  {
    UnsetFilters(filters);
    assert QueryOf([]) == EmptyQuery;
    EmptyQueryFilters();
  }

  /** Filter state where every filter is undefined asks for no parameter. */
  lemma UnsetFilters(filters: Json)
    requires forall k :: Get(filters, k) == Undefined
    ensures ReportQueryParams(filters) == Ok([])
  {
    assert Get(filters, "datasets") == Undefined && Get(filters, "fromYear") == Undefined && Get(filters, "toYear") == Undefined;
    assert Get(filters, "bounds") == Undefined && Get(filters, "includeWithoutCoordinates") == Undefined;
    assert Assemble(false, "undefined", false, "undefined", false, "undefined", false, "undefined", false) == [];
  }

  /**
   * Each parameter the server reads is the one its filter asked for: the
   * dataset list joined by commas when non-empty, each finite year as
   * `String` writes it, the bounds when truthy, and `false` for coordinates
   * exactly when that filter is `false`; the others are absent.
   */
  lemma ParamsReadBack(filters: Json)
    requires ReportQueryParams(filters).Ok?
    ensures var q := QueryOf(ReportQueryParams(filters).value);
      var datasets, fromYear, toYear := Get(filters, "datasets"), Get(filters, "fromYear"), Get(filters, "toYear");
      var bounds, withoutCoordinates := Get(filters, "bounds"), Get(filters, "includeWithoutCoordinates");
      && q.datasets == (if datasets.Arr? && |datasets.items| > 0 then Some(JoinItems(datasets.items)) else None)
      && q.fromYear == (if IsFiniteNumber(fromYear) then Some(NumberToString(fromYear.n)) else None)
      && q.toYear == (if IsFiniteNumber(toYear) then Some(NumberToString(toYear.n)) else None)
      && q.bounds == (if Truthy(bounds) then Some(ToJsString(bounds)) else None)
      && q.includeWithoutCoordinates == (if withoutCoordinates == Bool(false) then Some("false") else None)
  {
    var datasets, fromYear, toYear := Get(filters, "datasets"), Get(filters, "fromYear"), Get(filters, "toYear");
    var bounds, withoutCoordinates := Get(filters, "bounds"), Get(filters, "includeWithoutCoordinates");
    FiveParams(datasets.Arr? && |datasets.items| > 0, ToJsString(datasets), IsFiniteNumber(fromYear), ToJsString(fromYear),
      IsFiniteNumber(toYear), ToJsString(toYear), Truthy(bounds), ToJsString(bounds), withoutCoordinates == Bool(false));
  }

  /** Reading the five optional parameters back finds each one's own value, or nothing when it was not set. */
  lemma FiveParams(c1: bool, v1: string, c2: bool, v2: string, c3: bool, v3: string, c4: bool, v4: string, c5: bool)
    ensures var q := QueryOf(Assemble(c1, v1, c2, v2, c3, v3, c4, v4, c5));
      && q.datasets == (if c1 then Some(v1) else None)
      && q.fromYear == (if c2 then Some(v2) else None)
      && q.toYear == (if c3 then Some(v3) else None)
      && q.bounds == (if c4 then Some(v4) else None)
      && q.includeWithoutCoordinates == (if c5 then Some("false") else None)
  {
    ReadFive("datasets", c1, v1, "fromYear", c2, v2, "toYear", c3, v3, "bounds", c4, v4, "includeWithoutCoordinates", c5, "false");
  }

  /** Five optional pairs with distinct names each read back as set, whatever the names. */
  lemma ReadFive(n1: string, c1: bool, v1: string, n2: string, c2: bool, v2: string, n3: string, c3: bool, v3: string,
                 n4: string, c4: bool, v4: string, n5: string, c5: bool, v5: string)
    requires n1 != n2 && n1 != n3 && n1 != n4 && n1 != n5 && n2 != n3 && n2 != n4 && n2 != n5 && n3 != n4 && n3 != n5 && n4 != n5
    ensures var p := ParamIf(c1, n1, v1) + (ParamIf(c2, n2, v2) + (ParamIf(c3, n3, v3) + (ParamIf(c4, n4, v4) + ParamIf(c5, n5, v5))));
      && ParamValue(p, n1) == (if c1 then Some(v1) else None)
      && ParamValue(p, n2) == (if c2 then Some(v2) else None)
      && ParamValue(p, n3) == (if c3 then Some(v3) else None)
      && ParamValue(p, n4) == (if c4 then Some(v4) else None)
      && ParamValue(p, n5) == (if c5 then Some(v5) else None)
  {
    var p5 := ParamIf(c5, n5, v5);
    var p4 := ParamIf(c4, n4, v4) + p5;
    var p3 := ParamIf(c3, n3, v3) + p4;
    var p2 := ParamIf(c2, n2, v2) + p3;
    ReadPast(c1, n1, v1, p2);
    ReadPast(c2, n2, v2, p3);
    ReadPast(c3, n3, v3, p4);
    ReadPast(c4, n4, v4, p5);
  }

  /** Reading past an optional pair: its name finds its value when present, and every other name reads on. */
  lemma ReadPast(c: bool, name: string, value: string, rest: Params)
    ensures forall m :: ParamValue(ParamIf(c, name, value) + rest, m) == (if c && m == name then Some(value) else ParamValue(rest, m))
  {
    if c {
      assert ([(name, value)] + rest)[1..] == rest;
    } else {
      assert [] + rest == rest;
    }
  }

  /** Texts written as JSON strings and joined like an array's elements are the texts joined by commas. */
  lemma {:induction false} JoinStrings(keys: seq<string>)
    ensures JoinItems(Seqs.Map(keys, (k: string) => Str(k))) == Join(keys, ",")
  {
    if |keys| > 1 {
      var items := Seqs.Map(keys, (k: string) => Str(k));
      assert items[1..] == Seqs.Map(keys[1..], (k: string) => Str(k));
      JoinStrings(keys[1..]);
    }
  }

  /**
   * Filter state with dataset keys in the parsed form, integer years and the
   * coordinates flag round-trips through the parameters: the server reads
   * back the same keys in the same order, the same years, and the same flag.
   */
  lemma FiltersRoundTrip(filters: Json, keys: seq<string>, a: int, b: int, withoutCoordinates: bool)
    requires Get(filters, "datasets") == Arr(Seqs.Map(keys, (k: string) => Str(k)))
    requires forall k :: k in keys ==> IsDatasetKey(k)
    requires Get(filters, "fromYear") == Int(a) && Get(filters, "toYear") == Int(b)
    requires Get(filters, "includeWithoutCoordinates") == Bool(withoutCoordinates)
    ensures ReportQueryParams(filters).Ok?
    ensures var q := QueryOf(ReportQueryParams(filters).value);
      && ParseDatasetKeys(q.datasets) == keys
      && q.fromYear.Some? && ParseInt(q.fromYear.value) == Finite(a as real)
      && q.toYear.Some? && ParseInt(q.toYear.value) == Finite(b as real)
      && QueryFilters(q).includeWithoutCoordinates == withoutCoordinates
  {
    ParamsReadBack(filters);
    JoinStrings(keys);
    DatasetKeysRoundTrip(keys);
    ParseIntRoundTrip(a);
    ParseIntRoundTrip(b);
  }

  /** The coordinates parameter drops reports without a position exactly when the filter is `false`. */
  lemma CoordinatesFlag(filters: Json)
    requires ReportQueryParams(filters).Ok?
    ensures QueryFilters(QueryOf(ReportQueryParams(filters).value)).includeWithoutCoordinates
      <==> Get(filters, "includeWithoutCoordinates") != Bool(false)
  {
    ParamsReadBack(filters);
  }
}

=== FILE: report_grouping.dfy ===
/**
 * The offline script that groups state-tagged BFRO reports by state
 * abbreviation into one object of arrays. Reading and writing the data
 * files and the summary lines it logs are not part of this model. A null
 * or undefined report makes the script throw.
 */
module ReportGrouping {
  import opened Wrappers
  import opened Json
  import opened Errors
  import opened Seqs

  /** A report with a truthy `state_abbrev` goes into a group; any other report that can be read is skipped. */
  predicate HasState(r: Json)
  {
    Truthy(Get(r, "state_abbrev"))
  }

  /** The property name the report's abbreviation becomes. */
  function StateKey(r: Json): string
  {
    ToJsString(Get(r, "state_abbrev"))
  }

  /** The elements of an array value; nothing for any other value. */
  function Items(v: Json): seq<Json>
  {
    if v.Arr? then v.items else []
  }

  /** One pass of the loop: create the group when missing, then push the report. */
  function GroupStep(grouped: seq<(string, Json)>, r: Json): seq<(string, Json)>
  {
    if !HasState(r) then grouped
    else
      var k := StateKey(r);
      var created := if Truthy(Lookup(grouped, k)) then grouped else Set(grouped, k, Arr([]));
      Set(created, k, Arr(Items(Lookup(created, k)) + [r]))
  }

  /** The grouped object after the loop has seen every report. */
  function Grouped(data: seq<Json>): seq<(string, Json)>
  {
    if data == [] then [] else GroupStep(Grouped(data[..|data| - 1]), data[|data| - 1])
  }

  /**
   * The loop of the script over the parsed reports: the grouped object, or
   * the `TypeError` of reading `state_abbrev` of the first null or undefined
   * report.
   */
  method GroupReports(data: seq<Json>) returns (r: Result<seq<(string, Json)>, Thrown>)
    ensures r.Ok? <==> forall i :: 0 <= i < |data| ==> !Nullish(data[i])
    ensures r.Ok? ==> r.value == Grouped(data)
    ensures r.Err? ==> exists k :: FirstNullish(data, k) && r.error == ReadError(data[k], "state_abbrev")
  {
    var grouped := [];
    for i := 0 to |data|
      invariant grouped == Grouped(data[..i])
      invariant forall j :: 0 <= j < i ==> !Nullish(data[j])
    {
      var r := data[i];
      assert data[..i + 1][..i] == data[..i];
      if Nullish(r) {
        assert FirstNullish(data, i);
        return Err(ReadError(r, "state_abbrev"));
      }
      if !Truthy(Get(r, "state_abbrev")) {
        continue;
      }
      var k := ToJsString(Get(r, "state_abbrev"));
      if !Truthy(Lookup(grouped, k)) {
        grouped := Set(grouped, k, Arr([]));
      }
      grouped := Set(grouped, k, Arr(Items(Lookup(grouped, k)) + [r]));
    }
    assert data[..|data|] == data;
    r := Ok(grouped);
  }

  /** A report that belongs in the group under key `k`. */
  predicate InGroup(k: string, r: Json)
  {
    HasState(r) && StateKey(r) == k
  }

  /** The reports the group under key `k` should hold: those whose abbreviation reads as `k`, in input order. */
  function ReportsOf(data: seq<Json>, k: string): (rs: seq<Json>)
    ensures forall r :: r in rs <==> r in data && InGroup(k, r)
  {
    if data == [] then []
    else ReportsOf(data[..|data| - 1], k) + (if InGroup(k, data[|data| - 1]) then [data[|data| - 1]] else [])
  }

  /** One pass appends the report to its own group and leaves every other key as it was. */
  lemma StepLookup(grouped: seq<(string, Json)>, r: Json, k: string)
    ensures Lookup(GroupStep(grouped, r), k) ==
      if HasState(r) && StateKey(r) == k then Arr(Items(Lookup(grouped, k)) + [r]) else Lookup(grouped, k)
    ensures k in Keys(GroupStep(grouped, r)) <==> (HasState(r) && StateKey(r) == k) || k in Keys(grouped)
  {
    if HasState(r) {
      var k2 := StateKey(r);
      var created := if Truthy(Lookup(grouped, k2)) then grouped else Set(grouped, k2, Arr([]));
      SetLookup(grouped, k2, Arr([]), k);
      SetKeys(grouped, k2, Arr([]), k);
      SetLookup(grouped, k2, Arr([]), k2);
      SetLookup(created, k2, Arr(Items(Lookup(created, k2)) + [r]), k);
      SetKeys(created, k2, Arr(Items(Lookup(created, k2)) + [r]), k);
    }
  }

  /**
   * Every group holds exactly the reports with its abbreviation, in input
   * order, and a key is present only when at least one report has it.
   */
  lemma {:induction false} GroupContents(data: seq<Json>, k: string)
    ensures Lookup(Grouped(data), k) == if ReportsOf(data, k) == [] then Undefined else Arr(ReportsOf(data, k))
    ensures k in Keys(Grouped(data)) <==> ReportsOf(data, k) != []
  {
    if data != [] {
      GroupContents(data[..|data| - 1], k);
      StepLookup(Grouped(data[..|data| - 1]), data[|data| - 1], k);
    }
  }

  /** The grouped object never holds a key twice. */
  lemma {:induction false} GroupedUnique(data: seq<Json>)
    ensures UniqueKeys(Grouped(data))
  {
    if data != [] {
      var init, r := data[..|data| - 1], data[|data| - 1];
      GroupedUnique(init);
      if HasState(r) {
        var grouped, k := Grouped(init), StateKey(r);
        var created := if Truthy(Lookup(grouped, k)) then grouped else Set(grouped, k, Arr([]));
        SetUnique(grouped, k, Arr([]));
        SetUnique(created, k, Arr(Items(Lookup(created, k)) + [r]));
      }
    }
  }

  /** The number of reports held across all groups. */
  function Total(ms: seq<(string, Json)>): nat
  {
    if ms == [] then 0 else |Items(ms[0].1)| + Total(ms[1..])
  }

  /** An assignment replaces the count of the value it overwrites by the count of the new value. */
  lemma {:induction false} SetTotal(ms: seq<(string, Json)>, k: string, x: Json)
    ensures Total(Set(ms, k, x)) == Total(ms) - |Items(Lookup(ms, k))| + |Items(x)|
  {
    if ms != [] && ms[0].0 != k {
      SetTotal(ms[1..], k, x);
      assert Set(ms, k, x)[1..] == Set(ms[1..], k, x);
    } else if ms != [] {
      assert Set(ms, k, x)[1..] == ms[1..];
    }
  }

  /** Every report with a state is in exactly one group: the groups hold as many reports as have a state. */
  lemma {:induction false} GroupedTotal(data: seq<Json>)
    ensures Total(Grouped(data)) == Count(data, HasState)
  {
    if data != [] {
      var init, r := data[..|data| - 1], data[|data| - 1];
      GroupedTotal(init);
      assert data == init + [r];
      CountAppend(init, [r], HasState);
      if HasState(r) {
        var grouped, k := Grouped(init), StateKey(r);
        var created := if Truthy(Lookup(grouped, k)) then grouped else Set(grouped, k, Arr([]));
        SetTotal(grouped, k, Arr([]));
        SetLookup(grouped, k, Arr([]), k);
        SetTotal(created, k, Arr(Items(Lookup(created, k)) + [r]));
      }
    }
  }
}

=== FILE: repository.dfy ===
/**
 * The report repository over the document store: seeding an empty
 * collection, filtered listing, lookup, insertion with id and timestamps,
 * timestamped partial updates and removal. Documents are JSON objects, so
 * their member lists never repeat a key.
 */
module Repository {
  import opened Wrappers
  import opened Numbers
  import opened Json
  import opened Errors
  import opened Dates
  import opened Store
  import Seqs

  /** The collection every report lives in. */
  const ReportCollection: string := "reports"

  /** A latitude/longitude box: `{ south, west, north, east }`. */
  datatype Bounds = Bounds(south: Num, west: Num, north: Num, east: Num)

  /**
   * `isInsideBounds`: no bounds admit every report; otherwise the report
   * needs a truthy position whose `lat` and `lng` convert to finite numbers
   * inside the box, edges included, with no wrap across the antimeridian.
   */
  predicate IsInsideBounds(report: Doc, bounds: Option<Bounds>)
  {
    if bounds.None? then true
    else
      var position := Lookup(report, "position");
      if !Truthy(position) then false
      else
        var latitude := ToNumber(Get(position, "lat"));
        var longitude := ToNumber(Get(position, "lng"));
        if !latitude.Finite? || !longitude.Finite? then false
        else
          && LessEq(bounds.value.south, latitude)
          && LessEq(latitude, bounds.value.north)
          && LessEq(bounds.value.west, longitude)
          && LessEq(longitude, bounds.value.east)
  }

  /**
   * The options of `listReports`; the timestamps are whatever the caller
   * passed (a number or null), only finite numbers take effect.
   */
  datatype Filters = Filters(
    datasetKeys: seq<string>,
    fromTimestampMs: Json,
    toTimestampMs: Json,
    bounds: Option<Bounds>,
    includeWithoutCoordinates: bool,
    scopes: seq<string>)

  /** `listReports()` with every option at its default. */
  const NoFilters: Filters := Filters([], Null, Null, None, true, [])

  /** `keys.includes(value)` for a list of strings. */
  predicate Includes(keys: seq<string>, value: Json)
  {
    value.Str? && value.s in keys
  }

  predicate DatasetOk(f: Filters, report: Doc)
  {
    !(|f.datasetKeys| > 0 && !Includes(f.datasetKeys, Lookup(report, "datasetKey")))
  }

  predicate ScopeOk(f: Filters, report: Doc)
  {
    !(|f.scopes| > 0 && !Includes(f.scopes, Lookup(report, "scope")))
  }

  /** The time window: `Number(report.timestampMs)` against each finite bound. */
  predicate TimeOk(f: Filters, report: Doc)
  {
    var timestamp := ToNumber(Lookup(report, "timestampMs"));
    && !(IsFiniteNumber(f.fromTimestampMs) && Less(timestamp, f.fromTimestampMs.n))
    && !(IsFiniteNumber(f.toTimestampMs) && Less(f.toTimestampMs.n, timestamp))
  }

  predicate CoordinatesOk(f: Filters, report: Doc)
  {
    !(!f.includeWithoutCoordinates && !Truthy(Lookup(report, "position")))
  }

  /** The filter callback of `listReports`. */
  predicate Keep(f: Filters, report: Doc)
  {
    DatasetOk(f, report) && ScopeOk(f, report) && TimeOk(f, report)
    && CoordinatesOk(f, report) && IsInsideBounds(report, f.bounds)
  }

  function KeepFn(f: Filters): Doc -> bool
  {
    (report: Doc) => Keep(f, report)
  }

  /** The document `addReport` stores: the payload with its id, creation and update stamps. */
  function Stamped(newReport: Doc, token: string, nowIso: string): Doc
  {
    Merge(newReport, StampMembers(newReport, token, nowIso))
  }

  function StampMembers(newReport: Doc, token: string, nowIso: string): Doc
  {
    [("id", Or(Lookup(newReport, "id"), Str("report_" + token))),
     ("createdAt", Or(Lookup(newReport, "createdAt"), Str(nowIso))),
     ("updatedAt", Str(nowIso))]
  }

  /** The partial update `updateReport` hands to the store: `{ ...partialData, updatedAt }`. */
  function WithUpdatedAt(partial: Doc, nowIso: string): Doc
  {
    Merge(partial, [("updatedAt", Str(nowIso))])
  }

  class ReportRepository {
    const db: LocalFirestoreClient

    constructor(db: LocalFirestoreClient)
      ensures this.db == db
    {
      this.db := db;
    }

    /** The stored reports. */
    function Reports(): seq<Doc>
      reads db
    {
      db.Collection(ReportCollection)
    }

    /** `seedReports`: an empty collection becomes the seed documents; a non-empty one is left alone. */
    method SeedReports(seedDocuments: seq<Doc>)
      modifies db
      ensures |old(Reports())| > 0 ==> db.collections == old(db.collections)[ReportCollection := old(Reports())]
      ensures |old(Reports())| == 0 ==> db.collections == old(db.collections)[ReportCollection := seedDocuments]
    {
      var existing := db.ListDocuments(ReportCollection, None);
      if |existing| > 0 {
        return;
      }
      db.ReplaceCollection(ReportCollection, seedDocuments);
    }

    /** `listReports`: the stored reports that pass every filter, in storage order. */
    method ListReports(f: Filters) returns (r: seq<Doc>)
      modifies db
      ensures r == Seqs.Filter(old(Reports()), KeepFn(f))
      ensures db.collections == old(db.collections)[ReportCollection := old(Reports())]
    {
      r := db.ListDocuments(ReportCollection, Some(KeepFn(f)));
    }

    /** `getReportById` */
    method GetReportById(reportId: string) returns (r: Option<Doc>)
      modifies db
      ensures r == Find(old(Reports()), reportId)
      ensures db.collections == old(db.collections)[ReportCollection := old(Reports())]
    {
      r := db.GetDocument(ReportCollection, reportId);
    }

    /**
     * `addReport`: appends the payload with an id (its own when truthy, else
     * `report_` and the generated token), a creation time (its own when
     * truthy, else now) and the update time now.
     */
    method AddReport(newReport: Doc, token: string, now: int) returns (r: Doc)
      requires ValidTime(now)
      modifies db
      ensures r == Stamped(newReport, token, ToIsoString(now))
      ensures db.collections == old(db.collections)[ReportCollection := old(Reports()) + [r]]
    {
      var nowIso := ToIsoString(now);
      var reportDocument := Stamped(newReport, token, nowIso);
      r := db.AddDocument(ReportCollection, reportDocument);
    }

    /** `updateReport`: the store's update with `updatedAt` set to now. */
    method UpdateReport(reportId: string, partial: Doc, now: int) returns (r: Result<Doc, Thrown>)
      requires ValidTime(now)
      modifies db
      ensures var c := old(Reports()); var i := FindIndex(c, reportId);
        var p := WithUpdatedAt(partial, ToIsoString(now));
        && (i < 0 ==> r == Err(NotFound(ReportCollection, reportId)) && db.collections == old(db.collections)[ReportCollection := c])
        && (i >= 0 ==> r == Ok(Merge(c[i], p)) && db.collections == old(db.collections)[ReportCollection := c[i := Merge(c[i], p)]])
    {
      r := db.UpdateDocument(ReportCollection, reportId, WithUpdatedAt(partial, ToIsoString(now)));
    }

    /** `removeReport` */
    method RemoveReport(reportId: string) returns (deleted: bool)
      modifies db
      ensures db.collections == old(db.collections)[ReportCollection := WithoutId(old(Reports()), reportId)]
      ensures deleted <==> FindIndex(old(Reports()), reportId) >= 0
    {
      deleted := db.DeleteDocument(ReportCollection, reportId);
      DeleteReportsPresence(old(Reports()), reportId);
    }
  }

  /** Listing with the default options returns every stored report. */
  lemma ListWithoutFilters(c: seq<Doc>)
    ensures Seqs.Filter(c, KeepFn(NoFilters)) == c
  {
    Seqs.FilterAll(c, KeepFn(NoFilters));
  }

  /**
   * With finite edges, the bounds test is the closed box on the position's
   * numeric latitude and longitude; a box whose west edge lies east of its
   * east edge, or whose south edge lies north of its north edge, holds nothing.
   */
  lemma InsideBoundsBox(report: Doc, b: Bounds)
    requires b.south.Finite? && b.west.Finite? && b.north.Finite? && b.east.Finite?
    ensures var position := Lookup(report, "position");
      var latitude := ToNumber(Get(position, "lat"));
      var longitude := ToNumber(Get(position, "lng"));
      IsInsideBounds(report, Some(b)) <==>
        && Truthy(position) && latitude.Finite? && longitude.Finite?
        && b.south.v <= latitude.v <= b.north.v
        && b.west.v <= longitude.v <= b.east.v
    ensures b.west.v > b.east.v || b.south.v > b.north.v ==> !IsInsideBounds(report, Some(b))
  {
  }

  /** A NaN edge shuts every report out, since no comparison with NaN holds. */
  lemma NaNBoundExcludes(report: Doc, b: Bounds)
    requires b.south.NaN? || b.west.NaN? || b.north.NaN? || b.east.NaN?
    ensures !IsInsideBounds(report, Some(b))
  {
    NaNNeverCompares(b.south);
    NaNNeverCompares(b.west);
    NaNNeverCompares(b.north);
    NaNNeverCompares(b.east);
  }

  /**
   * The time window is inclusive at both ends for a report with a finite
   * timestamp, while a report whose timestamp is not a number is never
   * dropped by it.
   */
  lemma TimeWindow(f: Filters, report: Doc)
    ensures var ts := ToNumber(Lookup(report, "timestampMs"));
      && (ts.NaN? ==> TimeOk(f, report))
      && (ts.Finite? && IsFiniteNumber(f.fromTimestampMs) && IsFiniteNumber(f.toTimestampMs) ==>
            (TimeOk(f, report) <==> f.fromTimestampMs.n.v <= ts.v <= f.toTimestampMs.n.v))
      && (!IsFiniteNumber(f.fromTimestampMs) && !IsFiniteNumber(f.toTimestampMs) ==> TimeOk(f, report))
  {
    NaNNeverCompares(ToNumber(Lookup(report, "timestampMs")));
  }

  /** Listing only ever drops reports: the result is a subsequence of the store that passes the filters. */
  lemma ListedPassFilters(c: seq<Doc>, f: Filters)
    ensures |Seqs.Filter(c, KeepFn(f))| <= |c|
    ensures forall d :: d in Seqs.Filter(c, KeepFn(f)) <==> d in c && Keep(f, d)
  {
  }

  /**
   * The stored report carries a truthy id (the payload's own when truthy),
   * the payload's truthy creation time or now, the update time now, and
   * every other member of the payload unchanged.
   */
  lemma StampedFields(newReport: Doc, token: string, nowIso: string, k: string)
    requires nowIso != ""
    ensures var d := Stamped(newReport, token, nowIso);
      && Truthy(Lookup(d, "id"))
      && (Truthy(Lookup(newReport, "id")) ==> Lookup(d, "id") == Lookup(newReport, "id"))
      && (!Truthy(Lookup(newReport, "id")) ==> Lookup(d, "id") == Str("report_" + token))
      && Truthy(Lookup(d, "createdAt"))
      && Lookup(d, "updatedAt") == Str(nowIso)
      && (k != "id" && k != "createdAt" && k != "updatedAt" ==> Lookup(d, k) == Lookup(newReport, k))
  {
    var s := StampMembers(newReport, token, nowIso);
    StampShape(s);
    MergeLookup(newReport, s, k);
    MergeLookup(newReport, s, "id");
    MergeLookup(newReport, s, "createdAt");
    MergeLookup(newReport, s, "updatedAt");
  }

  /** The three stamp members hold distinct keys, each read from its own position. */
  lemma StampShape(s: Doc)
    requires |s| == 3 && s[0].0 == "id" && s[1].0 == "createdAt" && s[2].0 == "updatedAt"
    ensures UniqueKeys(s) && Keys(s) == ["id", "createdAt", "updatedAt"]
    ensures Lookup(s, "id") == s[0].1 && Lookup(s, "createdAt") == s[1].1 && Lookup(s, "updatedAt") == s[2].1
  {
    assert Keys(s[2..]) == ["updatedAt"] && UniqueKeys(s[2..][1..]);
    assert Keys(s[1..]) == ["createdAt", "updatedAt"] && s[1..][1..] == s[2..];
    LookupFirst(s, "createdAt", 1);
    LookupFirst(s, "updatedAt", 2);
  }

  /**
   * After `updateReport` the document reads `updatedAt` as now, each other
   * key of the partial update as given, and every remaining key as before.
   */
  lemma UpdatedFields(doc: Doc, partial: Doc, nowIso: string, k: string)
    requires UniqueKeys(partial)
    ensures Lookup(Merge(doc, WithUpdatedAt(partial, nowIso)), k) ==
      if k == "updatedAt" then Str(nowIso)
      else if k in Keys(partial) then Lookup(partial, k)
      else Lookup(doc, k)
  {
    UpdatedPartial(partial, nowIso, k);
    MergeLookup(doc, WithUpdatedAt(partial, nowIso), k);
  }

  /** The stamped update holds the partial update's keys plus `updatedAt`, which reads as now. */
  lemma UpdatedPartial(partial: Doc, nowIso: string, k: string)
    requires UniqueKeys(partial)
    ensures var p := WithUpdatedAt(partial, nowIso);
      && UniqueKeys(p)
      && (k in Keys(p) <==> k == "updatedAt" || k in Keys(partial))
      && Lookup(p, k) == if k == "updatedAt" then Str(nowIso) else Lookup(partial, k)
  {
    MergeOne(partial, "updatedAt", Str(nowIso));
    SetUnique(partial, "updatedAt", Str(nowIso));
    SetKeys(partial, "updatedAt", Str(nowIso), k);
    SetLookup(partial, "updatedAt", Str(nowIso), k);
  }
}

=== FILE: seed.dfy ===
/**
 * Seeding the report collection from the three local datasets: every
 * normalized row becomes a stored document with global scope, the default
 * triage and an empty vote record. Reading and parsing the data files is not
 * part of this model: their parsed contents are parameters, and so are the
 * ISO texts of the two clock readings a document is built with: `nowIso`
 * for its creation and update times, and `triageIso`, which
 * `buildDefaultTriage` reads for itself.
 */
module Seed {
  import opened Wrappers
  import opened Json
  import opened Errors
  import opened Store
  import opened Normalization
  import opened Service
  import Seqs

  /** The members written before the normalized report is spread over them. */
  function SeedDefaults(report: Doc): Doc
  {
    [("id", Lookup(report, "id")),
     ("datasetKey", Lookup(report, "datasetKey")),
     ("scope", Str("global")),
     ("ownerUserId", Null),
     ("teamId", Null),
     ("sharing", Obj([("sharedWithTeamIds", Arr([]))]))]
  }

  /** The members written after the spread, which no field of the report overrides. */
  function SeedStamp(report: Doc, nowIso: string, triageIso: string): Doc
  {
    [("triage", BuildDefaultTriage(Obj(report), triageIso)),
     ("votes", InitialVotes),
     ("createdAt", Str(nowIso)),
     ("updatedAt", Str(nowIso))]
  }

  const SeedStampKeys: seq<string> := ["triage", "votes", "createdAt", "updatedAt"]

  /** `buildSeedDocument`: the defaults, the report spread over them, then the stamp. */
  function BuildSeedDocument(report: Doc, nowIso: string, triageIso: string): Doc
  {
    Merge(Merge(SeedDefaults(report), report), SeedStamp(report, nowIso, triageIso))
  }

  lemma SeedStampShape(report: Doc, nowIso: string, triageIso: string)
    ensures UniqueKeys(SeedStamp(report, nowIso, triageIso)) && Keys(SeedStamp(report, nowIso, triageIso)) == SeedStampKeys
  {
    DistinctUnique(SeedStamp(report, nowIso, triageIso));
  }

  /**
   * A seeded document reads triage, votes and both times from the stamp,
   * every other field the report has as the report has it, and the defaults
   * only for fields the report lacks.
   */
  lemma SeedDocumentReads(report: Doc, nowIso: string, triageIso: string, k: string)
    requires UniqueKeys(report)
    ensures Lookup(BuildSeedDocument(report, nowIso, triageIso), k) ==
      if k in SeedStampKeys then Lookup(SeedStamp(report, nowIso, triageIso), k)
      else if k in Keys(report) then Lookup(report, k)
      else Lookup(SeedDefaults(report), k)
  {
    SeedStampShape(report, nowIso, triageIso);
    MergeLookup(Merge(SeedDefaults(report), report), SeedStamp(report, nowIso, triageIso), k);
    MergeLookup(SeedDefaults(report), report, k);
  }

  /** No key of the defaults is one of the stamp's keys. */
  lemma DefaultsOutsideStamp(report: Doc)
    ensures forall i :: 0 <= i < |SeedDefaults(report)| ==> SeedDefaults(report)[i].0 !in SeedStampKeys
  {
    assert Keys(SeedDefaults(report)) == ["id", "datasetKey", "scope", "ownerUserId", "teamId", "sharing"];
  }

  /**
   * Any field outside the stamp reads the report's value when the report has
   * the field, and the default written before the spread otherwise.
   */
  lemma SeedDocumentKeeps(report: Doc, nowIso: string, triageIso: string, k: string)
    requires UniqueKeys(report) && k !in SeedStampKeys
    ensures Lookup(BuildSeedDocument(report, nowIso, triageIso), k) ==
      if k in Keys(report) then Lookup(report, k) else Lookup(SeedDefaults(report), k)
  {
    SeedDocumentReads(report, nowIso, triageIso, k);
  }

  /**
   * Each default field of a seeded document (id, dataset, scope, owner, team
   * and sharing) is the report's own when the report has it, and the default
   * otherwise: the report's id and dataset (undefined when absent), global
   * scope, no owner, no team and an empty list of teams shared with.
   */
  lemma SeedDefaultField(report: Doc, nowIso: string, triageIso: string, i: nat)
    requires UniqueKeys(report) && i < |SeedDefaults(report)|
    ensures var (k, x) := SeedDefaults(report)[i];
      Lookup(BuildSeedDocument(report, nowIso, triageIso), k) == if k in Keys(report) then Lookup(report, k) else x
  {
    var ms := SeedDefaults(report);
    DefaultsOutsideStamp(report);
    DistinctUnique(ms);
    LookupAt(ms, i);
    SeedDocumentKeeps(report, nowIso, triageIso, ms[i].0);
  }

  /**
   * Whatever the report holds, a seeded document has the default triage of
   * the report, whose history ends with its status, an empty vote record
   * whose tallies agree with its ballots, and equal creation and update times.
   */
  lemma SeedStampApplies(report: Doc, nowIso: string, triageIso: string)
    requires UniqueKeys(report)
    ensures var d := BuildSeedDocument(report, nowIso, triageIso);
      && Lookup(d, "triage") == BuildDefaultTriage(Obj(report), triageIso)
      && HistoryMatches(Lookup(d, "triage"))
      && Lookup(d, "votes") == InitialVotes && Tallied(Lookup(d, "votes"))
      && Lookup(d, "createdAt") == Lookup(d, "updatedAt") == Str(nowIso)
  {
    var ms := SeedStamp(report, nowIso, triageIso);
    SeedStampShape(report, nowIso, triageIso);
    SeedDocumentReads(report, nowIso, triageIso, "triage");
    SeedDocumentReads(report, nowIso, triageIso, "votes");
    SeedDocumentReads(report, nowIso, triageIso, "createdAt");
    SeedDocumentReads(report, nowIso, triageIso, "updatedAt");
    LookupAt(ms, 1);
    LookupAt(ms, 2);
    LookupAt(ms, 3);
    DefaultTriageMatches(Obj(report), triageIso);
    InitialTallied();
  }

  /** The normalized rows: BFRO, then Woodape, then Kilmury; the first dataset that fails to normalize throws. */
  function SeedRows(bfroByState: Json, woodapeReports: Json, kilmuryReports: Json): Result<seq<Doc>, Thrown>
  {
    match BfroRows(StateGroups(bfroByState))
    case Err(e) => Err(e)
    case Ok(bfro) =>
      match NormalizeWoodapeReports(woodapeReports)
      case Err(e) => Err(e)
      case Ok(woodape) =>
        match NormalizeKilmuryReports(kilmuryReports)
        case Err(e) => Err(e)
        case Ok(kilmury) => Ok(bfro + woodape + kilmury)
  }

  /** `loadSeedReportDocuments` on the parsed data files: one seeded document per normalized row. */
  function LoadSeedDocuments(bfroByState: Json, woodapeReports: Json, kilmuryReports: Json, nowIso: string, triageIso: string): Result<seq<Doc>, Thrown>
  {
    match SeedRows(bfroByState, woodapeReports, kilmuryReports)
    case Err(e) => Err(e)
    case Ok(rows) => Ok(Seqs.Map(rows, (report: Doc) => BuildSeedDocument(report, nowIso, triageIso)))
  }

  /** Seeding succeeds exactly when all three datasets normalize. */
  lemma SeedSucceeds(bfroByState: Json, woodapeReports: Json, kilmuryReports: Json, nowIso: string, triageIso: string)
    ensures LoadSeedDocuments(bfroByState, woodapeReports, kilmuryReports, nowIso, triageIso).Ok? <==>
      && BfroRows(StateGroups(bfroByState)).Ok?
      && NormalizeWoodapeReports(woodapeReports).Ok?
      && NormalizeKilmuryReports(kilmuryReports).Ok?
  {
  }

  /**
   * Seeding from normalized rows yields one document per row: the BFRO
   * rows' documents first, then the Woodape ones, then the Kilmury ones,
   * each built from its row; there are as many BFRO documents as reports
   * in the BFRO groups.
   */
  lemma SeedDocumentsInOrder(bfroByState: Json, woodapeReports: Json, kilmuryReports: Json, nowIso: string, triageIso: string,
                             b: seq<Doc>, w: seq<Doc>, k: seq<Doc>)
    requires BfroRows(StateGroups(bfroByState)) == Ok(b)
    requires NormalizeWoodapeReports(woodapeReports) == Ok(w)
    requires NormalizeKilmuryReports(kilmuryReports) == Ok(k)
    ensures var r := LoadSeedDocuments(bfroByState, woodapeReports, kilmuryReports, nowIso, triageIso);
      && r.Ok?
      && |b| == TotalReports(StateGroups(bfroByState))
      && |r.value| == |b| + |w| + |k|
      && (forall i :: 0 <= i < |b| ==> r.value[i] == BuildSeedDocument(b[i], nowIso, triageIso))
      && (forall i :: 0 <= i < |w| ==> r.value[|b| + i] == BuildSeedDocument(w[i], nowIso, triageIso))
      && (forall i :: 0 <= i < |k| ==> r.value[|b| + |w| + i] == BuildSeedDocument(k[i], nowIso, triageIso))
  {
    BfroRowsCount(StateGroups(bfroByState));
    assert SeedRows(bfroByState, woodapeReports, kilmuryReports) == Ok(b + w + k);
    SeedOfRows(b, w, k, nowIso, triageIso);
  }

  /** Seeding concatenated rows keeps each part's documents in place. */
  lemma SeedOfRows(b: seq<Doc>, w: seq<Doc>, k: seq<Doc>, nowIso: string, triageIso: string)
    ensures var docs := Seqs.Map(b + w + k, (report: Doc) => BuildSeedDocument(report, nowIso, triageIso));
      && |docs| == |b| + |w| + |k|
      && (forall i :: 0 <= i < |b| ==> docs[i] == BuildSeedDocument(b[i], nowIso, triageIso))
      && (forall i :: 0 <= i < |w| ==> docs[|b| + i] == BuildSeedDocument(w[i], nowIso, triageIso))
      && (forall i :: 0 <= i < |k| ==> docs[|b| + |w| + i] == BuildSeedDocument(k[i], nowIso, triageIso))
  {
    var rows := b + w + k;
    assert forall i :: 0 <= i < |b| ==> rows[i] == b[i];
    assert forall i :: 0 <= i < |w| ==> rows[|b| + i] == w[i];
    assert forall i :: 0 <= i < |k| ==> rows[|b| + |w| + i] == k[i];
  }

  /**
   * Every seeded document of rows with unique keys starts consistent: its
   * triage history ends with its status, its tallies agree with its ballots,
   * and it was created when it was last updated.
   */
  lemma SeedDocumentsConsistent(rows: seq<Doc>, nowIso: string, triageIso: string)
    requires forall i :: 0 <= i < |rows| ==> UniqueKeys(rows[i])
    ensures var docs := Seqs.Map(rows, (report: Doc) => BuildSeedDocument(report, nowIso, triageIso));
      forall i :: 0 <= i < |docs| ==>
        && HistoryMatches(Lookup(docs[i], "triage"))
        && Tallied(Lookup(docs[i], "votes"))
        && Lookup(docs[i], "createdAt") == Lookup(docs[i], "updatedAt")
  {
    forall i | 0 <= i < |rows|
      ensures var d := BuildSeedDocument(rows[i], nowIso, triageIso);
        HistoryMatches(Lookup(d, "triage")) && Tallied(Lookup(d, "votes")) && Lookup(d, "createdAt") == Lookup(d, "updatedAt")
    {
      SeedStampApplies(rows[i], nowIso, triageIso);
    }
  }

  /** The normalized rows seeding starts from never repeat a key. */
  lemma SeedRowsUnique(bfroByState: Json, woodapeReports: Json, kilmuryReports: Json)
    ensures var r := SeedRows(bfroByState, woodapeReports, kilmuryReports);
      r.Ok? ==> UniqueRows(r.value)
  {
    var b := BfroRows(StateGroups(bfroByState));
    var w := NormalizeWoodapeReports(woodapeReports);
    var k := NormalizeKilmuryReports(kilmuryReports);
    if b.Ok? && w.Ok? && k.Ok? {
      BfroRowsUnique(StateGroups(bfroByState));
      WoodapeRowsUnique(woodapeReports);
      KilmuryRowsUnique(kilmuryReports);
      UniqueRowsConcat(b.value, w.value, k.value);
    }
  }

  lemma UniqueRowsConcat(b: seq<Doc>, w: seq<Doc>, k: seq<Doc>)
    requires UniqueRows(b) && UniqueRows(w) && UniqueRows(k)
    ensures UniqueRows(b + w + k)
  {
    var rows := b + w + k;
    forall i | 0 <= i < |rows|
      ensures UniqueKeys(rows[i])
    {
      if i < |b| {
        assert rows[i] == b[i];
      } else if i < |b| + |w| {
        assert rows[i] == w[i - |b|];
      } else {
        assert rows[i] == k[i - |b| - |w|];
      }
    }
  }

  /**
   * Every document seeding from the data files produces starts consistent:
   * its triage history ends with its status, its tallies agree with its
   * ballots, and it was created when it was last updated.
   */
  lemma LoadedSeedConsistent(bfroByState: Json, woodapeReports: Json, kilmuryReports: Json, nowIso: string, triageIso: string)
    ensures var r := LoadSeedDocuments(bfroByState, woodapeReports, kilmuryReports, nowIso, triageIso);
      r.Ok? ==> forall i :: 0 <= i < |r.value| ==>
        && HistoryMatches(Lookup(r.value[i], "triage"))
        && Tallied(Lookup(r.value[i], "votes"))
        && Lookup(r.value[i], "createdAt") == Lookup(r.value[i], "updatedAt")
  {
    var rows := SeedRows(bfroByState, woodapeReports, kilmuryReports);
    var r := LoadSeedDocuments(bfroByState, woodapeReports, kilmuryReports, nowIso, triageIso);
    if rows.Ok? {
      SeedRowsUnique(bfroByState, woodapeReports, kilmuryReports);
      var docs := Seqs.Map(rows.value, (report: Doc) => BuildSeedDocument(report, nowIso, triageIso));
      assert r == Ok(docs);
      forall i | 0 <= i < |docs|
        ensures HistoryMatches(Lookup(docs[i], "triage")) && Tallied(Lookup(docs[i], "votes"))
        ensures Lookup(docs[i], "createdAt") == Lookup(docs[i], "updatedAt")
      {
        SeedStampApplies(rows.value[i], nowIso, triageIso);
      }
    }
  }
}

=== FILE: seqs.dfy ===
/** Order-preserving filtering of sequences (JavaScript `Array.prototype.filter`). */
module Seqs {

  /** The elements of `s` that satisfy `p`, in their original order. */
  function Filter<T>(s: seq<T>, p: T -> bool): (r: seq<T>)
    ensures |r| <= |s|
    ensures forall x :: x in r ==> x in s && p(x)
    ensures forall x :: x in s && p(x) ==> x in r
  {
    if s == [] then [] else (if p(s[0]) then [s[0]] else []) + Filter(s[1..], p)
  }

  /** `Array.prototype.map`: `f` applied to every element, in order. */
  function Map<T, U>(s: seq<T>, f: T -> U): (r: seq<U>)
    ensures |r| == |s|
    ensures forall i :: 0 <= i < |s| ==> r[i] == f(s[i])
  {
    if s == [] then [] else [f(s[0])] + Map(s[1..], f)
  }

  /** Mapping four elements gives their four images, in order. */
  lemma MapFour<T, U>(a: T, b: T, c: T, d: T, f: T -> U)
    ensures Map([a, b, c, d], f) == [f(a), f(b), f(c), f(d)]
  {
  }

  /** Mapping one more element appends its image. */
  lemma MapAppend<T, U>(s: seq<T>, x: T, f: T -> U)
    ensures Map(s + [x], f) == Map(s, f) + [f(x)]
  {
    assert forall i :: 0 <= i < |s| ==> (s + [x])[i] == s[i];
  }

  /** Filtering distributes over concatenation: the order of survivors is the storage order. */
  lemma {:induction false} FilterAppend<T>(a: seq<T>, b: seq<T>, p: T -> bool)
    ensures Filter(a + b, p) == Filter(a, p) + Filter(b, p)
  {
    if a == [] {
      assert a + b == b;
    } else {
      assert (a + b)[0] == a[0];
      assert (a + b)[1..] == a[1..] + b;
      FilterAppend(a[1..], b, p);
    }
  }

  /** A filter that every element passes keeps the whole sequence. */
  lemma {:induction false} FilterAll<T>(s: seq<T>, p: T -> bool)
    requires forall x :: x in s ==> p(x)
    ensures Filter(s, p) == s
  {
    if s != [] {
      FilterAll(s[1..], p);
    }
  }

  /** A filter that no element passes keeps nothing. */
  lemma {:induction false} FilterNone<T>(s: seq<T>, p: T -> bool)
    requires forall x :: x in s ==> !p(x)
    ensures Filter(s, p) == []
  {
    if s != [] {
      FilterNone(s[1..], p);
    }
  }

  /** The filtered length is shorter exactly when some element fails the filter. */
  lemma {:induction false} FilterShrinks<T>(s: seq<T>, p: T -> bool)
    ensures |Filter(s, p)| == |s| <==> forall x :: x in s ==> p(x)
  {
    if s != [] {
      FilterShrinks(s[1..], p);
      if !p(s[0]) {
        assert |Filter(s, p)| == |Filter(s[1..], p)| <= |s[1..]| < |s|;
      }
    }
  }

  /** Number of elements of `s` that satisfy `p`. */
  function Count<T>(s: seq<T>, p: T -> bool): (n: nat)
    ensures n <= |s|
  {
    if s == [] then 0 else (if p(s[0]) then 1 else 0) + Count(s[1..], p)
  }

  /** The filtered sequence is as long as the number of elements that pass. */
  lemma {:induction false} FilterLength<T>(s: seq<T>, p: T -> bool)
    ensures |Filter(s, p)| == Count(s, p)
  {
    if s != [] {
      FilterLength(s[1..], p);
    }
  }

  /** Counting distributes over concatenation. */
  lemma {:induction false} CountAppend<T>(a: seq<T>, b: seq<T>, p: T -> bool)
    ensures Count(a + b, p) == Count(a, p) + Count(b, p)
  {
    if a == [] {
      assert a + b == b;
    } else {
      assert (a + b)[1..] == a[1..] + b;
      CountAppend(a[1..], b, p);
    }
  }
}

=== FILE: service.dfy ===
/**
 * The report service: query parsing for the map and list views, the
 * submission of a new report, voting, triage updates, exports and removal,
 * each over the report repository. The clock (`now`) and the generated id
 * token are parameters.
 */
module Service {
  import opened Wrappers
  import opened Numbers
  import opened Text
  import opened Json
  import opened Errors
  import opened Calendar
  import opened Dates
  import opened Store
  import opened Repository
  import opened Normalization
  import opened Export
  import opened Csv
  import Seqs

  /* ------------------------------------------------------- Query parsing */

  /** The string query parameters `fetchReports` reads; an absent parameter is `None`. */
  datatype Query = Query(
    datasets: Option<string>,
    bounds: Option<string>,
    fromYear: Option<string>,
    toYear: Option<string>,
    includeWithoutCoordinates: Option<string>)

  /** A query with no parameters at all. */
  const EmptyQuery: Query := Query(None, None, None, None, None)

  /** `value.trim().toLowerCase()` */
  function DatasetKey(part: string): string
  {
    ToLower(Trim(part))
  }

  /** A key as `parseDatasetKeys` yields it: non-empty, trimmed, lower-case and free of commas. */
  predicate IsDatasetKey(k: string)
  {
    k != [] && IsTrimmed(k) && ',' !in k && forall i :: 0 <= i < |k| ==> !('A' <= k[i] <= 'Z')
  }

  /** ASCII lower-casing keeps whitespace, keeps commas and leaves no upper-case letter. */
  lemma LowerCharFacts(c: char)
    ensures IsJsWhitespace(LowerChar(c)) <==> IsJsWhitespace(c)
    ensures LowerChar(c) == ',' <==> c == ','
    ensures !('A' <= LowerChar(c) <= 'Z')
  {
  }

  /** Lower-casing a trimmed piece of comma-split text gives a trimmed, comma-free, lower-case key. */
  lemma DatasetKeyShape(part: string)
    requires ',' !in part
    ensures var k := DatasetKey(part); k != [] ==> IsDatasetKey(k)
  {
    var t := Trim(part);
    TrimKeepsOut(part, ',');
    if t != [] {
      LowerShape(t);
    }
  }

  /** A character the text lacks is also absent from the trimmed text. */
  lemma TrimKeepsOut(part: string, c: char)
    requires c !in part
    ensures c !in Trim(part)
  {
    var t := Trim(part);
    var start := |part| - |TrimStart(part)|;
    assert Surrounded(part, start, t);
    forall i | 0 <= i < |t|
      ensures t[i] != c
    {
      assert t[i] == part[start + i];
      assert part[start + i] in part;
    }
  }

  /** Lower-casing a non-empty trimmed text without commas gives a dataset key. */
  lemma LowerShape(t: string)
    requires t != [] && IsTrimmed(t) && ',' !in t
    ensures IsDatasetKey(ToLower(t))
  {
    var k := ToLower(t);
    LowerCharFacts(t[0]);
    LowerCharFacts(t[|t| - 1]);
    forall i | 0 <= i < |k|
      ensures k[i] != ',' && !('A' <= k[i] <= 'Z')
    {
      LowerCharFacts(t[i]);
    }
  }

  /** Text with no upper-case ASCII letter is its own lower case. */
  lemma LowerFixed(k: string)
    requires forall i :: 0 <= i < |k| ==> !('A' <= k[i] <= 'Z')
    ensures ToLower(k) == k
  {
  }

  /**
   * `parseDatasetKeys`: no keys for an absent or empty parameter; otherwise
   * the comma-separated pieces, trimmed and lower-cased, with the empty
   * ones dropped.
   */
  function ParseDatasetKeys(datasetQuery: Option<string>): (keys: seq<string>)
    ensures forall k :: k in keys ==> IsDatasetKey(k)
  {
    if datasetQuery.None? || datasetQuery.value == "" then []
    else
      var parts := Split(datasetQuery.value, ',');
      KeysShape(parts);
      Seqs.Filter(Seqs.Map(parts, DatasetKey), (k: string) => |k| > 0)
  }

  /** Every non-empty key made from comma-free pieces has the parsed form. */
  lemma KeysShape(parts: seq<string>)
    requires forall i :: 0 <= i < |parts| ==> ',' !in parts[i]
    ensures forall k :: k in Seqs.Filter(Seqs.Map(parts, DatasetKey), (k: string) => |k| > 0) ==> IsDatasetKey(k)
  {
    var mapped := Seqs.Map(parts, DatasetKey);
    forall k | k in mapped && |k| > 0
      ensures IsDatasetKey(k)
    {
      var i :| 0 <= i < |mapped| && mapped[i] == k;
      DatasetKeyShape(parts[i]);
    }
  }

  /** Keys already in the parsed form, joined with commas, parse back to themselves, in order. */
  lemma DatasetKeysRoundTrip(keys: seq<string>)
    requires forall k :: k in keys ==> IsDatasetKey(k)
    ensures ParseDatasetKeys(Some(Join(keys, ","))) == keys
  {
    if keys != [] {
      var text := Join(keys, ",");
      assert text != "" by {
        assert keys[0] in keys;
        JoinFirst(keys, ",");
      }
      assert Split(text, ',') == keys by {
        assert forall i :: 0 <= i < |keys| ==> keys[i] in keys;
        SplitJoin(keys, ',');
      }
      KeysFixed(keys);
      assert Seqs.Filter(keys, (k: string) => |k| > 0) == keys by {
        assert forall i :: 0 <= i < |keys| ==> keys[i] in keys;
        Seqs.FilterAll(keys, (k: string) => |k| > 0);
      }
    }
  }

  /** Keys in the parsed form are left as they are by trimming and lower-casing. */
  lemma KeysFixed(keys: seq<string>)
    requires forall k :: k in keys ==> IsDatasetKey(k)
    ensures Seqs.Map(keys, DatasetKey) == keys
  {
    var mapped := Seqs.Map(keys, DatasetKey);
    forall i | 0 <= i < |keys| ensures mapped[i] == keys[i] {
      assert keys[i] in keys;
      TrimmedFixed(keys[i]);
      LowerFixed(keys[i]);
    }
  }

  /** The joined text starts with the first piece. */
  lemma JoinFirst(parts: seq<string>, sep: string)
    requires |parts| >= 1
    ensures |Join(parts, sep)| >= |parts[0]|
  {
  }

  /**
   * `parseBounds`: `south,west,north,east` as four finite numbers; an
   * absent or empty parameter, a different number of parts or any part
   * that is not a finite number gives no bounds.
   */
  function ParseBounds(boundsQuery: Option<string>): (r: Option<Bounds>)
    ensures r.Some? ==> r.value.south.Finite? && r.value.west.Finite? && r.value.north.Finite? && r.value.east.Finite?
  {
    if boundsQuery.None? || boundsQuery.value == "" then None
    else
      var parts := Seqs.Map(Split(boundsQuery.value, ','), StringToNumber);
      if |parts| != 4 || !parts[0].Finite? || !parts[1].Finite? || !parts[2].Finite? || !parts[3].Finite? then None
      else Some(Bounds(parts[0], parts[1], parts[2], parts[3]))
  }

  /**
   * For any text, bounds result exactly when it has four comma-separated
   * parts that all convert to finite numbers, and those numbers are the
   * south, west, north and east edges, in that order.
   */
  lemma BoundsOfParts(text: string)
    ensures var nums := Seqs.Map(Split(text, ','), StringToNumber);
      ParseBounds(Some(text)) ==
        if |nums| == 4 && nums[0].Finite? && nums[1].Finite? && nums[2].Finite? && nums[3].Finite?
        then Some(Bounds(nums[0], nums[1], nums[2], nums[3]))
        else None
  {
    if text == "" {
      SplitJoin([""], ',');
      assert Join([""], [',']) == "";
    }
  }

  /** Text without exactly four comma-separated parts gives no bounds. */
  lemma BoundsNeedFourParts(text: string)
    requires |Split(text, ',')| != 4
    ensures ParseBounds(Some(text)) == None
  {
    BoundsOfParts(text);
  }

  /** Four comma-free pieces joined by commas are read as the four edges, when all of them are finite numbers. */
  lemma BoundsOfFour(a: string, b: string, c: string, d: string)
    requires ',' !in a && ',' !in b && ',' !in c && ',' !in d
    ensures ParseBounds(Some(a + "," + b + "," + c + "," + d)) ==
      if StringToNumber(a).Finite? && StringToNumber(b).Finite? && StringToNumber(c).Finite? && StringToNumber(d).Finite?
      then Some(Bounds(StringToNumber(a), StringToNumber(b), StringToNumber(c), StringToNumber(d)))
      else None
  {
    var text := a + "," + b + "," + c + "," + d;
    assert Join([a, b, c, d], [',']) == text by {
      assert Join([d], [',']) == d;
      assert Join([c, d], [',']) == c + "," + d;
      assert Join([b, c, d], [',']) == b + "," + (c + "," + d);
    }
    SplitJoin([a, b, c, d], ',');
    BoundsOfParts(text);
  }

  /** Text with two comma-separated parts, such as `bad,bounds`, gives no bounds. */
  lemma BadBounds()
    ensures ParseBounds(Some("bad,bounds")) == None
  {
    SplitJoin(["bad", "bounds"], ',');
    assert Join(["bad", "bounds"], [',']) == "bad,bounds";
    BoundsNeedFourParts("bad,bounds");
  }

  /** `text || ''` */
  function YearText(text: Option<string>): string
  {
    if text.Some? then text.value else ""
  }

  /** A time value as a JSON number: `Date.UTC` gives NaN outside the representable range. */
  function TimeValue(t: Option<int>): Json
  {
    if t.Some? then Int(t.value) else Number(NaN)
  }

  /** The `fromTimestampMs` of `parseYearRange`: the first millisecond of the year, or null when no year parses. */
  function YearStartMs(fromYearText: Option<string>): Json
  {
    var year := ParseInt(YearText(fromYearText));
    if !year.Finite? then Null
    else TimeValue(DateUtc(year, N(0), N(1), N(0), N(0), N(0), N(0)))
  }

  /** The `toTimestampMs` of `parseYearRange`: the last millisecond of the year, or null when no year parses. */
  function YearEndMs(toYearText: Option<string>): Json
  {
    var year := ParseInt(YearText(toYearText));
    if !year.Finite? then Null
    else TimeValue(DateUtc(year, N(11), N(31), N(23), N(59), N(59), N(999)))
  }

  /** The options `fetchReports` hands to `listReports`. */
  function QueryFilters(q: Query): Filters
  {
    Filters(ParseDatasetKeys(q.datasets), YearStartMs(q.fromYear), YearEndMs(q.toYear),
      ParseBounds(q.bounds), q.includeWithoutCoordinates != Some("false"), [])
  }

  /** An absent year, or one with no leading digits, leaves that end of the time window open. */
  lemma OpenYear(text: Option<string>)
    requires text.None? || text.value == "" || (text.value[0] != '-' && text.value[0] != '+' && !IsDigit(text.value[0]) && !IsJsWhitespace(text.value[0]))
    ensures YearStartMs(text) == Null && YearEndMs(text) == Null
  {
    var s := YearText(text);
    assert TrimStart(s) == s;
    assert DigitPrefix(s) == 0;
  }

  /** A query without parameters lists every report: it asks for exactly the default options. */
  lemma EmptyQueryFilters()
    ensures QueryFilters(EmptyQuery) == NoFilters
  {
    OpenYear(None);
  }

  /** A year text `parseInt` reads as `a` starts the window at the first millisecond of year `a`. */
  lemma YearStartOf(text: string, a: int)
    requires ParseInt(text) == N(a)
    requires ValidTime(DayFromYear(FullYear(a)) * MsPerDay)
    ensures YearStartMs(Some(text)) == Int(DayFromYear(FullYear(a)) * MsPerDay)
  {
    YearStartUtc(a);
  }

  /** A year text `parseInt` reads as `b` ends the window at the last millisecond of year `b`. */
  lemma YearEndOf(text: string, b: int)
    requires ParseInt(text) == N(b)
    requires ValidTime(DayFromYear(FullYear(b) + 1) * MsPerDay - 1)
    ensures YearEndMs(Some(text)) == Int(DayFromYear(FullYear(b) + 1) * MsPerDay - 1)
  {
    YearEndUtc(b);
  }

  /**
   * With year texts that `parseInt` reads as `a` and `b` (such as the
   * integers written out), the time window keeps a report stamped `t`
   * exactly when `t` lies between the first millisecond of year `a` and the
   * last millisecond of year `b`, both included (years 0 to 99 meaning 1900
   * to 1999, as `Date.UTC` reads them); `YearBounds` turns this into a
   * statement about the calendar year of `t`.
   */
  lemma YearWindowSelects(q: Query, a: int, b: int, report: Doc, t: int)
    requires q.fromYear.Some? && ParseInt(q.fromYear.value) == N(a)
    requires q.toYear.Some? && ParseInt(q.toYear.value) == N(b)
    requires ValidTime(DayFromYear(FullYear(a)) * MsPerDay)
    requires ValidTime(DayFromYear(FullYear(b) + 1) * MsPerDay - 1)
    requires Lookup(report, "timestampMs") == Int(t)
    ensures TimeOk(QueryFilters(q), report) <==>
      DayFromYear(FullYear(a)) * MsPerDay <= t <= DayFromYear(FullYear(b) + 1) * MsPerDay - 1
  {
    QueryYearEnds(q, a, b);
    TimeWithin(QueryFilters(q), report, t, DayFromYear(FullYear(a)) * MsPerDay, DayFromYear(FullYear(b) + 1) * MsPerDay - 1);
  }

  /** Year texts that read as `a` and `b` put the window's ends at the first millisecond of `a` and the last of `b`. */
  lemma QueryYearEnds(q: Query, a: int, b: int)
    requires q.fromYear.Some? && ParseInt(q.fromYear.value) == N(a)
    requires q.toYear.Some? && ParseInt(q.toYear.value) == N(b)
    requires ValidTime(DayFromYear(FullYear(a)) * MsPerDay)
    requires ValidTime(DayFromYear(FullYear(b) + 1) * MsPerDay - 1)
    ensures QueryFilters(q).fromTimestampMs == Int(DayFromYear(FullYear(a)) * MsPerDay)
    ensures QueryFilters(q).toTimestampMs == Int(DayFromYear(FullYear(b) + 1) * MsPerDay - 1)
  {
    YearStartOf(q.fromYear.value, a);
    YearEndOf(q.toYear.value, b);
  }

  /** With finite ends, the time window is the closed interval between them. */
  lemma TimeWithin(f: Filters, report: Doc, t: int, lo: int, hi: int)
    requires f.fromTimestampMs == Int(lo) && f.toTimestampMs == Int(hi)
    requires Lookup(report, "timestampMs") == Int(t)
    ensures TimeOk(f, report) <==> lo <= t <= hi
  {
  }

  /** A time value lies between the first millisecond of year `ya` and the last of year `yb` exactly when its year does. */
  lemma YearBounds(t: int, ya: int, yb: int)
    ensures DayFromYear(ya) * MsPerDay <= t <==> ya <= YearFromDay(Day(t))
    ensures t <= DayFromYear(yb + 1) * MsPerDay - 1 <==> YearFromDay(Day(t)) <= yb
  {
    DayBounds(DayFromYear(ya), t);
    DayAtLeast(ya, Day(t));
    DayBounds(DayFromYear(yb + 1), t);
    DayAtLeast(yb + 1, Day(t));
  }

  /** Every integer written out is a year text that reads back as itself. */
  lemma YearTextOf(a: int)
    ensures ParseInt(NumberToString(N(a))) == N(a)
  {
    ParseIntRoundTrip(a);
  }

  /** A query naming datasets keeps exactly the reports of those datasets. */
  lemma DatasetSelects(q: Query, keys: seq<string>, report: Doc)
    requires |keys| > 0 && forall k :: k in keys ==> IsDatasetKey(k)
    requires q.datasets == Some(Join(keys, ","))
    ensures DatasetOk(QueryFilters(q), report) <==> exists i :: 0 <= i < |keys| && Lookup(report, "datasetKey") == Str(keys[i])
  {
    DatasetKeysRoundTrip(keys);
  }

  /** Only the exact text `false` drops the reports without a position. */
  lemma CoordinatesSelect(q: Query, report: Doc)
    ensures CoordinatesOk(QueryFilters(q), report) <==> q.includeWithoutCoordinates != Some("false") || Truthy(Lookup(report, "position"))
  {
  }

  /* --------------------------------------------------------- Submissions */

  /** `submissionInput?.title && submissionInput?.summary` */
  predicate SubmissionComplete(input: Json)
  {
    Truthy(Get(input, "title")) && Truthy(Get(input, "summary"))
  }

  /** The 400 error for a submission without a title or a summary; the input goes to the technical details. */
  function SubmissionInvalid(input: Json): (e: Thrown)
    ensures e.Safe? && e.err.statusCode == 400 && e.err.errorCode == "REPORT_SUBMISSION_INVALID"
    ensures e.err.technicalDetails == Obj([("submissionInput", input)])
  {
    Fail("A title and summary are required before submitting a report.", 400, "REPORT_SUBMISSION_INVALID",
      Obj([("submissionInput", input)]))
  }

  /**
   * The clock readings one `createSubmission` call makes before `addReport`:
   * `created` is the `nowIso` it starts with, `fallback` the `Date.now()`
   * it stamps an unparseable date with, and `triaged` the time
   * `buildDefaultTriage` reads for itself. They are separate readings.
   */
  datatype SubmissionClock = SubmissionClock(created: int, fallback: int, triaged: int)
  {
    predicate Valid() { ValidTime(created) && ValidTime(triaged) }
  }

  /**
   * `Date.parse(submissionInput.isoDate || nowIso)`: the submitted date when
   * it is truthy (and then whether it parses), the starting time otherwise.
   */
  function ParsedSubmissionDate(input: Json, now: int): (p: Option<int>)
    requires ValidTime(now)
    ensures p.Some? ==> ValidTime(p.value)
    ensures var given := ParseDateMs(ToJsString(Get(input, "isoDate")));
      && (Truthy(Get(input, "isoDate")) ==> p == given)
      && (!Truthy(Get(input, "isoDate")) ==> p == Some(now))
  {
    var date := Get(input, "isoDate");
    if Truthy(date) then ParseDateMs(ToJsString(date))
    else
      ParseIsoString(now);
      ParseDateMs(ToIsoString(now))
  }

  /**
   * The instant a submission's `isoDate` names: the submitted date when it
   * is truthy and parses, the starting time otherwise.
   */
  function SubmissionTime(input: Json, now: int): (t: int)
    requires ValidTime(now)
    ensures ValidTime(t)
    ensures var given := ParseDateMs(ToJsString(Get(input, "isoDate")));
      && (Truthy(Get(input, "isoDate")) && given.Some? ==> t == given.value)
      && (!Truthy(Get(input, "isoDate")) || given.None? ==> t == now)
  {
    var parsed := ParsedSubmissionDate(input, now);
    if parsed.Some? then parsed.value else now
  }

  /**
   * A submission's `timestampMs`: the submitted date when it is truthy and
   * parses, the starting time when it is missing, and the later `Date.now()`
   * reading when it is present but does not parse.
   */
  function SubmissionTimestamp(input: Json, now: int, fallback: int): (t: int)
    requires ValidTime(now)
    ensures var given := ParseDateMs(ToJsString(Get(input, "isoDate")));
      && (Truthy(Get(input, "isoDate")) && given.Some? ==> t == given.value)
      && (!Truthy(Get(input, "isoDate")) ==> t == now)
      && (Truthy(Get(input, "isoDate")) && given.None? ==> t == fallback)
  {
    var parsed := ParsedSubmissionDate(input, now);
    if parsed.Some? then parsed.value else fallback
  }

  /** The vote record of a new report: `{ up: 0, down: 0, byUser: {} }`. */
  const InitialVotes: Json := Obj([("up", Int(0)), ("down", Int(0)), ("byUser", Obj([]))])

  /** The keys `createSubmission` sets over the submitted ones. */
  const SubmissionKeys: seq<string> := ["datasetKey", "scope", "ownerUserId", "teamId", "sharing", "isoDate", "timestampMs", "triage", "votes"]

  /**
   * The members `createSubmission` writes after spreading the input, for a
   * report stamped `date` and dated `dateIso`, triaged at `nowIso`.
   */
  function SubmissionMembers(input: Json, ctx: Json, nowIso: string, date: int, dateIso: string): Doc
  {
    [("datasetKey", Str("submissions")),
     ("scope", Or(Get(input, "scope"), Str("private"))),
     ("ownerUserId", Or(Get(ctx, "userId"), Null)),
     ("teamId", Or(Get(input, "teamId"), Null)),
     ("sharing", Or(Get(input, "sharing"), Obj([("sharedWithTeamIds", Arr([]))]))),
     ("isoDate", Str(dateIso)),
     ("timestampMs", Int(date)),
     ("triage", BuildDefaultTriage(input, nowIso)),
     ("votes", InitialVotes)]
  }

  /** The normalized input `createSubmission` hands to `addReport`. */
  function Submission(input: Json, ctx: Json, clock: SubmissionClock): Doc
    requires clock.Valid()
  {
    Merge(Entries(input), SubmissionMembers(input, ctx, ToIsoString(clock.triaged),
      SubmissionTimestamp(input, clock.created, clock.fallback), ToIsoString(SubmissionTime(input, clock.created))))
  }

  /** The written members have distinct keys, in the order of `SubmissionKeys`. */
  lemma SubmissionMembersShape(input: Json, ctx: Json, nowIso: string, date: int, dateIso: string)
    ensures var ms := SubmissionMembers(input, ctx, nowIso, date, dateIso);
      UniqueKeys(ms) && Keys(ms) == SubmissionKeys
  {
    DistinctUnique(SubmissionMembers(input, ctx, nowIso, date, dateIso));
  }

  /**
   * A submission reads every written key from the written members and
   * every other key from the input: the dataset is always `submissions`
   * whatever the input says, and no other submitted field is lost.
   */
  lemma SubmissionReads(input: Json, ctx: Json, nowIso: string, date: int, dateIso: string, k: string)
    ensures var ms := SubmissionMembers(input, ctx, nowIso, date, dateIso);
      && Lookup(Merge(Entries(input), ms), k) == (if k in SubmissionKeys then Lookup(ms, k) else Lookup(Entries(input), k))
      && Lookup(Merge(Entries(input), ms), "datasetKey") == Str("submissions")
  {
    var ms := SubmissionMembers(input, ctx, nowIso, date, dateIso);
    SubmissionMembersShape(input, ctx, nowIso, date, dateIso);
    MergeLookup(Entries(input), ms, k);
    MergeLookup(Entries(input), ms, "datasetKey");
  }

  /**
   * The defaults of a submission: private scope, no team and no sharing
   * unless given, the submitter (or null) as owner, and no votes.
   */
  lemma SubmissionDefaults(input: Json, ctx: Json, nowIso: string, date: int, dateIso: string)
    ensures var ms := SubmissionMembers(input, ctx, nowIso, date, dateIso);
      && Lookup(ms, "scope") == (if Truthy(Get(input, "scope")) then Get(input, "scope") else Str("private"))
      && Lookup(ms, "ownerUserId") == (if Truthy(Get(ctx, "userId")) then Get(ctx, "userId") else Null)
      && Lookup(ms, "teamId") == (if Truthy(Get(input, "teamId")) then Get(input, "teamId") else Null)
      && Lookup(ms, "votes") == InitialVotes
  {
    var ms := SubmissionMembers(input, ctx, nowIso, date, dateIso);
    SubmissionMembersShape(input, ctx, nowIso, date, dateIso);
    LookupAt(ms, 1);
    LookupAt(ms, 2);
    LookupAt(ms, 3);
    LookupAt(ms, 8);
  }

  /** A submission carries the date it was given as both `timestampMs` and `isoDate`. */
  lemma SubmissionDateFields(input: Json, ctx: Json, nowIso: string, date: int, dateIso: string)
    ensures var d := Merge(Entries(input), SubmissionMembers(input, ctx, nowIso, date, dateIso));
      Lookup(d, "timestampMs") == Int(date) && Lookup(d, "isoDate") == Str(dateIso)
  {
    WrittenField(input, ctx, nowIso, date, dateIso, 5);
    WrittenField(input, ctx, nowIso, date, dateIso, 6);
  }

  /** Each written key of a submission reads the value written for it. */
  lemma WrittenField(input: Json, ctx: Json, nowIso: string, date: int, dateIso: string, i: nat)
    requires i < |SubmissionKeys|
    ensures var ms := SubmissionMembers(input, ctx, nowIso, date, dateIso);
      Lookup(Merge(Entries(input), ms), SubmissionKeys[i]) == ms[i].1
  {
    var ms := SubmissionMembers(input, ctx, nowIso, date, dateIso);
    SubmissionMembersShape(input, ctx, nowIso, date, dateIso);
    assert Keys(ms)[i] == SubmissionKeys[i];
    MergeLookup(Entries(input), ms, SubmissionKeys[i]);
    LookupAt(ms, i);
  }

  /**
   * A submission's `isoDate` always parses, to the instant `SubmissionTime`
   * names, and its `timestampMs` is `SubmissionTimestamp`; the two agree
   * exactly when the date parsed or the two clock readings coincide.
   */
  lemma SubmissionDates(input: Json, ctx: Json, clock: SubmissionClock)
    requires clock.Valid()
    ensures var d := Submission(input, ctx, clock);
      && Lookup(d, "isoDate").Str? && Lookup(d, "timestampMs").Number?
      && ParseDateMs(Lookup(d, "isoDate").s) == Some(SubmissionTime(input, clock.created))
      && Lookup(d, "timestampMs") == Int(SubmissionTimestamp(input, clock.created, clock.fallback))
      && (ParseDateMs(Lookup(d, "isoDate").s) == Some(SubmissionTimestamp(input, clock.created, clock.fallback))
          <==> ParsedSubmissionDate(input, clock.created).Some? || clock.fallback == clock.created)
  {
    var t := SubmissionTime(input, clock.created);
    SubmissionDateFields(input, ctx, ToIsoString(clock.triaged), SubmissionTimestamp(input, clock.created, clock.fallback), ToIsoString(t));
    ParseIsoString(t);
  }

  /** A new submission starts with the default triage, built from the submitted fields. */
  lemma SubmissionTriage(input: Json, ctx: Json, nowIso: string, date: int, dateIso: string)
    ensures Lookup(Merge(Entries(input), SubmissionMembers(input, ctx, nowIso, date, dateIso)), "triage") == BuildDefaultTriage(input, nowIso)
  {
    WrittenField(input, ctx, nowIso, date, dateIso, 7);
  }

  /* -------------------------------------------------------------- Voting */

  /** The 400 error for a vote that is neither `up` nor `down`. */
  function InvalidDirection(direction: Json): (e: Thrown)
    ensures e.Safe? && e.err.statusCode == 400 && e.err.errorCode == "REPORT_VOTE_INVALID_DIRECTION"
  {
    Fail("Vote direction must be either up or down.", 400, "REPORT_VOTE_INVALID_DIRECTION", Obj([("direction", direction)]))
  }

  /** The 404 error for a report id that is not stored. */
  function ReportNotFound(reportId: string): (e: Thrown)
    ensures e.Safe? && e.err.statusCode == 404 && e.err.errorCode == "REPORT_NOT_FOUND"
  {
    Fail("Report was not found.", 404, "REPORT_NOT_FOUND", Obj([("reportId", Str(reportId))]))
  }

  /** `userContext?.userId || userContext?.clientId || 'anonymous'`, as the property key it is used as. */
  function VoterKey(ctx: Json): string
  {
    ToJsString(Or(Or(Get(ctx, "userId"), Get(ctx, "clientId")), Str("anonymous")))
  }

  /** `Math.max(0, n - 1)` */
  function ClampedDecrement(n: Num): Num
  {
    match n
    case Finite(v) => Finite(if v - 1.0 < 0.0 then 0.0 else v - 1.0)
    case NaN => NaN
    case PosInf => PosInf
    case NegInf => Finite(0.0)
  }

  /** `n + 1` */
  function Increment(n: Num): Num
  {
    match n
    case Finite(v) => Finite(v + 1.0)
    case _ => n
  }

  /** One tally after a vote: less the withdrawn ballot (never below zero), plus the added one. */
  function Recount(n: Num, withdrawn: bool, added: bool): Num
  {
    var kept := if withdrawn then ClampedDecrement(n) else n;
    if added then Increment(kept) else kept
  }

  /**
   * The vote record after `voter` votes `direction`: the voter's previous
   * ballot is withdrawn from its tally, the new ballot replaces it in
   * `byUser`, and the tally of the new direction goes up by one.
   */
  function CastVote(votes: Json, voter: string, direction: string): Json
  {
    var previous := Or(Get(Get(votes, "byUser"), voter), Null);
    var up := ToNumber(Or(Get(votes, "up"), Int(0)));
    var down := ToNumber(Or(Get(votes, "down"), Int(0)));
    var ballots := Set(Entries(Or(Get(votes, "byUser"), Obj([]))), voter, Str(direction));
    Obj([("up", Number(Recount(up, previous == Str("up"), direction == "up"))),
         ("down", Number(Recount(down, previous == Str("down"), direction != "up"))),
         ("byUser", Obj(ballots))])
  }

  /** How many ballots in `byUser` are `direction`. */
  function Ballots(ms: seq<(string, Json)>, direction: string): nat
  {
    if ms == [] then 0 else (if ms[0].1 == Str(direction) then 1 else 0) + Ballots(ms[1..], direction)
  }

  /** Tallies that agree with the ballots: `up` and `down` count the voters whose ballot is that direction. */
  predicate Tallied(votes: Json)
  {
    var ballots := Get(votes, "byUser");
    && ballots.Obj? && UniqueKeys(ballots.members)
    && Get(votes, "up") == Int(Ballots(ballots.members, "up"))
    && Get(votes, "down") == Int(Ballots(ballots.members, "down"))
  }

  /** Replacing one voter's ballot moves exactly that ballot between the counts. */
  lemma {:induction false} BallotsSet(ms: seq<(string, Json)>, voter: string, x: Json, direction: string)
    ensures Ballots(Set(ms, voter, x), direction) + (if Lookup(ms, voter) == Str(direction) then 1 else 0)
         == Ballots(ms, direction) + (if x == Str(direction) then 1 else 0)
  {
    if ms != [] && ms[0].0 != voter {
      BallotsSet(ms[1..], voter, x, direction);
      assert Set(ms, voter, x)[1..] == Set(ms[1..], voter, x);
    } else if ms != [] {
      assert Set(ms, voter, x)[1..] == ms[1..];
    }
  }

  /** A new report's vote record agrees with its (empty) ballots. */
  lemma InitialTallied()
    ensures Tallied(InitialVotes)
  {
    LookupAt(InitialVotes.members, 1);
    LookupAt(InitialVotes.members, 2);
  }

  /** The members of the vote record `CastVote` builds. */
  lemma CastVoteReads(votes: Json, voter: string, direction: string)
    ensures var v := CastVote(votes, voter, direction);
      && v.Obj? && Keys(v.members) == ["up", "down", "byUser"]
      && Get(v, "up") == v.members[0].1 && Get(v, "down") == v.members[1].1 && Get(v, "byUser") == v.members[2].1
  {
    var v := CastVote(votes, voter, direction);
    LookupFirst(v.members, "down", 1);
    LookupFirst(v.members, "byUser", 2);
  }

  /** A vote record `CastVote` builds is determined by its three members. */
  lemma VoteRecordParts(votes: Json, voter: string, direction: string)
    ensures var v := CastVote(votes, voter, direction);
      v == Obj([("up", Get(v, "up")), ("down", Get(v, "down")), ("byUser", Get(v, "byUser"))])
  {
    CastVoteReads(votes, voter, direction);
  }

  /** A tally that counted the withdrawn ballot ends at the count of the new ballots. */
  lemma RecountTally(c: nat, c2: nat, withdrawn: bool, added: bool)
    requires c2 + (if withdrawn then 1 else 0) == c + (if added then 1 else 0)
    requires withdrawn ==> c >= 1
    ensures Recount(ToNumber(Or(Int(c), Int(0))), withdrawn, added) == Finite(c2 as real)
  {
  }

  /** After a vote, the voter's ballot is the new direction and every other voter's ballot is untouched. */
  lemma VoteBallots(votes: Json, voter: string, direction: string, other: string)
    requires Tallied(votes)
    ensures var v := CastVote(votes, voter, direction); var ballots := Get(v, "byUser");
      && ballots == Obj(Set(Get(votes, "byUser").members, voter, Str(direction)))
      && UniqueKeys(ballots.members)
      && Get(ballots, voter) == Str(direction)
      && (other != voter ==> Get(ballots, other) == Get(Get(votes, "byUser"), other))
  {
    var ms := Get(votes, "byUser").members;
    CastVoteReads(votes, voter, direction);
    SetUnique(ms, voter, Str(direction));
    SetLookup(ms, voter, Str(direction), voter);
    SetLookup(ms, voter, Str(direction), other);
  }

  /** After a vote, each tally is the count of the ballots for its direction. */
  lemma VoteCounts(votes: Json, voter: string, direction: string)
    requires Tallied(votes) && (direction == "up" || direction == "down")
    ensures var v := CastVote(votes, voter, direction); var ms := Set(Get(votes, "byUser").members, voter, Str(direction));
      Get(v, "up") == Int(Ballots(ms, "up")) && Get(v, "down") == Int(Ballots(ms, "down"))
  {
    var ms := Get(votes, "byUser").members;
    var x := Str(direction);
    CastVoteReads(votes, voter, direction);
    BallotsSet(ms, voter, x, "up");
    BallotsSet(ms, voter, x, "down");
    BallotsSet(ms, voter, Null, "up");
    BallotsSet(ms, voter, Null, "down");
    var previous := Or(Lookup(ms, voter), Null);
    assert previous == Str("up") <==> Lookup(ms, voter) == Str("up");
    assert previous == Str("down") <==> Lookup(ms, voter) == Str("down");
    RecountTally(Ballots(ms, "up"), Ballots(Set(ms, voter, x), "up"), previous == Str("up"), direction == "up");
    RecountTally(Ballots(ms, "down"), Ballots(Set(ms, voter, x), "down"), previous == Str("down"), direction != "up");
  }

  /**
   * Voting keeps the tallies in agreement with the ballots: the voter ends
   * up with exactly one ballot, the new one, every other voter's ballot is
   * untouched, and each tally counts the ballots for its direction.
   */
  lemma VoteKeepsTally(votes: Json, voter: string, direction: string, other: string)
    requires Tallied(votes) && (direction == "up" || direction == "down")
    ensures var v := CastVote(votes, voter, direction);
      && Tallied(v)
      && Get(Get(v, "byUser"), voter) == Str(direction)
      && (other != voter ==> Get(Get(v, "byUser"), other) == Get(Get(votes, "byUser"), other))
  {
    VoteBallots(votes, voter, direction, other);
    VoteCounts(votes, voter, direction);
  }

  /** Voting the same way twice in a row counts once: the second vote changes nothing. */
  lemma VoteTwice(votes: Json, voter: string, direction: string)
    requires Tallied(votes) && (direction == "up" || direction == "down")
    ensures CastVote(CastVote(votes, voter, direction), voter, direction) == CastVote(votes, voter, direction)
  {
    var v := CastVote(votes, voter, direction);
    var v2 := CastVote(v, voter, direction);
    var b1 := Set(Get(votes, "byUser").members, voter, Str(direction));
    VoteKeepsTally(votes, voter, direction, voter);
    assert Get(v, "byUser") == Obj(b1) by {
      VoteBallots(votes, voter, direction, voter);
    }
    SetTwice(Get(votes, "byUser").members, voter, Str(direction), Str(direction));
    assert Get(v2, "up") == Get(v, "up") && Get(v2, "down") == Get(v, "down") by {
      VoteCounts(v, voter, direction);
      VoteCounts(votes, voter, direction);
    }
    assert Get(v2, "byUser") == Get(v, "byUser") by {
      VoteBallots(v, voter, direction, voter);
    }
    VoteRecordParts(votes, voter, direction);
    VoteRecordParts(v, voter, direction);
  }

  /** An up vote on a new report, then a down vote by the same user, leaves no up votes and one down vote. */
  lemma VoteThenChangeMind()
    ensures var first := CastVote(InitialVotes, "user_a", "up");
      && Get(first, "up") == Int(1) && Get(first, "down") == Int(0)
      && Get(CastVote(first, "user_a", "down"), "up") == Int(0)
      && Get(CastVote(first, "user_a", "down"), "down") == Int(1)
  {
    FirstUpVote();
    DownAfterUp(CastVote(InitialVotes, "user_a", "up"));
  }

  /** The first up vote on a new report counts one up vote and records the voter's ballot. */
  lemma FirstUpVote()
    ensures var first := CastVote(InitialVotes, "user_a", "up");
      && Tallied(first) && Get(first, "up") == Int(1) && Get(first, "down") == Int(0)
      && Get(first, "byUser") == Obj([("user_a", Str("up"))])
  {
    InitialTallied();
    LookupAt(InitialVotes.members, 2);
    VoteBallots(InitialVotes, "user_a", "up", "user_a");
    VoteCounts(InitialVotes, "user_a", "up");
    assert Set([], "user_a", Str("up")) == [("user_a", Str("up"))];
    VoteKeepsTally(InitialVotes, "user_a", "up", "user_a");
  }

  /** A down vote by the only voter, who voted up, leaves no up votes and one down vote. */
  lemma DownAfterUp(first: Json)
    requires Tallied(first) && Get(first, "byUser") == Obj([("user_a", Str("up"))])
    ensures Get(CastVote(first, "user_a", "down"), "up") == Int(0)
    ensures Get(CastVote(first, "user_a", "down"), "down") == Int(1)
  {
    var before, after := [("user_a", Str("up"))], [("user_a", Str("down"))];
    assert Get(first, "byUser").members == before;
    assert Set(before, "user_a", Str("down")) == after;
    assert after[1..] == [];
    assert Ballots(after, "up") == 0 && Ballots(after, "down") == 1;
    VoteCounts(first, "user_a", "down");
  }

  /* -------------------------------------------------------------- Triage */

  /** `triagePatch.status || report?.triage?.status || 'new'` */
  function NextStatus(triage: Json, patch: Json): (status: Json)
    ensures Truthy(status)
    ensures Truthy(Get(patch, "status")) ==> status == Get(patch, "status")
    ensures !Truthy(Get(patch, "status")) && Truthy(Get(triage, "status")) ==> status == Get(triage, "status")
    ensures !Truthy(Get(patch, "status")) && !Truthy(Get(triage, "status")) ==> status == Str("new")
  {
    Or(Or(Get(patch, "status"), Get(triage, "status")), Str("new"))
  }

  /** The entry a triage update appends to the history: the status, when it was set and by whom. */
  function HistoryEntry(status: Json, nowIso: string, ctx: Json): Json
  {
    Obj([("status", status), ("changedAt", Str(nowIso)), ("changedBy", Or(Get(ctx, "userId"), Str("system")))])
  }

  /** `report?.triage?.statusHistory || []` as an array spread visits it; `None` when it is not iterable. */
  function PriorHistory(triage: Json): Option<seq<Json>>
  {
    Iterate(Or(Get(triage, "statusHistory"), Arr([])))
  }

  /** The two members an update writes last, over the old triage and the patch. */
  function TriageTail(status: Json, history: seq<Json>): seq<(string, Json)>
  {
    [("status", status), ("statusHistory", Arr(history))]
  }

  /**
   * The triage object `updateTriage` stores: the old triage, the patch
   * spread over it, the next status and the history with one entry
   * appended. Reading `status` of a null or undefined patch throws, and so
   * does spreading a history that is not iterable.
   */
  function TriageUpdate(triage: Json, patch: Json, ctx: Json, nowIso: string): (r: Result<Json, Thrown>)
    ensures r.Err? <==> patch.Null? || patch.Undefined? || PriorHistory(triage).None?
    ensures r.Err? ==> r.error.Other? && "TypeError: " <= r.error.text
  {
    if Nullish(patch) then
      Err(ReadError(patch, "status"))
    else
      var status := NextStatus(triage, patch);
      match PriorHistory(triage)
      case None => Err(TypeError("statusHistory is not iterable"))
      case Some(items) =>
        Ok(Obj(Merge(Merge(Entries(triage), Entries(patch)), TriageTail(status, items + [HistoryEntry(status, nowIso, ctx)]))))
  }

  /** Every status history ends with an entry for the current status. */
  predicate HistoryMatches(triage: Json)
  {
    var history := Get(triage, "statusHistory");
    history.Arr? && |history.items| > 0 && Get(history.items[|history.items| - 1], "status") == Get(triage, "status")
  }

  /** The members written last read back as given. */
  lemma TriageTailReads(status: Json, history: seq<Json>)
    ensures UniqueKeys(TriageTail(status, history))
    ensures Keys(TriageTail(status, history)) == ["status", "statusHistory"]
    ensures Lookup(TriageTail(status, history), "status") == status
    ensures Lookup(TriageTail(status, history), "statusHistory") == Arr(history)
  {
    LookupFirst(TriageTail(status, history), "statusHistory", 1);
  }

  /**
   * A successful update sets the next status and appends exactly one entry,
   * stamped now with that status and the acting user, to the old history,
   * which it keeps as it was.
   */
  lemma TriageUpdateHistory(triage: Json, patch: Json, ctx: Json, nowIso: string)
    ensures var r := TriageUpdate(triage, patch, ctx, nowIso);
      r.Ok? ==>
        var history := Get(r.value, "statusHistory");
        && Get(r.value, "status") == NextStatus(triage, patch)
        && history.Arr? && |history.items| == |PriorHistory(triage).value| + 1
        && history.items[..|history.items| - 1] == PriorHistory(triage).value
        && history.items[|history.items| - 1] == HistoryEntry(NextStatus(triage, patch), nowIso, ctx)
  {
    var r := TriageUpdate(triage, patch, ctx, nowIso);
    if r.Ok? {
      var status := NextStatus(triage, patch);
      var items := PriorHistory(triage).value;
      var tail := TriageTail(status, items + [HistoryEntry(status, nowIso, ctx)]);
      TriageTailReads(status, items + [HistoryEntry(status, nowIso, ctx)]);
      MergeLookup(Merge(Entries(triage), Entries(patch)), tail, "status");
      MergeLookup(Merge(Entries(triage), Entries(patch)), tail, "statusHistory");
    }
  }

  /** The entry an update appends reads back its status, time and user (`system` without one). */
  lemma HistoryEntryReads(status: Json, nowIso: string, ctx: Json)
    ensures var e := HistoryEntry(status, nowIso, ctx);
      && Get(e, "status") == status && Get(e, "changedAt") == Str(nowIso)
      && Get(e, "changedBy") == (if Truthy(Get(ctx, "userId")) then Get(ctx, "userId") else Str("system"))
  {
    var e := HistoryEntry(status, nowIso, ctx);
    LookupFirst(e.members, "changedAt", 1);
    LookupFirst(e.members, "changedBy", 2);
  }

  /** Whatever the old triage held, a successful update leaves a history that ends with the current status. */
  lemma TriageUpdateMatches(triage: Json, patch: Json, ctx: Json, nowIso: string)
    ensures var r := TriageUpdate(triage, patch, ctx, nowIso);
      r.Ok? ==> HistoryMatches(r.value) && Truthy(Get(r.value, "status"))
  {
    TriageUpdateHistory(triage, patch, ctx, nowIso);
    HistoryEntryReads(NextStatus(triage, patch), nowIso, ctx);
  }

  /** A new report's triage already has a history that ends with its status. */
  lemma DefaultTriageMatches(report: Json, nowIso: string)
    ensures HistoryMatches(BuildDefaultTriage(report, nowIso))
  {
    DefaultTriageHistory(report, nowIso);
  }

  /**
   * Every other key of the updated triage reads the patch's value when the
   * patch has the key, and the old triage's value otherwise.
   */
  lemma TriageUpdateKeeps(triage: Json, patch: Json, ctx: Json, nowIso: string, k: string)
    requires k != "status" && k != "statusHistory"
    requires UniqueKeys(Entries(patch))
    ensures var r := TriageUpdate(triage, patch, ctx, nowIso);
      r.Ok? ==> Get(r.value, k) == if k in Keys(Entries(patch)) then Lookup(Entries(patch), k) else Lookup(Entries(triage), k)
  {
    var r := TriageUpdate(triage, patch, ctx, nowIso);
    if r.Ok? {
      var status := NextStatus(triage, patch);
      var history := PriorHistory(triage).value + [HistoryEntry(status, nowIso, ctx)];
      TriageTailReads(status, history);
      MergeLookup(Merge(Entries(triage), Entries(patch)), TriageTail(status, history), k);
      MergeLookup(Entries(triage), Entries(patch), k);
    }
  }

  /* ------------------------------------------------------------- Exports */

  /** An export body: CSV text, or the GeoJSON document that is written out as JSON text. */
  datatype ExportBody = CsvBody(text: string) | GeoJsonBody(collection: Json)

  /** What `exportReports` returns. */
  datatype ExportPayload = ExportPayload(mimeType: string, fileName: string, body: ExportBody)

  /** The export of the listed reports in the requested format, named after the day of `nowIso`. */
  function ExportOf(reports: seq<Doc>, format: Json, nowIso: string): (r: Result<ExportPayload, Thrown>)
    ensures r.Ok? <==> format == Str("csv") || format == Str("geojson")
    ensures r.Err? ==> r.error.Safe? && r.error.err.statusCode == 400 && r.error.err.errorCode == "REPORT_EXPORT_INVALID_FORMAT"
    ensures format == Str("csv") ==> r.value.body.CsvBody? && r.value.mimeType == "text/csv; charset=utf-8"
    ensures format == Str("geojson") ==> r.value.body.GeoJsonBody? && r.value.mimeType == "application/geo+json; charset=utf-8"
  {
    if format == Str("csv") then
      Ok(ExportPayload("text/csv; charset=utf-8", ExportFileName(nowIso, "csv"), CsvBody(ReportsToCsv(reports))))
    else if format == Str("geojson") then
      Ok(ExportPayload("application/geo+json; charset=utf-8", ExportFileName(nowIso, "geojson"), GeoJsonBody(ReportsToGeoJson(reports))))
    else
      Err(Fail("Unsupported export format. Use csv or geojson.", 400, "REPORT_EXPORT_INVALID_FORMAT", Obj([("format", format)])))
  }

  /** A CSV export reads back as the header row and then every listed report's cells, in order. */
  lemma CsvExportReadsBack(reports: seq<Doc>, nowIso: string)
    ensures var r := ExportOf(reports, Str("csv"), nowIso);
      ParseCsv(r.value.body.text) == Some([CsvHeaders] + Seqs.Map(reports, ReportCells))
  {
    CsvRoundTrip(reports);
  }

  /**
   * A GeoJSON export of the reports a query lists holds one feature for each
   * stored report that passes the query and has a finite position, and no
   * other feature.
   */
  lemma GeoJsonExportSelects(c: seq<Doc>, q: Query, nowIso: string)
    ensures var r := ExportOf(Seqs.Filter(c, KeepFn(QueryFilters(q))), Str("geojson"), nowIso);
      var features := Features(r.value.body.collection);
      && (forall d :: d in c && Keep(QueryFilters(q), d) && HasFinitePosition(d) ==> Feature(d) in features)
      && (forall f :: f in features ==> exists d :: d in c && Keep(QueryFilters(q), d) && HasFinitePosition(d) && f == Feature(d))
  {
    var listed := Seqs.Filter(c, KeepFn(QueryFilters(q)));
    ListedPassFilters(c, QueryFilters(q));
    GeoJsonFeatures(listed);
  }

  /* ----------------------------------------------------- The report service */

  /**
   * A created submission is stored under the `submissions` dataset, with
   * tallies that agree with its (empty) ballots, a triage history that ends
   * with its status, and the update time `addReport` reads.
   */
  lemma CreatedSubmission(input: Json, ctx: Json, token: string, clock: SubmissionClock, now: int)
    requires clock.Valid() && ValidTime(now)
    ensures var d := Stamped(Submission(input, ctx, clock), token, ToIsoString(now));
      && Lookup(d, "datasetKey") == Str("submissions")
      && Lookup(d, "votes") == InitialVotes && Tallied(InitialVotes)
      && HistoryMatches(Lookup(d, "triage"))
      && Lookup(d, "updatedAt") == Str(ToIsoString(now))
  {
    var nowIso := ToIsoString(now);
    var triageIso := ToIsoString(clock.triaged);
    var date := SubmissionTimestamp(input, clock.created, clock.fallback);
    var dateIso := ToIsoString(SubmissionTime(input, clock.created));
    var s := Submission(input, ctx, clock);
    ParseIsoString(now);
    ParseIsoString(clock.triaged);
    StampedFields(s, token, nowIso, "datasetKey");
    StampedFields(s, token, nowIso, "votes");
    StampedFields(s, token, nowIso, "triage");
    SubmissionReads(input, ctx, triageIso, date, dateIso, "votes");
    SubmissionDefaults(input, ctx, triageIso, date, dateIso);
    SubmissionTriage(input, ctx, triageIso, date, dateIso);
    DefaultTriageMatches(input, triageIso);
    InitialTallied();
  }

  /**
   * The vote record `voteOnReport` writes, computed step by step as the
   * service does: withdraw the previous ballot, record the new one, count it.
   */
  method NextVotes(votes: Json, voter: string, direction: string) returns (next: Json)
    ensures next == CastVote(votes, voter, direction)
  {
    var previous := Or(Get(Get(votes, "byUser"), voter), Null);
    var up := ToNumber(Or(Get(votes, "up"), Int(0)));
    var down := ToNumber(Or(Get(votes, "down"), Int(0)));
    var ballots := Entries(Or(Get(votes, "byUser"), Obj([])));
    if previous == Str("up") {
      up := ClampedDecrement(up);
    }
    if previous == Str("down") {
      down := ClampedDecrement(down);
    }
    ballots := Set(ballots, voter, Str(direction));
    if direction == "up" {
      up := Increment(up);
    } else {
      down := Increment(down);
    }
    next := Obj([("up", Number(up)), ("down", Number(down)), ("byUser", Obj(ballots))]);
  }

  /** A one-member update reads back, in the stored document, as the value written. */
  lemma StoredField(doc: Doc, k: string, x: Json, nowIso: string)
    requires k != "updatedAt"
    ensures Lookup(Merge(doc, WithUpdatedAt([(k, x)], nowIso)), k) == x
  {
    UpdatedFields(doc, [(k, x)], nowIso, k);
  }

  /** Replacing the report collection twice is replacing it with the second value. */
  lemma ReplaceTwice(m: map<string, seq<Doc>>, a: seq<Doc>, b: seq<Doc>)
    ensures m[ReportCollection := a][ReportCollection := b] == m[ReportCollection := b]
  {
  }

  /** `createReportService`: the service operations over one report repository. */
  class ReportService {
    const repo: ReportRepository

    constructor(repo: ReportRepository)
      ensures this.repo == repo
    {
      this.repo := repo;
    }

    /** `fetchReports`: the stored reports that pass the filters the query asks for. */
    method FetchReports(q: Query) returns (r: seq<Doc>)
      modifies repo.db
      ensures r == Seqs.Filter(old(repo.Reports()), KeepFn(QueryFilters(q)))
      ensures repo.db.collections == old(repo.db.collections)[ReportCollection := old(repo.Reports())]
    {
      r := repo.ListReports(QueryFilters(q));
    }

    /**
     * `createSubmission`: a submission without a title or a summary is
     * refused and nothing is stored; any other is normalized and appended.
     */
    method CreateSubmission(input: Json, ctx: Json, token: string, clock: SubmissionClock, now: int) returns (r: Result<Doc, Thrown>)
      requires clock.Valid() && ValidTime(now)
      modifies repo.db
      ensures !SubmissionComplete(input) ==> r == Err(SubmissionInvalid(input)) && repo.db.collections == old(repo.db.collections)
      ensures SubmissionComplete(input) ==>
        var created := Stamped(Submission(input, ctx, clock), token, ToIsoString(now));
        r == Ok(created) && repo.db.collections == old(repo.db.collections)[ReportCollection := old(repo.Reports()) + [created]]
    {
      if !SubmissionComplete(input) {
        return Err(SubmissionInvalid(input));
      }
      var created := repo.AddReport(Submission(input, ctx, clock), token, now);
      r := Ok(created);
    }

    /**
     * `voteOnReport`: a direction other than `up` or `down` is refused before
     * anything is read, a missing report is a 404, and otherwise the report's
     * vote record becomes `CastVote` of it and is returned.
     */
    method VoteOnReport(reportId: string, direction: Json, ctx: Json, now: int) returns (r: Result<Json, Thrown>)
      requires ValidTime(now)
      modifies repo.db
      ensures direction != Str("up") && direction != Str("down") ==>
        r == Err(InvalidDirection(direction)) && repo.db.collections == old(repo.db.collections)
      ensures direction == Str("up") || direction == Str("down") ==>
        var c := old(repo.Reports()); var i := FindIndex(c, reportId);
        && (i < 0 ==> r == Err(ReportNotFound(reportId)) && repo.db.collections == old(repo.db.collections)[ReportCollection := c])
        && (i >= 0 ==>
              var v := CastVote(Lookup(c[i], "votes"), VoterKey(ctx), direction.s);
              && r == Ok(v)
              && repo.db.collections == old(repo.db.collections)[ReportCollection := c[i := Merge(c[i], WithUpdatedAt([("votes", v)], ToIsoString(now)))]])
    {
      if direction != Str("up") && direction != Str("down") {
        return Err(InvalidDirection(direction));
      }
      ghost var c := repo.Reports();
      ghost var i := FindIndex(c, reportId);
      var found := repo.GetReportById(reportId);
      if found.None? {
        return Err(ReportNotFound(reportId));
      }
      assert found.value == c[i] && repo.Reports() == c;
      var nextVotes := NextVotes(Lookup(found.value, "votes"), VoterKey(ctx), direction.s);
      var updated := repo.UpdateReport(reportId, [("votes", nextVotes)], now);
      ghost var stored := Merge(c[i], WithUpdatedAt([("votes", nextVotes)], ToIsoString(now)));
      assert updated == Ok(stored);
      ReplaceTwice(old(repo.db.collections), c, c[i := stored]);
      StoredField(c[i], "votes", nextVotes, ToIsoString(now));
      r := Ok(Lookup(updated.value, "votes"));
    }

    /**
     * `updateTriage`: a missing report is a 404; otherwise the report's
     * triage becomes `TriageUpdate` of it, which is returned, unless that
     * throws, in which case nothing is written.
     */
    method UpdateTriage(reportId: string, patch: Json, ctx: Json, now: int) returns (r: Result<Json, Thrown>)
      requires ValidTime(now)
      modifies repo.db
      ensures var c := old(repo.Reports()); var i := FindIndex(c, reportId);
        && (i < 0 ==> r == Err(ReportNotFound(reportId)) && repo.db.collections == old(repo.db.collections)[ReportCollection := c])
        && (i >= 0 ==>
              var u := TriageUpdate(Lookup(c[i], "triage"), patch, ctx, ToIsoString(now));
              && r == u
              && (u.Err? ==> repo.db.collections == old(repo.db.collections)[ReportCollection := c])
              && (u.Ok? ==> repo.db.collections == old(repo.db.collections)[ReportCollection := c[i := Merge(c[i], WithUpdatedAt([("triage", u.value)], ToIsoString(now)))]]))
    {
      ghost var c := repo.Reports();
      ghost var i := FindIndex(c, reportId);
      var found := repo.GetReportById(reportId);
      if found.None? {
        return Err(ReportNotFound(reportId));
      }
      assert found.value == c[i] && repo.Reports() == c;
      var u := TriageUpdate(Lookup(found.value, "triage"), patch, ctx, ToIsoString(now));
      if u.Err? {
        return u;
      }
      var updated := repo.UpdateReport(reportId, [("triage", u.value)], now);
      ghost var stored := Merge(c[i], WithUpdatedAt([("triage", u.value)], ToIsoString(now)));
      assert updated == Ok(stored);
      StoredField(c[i], "triage", u.value, ToIsoString(now));
      ReplaceTwice(old(repo.db.collections), c, c[i := stored]);
      r := Ok(Lookup(updated.value, "triage"));
    }

    /** `exportReports`: the reports the query lists, exported in the requested format. */
    method ExportReports(q: Query, format: Json, now: int) returns (r: Result<ExportPayload, Thrown>)
      requires ValidTime(now)
      modifies repo.db
      ensures r == ExportOf(Seqs.Filter(old(repo.Reports()), KeepFn(QueryFilters(q))), format, ToIsoString(now))
      ensures repo.db.collections == old(repo.db.collections)[ReportCollection := old(repo.Reports())]
    {
      var reports := FetchReports(q);
      r := ExportOf(reports, format, ToIsoString(now));
    }

    /** `removeReport`: removes the report with the id and says whether there was one. */
    method RemoveReport(reportId: string) returns (deleted: bool)
      modifies repo.db
      ensures repo.db.collections == old(repo.db.collections)[ReportCollection := WithoutId(old(repo.Reports()), reportId)]
      ensures deleted <==> FindIndex(old(repo.Reports()), reportId) >= 0
    {
      deleted := repo.RemoveReport(reportId);
    }
  }
}

=== FILE: state_polygons.dfy ===
/**
 * The offline script that turns the array of US state boundary records into
 * one object from state abbreviation to raw GeoJSON coordinates, counting
 * the records it skips. Reading and writing the data files, the log lines
 * and the process exit are not part of this model: a non-array input is an
 * error value.
 */
module StatePolygons {
  import opened Wrappers
  import opened Json
  import opened Seqs

  const NotAnArray: string := "Input must be an array of state objects."

  /** `s?.stusab` */
  function Abbrev(s: Json): Json
  {
    Get(s, "stusab")
  }

  /** `s?.st_asgeojson?.geometry?.coordinates` */
  function Coords(s: Json): Json
  {
    Get(Get(Get(s, "st_asgeojson"), "geometry"), "coordinates")
  }

  /** A record with both a truthy abbreviation and truthy coordinates is stored; any other is skipped. */
  predicate Usable(s: Json)
  {
    Truthy(Abbrev(s)) && Truthy(Coords(s))
  }

  /** The object of coordinates and the skip count after the loop has seen every record. */
  function Polygons(states: seq<Json>): (r: (seq<(string, Json)>, nat))
  {
    if states == [] then ([], 0)
    else
      var (out, skipped) := Polygons(states[..|states| - 1]);
      var s := states[|states| - 1];
      if !Usable(s) then (out, skipped + 1) else (Set(out, ToJsString(Abbrev(s)), Coords(s)), skipped)
  }

  /** The script: an array input gives the object and the skip count; anything else the error message. */
  method GroupStatePolygons(states: Json) returns (r: Result<(seq<(string, Json)>, nat), string>)
    ensures !states.Arr? ==> r == Err(NotAnArray)
    ensures states.Arr? ==> r == Ok(Polygons(states.items))
  {
    if !states.Arr? {
      return Err(NotAnArray);
    }
    var rows := states.items;
    var out: seq<(string, Json)> := [];
    var skipped: nat := 0;
    for i := 0 to |rows|
      invariant (out, skipped) == Polygons(rows[..i])
    {
      assert rows[..i + 1][..i] == rows[..i];
      var s := rows[i];
      var abbrev := Get(s, "stusab");
      var coords := Get(Get(Get(s, "st_asgeojson"), "geometry"), "coordinates");
      if !Truthy(abbrev) || !Truthy(coords) {
        skipped := skipped + 1;
        continue;
      }
      out := Set(out, ToJsString(abbrev), coords);
    }
    assert rows[..|rows|] == rows;
    return Ok((out, skipped));
  }

  /** A record stored under key `k`. */
  predicate StoredUnder(k: string, s: Json)
  {
    Usable(s) && ToJsString(Abbrev(s)) == k
  }

  /** The position of the last record stored under key `k`, if any. */
  function LastStored(states: seq<Json>, k: string): (i: Option<nat>)
    ensures i.None? <==> forall j :: 0 <= j < |states| ==> !StoredUnder(k, states[j])
    ensures i.Some? ==> (
      && i.value < |states| && StoredUnder(k, states[i.value])
      && forall j :: i.value < j < |states| ==> !StoredUnder(k, states[j]))
  {
    if states == [] then None
    else if StoredUnder(k, states[|states| - 1]) then Some(|states| - 1)
    else
      var i := LastStored(states[..|states| - 1], k);
      assert forall j :: 0 <= j < |states| - 1 ==> states[..|states| - 1][j] == states[j];
      i
  }

  /**
   * A key holds the coordinates of the last usable record with that
   * abbreviation, and is absent when no usable record has it.
   */
  lemma {:induction false} LastRecordWins(states: seq<Json>, k: string)
    ensures LastStored(states, k).None? ==> k !in Keys(Polygons(states).0) && Lookup(Polygons(states).0, k) == Undefined
    ensures LastStored(states, k).Some? ==> (
      && k in Keys(Polygons(states).0)
      && Lookup(Polygons(states).0, k) == Coords(states[LastStored(states, k).value]))
  {
    if states != [] {
      var init, s := states[..|states| - 1], states[|states| - 1];
      LastRecordWins(init, k);
      if Usable(s) {
        var out := Polygons(init).0;
        SetLookup(out, ToJsString(Abbrev(s)), Coords(s), k);
        SetKeys(out, ToJsString(Abbrev(s)), Coords(s), k);
      }
    } else {
      LookupAbsent([], k);
    }
  }

  /** A record that lacks an abbreviation or coordinates. */
  predicate Skipped(s: Json)
  {
    !Usable(s)
  }

  /**
   * The skip count is the number of unusable records, the object never holds
   * a key twice, and it has at most one key per stored record, so keys and
   * skips together never exceed the records.
   */
  lemma {:induction false} PolygonCounts(states: seq<Json>)
    ensures Polygons(states).1 == Count(states, Skipped)
    ensures UniqueKeys(Polygons(states).0)
    ensures |Polygons(states).0| <= |states| - Count(states, Skipped)
  {
    if states != [] {
      var init, s := states[..|states| - 1], states[|states| - 1];
      PolygonCounts(init);
      assert states == init + [s];
      CountAppend(init, [s], Skipped);
      if Usable(s) {
        SetUnique(Polygons(init).0, ToJsString(Abbrev(s)), Coords(s));
      }
    }
  }
}

=== FILE: state_tagging.dfy ===
/**
 * The offline script that tags BFRO reports with the US state they lie in.
 * State rows become GeoJSON features; each report with a numeric position
 * takes the first state whose polygon contains it, or else the state with
 * the nearest centroid. Point-in-polygon and centroid distance are
 * geometry computations that are not part of this model: they are
 * parameters, and distances are taken to be finite. Reading and writing the
 * data files is not part of this model either.
 */
module StateTagging {
  import opened Wrappers
  import opened Numbers
  import opened Json
  import opened Errors

  /* ------------------------------------------------ State rows as features */

  /**
   * The geometry of a state row: the wrapped geometry of a GeoJSON Feature,
   * a bare type and coordinates, a nested geometry, or the row's own
   * geometry, tried in that order; a row with none of these throws, and so
   * does reading `st_asgeojson` of a null or undefined row.
   */
  function GeometryOf(row: Json): (r: Result<Json, Thrown>)
    ensures var st := Get(row, "st_asgeojson");
      && (Get(st, "type") == Str("Feature") ==> r == Ok(Get(st, "geometry")))
      && (Get(st, "type") != Str("Feature") && Truthy(Get(st, "type")) && Truthy(Get(st, "coordinates")) ==>
            r == Ok(Obj([("type", Get(st, "type")), ("coordinates", Get(st, "coordinates"))])))
      && (r.Err? <==> (
            && Get(st, "type") != Str("Feature") && !(Truthy(Get(st, "type")) && Truthy(Get(st, "coordinates")))
            && !Truthy(Get(st, "geometry")) && !Truthy(Get(row, "geometry"))))
      && (Nullish(row) ==> r == Err(ReadError(row, "st_asgeojson")))
  {
    var st := Get(row, "st_asgeojson");
    if Nullish(row) then Err(ReadError(row, "st_asgeojson"))
    else if Get(st, "type") == Str("Feature") then Ok(Get(st, "geometry"))
    else if Truthy(Get(st, "type")) && Truthy(Get(st, "coordinates")) then
      Ok(Obj([("type", Get(st, "type")), ("coordinates", Get(st, "coordinates"))]))
    else if Truthy(Get(st, "geometry")) then Ok(Get(st, "geometry"))
    else if Truthy(Get(row, "geometry")) then Ok(Get(row, "geometry"))
    else
      Err(Other("Error: No geometry found for state row: " +
        ToJsString(Or(Or(Get(row, "name"), Get(row, "basename")), Get(row, "stusab")))))
  }

  predicate IsPolygonType(t: Json)
  {
    t == Str("Polygon") || t == Str("MultiPolygon")
  }

  /** The feature's properties: the row's name (or base name), abbreviation and id (or state number). */
  function StateProperties(row: Json): Json
  {
    Obj([("name", Or(Get(row, "name"), Get(row, "basename"))),
         ("stusab", Get(row, "stusab")),
         ("geoid", Or(Get(row, "geoid"), Get(row, "state")))])
  }

  /**
   * One state row as a feature: its geometry must be a polygon or a
   * multipolygon; reading the type of a missing geometry throws a
   * `TypeError`, and any other type throws.
   */
  function FeatureOf(row: Json): (r: Result<Json, Thrown>)
    ensures r.Ok? ==> (
      && GeometryOf(row).Ok? && IsPolygonType(Get(GeometryOf(row).value, "type"))
      && r.value == Obj([("type", Str("Feature")), ("properties", StateProperties(row)), ("geometry", GeometryOf(row).value)]))
    ensures r.Err? <==> GeometryOf(row).Err? || !IsPolygonType(Get(GeometryOf(row).value, "type"))
  {
    match GeometryOf(row)
    case Err(e) => Err(e)
    case Ok(geom) =>
      if Nullish(geom) then
        Err(ReadError(geom, "type"))
      else if !IsPolygonType(Get(geom, "type")) then
        Err(Other("Error: Unexpected geometry type " + ToJsString(Get(geom, "type")) + " for " +
          ToJsString(Or(Get(row, "stusab"), Get(row, "name")))))
      else
        Ok(Obj([("type", Str("Feature")), ("properties", StateProperties(row)), ("geometry", geom)]))
  }

  /** The features of the rows in order; the first row that cannot become a feature throws. */
  function FeaturesOf(rows: seq<Json>): (r: Result<seq<Json>, Thrown>)
    ensures r.Ok? <==> forall i :: 0 <= i < |rows| ==> FeatureOf(rows[i]).Ok?
    ensures r.Ok? ==> |r.value| == |rows| && forall i :: 0 <= i < |rows| ==> r.value[i] == FeatureOf(rows[i]).value
    ensures r.Err? ==> exists i :: (
      && 0 <= i < |rows| && FeatureOf(rows[i]) == Err(r.error)
      && forall j :: 0 <= j < i ==> FeatureOf(rows[j]).Ok?)
  {
    MapOk(rows, FeatureOf)
  }

  /** `statesToFeatureCollection`: a feature collection with one feature per row, in order. */
  function StatesToFeatureCollection(rows: seq<Json>): (r: Result<Json, Thrown>)
    ensures r.Ok? <==> FeaturesOf(rows).Ok?
    ensures r.Ok? ==> r.value == Obj([("type", Str("FeatureCollection")), ("features", Arr(FeaturesOf(rows).value))])
  {
    match FeaturesOf(rows)
    case Err(e) => Err(e)
    case Ok(features) => Ok(Obj([("type", Str("FeatureCollection")), ("features", Arr(features))]))
  }

  /**
   * A feature keeps its row's abbreviation, and its name is the row's name,
   * or the base name when the name is falsy.
   */
  lemma FeatureProperties(row: Json)
    requires FeatureOf(row).Ok?
    ensures var props := Get(FeatureOf(row).value, "properties");
      && Get(props, "name") == (if Truthy(Get(row, "name")) then Get(row, "name") else Get(row, "basename"))
      && Get(props, "stusab") == Get(row, "stusab")
      && Get(props, "geoid") == (if Truthy(Get(row, "geoid")) then Get(row, "geoid") else Get(row, "state"))
  {
    var f := FeatureOf(row).value;
    LookupFirst(f.members, "properties", 1);
    LookupFirst(StateProperties(row).members, "stusab", 1);
    LookupFirst(StateProperties(row).members, "geoid", 2);
  }

  /* ------------------------------------------------------ Tagging reports */

  /** A point in GeoJSON order: longitude, then latitude. */
  datatype Point = Point(lng: Num, lat: Num)

  /** The first feature that contains the point, or `null` when none does. */
  function FirstContaining(pt: Point, features: seq<Json>, contains: (Point, Json) -> bool): (m: Json)
    ensures m == Null || exists i :: 0 <= i < |features| && m == features[i]
  {
    if features == [] then Null
    else if contains(pt, features[0]) then features[0]
    else FirstContaining(pt, features[1..], contains)
  }

  /** The index of the first feature that contains the point, or the number of features. */
  function FirstContainingIndex(pt: Point, features: seq<Json>, contains: (Point, Json) -> bool): (i: nat)
    ensures i <= |features|
    ensures i < |features| ==> contains(pt, features[i])
    ensures forall j :: 0 <= j < i ==> !contains(pt, features[j])
  {
    if features == [] then 0
    else if contains(pt, features[0]) then 0
    else 1 + FirstContainingIndex(pt, features[1..], contains)
  }

  /** The first containing feature is the one at the first containing index. */
  lemma {:induction false} FirstContainingAt(pt: Point, features: seq<Json>, contains: (Point, Json) -> bool)
    ensures var i := FirstContainingIndex(pt, features, contains);
      FirstContaining(pt, features, contains) == if i < |features| then features[i] else Null
  {
    if features != [] && !contains(pt, features[0]) {
      FirstContainingAt(pt, features[1..], contains);
    }
  }

  /**
   * The containment loop: stops at the first feature that contains the
   * point.
   */
  method FindContaining(pt: Point, features: seq<Json>, contains: (Point, Json) -> bool) returns (matched: Json)
    ensures matched == FirstContaining(pt, features, contains)
  {
    matched := Null;
    FirstContainingAt(pt, features, contains);
    var n := FirstContainingIndex(pt, features, contains);
    for i := 0 to |features|
      invariant i <= n
      invariant matched == Null
    {
      if contains(pt, features[i]) {
        matched := features[i];
        return;
      }
    }
  }

  /**
   * The index of the feature with the nearest centroid: a later feature
   * replaces the best so far only when strictly nearer, so the earliest
   * of equally near features wins.
   */
  function NearestIndex(pt: Point, features: seq<Json>, distance: (Point, Json) -> real): (k: nat)
    requires |features| > 0
    ensures k < |features|
    ensures forall j :: 0 <= j < |features| ==> distance(pt, features[k]) <= distance(pt, features[j])
    ensures forall j :: 0 <= j < k ==> distance(pt, features[j]) > distance(pt, features[k])
  {
    if |features| == 1 then 0
    else
      var init := features[..|features| - 1];
      var k := NearestIndex(pt, init, distance);
      assert forall j :: 0 <= j < |init| ==> init[j] == features[j];
      if distance(pt, features[|features| - 1]) < distance(pt, features[k]) then |features| - 1 else k
  }

  /** The feature with the nearest centroid, or `null` without features. */
  function Nearest(pt: Point, features: seq<Json>, distance: (Point, Json) -> real): Json
  {
    if features == [] then Null else features[NearestIndex(pt, features, distance)]
  }

  /** The nearest-centroid loop: keeps the best distance so far, starting from infinity. */
  method FindNearest(pt: Point, features: seq<Json>, distance: (Point, Json) -> real) returns (best: Json)
    ensures best == Nearest(pt, features, distance)
  {
    var bestDist: Option<real> := None;
    best := Null;
    var bestIndex := 0;
    for i := 0 to |features|
      invariant i == 0 ==> bestDist.None? && best == Null
      invariant i > 0 ==> (
        && bestIndex == NearestIndex(pt, features[..i], distance)
        && bestDist == Some(distance(pt, features[bestIndex])) && best == features[bestIndex])
    {
      var d := distance(pt, features[i]);
      assert features[..i + 1][..i] == features[..i];
      assert forall j :: 0 <= j < i ==> features[..i][j] == features[j];
      if bestDist.None? || d < bestDist.value {
        bestDist, best, bestIndex := Some(d), features[i], i;
      }
    }
    assert features[..|features|] == features;
  }

  /** The state a report with a numeric position is matched to. */
  function MatchOf(pt: Point, features: seq<Json>, contains: (Point, Json) -> bool,
                   distance: (Point, Json) -> real, fallbackToNearest: bool): Json
  {
    var m := FirstContaining(pt, features, contains);
    if !Truthy(m) && fallbackToNearest then Nearest(pt, features, distance) else m
  }

  /** A position `typeof` reports as a number on both axes. */
  predicate HasNumericPosition(report: Json)
  {
    var position := Get(report, "position");
    Truthy(position) && Get(position, "lat").Number? && Get(position, "lng").Number?
  }

  function PointOf(report: Json): Point
    requires HasNumericPosition(report)
  {
    var position := Get(report, "position");
    Point(Get(position, "lng").n, Get(position, "lat").n)
  }

  /** The members added to a report without a numeric position; this branch clears `stusab`, not `state_abbrev`. */
  const MissingPositionMembers: seq<(string, Json)> :=
    [("state", Null), ("stusab", Null), ("_reason", Str("missing_position"))]

  /** The members added to a report no state was matched to. */
  const NoMatchMembers: seq<(string, Json)> :=
    [("state", Null), ("state_abbrev", Null), ("_reason", Str("no_match"))]

  /** The members added to a report matched to a state feature. */
  function MatchedMembers(matched: Json): seq<(string, Json)>
  {
    [("state", Get(Get(matched, "properties"), "name")), ("state_abbrev", Get(Get(matched, "properties"), "stusab"))]
  }

  /** The `TypeError` of destructuring `position` out of a null or undefined report. */
  function DestructureError(report: Json): Thrown
    requires Nullish(report)
  {
    TypeError("Cannot destructure property 'position' of 'r' as it is " + (if report.Null? then "null" else "undefined") + ".")
  }

  /**
   * One report of `tagReportsWithStates`: a copy with its state, or with the
   * reason it has none; destructuring a null or undefined report throws.
   */
  function TagOf(report: Json, features: seq<Json>, contains: (Point, Json) -> bool,
                 distance: (Point, Json) -> real, fallbackToNearest: bool): (r: Result<Json, Thrown>)
    ensures r.Err? <==> Nullish(report)
  {
    if Nullish(report) then Err(DestructureError(report))
    else if !HasNumericPosition(report) then Ok(Spread(report, Obj(MissingPositionMembers)))
    else
      var matched := MatchOf(PointOf(report), features, contains, distance, fallbackToNearest);
      if Truthy(matched) then Ok(Spread(report, Obj(MatchedMembers(matched))))
      else Ok(Spread(report, Obj(NoMatchMembers)))
  }

  /** The per-report step, with its two loops. */
  method TagReport(report: Json, features: seq<Json>, contains: (Point, Json) -> bool,
                   distance: (Point, Json) -> real, fallbackToNearest: bool) returns (tagged: Result<Json, Thrown>)
    ensures tagged == TagOf(report, features, contains, distance, fallbackToNearest)
  {
    if Nullish(report) {
      return Err(DestructureError(report));
    }
    var position := Get(report, "position");
    if !Truthy(position) || !Get(position, "lat").Number? || !Get(position, "lng").Number? {
      return Ok(Spread(report, Obj(MissingPositionMembers)));
    }
    var pt := Point(Get(position, "lng").n, Get(position, "lat").n);
    var matched := FindContaining(pt, features, contains);
    if !Truthy(matched) && fallbackToNearest {
      matched := FindNearest(pt, features, distance);
    }
    if Truthy(matched) {
      return Ok(Spread(report, Obj(MatchedMembers(matched))));
    }
    return Ok(Spread(report, Obj(NoMatchMembers)));
  }

  /** `TagOf` with the states and the fallback fixed: the callback `reports.map` is given. */
  function TagIn(features: seq<Json>, contains: (Point, Json) -> bool,
                 distance: (Point, Json) -> real, fallbackToNearest: bool): Json -> Result<Json, Thrown>
  {
    (report: Json) => TagOf(report, features, contains, distance, fallbackToNearest)
  }

  /** The tagged copies of all reports, in order, or the error of the first report that throws. */
  function TagAll(reports: seq<Json>, features: seq<Json>, contains: (Point, Json) -> bool,
                  distance: (Point, Json) -> real, fallbackToNearest: bool): Result<seq<Json>, Thrown>
  {
    MapOk(reports, TagIn(features, contains, distance, fallbackToNearest))
  }

  /** `tagReportsWithStates`: the loop of `reports.map`, which stops at the first report that throws. */
  method TagReportsWithStates(reports: seq<Json>, features: seq<Json>, contains: (Point, Json) -> bool,
                              distance: (Point, Json) -> real, fallbackToNearest: bool) returns (result: Result<seq<Json>, Thrown>)
    ensures result == TagAll(reports, features, contains, distance, fallbackToNearest)
  {
    var f := TagIn(features, contains, distance, fallbackToNearest);
    var tags: seq<Json> := [];
    var i := 0;
    assert reports[0..] == reports;
    if MapOk(reports, f).Ok? {
      assert [] + MapOk(reports, f).value == MapOk(reports, f).value;
    }
    while i < |reports|
      invariant 0 <= i <= |reports|
      invariant MapOk(reports, f) == PrependOk(tags, MapOk(reports[i..], f))
    {
      MapOkStep(reports, f, i);
      var tagged := TagReport(reports[i], features, contains, distance, fallbackToNearest);
      if tagged.Err? {
        return Err(tagged.error);
      }
      PrependOkTwice(tags, [tagged.value], MapOk(reports[i + 1..], f));
      tags := tags + [tagged.value];
      i := i + 1;
    }
    assert reports[i..] == [];
    assert tags + [] == tags;
    result := Ok(tags);
  }

  /**
   * Tagging succeeds exactly when no report is null or undefined, with one
   * tagged copy per report, in order, each tagged by `TagOf`; otherwise the
   * error is the destructuring of the first such report.
   */
  lemma TagAllOutcome(reports: seq<Json>, features: seq<Json>, contains: (Point, Json) -> bool,
                      distance: (Point, Json) -> real, fallbackToNearest: bool)
    ensures var r := TagAll(reports, features, contains, distance, fallbackToNearest);
      && (r.Ok? <==> forall i :: 0 <= i < |reports| ==> !Nullish(reports[i]))
      && (r.Ok? ==> |r.value| == |reports|)
      && (r.Ok? ==> forall i :: 0 <= i < |reports| ==> TagOf(reports[i], features, contains, distance, fallbackToNearest) == Ok(r.value[i]))
      && (r.Err? ==> exists k :: FirstNullish(reports, k) && r.error == DestructureError(reports[k]))
  {
    var f := TagIn(features, contains, distance, fallbackToNearest);
    assert forall i :: 0 <= i < |reports| ==> f(reports[i]) == TagOf(reports[i], features, contains, distance, fallbackToNearest);
  }

  /**
   * A report without a numeric position, other than null or undefined,
   * keeps its own members (an array's or a string's indices included), has
   * a null state and gives `missing_position` as the reason; a null or
   * undefined one throws.
   */
  lemma MissingPositionTag(report: Json, features: seq<Json>, contains: (Point, Json) -> bool,
                           distance: (Point, Json) -> real, fallbackToNearest: bool)
    requires !HasNumericPosition(report)
    ensures var t := TagOf(report, features, contains, distance, fallbackToNearest);
      && (Nullish(report) ==> t == Err(DestructureError(report)))
      && (t.Ok? ==> Get(t.value, "state") == Null && Get(t.value, "_reason") == Str("missing_position"))
      && (t.Ok? ==> forall k :: k != "state" && k != "stusab" && k != "_reason" ==> Get(t.value, k) == Lookup(Entries(report), k))
  {
    SpreadMissing(report);
  }

  /**
   * An array has no `position`, so it is tagged as missing one, and its
   * elements stay in the tagged copy under their indices.
   */
  lemma ArrayReportKeepsIndices(items: seq<Json>, features: seq<Json>, contains: (Point, Json) -> bool,
                                distance: (Point, Json) -> real, fallbackToNearest: bool)
    ensures var t := TagOf(Arr(items), features, contains, distance, fallbackToNearest);
      && t.Ok? && Get(t.value, "_reason") == Str("missing_position")
      && forall i :: 0 <= i < |items| ==> Get(t.value, NatToDigits(i)) == items[i]
  {
    MissingPositionTag(Arr(items), features, contains, distance, fallbackToNearest);
    var es := Entries(Arr(items));
    forall i | 0 <= i < |items|
      ensures Lookup(es, NatToDigits(i)) == items[i]
    {
      forall j | 0 <= j < i
        ensures es[j].0 != NatToDigits(i)
      {
        assert DigitsValue(es[j].0) == j;
      }
      LookupFirst(es, NatToDigits(i), i);
    }
  }

  /** Spreading the missing-position members over a report. */
  lemma SpreadMissing(report: Json)
    ensures var t := Spread(report, Obj(MissingPositionMembers));
      && Get(t, "state") == Null && Get(t, "_reason") == Str("missing_position")
      && forall k :: k != "state" && k != "stusab" && k != "_reason" ==> Get(t, k) == Lookup(Entries(report), k)
  {
    var ms := MissingPositionMembers;
    DistinctUnique(ms);
    assert Keys(ms) == ["state", "stusab", "_reason"];
    forall k | k != "state" && k != "stusab" && k != "_reason"
      ensures Get(Spread(report, Obj(ms)), k) == Lookup(Entries(report), k)
    {
      SpreadObjGet(report, ms, k);
    }
    SpreadObjGet(report, ms, "state");
    SpreadObjGet(report, ms, "_reason");
    LookupFirst(ms, "_reason", 2);
  }

  /**
   * A report with a numeric position that no state's polygon contains, with
   * the fallback off or no states at all, keeps its members, has a null state
   * and abbreviation and gives `no_match` as the reason.
   */
  lemma NoMatchTag(report: Json, features: seq<Json>, contains: (Point, Json) -> bool,
                   distance: (Point, Json) -> real, fallbackToNearest: bool)
    requires HasNumericPosition(report)
    requires forall j :: 0 <= j < |features| ==> !contains(PointOf(report), features[j])
    requires !fallbackToNearest || features == []
    ensures var t := TagOf(report, features, contains, distance, fallbackToNearest);
      && t.Ok?
      && Get(t.value, "state") == Null && Get(t.value, "state_abbrev") == Null && Get(t.value, "_reason") == Str("no_match")
      && forall k :: k != "state" && k != "state_abbrev" && k != "_reason" ==> Get(t.value, k) == Get(report, k)
  {
    FirstContainingAt(PointOf(report), features, contains);
    SpreadNoMatch(report);
  }

  /** Spreading the no-match members over a report. */
  lemma SpreadNoMatch(report: Json)
    ensures var t := Spread(report, Obj(NoMatchMembers));
      && Get(t, "state") == Null && Get(t, "state_abbrev") == Null && Get(t, "_reason") == Str("no_match")
      && forall k :: k != "state" && k != "state_abbrev" && k != "_reason" ==> Get(t, k) == Lookup(Entries(report), k)
  {
    var ms := NoMatchMembers;
    DistinctUnique(ms);
    assert Keys(ms) == ["state", "state_abbrev", "_reason"];
    forall k | k != "state" && k != "state_abbrev" && k != "_reason"
      ensures Get(Spread(report, Obj(ms)), k) == Lookup(Entries(report), k)
    {
      SpreadObjGet(report, ms, k);
    }
    SpreadObjGet(report, ms, "state");
    SpreadObjGet(report, ms, "state_abbrev");
    SpreadObjGet(report, ms, "_reason");
    LookupFirst(ms, "state_abbrev", 1);
    LookupFirst(ms, "_reason", 2);
  }

  /**
   * A report with a numeric position inside some state's polygon takes the
   * name and abbreviation of the first such state in feature order, when
   * that feature is truthy.
   */
  lemma ContainedTag(report: Json, features: seq<Json>, contains: (Point, Json) -> bool,
                     distance: (Point, Json) -> real, fallbackToNearest: bool, i: nat)
    requires HasNumericPosition(report)
    requires i < |features| && contains(PointOf(report), features[i]) && Truthy(features[i])
    requires forall j :: 0 <= j < i ==> !contains(PointOf(report), features[j])
    ensures var t := TagOf(report, features, contains, distance, fallbackToNearest);
      && t.Ok?
      && Get(t.value, "state") == Get(Get(features[i], "properties"), "name")
      && Get(t.value, "state_abbrev") == Get(Get(features[i], "properties"), "stusab")
  {
    var pt := PointOf(report);
    FirstContainingAt(pt, features, contains);
    assert FirstContainingIndex(pt, features, contains) == i;
    MatchedTag(report, features, contains, distance, fallbackToNearest);
  }

  /** A spread of the matched members reads the state name and abbreviation of the matched feature. */
  lemma MatchedGets(report: Json, matched: Json)
    ensures var t := Spread(report, Obj(MatchedMembers(matched)));
      && Get(t, "state") == Get(Get(matched, "properties"), "name")
      && Get(t, "state_abbrev") == Get(Get(matched, "properties"), "stusab")
  {
    DistinctUnique(MatchedMembers(matched));
    SpreadObjGet(report, MatchedMembers(matched), "state");
    SpreadObjGet(report, MatchedMembers(matched), "state_abbrev");
    LookupFirst(MatchedMembers(matched), "state_abbrev", 1);
  }

  /**
   * A report with a numeric position inside no state's polygon, with the
   * fallback on, takes the state whose centroid is nearest, the earliest
   * of equally near ones, when that feature is truthy.
   */
  lemma NearestTag(report: Json, features: seq<Json>, contains: (Point, Json) -> bool,
                   distance: (Point, Json) -> real)
    requires HasNumericPosition(report) && |features| > 0
    requires forall j :: 0 <= j < |features| ==> !contains(PointOf(report), features[j])
    requires Truthy(features[NearestIndex(PointOf(report), features, distance)])
    ensures var t := TagOf(report, features, contains, distance, true);
      var k := NearestIndex(PointOf(report), features, distance);
      && t.Ok?
      && Get(t.value, "state") == Get(Get(features[k], "properties"), "name")
      && Get(t.value, "state_abbrev") == Get(Get(features[k], "properties"), "stusab")
  {
    var pt := PointOf(report);
    FirstContainingAt(pt, features, contains);
    assert MatchOf(pt, features, contains, distance, true) == features[NearestIndex(pt, features, distance)];
    MatchedTag(report, features, contains, distance, true);
  }

  /** A report with a numeric position and a truthy match takes that match's name and abbreviation. */
  lemma MatchedTag(report: Json, features: seq<Json>, contains: (Point, Json) -> bool,
                   distance: (Point, Json) -> real, fallbackToNearest: bool)
    requires HasNumericPosition(report)
    requires Truthy(MatchOf(PointOf(report), features, contains, distance, fallbackToNearest))
    ensures var t := TagOf(report, features, contains, distance, fallbackToNearest);
      var m := MatchOf(PointOf(report), features, contains, distance, fallbackToNearest);
      && t.Ok?
      && Get(t.value, "state") == Get(Get(m, "properties"), "name")
      && Get(t.value, "state_abbrev") == Get(Get(m, "properties"), "stusab")
  {
    MatchedGets(report, MatchOf(PointOf(report), features, contains, distance, fallbackToNearest));
  }
}

=== FILE: store.dfy ===
/**
 * The local document store: named collections of JSON documents kept in
 * insertion order. A collection springs into existence, empty, the first
 * time any operation names it. Only the in-memory state is modelled; the
 * write of the whole database file after each change is left out.
 */
module Store {
  import opened Wrappers
  import opened Json
  import opened Errors
  import Seqs

  /** A stored document: the members of a JSON object. */
  type Doc = seq<(string, Json)>

  /** `item.id === documentId` */
  predicate HasId(d: Doc, id: string)
  {
    Lookup(d, "id") == Str(id)
  }

  /** `findIndex`: the first position whose document has the id, or -1 when there is none. */
  function FindIndex(c: seq<Doc>, id: string): (i: int)
    ensures -1 <= i < |c|
    ensures 0 <= i ==> HasId(c[i], id) && forall j :: 0 <= j < i ==> !HasId(c[j], id)
    ensures i == -1 ==> forall j :: 0 <= j < |c| ==> !HasId(c[j], id)
  {
    if c == [] then -1
    else if HasId(c[0], id) then 0
    else
      var i := FindIndex(c[1..], id);
      assert forall j :: 1 <= j < |c| ==> c[j] == c[1..][j - 1];
      if i == -1 then -1 else i + 1
  }

  /** `find(...) || null`: the first document with the id. */
  function Find(c: seq<Doc>, id: string): (r: Option<Doc>)
    ensures r.None? <==> forall j :: 0 <= j < |c| ==> !HasId(c[j], id)
    ensures r.Some? ==> r.value in c && HasId(r.value, id)
  {
    var i := FindIndex(c, id);
    if i < 0 then None else Some(c[i])
  }

  function WithoutId(c: seq<Doc>, id: string): seq<Doc>
  {
    Seqs.Filter(c, (d: Doc) => !HasId(d, id))
  }

  /** The error `updateDocument` raises for an id that is not in the collection. */
  function NotFound(collectionName: string, documentId: string): (e: Thrown)
    ensures e.Safe? && e.err.statusCode == 404 && e.err.errorCode == "LOCAL_DB_DOCUMENT_NOT_FOUND"
  {
    Fail("Record was not found.", 404, "LOCAL_DB_DOCUMENT_NOT_FOUND",
      Obj([("collectionName", Str(collectionName)), ("documentId", Str(documentId))]))
  }

  class LocalFirestoreClient {
    var collections: map<string, seq<Doc>>

    /** A client over an empty database: `{ collections: {} }`. */
    constructor()
      ensures collections == map[]
    {
      collections := map[];
    }

    /** The documents of a collection; a collection never named so far reads as empty. */
    function Collection(name: string): seq<Doc>
      reads this
    {
      if name in collections then collections[name] else []
    }

    /** `readCollection`: creates a missing collection empty and returns the collection. */
    method ReadCollection(name: string) returns (c: seq<Doc>)
      modifies this
      ensures c == old(Collection(name))
      ensures collections == old(collections)[name := c]
    {
      if name !in collections {
        collections := collections[name := []];
      }
      c := collections[name];
    }

    /** `listDocuments`: a copy of the collection, or the documents that pass the filter in storage order. */
    method ListDocuments(name: string, filter: Option<Doc -> bool>) returns (r: seq<Doc>)
      modifies this
      ensures filter.None? ==> r == old(Collection(name))
      ensures filter.Some? ==> r == Seqs.Filter(old(Collection(name)), filter.value)
      ensures collections == old(collections)[name := old(Collection(name))]
    {
      var c := ReadCollection(name);
      if filter.Some? {
        r := Seqs.Filter(c, filter.value);
      } else {
        r := c;
      }
    }

    /** `getDocument`: the first document with the id, or null. */
    method GetDocument(name: string, id: string) returns (r: Option<Doc>)
      modifies this
      ensures r == Find(old(Collection(name)), id)
      ensures collections == old(collections)[name := old(Collection(name))]
    {
      var c := ReadCollection(name);
      r := Find(c, id);
    }

    /** `addDocument`: appends the document, with no check for a duplicate id, and returns it. */
    method AddDocument(name: string, doc: Doc) returns (r: Doc)
      modifies this
      ensures r == doc
      ensures collections == old(collections)[name := old(Collection(name)) + [doc]]
    {
      var c := ReadCollection(name);
      collections := collections[name := c + [doc]];
      r := doc;
    }

    /**
     * `updateDocument`: the first document with the id becomes the shallow
     * merge of its old fields and the partial update; an absent id fails
     * with 404, leaving the (possibly just created) collection as it was.
     */
    method UpdateDocument(name: string, id: string, partial: Doc) returns (r: Result<Doc, Thrown>)
      modifies this
      ensures var c := old(Collection(name)); var i := FindIndex(c, id);
        && (i < 0 ==> r == Err(NotFound(name, id)) && collections == old(collections)[name := c])
        && (i >= 0 ==> r == Ok(Merge(c[i], partial)) && collections == old(collections)[name := c[i := Merge(c[i], partial)]])
    {
      var c := ReadCollection(name);
      var i := FindIndex(c, id);
      if i < 0 {
        return Err(NotFound(name, id));
      }
      var updated := Merge(c[i], partial);
      collections := collections[name := c[i := updated]];
      r := Ok(updated);
    }

    /** `deleteDocument`: drops every document with the id and says whether the collection shrank. */
    method DeleteDocument(name: string, id: string) returns (deleted: bool)
      modifies this
      ensures collections == old(collections)[name := WithoutId(old(Collection(name)), id)]
      ensures deleted <==> |WithoutId(old(Collection(name)), id)| != |old(Collection(name))|
    {
      var c := ReadCollection(name);
      var next := WithoutId(c, id);
      deleted := |next| != |c|;
      collections := collections[name := next];
    }

    /** `replaceCollection`: the collection becomes exactly the given documents. */
    method ReplaceCollection(name: string, docs: seq<Doc>)
      modifies this
      ensures collections == old(collections)[name := docs]
    {
      collections := collections[name := docs];
    }
  }

  /** Deleting reports a removal exactly when some document had the id. */
  lemma DeleteReportsPresence(c: seq<Doc>, id: string)
    ensures |WithoutId(c, id)| != |c| <==> FindIndex(c, id) >= 0
  {
    Seqs.FilterShrinks(c, (d: Doc) => !HasId(d, id));
    if FindIndex(c, id) >= 0 {
      assert c[FindIndex(c, id)] in c;
    }
  }

  /** After a delete no document has the id, and every other document is still there, in order. */
  lemma {:induction false} DeleteKeepsOthers(a: seq<Doc>, b: seq<Doc>, id: string)
    ensures forall d :: d in WithoutId(a, id) ==> !HasId(d, id)
    ensures WithoutId(a + b, id) == WithoutId(a, id) + WithoutId(b, id)
    ensures (forall j :: 0 <= j < |a| ==> !HasId(a[j], id)) ==> WithoutId(a, id) == a
  {
    Seqs.FilterAppend(a, b, (d: Doc) => !HasId(d, id));
    if forall j :: 0 <= j < |a| ==> !HasId(a[j], id) {
      Seqs.FilterAll(a, (d: Doc) => !HasId(d, id));
    }
  }

  /**
   * An update changes only the first document with the id: the length and
   * every other position stay, and in the merged document each key reads
   * from the partial update when it has that key and from the old document
   * otherwise.
   */
  lemma UpdateOnlyFirstMatch(c: seq<Doc>, id: string, partial: Doc, k: string)
    requires FindIndex(c, id) >= 0 && UniqueKeys(partial)
    ensures var i := FindIndex(c, id); var c' := c[i := Merge(c[i], partial)];
      && |c'| == |c|
      && (forall j :: 0 <= j < |c| && j != i ==> c'[j] == c[j])
      && Lookup(c'[i], k) == if k in Keys(partial) then Lookup(partial, k) else Lookup(c[i], k)
  {
    MergeLookup(c[FindIndex(c, id)], partial, k);
  }

  /** An update that does not mention `id` keeps the document findable under the same id at the same place. */
  lemma UpdateKeepsId(c: seq<Doc>, id: string, partial: Doc)
    requires FindIndex(c, id) >= 0 && UniqueKeys(partial) && "id" !in Keys(partial)
    ensures var i := FindIndex(c, id); FindIndex(c[i := Merge(c[i], partial)], id) == i
  {
    var i := FindIndex(c, id);
    var c' := c[i := Merge(c[i], partial)];
    MergeLookup(c[i], partial, "id");
    assert HasId(c'[i], id);
    assert forall j :: 0 <= j < i ==> c'[j] == c[j];
  }

  /**
   * The add, list, get, update and delete sequence on a fresh database: the
   * added document is listed and found, the update changes its title, the
   * delete reports a removal and the collection ends up empty.
   */
  method AddListGetUpdateDelete() returns (listed: seq<Doc>, fetched: Option<Doc>, updated: Result<Doc, Thrown>, deleted: bool, afterDelete: seq<Doc>)
    ensures |listed| == 1 && Lookup(listed[0], "title") == Str("First report")
    ensures fetched.Some? && Lookup(fetched.value, "title") == Str("First report")
    ensures updated.Ok? && Lookup(updated.value, "title") == Str("Updated report")
    ensures deleted
    ensures afterDelete == []
  {
    var client := new LocalFirestoreClient();
    var doc: Doc := [("id", Str("report_1")), ("title", Str("First report"))];
    var _ := client.AddDocument("reports", doc);
    listed := client.ListDocuments("reports", None);
    fetched := client.GetDocument("reports", "report_1");
    assert HasId(doc, "report_1");
    var patch: Doc := [("title", Str("Updated report"))];
    updated := client.UpdateDocument("reports", "report_1", patch);
    MergeLookup(doc, patch, "title");
    MergeLookup(doc, patch, "id");
    deleted := client.DeleteDocument("reports", "report_1");
    DeleteReportsPresence([Merge(doc, patch)], "report_1");
    afterDelete := client.ListDocuments("reports", None);
    assert !(Merge(doc, patch) in WithoutId([Merge(doc, patch)], "report_1"));
  }
}

=== FILE: text.dfy ===
/**
 * String helpers with JavaScript semantics: `trim`, `split` on one character,
 * `join`, `includes`, `toLowerCase` (ASCII letters) and the CSV quote doubling
 * `replaceAll('"', '""')`.
 */
module Text {

  /** The characters `String.prototype.trim` removes (ECMA-262 WhiteSpace and LineTerminator). */
  predicate IsJsWhitespace(c: char)
  {
    || c == '\t' || c == '\n' || c == '\U{000B}' || c == '\U{000C}' || c == '\r'
    || c == ' ' || c == '\U{00A0}' || c == '\U{1680}' || ('\U{2000}' <= c <= '\U{200A}')
    || c == '\U{2028}' || c == '\U{2029}' || c == '\U{202F}' || c == '\U{205F}'
    || c == '\U{3000}' || c == '\U{FEFF}'
  }

  /** Every character of `s` is whitespace. */
  predicate AllWhitespace(s: string)
  {
    s == [] || (IsJsWhitespace(s[0]) && AllWhitespace(s[1..]))
  }

  lemma {:induction false} AllWhitespaceAppend(a: string, b: string)
    requires AllWhitespace(a) && AllWhitespace(b)
    ensures AllWhitespace(a + b)
  {
    if a == [] {
      assert a + b == b;
    } else {
      assert (a + b)[1..] == a[1..] + b;
      AllWhitespaceAppend(a[1..], b);
    }
  }

  /** `trimStart`: drops the leading whitespace and nothing else. */
  function TrimStart(s: string): (r: string)
    ensures |r| <= |s| && r == s[|s| - |r|..]
    ensures AllWhitespace(s[..|s| - |r|])
    ensures r == [] || !IsJsWhitespace(r[0])
  {
    if s != [] && IsJsWhitespace(s[0]) then
      var r := TrimStart(s[1..]);
      assert s[..|s| - |r|][1..] == s[1..][..|s[1..]| - |r|];
      r
    else s
  }

  /** `trimEnd`: drops the trailing whitespace and nothing else. */
  function TrimEnd(s: string): (r: string)
    ensures |r| <= |s| && r == s[..|r|]
    ensures AllWhitespace(s[|r|..])
    ensures r == [] || !IsJsWhitespace(r[|r| - 1])
  {
    if s != [] && IsJsWhitespace(s[|s| - 1]) then
      var r := TrimEnd(s[..|s| - 1]);
      assert s[|r|..] == s[..|s| - 1][|r|..] + [s[|s| - 1]];
      AllWhitespaceAppend(s[..|s| - 1][|r|..], [s[|s| - 1]]);
      r
    else s
  }

  /** `trim`: a contiguous slice of `s` with whitespace only around it and none at its ends. */
  function Trim(s: string): (r: string)
    ensures Surrounded(s, |s| - |TrimStart(s)|, r)
    ensures IsTrimmed(r)
  {
    var t := TrimStart(s);
    var r := TrimEnd(t);
    TrimSlice(s, t, r);
    TrimEdges(t, r);
    r
  }

  /** `r` is the slice of `s` at `i`, with only whitespace before and after it. */
  predicate Surrounded(s: string, i: int, r: string)
  {
    0 <= i && i + |r| <= |s| && r == s[i..i + |r|] && AllWhitespace(s[..i]) && AllWhitespace(s[i + |r|..])
  }

  /** Trimming the end of a string that starts with a non-space keeps that start. */
  lemma TrimEdges(t: string, r: string)
    requires t == [] || !IsJsWhitespace(t[0])
    requires |r| <= |t| && r == t[..|r|] && (r == [] || !IsJsWhitespace(r[|r| - 1]))
    ensures IsTrimmed(r)
  {
  }

  /** A prefix of a suffix is a slice, with the whitespace around it on both sides. */
  lemma TrimSlice(s: string, t: string, r: string)
    requires |t| <= |s| && t == s[|s| - |t|..] && AllWhitespace(s[..|s| - |t|])
    requires |r| <= |t| && r == t[..|r|] && AllWhitespace(t[|r|..])
    ensures Surrounded(s, |s| - |t|, r)
  {
    var i := |s| - |t|;
    assert s[i + |r|..] == t[|r|..];
  }

  /** No whitespace at either end. */
  predicate IsTrimmed(s: string)
  {
    s == [] || (!IsJsWhitespace(s[0]) && !IsJsWhitespace(s[|s| - 1]))
  }

  /** Trimming a string that has no whitespace at either end changes nothing. */
  lemma TrimmedFixed(s: string)
    requires IsTrimmed(s)
    ensures TrimStart(s) == s && TrimEnd(s) == s && Trim(s) == s
  {
    assert TrimStart(s) == s;
    assert TrimEnd(s) == s;
  }

  /** Trimming twice is trimming once. */
  lemma TrimIdempotent(s: string)
    ensures Trim(Trim(s)) == Trim(s)
  {
    TrimmedFixed(Trim(s));
  }

  /** ASCII lower-casing of one character. */
  function LowerChar(c: char): char
  {
    if 'A' <= c <= 'Z' then (c as int + 32) as char else c
  }

  /** `toLowerCase`, restricted to the ASCII letters. */
  function ToLower(s: string): (r: string)
    ensures |r| == |s|
    ensures forall i :: 0 <= i < |s| ==> r[i] == LowerChar(s[i])
  {
    seq(|s|, i requires 0 <= i < |s| => LowerChar(s[i]))
  }

  /** `sub` is a prefix of `s`. */
  predicate StartsWith(s: string, sub: string)
  {
    |sub| <= |s| && s[..|sub|] == sub
  }

  /** `s.includes(sub)`: `sub` occurs somewhere in `s`. */
  predicate Contains(s: string, sub: string)
    decreases |s|
  {
    StartsWith(s, sub) || (s != [] && Contains(s[1..], sub))
  }

  /** A single-character needle occurs iff that character is an element. */
  lemma {:induction false} ContainsChar(s: string, c: char)
    ensures Contains(s, [c]) <==> c in s
  {
    if s != [] {
      ContainsChar(s[1..], c);
      assert c in s <==> s[0] == c || c in s[1..];
    }
  }

  /** `parts.join(sep)`. */
  function Join(parts: seq<string>, sep: string): string
  {
    if |parts| == 0 then ""
    else if |parts| == 1 then parts[0]
    else parts[0] + sep + Join(parts[1..], sep)
  }

  /** Index of the first `c` in `s`, or `|s|` when there is none. */
  function IndexOf(s: string, c: char): (i: nat)
    ensures i <= |s|
    ensures c !in s[..i]
    ensures i < |s| ==> s[i] == c
  {
    if s == [] then 0
    else if s[0] == c then 0
    else
      var j := IndexOf(s[1..], c);
      assert s[..j + 1] == [s[0]] + s[1..][..j];
      j + 1
  }

  /**
   * `s.split(sep)` for a one-character separator: the pieces between the
   * separators, so that joining them back with the separator gives `s`.
   */
  function Split(s: string, sep: char): (parts: seq<string>)
    ensures |parts| >= 1
    ensures forall i :: 0 <= i < |parts| ==> sep !in parts[i]
    ensures Join(parts, [sep]) == s
    decreases |s|
  {
    var i := IndexOf(s, sep);
    if i == |s| then
      assert s[..i] == s;
      [s]
    else
      var rest := Split(s[i + 1..], sep);
      assert s == s[..i] + [sep] + s[i + 1..];
      [s[..i]] + rest
  }

  /** Splitting pieces joined with a separator none of them holds gives the pieces back. */
  lemma {:induction false} SplitJoin(parts: seq<string>, sep: char)
    requires |parts| >= 1
    requires forall i :: 0 <= i < |parts| ==> sep !in parts[i]
    ensures Split(Join(parts, [sep]), sep) == parts
    decreases |parts|
  {
    var s := Join(parts, [sep]);
    if |parts| == 1 {
      assert IndexOf(s, sep) == |s|;
      assert s[..|s|] == s;
    } else {
      var first := parts[0];
      var rest := Join(parts[1..], [sep]);
      assert s == first + [sep] + rest;
      assert s[|first|] == sep;
      assert s[..|first|] == first;
      assert IndexOf(s, sep) == |first| by {
        var i := IndexOf(s, sep);
        assert i <= |first|;
        assert forall k :: 0 <= k < |first| ==> s[k] == first[k];
      }
      assert s[|first| + 1..] == rest;
      assert forall i :: 0 <= i < |parts| - 1 ==> parts[1..][i] == parts[i + 1];
      SplitJoin(parts[1..], sep);
      assert [first] + parts[1..] == parts;
    }
  }

  /** The number of pieces is one more than the number of separators. */
  lemma {:induction false} SplitCount(s: string, sep: char)
    ensures |Split(s, sep)| == CountChar(s, sep) + 1
    decreases |s|
  {
    var i := IndexOf(s, sep);
    if i < |s| {
      SplitCount(s[i + 1..], sep);
      SplitAt(s, sep);
      CountCharAt(s, i, sep);
    } else {
      assert s[..i] == s;
      CountCharNone(s, sep);
    }
  }

  /** At its first separator a text splits into the piece before it and the pieces after it. */
  lemma SplitAt(s: string, sep: char)
    requires IndexOf(s, sep) < |s|
    ensures Split(s, sep) == [s[..IndexOf(s, sep)]] + Split(s[IndexOf(s, sep) + 1..], sep)
  {
  }

  /** A text whose first separator is at `i` holds one more separator than the text after `i`. */
  lemma CountCharAt(s: string, i: nat, c: char)
    requires i < |s| && s[i] == c && c !in s[..i]
    ensures CountChar(s, c) == 1 + CountChar(s[i + 1..], c)
  {
    CountCharNone(s[..i], c);
    assert s == s[..i] + ([c] + s[i + 1..]);
    CountCharAppend(s[..i], [c] + s[i + 1..], c);
    assert ([c] + s[i + 1..])[1..] == s[i + 1..];
  }

  function CountChar(s: string, c: char): nat
  {
    if s == [] then 0 else (if s[0] == c then 1 else 0) + CountChar(s[1..], c)
  }

  lemma {:induction false} CountCharNone(s: string, c: char)
    requires c !in s
    ensures CountChar(s, c) == 0
  {
    if s != [] {
      CountCharNone(s[1..], c);
    }
  }

  lemma {:induction false} CountCharAppend(a: string, b: string, c: char)
    ensures CountChar(a + b, c) == CountChar(a, c) + CountChar(b, c)
  {
    if a == [] {
      assert a + b == b;
    } else {
      assert (a + b)[1..] == a[1..] + b;
      CountCharAppend(a[1..], b, c);
    }
  }

  /** `replaceAll('"', '""')`: every double quote doubled, every other character kept. */
  function DoubleQuotes(s: string): (r: string)
    ensures |r| == |s| + CountChar(s, '"')
  {
    if s == [] then ""
    else (if s[0] == '"' then "\"\"" else [s[0]]) + DoubleQuotes(s[1..])
  }

  lemma {:induction false} DoubleQuotesAppend(a: string, b: string)
    ensures DoubleQuotes(a + b) == DoubleQuotes(a) + DoubleQuotes(b)
  {
    if a == [] {
      assert a + b == b;
    } else {
      assert (a + b)[0] == a[0];
      assert (a + b)[1..] == a[1..] + b;
      DoubleQuotesAppend(a[1..], b);
    }
  }

  /** The pieces left after `map(trim)` and `filter(x => x.length > 0)`. */
  function TrimmedNonEmpty(parts: seq<string>): (r: seq<string>)
    ensures |r| <= |parts|
    ensures forall i :: 0 <= i < |r| ==> r[i] != "" && IsTrimmed(r[i])
  {
    if parts == [] then []
    else
      var rest := TrimmedNonEmpty(parts[1..]);
      var t := Trim(parts[0]);
      if t == "" then rest
      else
        [t] + rest
  }
}

=== FILE: wrappers.dfy ===
/** Option and Result, the failure-carrying values of the model. */
module Wrappers {

  /** A value that may be absent (JavaScript `null` where the source returns it). */
  datatype Option<+T> = None | Some(value: T)

  /** Either a value or an error (a thrown exception in the source). */
  datatype Result<+T, +E> = Ok(value: T) | Err(error: E)

  /**
   * `items.map(f)` for a callback that may throw: every image in order, or
   * the error of the first item whose callback threw (the map stops there).
   */
  function MapOk<T, U, E>(items: seq<T>, f: T -> Result<U, E>): (r: Result<seq<U>, E>)
    ensures r.Ok? <==> forall i :: 0 <= i < |items| ==> f(items[i]).Ok?
    ensures r.Ok? ==> |r.value| == |items| && forall i :: 0 <= i < |items| ==> f(items[i]) == Ok(r.value[i])
    ensures r.Err? ==> exists i :: 0 <= i < |items| && f(items[i]) == Err(r.error) && forall j :: 0 <= j < i ==> f(items[j]).Ok?
  {
    if items == [] then Ok([])
    else
      match f(items[0])
      case Err(e) => Err(e)
      case Ok(x) =>
        assert forall j :: 1 <= j < |items| ==> items[j] == items[1..][j - 1];
        match MapOk(items[1..], f)
        case Err(e) => Err(e)
        case Ok(xs) => Ok([x] + xs)
  }

  /** Items already mapped, put ahead of the outcome of mapping the rest. */
  function PrependOk<U, E>(done: seq<U>, r: Result<seq<U>, E>): Result<seq<U>, E>
  {
    if r.Ok? then Ok(done + r.value) else r
  }

  lemma PrependOkTwice<U, E>(a: seq<U>, b: seq<U>, r: Result<seq<U>, E>)
    ensures PrependOk(a, PrependOk(b, r)) == PrependOk(a + b, r)
  {
    if r.Ok? {
      assert a + (b + r.value) == (a + b) + r.value;
    }
  }

  /** Mapping the items from `j` on: item `j`'s callback throws, or its image leads the images of the rest. */
  lemma MapOkStep<T, U, E>(items: seq<T>, f: T -> Result<U, E>, j: nat)
    requires j < |items|
    ensures MapOk(items[j..], f) ==
      if f(items[j]).Err? then Err(f(items[j]).error) else PrependOk([f(items[j]).value], MapOk(items[j + 1..], f))
  {
    assert items[j..][0] == items[j];
    assert items[j..][1..] == items[j + 1..];
  }
}
